=== FILE: README.md ===
# EURING record codec, modelled in Dafny

EURING is the exchange code for bird-ringing records. A record is either
a fixed-width EURING2000 line of 94 characters in 33 fields, or a
pipe-delimited EURING2000+ (60 fields) or EURING2020 (64 fields) line.
This project models the codec of the `euring` Python package:

- the leaf helpers: ring-number display and export padding, scheme and
  species export, and format-name normalisation;
- the per-field parsers and code checks;
- the coordinate codec, which converts decimal degrees to and from
  sign + DD(D) + MM + SS;
- the two field-schema generations, kept apart as in the source;
- the record rules, including the test for whether a record needs EURING2020;
- raw record splitting with its structural errors;
- the record decoder, which collects every field error and promotes
  EURING2000+ to EURING2020;
- the record object and the record builder, which write fixed-width or
  piped text.

There is one module per source file: `Utils`, `Formats`, `Coordinates`,
`Codes`, `FieldSchema`, `FieldModel`, `Parsing`, `Rules`, `Decode`,
`Decoders`, `Record` and `Builder`. Three modules hold shared helpers:

- `Serialize` holds the `_fields_for_format`, `_fixed_width_fields` and
  `_format_fixed_width` helpers that record.py and builder.py each define
  identically, together with the checks before writing.
- `Fields` holds the field table's invariants.
- `Builtins`, `Values`, `Exceptions` and `Wrappers` hold the Python builtins
  used (ASCII only), Python values, the exception kinds and Option/Result.

Each form follows the source's. Pure code becomes functions and lemmas. The
loops of the identification export, the rule engine, the raw splitting, the
decoder, the fixed-width writer and the value checks become methods with
loop invariants. Each method is proved equal to a specification function,
and the lemmas state what the source promises about that function.
`_EuringDecoder`, `EuringRecord` and `EuringRecordBuilder` become classes
whose methods update their fields under `modifies` clauses.

The canonical field table (`EURING_FIELDS`, in fields.py) and the type
predicates (`is_valid_type`, `is_valid_euring_type`, in types.py) are not
part of this model. Every member that needs the table takes it as a
parameter, and `Fields.ValidTable` states what the codec relies on:

- there are 64 entries;
- EURING2000+ is the first 60 and EURING2000 the first 33;
- the 33 widths sum to 94;
- the keys are distinct;
- the keys the rules name sit at their positions.

The type predicates are function-valued parameters.

Where the code and its documentation differ, the model follows the code:

- The decoder's type check precedes its length checks.
- A zero `min_length` makes a field optional whatever `required` says.
- Lookups in `lookup_ringing_scheme` use `re.match` with a `$` anchor, so a
  final newline is accepted.

record.py imports `EuringDecoder` from decoders.py, which only defines
`_EuringDecoder`. The model reads that import as the decoder class.

Some imported names are not defined in the modelled files. The model reads them as follows:

- `EuringParseException` (record.py:4, builder.py:4, decoders.py:4,
  field_model.py:8) is read as the base of every EURING error: an `except`
  on it catches every EURING exception (`Exceptions.IsEuring`).
- `is_alpha` (decode.py:16) is read as `str.isalpha()` on ASCII letters
  (`Builtins.IsAlphaString`).
- `euring_value_from_list(values, "accuracy_of_coordinates")` (decode.py:7)
  is read as the 26th value, or "" when there are 25 values or fewer
  (`Decode.AccuracyToken`).
- `format_display_name` (decoders.py:10-12) is read as the `FORMAT_CANON_*`
  display name of a format (`Formats.Format.DisplayName`).
- `unknown_format_error` (decoders.py:10-12) and
  `unknown_format_error_message` (decode.py:14) are read as
  `normalize_format`'s "Unknown format" message (`Formats.UnknownFormatMessage`).

The decoder class (`DecodeRecord`, `Decode`, `GetResults`), and `Record`
and `Builder` through it, use the corrected error location of Findings
row 2. `Decoders.DecodeAsWrittenUnlocated` shows that the code as written
differs from them only in the locations of field errors.

## Model

| member | source | states |
|---|---|---|
| Utils.EmptyIsNarrowerThanFalsy | src/euring/utils.py:12-14 | only None and "" are empty; 0 and False are falsy but not empty, and every empty value is falsy |
| Utils.AllHyphensExamples | src/euring/utils.py:17-19 | "-" and "---" are all hyphens; "" and "-1" are not |
| Utils.DisplayFormat | src/euring/utils.py:22-32 | the result holds only A-Z and 0-9 and is no longer than the input; a number already made of those is unchanged |
| Utils.DisplayFormatChar | src/euring/utils.py:29-32 | one character is upper-cased, then kept when it is A-Z or 0-9 and removed otherwise; with `DisplayFormatConcat` this fixes the result for every number |
| Utils.DisplayFormatIdempotent | src/euring/utils.py:22-32 | formatting an already formatted number changes nothing |
| Utils.DisplayFormatConcat | src/euring/utils.py:22-32 | display formatting distributes over concatenation |
| Utils.DisplayFormatExample | src/euring/utils.py:22-32 | "ab.12-3" displays as "AB123" |
| Utils.IdentificationExport | src/euring/utils.py:35-71 | the export is always 10 characters: unchanged at 10, truncated above 10; below 10, removing its dots gives the display text back, and the dots stand right before the last digit run, or in front when there is no digit |
| Utils.IdentificationExportFormat | src/euring/utils.py:35-71 | the method with the reversed-text loop computes exactly the export function |
| Utils.InsertDots | src/euring/utils.py:56-71 | the scan with the `digit_seen`/`done` flags puts the dots before the last run of digits, or in front when the text has no digit |
| Utils.ExportExample | src/euring/utils.py:35-71 | "AB123" exports as "AB.....123" |
| Utils.SchemeExport | src/euring/utils.py:74-82 | always 3 characters: the upper-cased code, truncated to 3 and left-padded with spaces |
| Utils.SchemeExportExamples | src/euring/utils.py:74-82 | "GB" gives " GB", and "ABCDE" gives "ABC" |
| Utils.SpeciesExport | src/euring/utils.py:85-105 | a falsy code gives "00000"; a code `int()` refuses, or one longer than 5 characters, raises ValueError; otherwise the result is the code's text zero-filled to 5 characters, with the zeros after a leading sign, and it still reads as the same integer |
| Utils.SpeciesExportExamples | src/euring/utils.py:85-105 | "123" gives "00123", "12345" stays, "123456" and "not-a-number" raise |
| Formats.NormalizeFormat | src/euring/formats.py:10-17 | the result is one of the three formats, chosen by the name with every `str.isspace()` character stripped from both ends and then lower-cased; any other name raises ValueError "Unknown format" |
| Formats.NormalizeIdempotent | src/euring/formats.py:12-14 | the name of every normalised format normalises to that format |
| Formats.NormalizeIgnoresCase | src/euring/formats.py:12 | upper- and lower-case spellings normalise alike |
| Formats.SameRawSameFormat | src/euring/formats.py:12-17 | two names with the same stripped, lower-cased text have the same outcome |
| Formats.NormalizeIgnoresWhitespace | src/euring/formats.py:12 | surrounding whitespace does not change the outcome |
| Formats.NormalizeSeparatorsExample | src/euring/formats.py:12 | an information separator (U+001C) and a tab before "EURING2020" and an ideographic space after it are stripped, giving EURING2020 |
| Coordinates.DegreesMinutesSeconds | src/euring/coordinates.py:55-66 | after the carries minutes and seconds lie in 0..59, the degrees are negative exactly when the truncated value is, and the triple is within half a second of arc of the value |
| Coordinates.Carry | src/euring/coordinates.py:60-66 | after the carry minutes and seconds lie in 0..59, the degrees keep their sign and do not move toward zero, and the angle is unchanged |
| Coordinates.ComponentsAsWritten | src/euring/coordinates.py:53-67 | the components as written: the quadrant is "-" exactly when the truncated degrees are negative, so values in (-1, 0) get "+" |
| Coordinates.DecimalToComponents | src/euring/coordinates.py:53-67 | the corrected components: the quadrant is "-" exactly when the value is negative, minutes and seconds lie in 0..59, and the angle is within half a second of arc of the value |
| Coordinates.DecimalToCoordinate | src/euring/coordinates.py:32-50 | corrected (Findings row 1): the text has at least 1 + width + 4 characters and starts with "-" exactly when the value is negative |
| Coordinates.DecimalToCoordinateAsWritten | src/euring/coordinates.py:32-67 | as written: the text has at least 1 + width + 4 characters and starts with "-" only when the value is -1 or below |
| Coordinates.EncodingsDifferBetweenMinusOneAndZero | src/euring/coordinates.py:32-67 | the as-written and corrected texts have the same length, and differ exactly for values strictly between -1 and 0, where the as-written text starts with "+" |
| Coordinates.LatLngToCoordinates | src/euring/coordinates.py:4-6 | corrected (Findings row 1): the latitude text then the longitude text, each starting with "-" exactly when its value is negative |
| Coordinates.LatLngEncodingsDiffer | src/euring/coordinates.py:4-6 | as written, a position gets the corrected field text exactly when neither co-ordinate lies strictly between -1 and 0 |
| Coordinates.LatLngEncodeLosesSignAsWritten | src/euring/coordinates.py:4-6 | as written, the position (-0.5, 0) is written "+003000+0000000"; the corrected text starts with "-" |
| Coordinates.CoordinateToDecimalAsWritten | src/euring/coordinates.py:16-29 | decoding as written: unparsable text raises the constraint error "Could not parse coordinate" |
| Coordinates.CoordinateToDecimal | src/euring/coordinates.py:16-29 | the corrected decode fails only with the same constraint error |
| Coordinates.DecodeDiffersOnlyOnMinusZero | src/euring/coordinates.py:16-29 | the corrected and as-written decodes agree except on degree text that reads as zero with a minus sign |
| Coordinates.CoordinatesToLatLng | src/euring/coordinates.py:9-13 | corrected (Findings row 1): the first seven characters decode as the latitude and the rest as the longitude, and a failure of either raises |
| Coordinates.LatLngDecodesDiffer | src/euring/coordinates.py:9-29 | as written, the field decode fails on the same texts as the corrected one, and differs from it only where the latitude's or the longitude's degrees are a minus-signed zero |
| Coordinates.LatLngDecodeLosesSignAsWritten | src/euring/coordinates.py:9-29 | as written, "-003000+0000000" decodes to (+0.5, 0); the corrected decode gives (-0.5, 0) |
| Coordinates.ValidateComponent | src/euring/coordinates.py:80-96 | a component passes exactly when it has length 1 + degree digits + 4, starts with + or -, is all digits after that, and has degrees at most the maximum and minutes and seconds at most 59 |
| Coordinates.ValidateCoordinates | src/euring/coordinates.py:70-77 | the field passes exactly when it has 15 characters, the first 7 a valid latitude (2 digits, max 90) and the last 8 a valid longitude (3 digits, max 180) |
| Coordinates.DecodeComponent | src/euring/coordinates.py:16-29 | a sign and digit groups decode to abs(degrees) + minutes/60 + seconds/3600; the corrected decode keeps the sign of the text, while as written the sign is dropped when the degrees are zero |
| Coordinates.DecodeEncodeWithinHalfSecond | src/euring/coordinates.py:16-67 | the encoding of any value decodes, and gives the value back to within half a second of arc (1/7200 degree) |
| Coordinates.EncodedComponentValid | src/euring/coordinates.py:32-96 | an encoded value no further from zero than the maximum degrees validates, rounding carries included |
| Coordinates.EncodedCoordinatesValid | src/euring/coordinates.py:4-6 | the combined encoding of an in-range position validates as a coordinates field |
| Coordinates.EncodeDecodeIdentity | src/euring/coordinates.py:16-96 | every valid component text other than a negative zero re-encodes to itself after decoding |
| Coordinates.ReEncode | src/euring/coordinates.py:32-67 | the value of a component text, non-zero when negative, encodes back to exactly that text |
| Coordinates.ExactComponents | src/euring/coordinates.py:53-67 | a value made of whole degrees, minutes and seconds encodes with neither rounding nor carry |
| Coordinates.EncodeLosesSignAsWritten | src/euring/coordinates.py:53-67 | as written, -0.5 encodes as "+003000", which decodes to +0.5 |
| Coordinates.DecodeLosesSignAsWritten | src/euring/coordinates.py:16-29 | as written, "-003000" decodes to +0.5 |
| Codes.LookupDescription | src/euring/codes.py:71-81 | no lookup gives None; a table gives the entry of a text code and raises a lookup error for any other value; a callable is applied and what it raises is passed on |
| Codes.DescribeWith | src/euring/codes.py:71-81 | no lookup describes nothing, a callable lookup gets the value itself, and only a table needs the value's text |
| Codes.CallableDescribesCoordinates | src/euring/codes.py:71-81 | a callable lookup describes a coordinates dictionary by its own result or error |
| Codes.LookupRingNumber | src/euring/codes.py:83-109 | text without a dot is returned unchanged; text with well-placed dots loses every dot; a dot anywhere else raises |
| Codes.RingNumberRoundTrip | src/euring/codes.py:83-109 | the export of any display text of under 10 characters reads back as that text |
| Codes.ExportedDotsWellPlaced | src/euring/codes.py:92-107 | the dots the export inserts stand where the ring-number check accepts them |
| Codes.ParseDirection | src/euring/codes.py:207-222 | all hyphens give None; a leading "-", a non-integer or a value outside 0..359 raises; otherwise the integer |
| Codes.DirectionRoundTrip | src/euring/codes.py:207-222 | every direction 0..359 written as three digits reads back as itself |
| Codes.ParsePlaceCode | src/euring/codes.py:68 | the value is returned unchanged when it matches the place-code pattern, and raises otherwise |
| Codes.PlaceCodeAccepted | src/euring/codes.py:225-230 | a four-character value passes exactly when it is two capitals followed by two capitals, two digits or "--"; anything accepted is that shape, optionally followed by one newline |
| Codes.ParseOldGreaterCoverts | src/euring/codes.py:248-252 | accepts exactly one of "0".."9" and "A", returned unchanged |
| Codes.OldGreaterCovertsCodes | src/euring/codes.py:248-252 | the accepted codes are exactly the 11 one-character codes |
| Codes.ParseDecimalCoordinate | src/euring/codes.py:233-245 | text `float()` refuses, a value beyond the maximum in either direction, or more decimals than allowed raises; otherwise the value |
| Codes.ParseLatitude | src/euring/codes.py:197-199 | a latitude is within 90 degrees either way, with at most 4 decimals |
| Codes.ParseLongitude | src/euring/codes.py:202-204 | a longitude is within 180 degrees either way, with at most 4 decimals |
| Codes.WholeDegreesAccepted | src/euring/codes.py:233-245 | whole degrees within the range are accepted as they are |
| Codes.FifthDecimalRefused | src/euring/codes.py:233-245 | a fifth decimal place is refused whatever the value |
| Codes.LookupDate | src/euring/codes.py:278-289 | digit strings shorter than 8 are zero-filled, then read as ddmmyyyy; a non-calendar date raises |
| Codes.DateRoundTrip | src/euring/codes.py:278-289 | every calendar date written as ddmmyyyy reads back as itself |
| Codes.ImpossibleDayOrMonthRefused | src/euring/codes.py:278-289 | a day above 31 or a month above 12, such as "32132024", is refused |
| Codes.DateIgnoresTail | src/euring/codes.py:278-289 | characters after the eighth are never read |
| Codes.ParseDate | src/euring/codes.py:292-296 | an all-hyphen value raises; anything else is returned unchanged |
| Codes.ParseGeographicalCoordinates | src/euring/codes.py:176-187 | corrected (Findings row 1): None raises; 15 dots give None; any other text is accepted exactly when it validates, and then gives the signed latitude and longitude its components stand for |
| Codes.ParseGeographicalCoordinatesAsWritten | src/euring/codes.py:176-187 | as written: accepts and refuses the same values, but a component whose degrees are zero loses its minus sign |
| Codes.DecodeValidCoordinates | src/euring/codes.py:176-187 | a value that validates always decodes: corrected, to the signed latitude and longitude it stands for; as written, without the sign of zero degrees |
| Codes.LookupSpecies | src/euring/codes.py:141-158 | a code with a description in the table is found; otherwise a code that is not 5 characters `int()` reads raises a constraint error, and a well-formed one a lookup error |
| Codes.LookupRingingScheme | src/euring/codes.py:299-316 | the upper-cased code is found in the table, or, if it is three capitals, accepted as an unknown scheme; anything else raises a lookup error |
| Codes.ThreeLettersAccepted | src/euring/codes.py:67 | any three letters in either case pass the shape check, because the code is upper-cased first |
| FieldSchema.ValidateLength | src/euring/field_schema.py:74-83 | passes exactly when the length is accepted: up to the field length for a variable-length field not checked strictly, else exactly it; a failure is a constraint error |
| FieldSchema.IgnoringVariableLengthIsStricter | src/euring/field_schema.py:74-83 | the strict check accepts less, the declared length always passes, and fixed fields are checked alike either way |
| FieldSchema.ValidateRaw | src/euring/field_schema.py:85-93 | "" is None for an optional field and a constraint error for a required one; other text passes exactly when its length and then its type pass, each failure with its own error |
| FieldSchema.CoerceType | src/euring/field_schema.py:95-106 | an all-hyphen Integer is None, never 0; an Integer is `int()`, a Numeric is `float()`, and other types stay text |
| FieldSchema.CoerceDate | src/euring/field_schema.py:120-129 | a date value needs exactly 8 digits forming a calendar ddmmyyyy date, and raises otherwise |
| FieldSchema.CoerceValueType | src/euring/field_schema.py:108-130 | the value type decides the coercion: none uses the EURING type, code_str keeps text, int (all hyphens are None), float, date, and any other raises |
| FieldSchema.BaseParse | src/euring/field_schema.py:132-137 | "" is None exactly for an optional field; other text is validated before it is coerced |
| FieldSchema.FormattedParse | src/euring/field_schema.py:263-274 | the parser only sees non-empty text that passed validation |
| FieldSchema.Parse | src/euring/field_schema.py:132-137 | each class parses as it defines: the formatted class through its parser, the others through the base parse |
| FieldSchema.CoordinatesEncoding | src/euring/field_schema.py:139-172 | corrected (Findings row 1): a pair or a lat/lng dictionary in the coordinates field is written with the coordinate codec; a dictionary missing either raises |
| FieldSchema.Encode | src/euring/field_schema.py:139-172 | an empty value is "" for an optional field and raises for a required one; a date is written ddmmyyyy; coordinates use the corrected codec of Findings row 1; any other value is written as its text with a Numeric's trailing zeros and point removed and a fixed-length number zero-filled, and is accepted exactly when that text passes the length and type checks |
| FieldSchema.EncodedTextOfFixedField | src/euring/field_schema.py:160-167 | on a field of fixed length, `encode` writes the same text as `encode_for_format` in every format |
| FieldSchema.EncodeIntegerRoundTrip | src/euring/field_schema.py:139-172 | an integer that `encode` writes into an Integer field parses back to the same integer |
| FieldSchema.EmptyEncoding | src/euring/field_schema.py:176-183 | the empty value, first rule that holds: `empty_value`; hyphens of the length in EURING2000; hyphens for a required Integer; otherwise "" |
| FieldSchema.EncodeText | src/euring/field_schema.py:205-221 | a generic result passes the length check (exact in EURING2000) and the type check, and raises exactly when the zero-filled, trimmed text does not |
| FieldSchema.EncodeForFormat | src/euring/field_schema.py:174-221 | empty values and all-hyphen Integers take the empty encoding, a date its ddmmyyyy text, coordinates the corrected codec of Findings row 1, everything else the generic path |
| FieldSchema.EncodeForFormatExtendsEncode | src/euring/field_schema.py:139-221 | for a fixed-length field and a non-empty value, the format-aware encoding agrees with the plain one wherever that succeeds, except on an all-hyphen Integer text |
| FieldSchema.HyphensEncodeAsEmpty | src/euring/field_schema.py:203-204 | an all-hyphen text in an Integer field encodes exactly as an empty value |
| FieldSchema.IntegerRoundTrip | src/euring/field_schema.py:95-221 | an integer written into an Integer field parses back to the same integer |
| FieldSchema.DateRoundTrip | src/euring/field_schema.py:120-172 | a calendar date written into the date field is its ddmmyyyy text and parses back to the same date |
| FieldSchema.CoerceField | src/euring/field_schema.py:284-332 | a field object is kept; a mapping with a parser makes a formatted field, one with only a lookup a lookup field, one with neither a base field |
| FieldSchema.Mapping | src/euring/field_schema.py:45-60 | the mapping exposes key, name, required and length, and omits the unset entries |
| FieldSchema.CoerceMappingRoundTrip | src/euring/field_schema.py:45-60 | rebuilding a field from its own mapping gives back the same field |
| FieldSchema.Describe | src/euring/field_schema.py:223-282 | only a lookup field, or a formatted field with a lookup, describes a value that is not None; a callable or absent lookup takes any value, and only a table needs its text |
| FieldModel.ZeroMinimumIsOptional | src/euring/field_model.py:55-58 | a zero `min_length` makes a field optional whatever `required` says; otherwise `required` decides |
| FieldModel.ValidateLength | src/euring/field_model.py:60-67 | passes exactly when every set bound holds; the exact length is checked first, then the minimum, then the maximum, each failing with a parse error |
| FieldModel.CheckText | src/euring/field_model.py:69-78 | non-empty text passes exactly when its length and then its type pass |
| FieldModel.BaseParse | src/euring/field_model.py:69-78 | "" is None exactly for an optional field; other text is returned unchanged once it passes its checks |
| FieldModel.FormattedParse | src/euring/field_model.py:132-138 | the parser runs only after base validation succeeds, and never on None |
| FieldModel.Parse | src/euring/field_model.py:69-138 | each class parses as it defines |
| FieldModel.Encode | src/euring/field_model.py:80-90 | None or "" gives "" for an optional field and raises for a required one; any other value gives its text once that passes the checks |
| FieldModel.ParseEncodeRoundTrip | src/euring/field_model.py:69-90 | non-empty text a parser-less field accepts encodes back to exactly itself |
| FieldModel.EncodeParseRoundTrip | src/euring/field_model.py:69-90 | whatever a field encodes parses back to the text of the value |
| FieldModel.Describe | src/euring/field_model.py:92-146 | only a lookup field, or a formatted field with a lookup, describes a value that is not None; a callable or absent lookup takes any value, and only a table needs its text |
| FieldModel.CoerceField | src/euring/field_model.py:148-192 | a parser makes a formatted field, a lookup alone a lookup field, and neither a base field |
| FieldModel.Mapping | src/euring/field_model.py:31-44 | the mapping exposes the type under "type", the three lengths, and omits the unset entries |
| FieldModel.CoerceMappingRoundTrip | src/euring/field_model.py:31-192 | rebuilding a field from its own mapping gives back the same field |
| Parsing.DecodeValue | src/euring/parsing.py:7-37 | None exactly when the field parse is None; otherwise "value" is the raw text, "parsed_value" is present exactly when there is a parser and is then the field's parse, and "description" is the field's `describe` of that parse; a parse or describe error is the result |
| Parsing.EmptyValueDecoding | src/euring/parsing.py:29-32 | "" gives None for an optional field and raises for a required one whose `min_length` is not 0 |
| Parsing.NonEmptyWithoutParser | src/euring/parsing.py:33-35 | without a parser, accepted non-empty text is kept as it is and has no parsed value |
| Fields.IndexOfKey | src/euring/decoders.py:287-291 | the first index holding the key, or none exactly when no entry has it |
| Rules.FieldNameForKey | src/euring/rules.py:9-11 | the field's name for a known key, and the key itself for an unknown one |
| Rules.AccuracyIsAlpha | src/euring/rules.py:14-17 | true exactly when the accuracy value is non-empty and all letters |
| Rules.MatchesEuring2000 | src/euring/rules.py:20-25 | true exactly when no field after the first 33 has a value |
| Rules.RequiresEuring2000Plus | src/euring/rules.py:28-30 | true exactly when some field after the first 33 has a value: the negation of the EURING2000 test |
| Rules.RequiresEuring2020 | src/euring/rules.py:33-40 | true exactly when the accuracy is alphabetic or one of the four EURING2020-only fields has a value |
| Rules.Euring2020OnlyValueNeedsPlus | src/euring/rules.py:28-40 | a value that needs EURING2020, other than the accuracy, also needs more than EURING2000 |
| Rules.RecordRuleErrors | src/euring/rules.py:43-107 | the method's loops collect exactly the rule errors of the format, in order |
| Rules.AppendCoordinateErrors | src/euring/rules.py:54-76 | the three EURING2020 checks append the coordinates error, then the missing longitude, then the missing latitude, each only when its condition holds |
| Rules.KeyErrorsExact | src/euring/rules.py:85-106 | the errors of a key loop are exactly the keys with a value, in order, each with that value |
| Rules.KeyErrorsCount | src/euring/rules.py:85-106 | with distinct keys there is one error per key that has a value |
| Rules.Euring2020NoAccuracyError | src/euring/rules.py:54-76 | in EURING2020 the rule errors are about the coordinates only, never the accuracy |
| Rules.AlphabeticAccuracyOutside2020 | src/euring/rules.py:77-84 | outside EURING2020 an alphabetic accuracy is the first error, and the only one about the accuracy |
| Rules.OneCoordinateMissing | src/euring/rules.py:66-76 | in EURING2020 a latitude without a longitude, or the reverse, gives exactly one error, on the missing key |
| Rules.CoordinatesMustBeDots | src/euring/rules.py:54-65 | in EURING2020, once latitude or longitude is set, non-empty coordinates other than 15 dots give an error on the coordinates |
| Rules.Euring2000ErrorPerKey | src/euring/rules.py:85-95 | EURING2000 gives one error per non-empty field after the first 33, carrying the stored value |
| Rules.Euring2000PlusErrorPerKey | src/euring/rules.py:96-106 | EURING2000+ gives one error per non-empty EURING2020-only field, carrying the stored value |
| Rules.ErrorValuesAreStored | src/euring/rules.py:47-52 | every error carries the value stored for its key, or "" when there is none |
| Decode.DetectFormat | src/euring/decode.py:19-30 | no pipe is EURING2000; more values than 60, or an alphabetic accuracy, is EURING2020; anything else is EURING2000+ |
| Decode.DetectFormatExamples | src/euring/decode.py:19-30 | "" is EURING2000, 33 and 60 empty values EURING2000+, and 64 EURING2020 |
| Decode.DetectEmptyValues | src/euring/decode.py:19-30 | text of n pipes and nothing else (n + 1 empty values) is EURING2000 when n is 0, EURING2020 when there are more than 60 values, and EURING2000+ otherwise |
| Decode.FixedWidthValues | src/euring/decode.py:56-67 | the slices are consecutive field widths, clamped to the record, taken while the start is inside it |
| Decode.Euring2000RecordToValues | src/euring/decode.py:56-67 | the slicing loop computes exactly those slices |
| Decode.FixedWidthValuesCover | src/euring/decode.py:56-67 | the slices laid end to end are the record, cut at the 94 characters of the layout |
| Decode.FixedWidthRoundTrip | src/euring/decode.py:56-67 | values of exactly their widths, joined, slice back into the same values |
| Decode.RecordToValues | src/euring/decode.py:47-53 | pipe formats split on "\|", giving one more value than there are pipes; EURING2000 is sliced |
| Decode.ValuesToDict | src/euring/decode.py:39-44 | the i-th value goes under the i-th key; more values than keys raises IndexError |
| Decode.ValuesDictContents | src/euring/decode.py:39-44 | with distinct keys the dictionary holds exactly the first keys, each with its value |
| Decode.ValuesDictRoundTrip | src/euring/decode.py:39-44 | values to dictionary and back give the values again |
| Decode.DictValuesRoundTrip | src/euring/decode.py:39-44 | a dictionary over the first keys, to values and back, gives the dictionary again |
| Decode.RecordToDict | src/euring/decode.py:33-36 | the dictionary of the record's values, or the IndexError of too many values |
| Decode.Euring2000AlwaysMaps | src/euring/decode.py:33-67 | a EURING2000 record never has more values than keys, so it always maps |
| Decode.PipedRoundTrip | src/euring/decode.py:33-53 | 1 to 64 values without a pipe, joined with "\|", map to their dictionary in EURING2000+ and EURING2020 alike, and that dictionary gives the values back |
| Decode.Euring2000RoundTrip | src/euring/decode.py:33-67 | 33 values of exactly their widths, joined, map back to themselves |
| Decode.NormalizeDecodeFormat | src/euring/decode.py:70-77 | no format is None; a known name is its format; an unknown one is a constraint error |
| Decode.DecodeRawRecord | src/euring/decode.py:80-129 | a record that is not text or is empty is a fatal error with no values; otherwise the named or detected format, every structural error, and the values |
| Decode.CheckStructure | src/euring/decode.py:108-126 | every failed structural check of the format is reported, in order |
| Decode.CleanDecodeIsWellFormed | src/euring/decode.py:108-126 | a decode with no errors had text in its format's structure: 94 characters without a pipe for EURING2000, a pipe otherwise |
| Decode.FatalDecode | src/euring/decode.py:86-106 | a record that cannot be decoded yields no values and its error first; the switch to the default is reported exactly when no format was named |
| Decode.DetectedFormatIsUsed | src/euring/decode.py:90-98 | without a named format, a decodable record is decoded in the detected format |
| Decode.BothStructuralErrors | src/euring/decode.py:108-126 | a EURING2000 record with a pipe and the wrong length reports both |
| Decoders.DecodeValue | src/euring/decoders.py:18-58 | "" is None when the field is optional (a zero minimum makes it so) and raises when required; the type check comes before the exact, minimum and maximum length checks; on success "value" is the input, "parsed_value" is the parser's result, and "description" is `lookup_description` of the parsed value, or of the text without a parser; a parser or lookup error is the result |
| Decoders.TableLookupDecides | src/euring/decoders.py:50-58 | text that passes every check of a field with a table and no parser decodes exactly when its code is in the table |
| Decoders.DecodeErrorsOrigin | src/euring/decoders.py:18-58 | a failure is a EURING error of the decoder's own, or what the parser or the lookup raised |
| Decoders.ErrorLocation | src/euring/decoders.py:128-132 | an error is located exactly when it has an index and the format is EURING2000, and its span is the recorded position, if any |
| Decoders.Slices | src/euring/decoders.py:209-226 | one slice per field, each its width, clamped to the text |
| Decoders.FixedWidthFields | src/euring/decoders.py:200-230 | the fixed-width values are the 33 slices |
| Decoders.SliceAt | src/euring/decoders.py:222-226 | the k-th slice is the text between the k-th field's start and the next one's |
| Decoders.PositionsAt | src/euring/decoders.py:224 | exactly the sliced indices have a position, the 1-based start of the field, with its width |
| Decoders.ValuesByKey | src/euring/decoders.py:307-309 | the raw text of every decoded key, and "" for a key decoded to None |
| Decoders.Promote | src/euring/decoders.py:242-248 | piped data moves from EURING2000+ to EURING2020 exactly when no format was declared and the values need EURING2020; EURING2000 never moves |
| Decoders.RuleFieldErrorsAt | src/euring/decoders.py:249-255 | one field error per rule error, in order: the `i`-th carries the `i`-th rule error's key, message and value, with the field's name and index for that key |
| Decoders.EuringDecoder.constructor | src/euring/decoders.py:97-105 | a fresh decoder of one record, with no results, no record format and empty state |
| Decoders.EuringDecoder.AddRecordError | src/euring/decoders.py:107-109 | appends the message to the record errors |
| Decoders.EuringDecoder.AddFieldError | src/euring/decoders.py:111-133 | appends one field error, located against the format that was checked |
| Decoders.EuringDecoder.AddFieldErrorAsWritten | src/euring/decoders.py:111-133 | as written, the error is located against the record format, which is None while decoding |
| Decoders.EuringDecoder.ParseField | src/euring/decoders.py:135-176 | one field, as the parse-step function: a missing index errors only when required, a repeated name errors, a EURING failure becomes a field error with value, key and index; otherwise the value is stored by name and by key |
| Decoders.EuringDecoder.SliceFixedWidth | src/euring/decoders.py:206-229 | the slicing loop gives the 33 slices and records each field's 1-based position and width |
| Decoders.EuringDecoder.AddFieldErrorForKey | src/euring/decoders.py:285-301 | the key's index is looked up, and the stored value is taken when none is given |
| Decoders.EuringDecoder.BuildFields | src/euring/decoders.py:269-283 | the loop computes exactly the built fields |
| Decoders.EuringDecoder.ParseAll | src/euring/decoders.py:239-240 | the field loop is the parse steps of every entry, in order |
| Decoders.EuringDecoder.AddRuleErrors | src/euring/decoders.py:249-255 | the rule errors are appended as field errors, in order |
| Decoders.EuringDecoder.DecodeRecord | src/euring/decoders.py:192-261 | corrected (Findings row 2): `_decode` leaves exactly the state and fields of the decode function, whose field errors are located against the format being decoded |
| Decoders.EuringDecoder.Layout | src/euring/decoders.py:200-236 | a declared format that conflicts with the layout is reported; the values are the slices or the pieces between pipes |
| Decoders.EuringDecoder.Conclude | src/euring/decoders.py:241-261 | promotion, the rule errors of the final format, the fields and the record format |
| Decoders.EuringDecoder.Decode | src/euring/decoders.py:178-190 | resets the state, decodes, and fills in the results |
| Decoders.EuringDecoder.GetResults | src/euring/decoders.py:263-267 | decodes on the first call only; later calls return the same results and change nothing |
| Decoders.NormalizeFormatOption | src/euring/decoders.py:312-319 | no format is None; a known name is its format; an unknown one raises a parse error |
| Decoders.ParseFieldsFailurePersists | src/euring/decoders.py:239-240 | once a step raises, every later step raises the same error |
| Decoders.StepAppends | src/euring/decoders.py:135-176 | a step appends at most one field error, about its own index and located against the format checked |
| Decoders.ParseFieldsAppends | src/euring/decoders.py:239-240 | later steps keep the record errors and only append field errors, each about an index among those steps and located against the format checked |
| Decoders.MissingRequiredReported | src/euring/decoders.py:138-149 | a required field with no value is reported as missing, at its index |
| Decoders.MissingOptionalSilent | src/euring/decoders.py:138-149 | an optional field with no value gives no error |
| Decoders.EuringFailureRecorded | src/euring/decoders.py:159-169 | a value whose decode raises a EURING error is reported with the message, raw value, key and index |
| Decoders.DuplicateNameReported | src/euring/decoders.py:150-158 | a second field under a decoded name is reported and leaves the decoded values alone |
| Decoders.ParseFieldsNeverStops | src/euring/decoders.py:135-169 | when every hook raises only EURING errors, no field stops the loop |
| Decoders.RuleErrorsLocated | src/euring/decoders.py:249-255 | the rule errors are located against the format they were checked for |
| Decoders.DecodeLocationsAgree | src/euring/decoders.py:192-261 | corrected (Findings row 2): every field error of a decode carries the location its index has against the final format |
| Decoders.DecodeErrorsLocated | src/euring/decoders.py:129-132 | corrected (Findings row 2): field errors carry a position exactly when they have an index and the final format is EURING2000 |
| Decoders.FixedWidthErrorPositions | src/euring/decoders.py:224 | in fixed-width text, an error about one of the 33 fields carries that field's 1-based start and its width |
| Decoders.DecodedFormat | src/euring/decoders.py:230-261 | fixed-width text decodes as EURING2000; piped text as the declared format, else EURING2020 when it needs it, else EURING2000+ |
| Decoders.BuiltFieldsShape | src/euring/decoders.py:269-283 | only decoded keys, in canonical order, each with its index as its order and its raw text, and every decoded key |
| Decoders.DecodeAsWrittenUnlocated | src/euring/decoders.py:104-261 | as written, a decode fails exactly when the corrected one does, with the same error; otherwise it has the same format, record errors, values, positions and fields, and the same field errors, none of them located |
| Decoders.ParseFieldsIgnoresLocation | src/euring/decoders.py:192-252 | the field loop does the same, and fails with the same error, whatever format errors are located against; only the locations of its field errors differ |
| Decoders.StepIgnoresLocation | src/euring/decoders.py:134-176 | one `parse_field` does the same whatever format its errors are located against |
| Decoders.AsWrittenLocationLost | src/euring/decoders.py:129-132 | as written, with no record format yet, an error is never located even where the corrected code locates it |
| Serialize.LayoutEntries | src/euring/record.py:144-156 | the layout is a run of the table's entries, each with its width as its exact length |
| Serialize.FixedWidthFieldsOf | src/euring/record.py:144-156 | the loop computes the fixed-width layout: entries taken until 94 characters or a field with no width |
| Serialize.LayoutFrom | src/euring/record.py:144-156 | for the canonical table the layout is exactly the first 33 entries |
| Serialize.FieldsFor | src/euring/record.py:133-141 | the loop computes the field list of the format |
| Serialize.FieldsForFormatOfTable | src/euring/record.py:133-141 | for the canonical table the lists are the first 33, the first 60 (through "reference") and all 64 entries |
| Serialize.FieldsForFormatKeys | src/euring/builder.py:76-97 | every field list of the canonical table has distinct keys, and the fixed-width one has a width for each entry |
| Serialize.FixedWidthPart | src/euring/record.py:165-171 | each part is exactly its width: hyphens for an empty value, a short value padded with "-", a long one truncated |
| Serialize.FormatFixedWidth | src/euring/builder.py:100-112 | the loop writes one part per entry, joined |
| Serialize.FixedWidthPrefix | src/euring/record.py:159-172 | writing the slices of a full record back gives that record's prefix |
| Serialize.PipeRoundTrip | src/euring/record.py:84-85 | values that are the pieces of a piped text are written back as that text |
| Serialize.PipeSplits | src/euring/builder.py:56-57 | the written text splits back into one value per field, in canonical order, "" for a missing one, when no value holds a pipe |
| Serialize.CheckField | src/euring/record.py:60-80 | an empty value is skipped, or refused when strict and required; another value passes exactly when the field decodes it; when the decode fails, a EURING error becomes ValueError('Invalid value for "key": message') and any other error is passed on |
| Serialize.CollectValues | src/euring/builder.py:32-52 | the loop collects the values to write, or stops at the first failure |
| Serialize.CollectOkIff | src/euring/record.py:60-80 | writing succeeds exactly when every field passes its check |
| Serialize.EmptyValueChecks | src/euring/record.py:63-66 | strict writing with a required field left empty fails; non-strict writing never fails for an empty value |
| Serialize.CollectRow | src/euring/record.py:60-85 | the collected values are exactly the non-empty stored values of the fields |
| Serialize.FixedWidthWriteRoundTrip | src/euring/record.py:82-83 | values that are the slices of a 94-character record write back that exact record |
| Serialize.PipeWriteRoundTrip | src/euring/record.py:84-85 | values that are the pieces of a piped record with one value per field write back that exact record |
| Serialize.Texts | src/euring/record.py:124-127 | the text of each stored value, "" for None |
| Serialize.FirstNone | src/euring/record.py:130 | the first field whose stored value is None, where the join raises |
| Serialize.LooseMatchesChecked | src/euring/record.py:121-130 | whenever every check passes, the unchecked text is the text a checked write produces |
| Serialize.HasErrors | src/euring/record.py:93-99 | a dictionary has errors exactly when either list is non-empty; anything else by its truth value |
| Record.Entry | src/euring/record.py:42-46 | the entry stored for a known key: its name, the text and its canonical position |
| Record.Assign | src/euring/record.py:37-47 | an unknown key raises ValueError and changes nothing; a known one holds the text, and every other key is unchanged |
| Record.UpdateEffect | src/euring/record.py:49-53 | update passes exactly when every key is known, and otherwise raises for an unknown one; on success each key holds its text and nothing else changes |
| Record.FieldMapLookup | src/euring/record.py:32-33 | with distinct keys, the fields mapping holds exactly the built fields, each under its key |
| Record.EuringRecord.StoredValues | src/euring/record.py:62 | the value stored under each key: its text, or None for a field decoded from empty text |
| Record.EuringRecord.constructor | src/euring/record.py:12-18 | a record of a format, with no fields and no errors |
| Record.EuringRecord.Decode | src/euring/record.py:20-35 | an unknown format raises; otherwise a non-strict record of the decoded format (else the declared one, else EURING2000+), with the decoded fields and errors |
| Record.EuringRecord.Keep | src/euring/record.py:107-109 | the fields and errors of a decode become the record's own |
| Record.EuringRecord.Set | src/euring/record.py:37-47 | the fields change exactly as the set function says |
| Record.EuringRecord.Update | src/euring/record.py:49-53 | the fields and the outcome are those of applying set to each entry in order |
| Record.EuringRecord.SerializeLoose | src/euring/record.py:121-130 | the unchecked text of the stored values; the piped join raises on a None value |
| Record.EuringRecord.Validate | src/euring/record.py:101-110 | decodes the given text, or the unchecked text, in the record's format, keeps the decoded fields and errors, and returns the errors |
| Record.EuringRecord.Serialize | src/euring/record.py:55-91 | a failed check raises; otherwise the text is written and validated, and a strict record with errors raises "Record validation failed" |
| Builder.Put | src/euring/builder.py:17-21 | a key outside the field keys raises ValueError; otherwise the key holds the text and every other key is unchanged |
| Builder.UpdateEffect | src/euring/builder.py:23-26 | update passes exactly when every key is a field key, and otherwise raises for one that is not; on success each key holds its text and nothing else changes |
| Builder.StoredOf | src/euring/builder.py:34 | every stored text is present to the checks |
| Builder.EuringRecordBuilder.constructor | src/euring/builder.py:12-15 | a builder of a format with no values |
| Builder.EuringRecordBuilder.Set | src/euring/builder.py:17-21 | the values change exactly as the put function says |
| Builder.EuringRecordBuilder.Update | src/euring/builder.py:23-26 | the values and the outcome are those of applying set to each entry in order |
| Builder.EuringRecordBuilder.Write | src/euring/builder.py:28-57 | a failed check raises; otherwise the fixed-width or piped text of the checked values |
| Builder.EuringRecordBuilder.Build | src/euring/builder.py:28-66 | the corrected build: only a strict build decodes its text, and raises "Record validation failed" when the decode has errors |
| Builder.EuringRecordBuilder.BuildAsWritten | src/euring/builder.py:59-64 | as written, a strict build whose values pass always raises, because the decoded record has no `get` |

## Left out

- Letters and digits are ASCII: upper- and lower-casing, `isdigit` and `isalpha` are modelled on ASCII only. `str.strip()` removes exactly the characters `str.isspace()` accepts, including U+001C to U+001F and the Unicode spaces.
- `int()` and `float()` are modelled on plain decimal text: an optional sign and digits, with an optional point for floats. Underscores, exponents, "inf" and "nan" are not modelled. Neither is the whitespace around the number that both skip: `int(" 12")` is 12, but the model refuses the text.
- `str()` of a float is a parameter (`floatRepr`), and floats are exact reals. Python `round` is modelled as exact round-half-to-even on reals, not on IEEE doubles.
- Values whose `str()` the model does not compute (dictionaries and pairs outside the coordinates field) are excluded by preconditions (`Renders`, `Renderable`) only where the code takes their `str()`: a table lookup, and a value being stored or written. No lookup and a callable lookup take any value, a coordinates dictionary included.
- fields.py (the field table) and types.py (the type predicates) are not part of this model. They are parameters, constrained by `Fields.ValidTable`.
- The reference-data tables behind the lookups are maps or callables passed in. Their loading, `lookup_other_marks`, `lookup_place_code`, the `*_details` functions, `lookup_age`, `lookup_brood_size`, `lookup_pullus_age` and `_catching_method_code_filter` read those tables and are not modelled.
- main.py (the command line), data/fetch.py (network and files) and converters.py are not part of this model.
- Parser and lookup hooks are functions of the text. A hook that raises something other than a EURING error is carried through unchanged.
- `Decoders.Describable` and `Parsing.ParserDescribable` require a parser in front of a table lookup to produce a value with a text, so the `str()` of a parsed dictionary is never needed; without a table they constrain nothing.
- The constructors of the decoder, the record and the builder take an already normalised format. `Decoders.NormalizeFormatOption` and `Formats.NormalizeFormat` model the normalisation itself.
- The message of "Record validation failed" ends with the rendering of the errors dictionary. That rendering is not modelled; the message is its fixed start.
- `to_dict`, `display_format`, `decode_fields` and the `__getitem__`/`__iter__`/`__len__` of the field mappings are not modelled. Dictionary insertion order is not modelled either, since the fields and values are Dafny maps.
- `euring_decode_record` assigns `record.fields` but not `record._fields`, so the two diverge in Python. The record model has one fields map, and `Record.EuringRecord.Decode` stands for both decode paths.
- Serialize.CheckField: a stored None value, which `serialize` passes to `euring_decode_value`, is taken to fail the type check with a ValueError.
- The tests' fixture round trip (decode a record, then serialise it again) is stated over stored values equal to the slices or pieces of the text (`Serialize.FixedWidthWriteRoundTrip`, `Serialize.PipeWriteRoundTrip`). It is not composed with the field decode of a concrete fixture.
- `_decode`'s error for an EURING2000 field beyond a width-less field cannot happen for the canonical table (the first 33 fields all have widths) and is not modelled.
- Concurrency, object identity and aliasing of the Python dictionaries are not modelled. The record, builder and decoder own their maps.

## Findings

| source | as written | input that shows it | evidently intended | confidence | as-written member | corrected member |
|---|---|---|---|---|---|---|
| src/euring/coordinates.py:55-59 and 22-26 | the quadrant is the sign of `int(value)`, and the decode negates only when `float(degrees) < 0` | -0.5 encodes as "+003000"; "-003000" decodes to +0.5 | values between -1 and 0 keep their minus sign both ways | high, not executed | Coordinates.EncodeLosesSignAsWritten | Coordinates.DecodeEncodeWithinHalfSecond |
| src/euring/decoders.py:130-132 | position and length are attached only when `self.record_format` is EURING2000, but that is set only at the end of `_decode` (line 261), after every field error was added | any fixed-width record with a field error, e.g. a 94-character record one of whose slices fails its type check | fixed-width field errors carry their 1-based position and width | high, not executed | Decoders.DecodeAsWrittenUnlocated | Decoders.FixedWidthErrorPositions |
| src/euring/builder.py:61-62 | a strict build calls `.get("errors")` on the `EuringRecord` that `euring_decode_record` returns, and the class has no `get` | any strict build whose values pass their checks | the decoded record's errors are checked, and the text is returned when there are none | medium, not executed | Builder.EuringRecordBuilder.BuildAsWritten | Builder.EuringRecordBuilder.Build |

=== FILE: builder.dfy ===
/**
 * `EuringRecordBuilder` (src/euring/builder.py): field values collected by
 * key and written as the text of one format.  A strict build also decodes
 * what it wrote and refuses text with errors.
 */
module Builder {
  import opened Wrappers
  import opened Exceptions
  import opened Values
  import opened Formats
  import opened Fields
  import opened Serialize
  import D = Decoders
  import FM = FieldModel
  import R = Record

  // ---------------------------------------------------------------- setting values

  /** `set` on the values: a key outside `_FIELD_KEYS` raises; otherwise the key holds the text. */
  function Put(values: map<string, string>, t: seq<FieldEntry>, key: string, text: string)
    : (r: Result<map<string, string>, Error>)
    ensures r.Err? <==> key !in Keys(t)
    ensures r.Err? ==> r.error == ValueError(UnknownKeyMessage(key))
    ensures r.Ok? ==> key in r.value && r.value[key] == text && forall k :: k != key ==> KeepsValue(r.value, values, k)
  {
    if key in Keys(t) then Ok(values[key := text]) else Err(ValueError(UnknownKeyMessage(key)))
  }

  /** A key is as it was: present in both or in neither, with the same text. */
  predicate KeepsValue(values: map<string, string>, before: map<string, string>, k: string) {
    (k in values <==> k in before) && (k in before ==> values[k] == before[k])
  }

  /** `update`: one `set` per entry in order, stopping at the first that raises (the earlier ones stay). */
  function PutAll(values: map<string, string>, t: seq<FieldEntry>, entries: seq<(string, Value)>,
                  floatRepr: real -> string): (map<string, string>, Outcome<Error>)
    requires forall i :: 0 <= i < |entries| ==> Renders(entries[i].1)
    decreases |entries|
  {
    if entries == [] then (values, Pass)
    else
      match Put(values, t, entries[0].0, Shown(entries[0].1, floatRepr))
      case Err(e) => (values, Fail(e))
      case Ok(next) => PutAll(next, t, entries[1..], floatRepr)
  }

  /**
   * `update` with a dictionary (distinct keys): it passes exactly when every
   * key is a field key, raising otherwise for one that is not; when it
   * passes each given key holds its text and nothing else changes.
   */
  lemma {:induction false} UpdateEffect(values: map<string, string>, t: seq<FieldEntry>,
                                        entries: seq<(string, Value)>, floatRepr: real -> string)
    requires forall i :: 0 <= i < |entries| ==> Renders(entries[i].1)
    requires forall i, j :: 0 <= i < j < |entries| ==> entries[i].0 != entries[j].0
    ensures PutAll(values, t, entries, floatRepr).1.Pass? <==> forall i :: 0 <= i < |entries| ==> entries[i].0 in Keys(t)
    ensures PutAll(values, t, entries, floatRepr).1.Fail? ==>
      exists i :: 0 <= i < |entries| && entries[i].0 !in Keys(t) &&
                  PutAll(values, t, entries, floatRepr).1.error == ValueError(UnknownKeyMessage(entries[i].0))
    ensures PutAll(values, t, entries, floatRepr).1.Pass? ==>
      (forall i :: 0 <= i < |entries| ==> entries[i].0 in PutAll(values, t, entries, floatRepr).0 &&
                                          PutAll(values, t, entries, floatRepr).0[entries[i].0] == Shown(entries[i].1, floatRepr)) &&
      (forall k :: (forall i :: 0 <= i < |entries| ==> entries[i].0 != k) ==> KeepsValue(PutAll(values, t, entries, floatRepr).0, values, k))
    decreases |entries|
  {
    if entries != [] {
      var key, text := entries[0].0, Shown(entries[0].1, floatRepr);
      var rest := entries[1..];
      assert forall i :: 0 <= i < |rest| ==> rest[i] == entries[i + 1];
      match Put(values, t, key, text)
      case Err(e) =>
        assert entries[0].0 !in Keys(t);
      case Ok(next) =>
        UpdateEffect(next, t, rest, floatRepr);
        var result := PutAll(values, t, entries, floatRepr);
        assert result == PutAll(next, t, rest, floatRepr);
        if result.1.Pass? {
          assert KeepsValue(result.0, next, key);
          forall k | forall i :: 0 <= i < |entries| ==> entries[i].0 != k
            ensures KeepsValue(result.0, values, k)
          {
            assert entries[0].0 != k;
            assert forall i :: 0 <= i < |rest| ==> rest[i].0 != k;
            assert KeepsValue(next, values, k) && KeepsValue(result.0, next, k);
          }
          forall i | 0 <= i < |entries|
            ensures entries[i].0 in result.0 && result.0[entries[i].0] == Shown(entries[i].1, floatRepr)
          {
            if i > 0 {
              assert entries[i] == rest[i - 1];
            }
          }
        } else {
          var i :| 0 <= i < |rest| && rest[i].0 !in Keys(t) && result.1.error == ValueError(UnknownKeyMessage(rest[i].0));
          assert entries[i + 1] == rest[i];
        }
    }
  }

  /** The builder's values as the checks before writing read them: every stored text is present. */
  function StoredOf(values: map<string, string>): (stored: map<string, Option<string>>)
    ensures stored.Keys == values.Keys && forall k :: k in values ==> stored[k] == Some(values[k])
  {
    map k | k in values :: Some(values[k])
  }

  /** What reading `.get` from an `EuringRecord` raises: the class has no such attribute. */
  const NoGetMessage := "'EuringRecord' object has no attribute 'get'"

  // ---------------------------------------------------------------- the builder object

  class EuringRecordBuilder {
    const format: Format
    const strict: bool
    const table: seq<FieldEntry>
    const valid: FM.TypeCheck
    var values: map<string, string>

    ghost predicate Valid() {
      ValidTable(table) && D.DescribableTable(table) && Writable(table)
    }

    /** A builder of an already normalised format (see `Formats.NormalizeFormat`), with no values. */
    constructor(format: Format, strict: bool, table: seq<FieldEntry>, valid: FM.TypeCheck)
      requires ValidTable(table) && D.DescribableTable(table)
      ensures Valid()
      ensures this.format == format && this.strict == strict && this.table == table && this.valid == valid
      ensures values == map[]
    {
      this.format := format;
      this.strict := strict;
      this.table := table;
      this.valid := valid;
      values := map[];
      new;
      TableWritable(table);
    }

    /** `set`: store the value's text under a field key. */
    method Set(key: string, value: Value, floatRepr: real -> string) returns (o: Outcome<Error>)
      requires Renders(value)
      modifies this`values
      ensures var p := Put(old(values), table, key, Shown(value, floatRepr));
        (p.Ok? ==> o == Pass && values == p.value) && (p.Err? ==> o == Fail(p.error) && values == old(values))
    {
      if key !in Keys(table) {
        return Fail(ValueError(UnknownKeyMessage(key)));
      }
      values := values[key := Shown(value, floatRepr)];
      return Pass;
    }

    /** `update`: `set` each entry in order. */
    method Update(entries: seq<(string, Value)>, floatRepr: real -> string) returns (o: Outcome<Error>)
      requires forall i :: 0 <= i < |entries| ==> Renders(entries[i].1)
      modifies this`values
      ensures (values, o) == PutAll(old(values), table, entries, floatRepr)
    {
      for i := 0 to |entries|
        invariant PutAll(values, table, entries[i..], floatRepr) == PutAll(old(values), table, entries, floatRepr)
      {
        assert entries[i..][0] == entries[i] && entries[i..][1..] == entries[i + 1..];
        o := Set(entries[i].0, entries[i].1, floatRepr);
        if o.Fail? {
          return;
        }
      }
      assert entries[|entries|..] == [];
      return Pass;
    }

    /** The checks and the text of `build`, before any strict validation. */
    method Write() returns (r: Result<string, Error>)
      requires Valid()
      ensures var fs := FieldsForFormat(format, table);
        var c := Collect(fs, StoredOf(values), strict, valid);
        (c.Err? ==> r == Err(c.error)) && (c.Ok? ==> r == Ok(WriteText(format, fs, c.value)))
    {
      var fs := FieldsFor(format, table);
      var c := CollectValues(fs, StoredOf(values), strict, valid);
      if c.Err? {
        return Err(c.error);
      }
      if format == Euring2000 {
        var layout := FixedWidthFieldsOf(table);
        var text := FormatFixedWidth(c.value, layout);
        return Ok(text);
      }
      return Ok(PipeText(c.value, fs));
    }

    /**
     * `build`: check every value of the format's fields and write the text;
     * a strict build decodes that text and refuses it when the decode has
     * errors.
     */
    method Build() returns (r: Result<string, Error>)
      requires Valid()
      ensures var fs := FieldsForFormat(format, table);
        var c := Collect(fs, StoredOf(values), strict, valid);
        (c.Err? ==> r == Err(c.error)) &&
        (c.Ok? && !strict ==> r == Ok(WriteText(format, fs, c.value))) &&
        (c.Ok? && strict ==>
          var d := D.DecodeSpec(TextRecord(WriteText(format, fs, c.value)), Some(format), table, valid);
          (d.Err? ==> r == Err(d.error)) &&
          (d.Ok? ==> r == if HasErrors(ErrorsOf(d.value)) then Err(ValueError(ValidationFailedMessage))
                          else Ok(WriteText(format, fs, c.value))))
    {
      r := Write();
      if r.Err? || !strict {
        return;
      }
      var text := r.value;
      NormalizeIdempotent(format);
      var decoded := R.EuringRecord.Decode(TextRecord(text), format.Name(), table, valid);
      if decoded.Err? {
        return Err(decoded.error);
      }
      var errors := ErrorsDict(decoded.value.recordErrors, decoded.value.fieldErrors);
      if HasErrors(errors) {
        return Err(ValueError(ValidationFailedMessage));
      }
    }

    /**
     * `build` as written: a strict build that reaches the validation reads
     * `.get("errors")` from the `EuringRecord` the decode returns, which
     * raises, so a strict build never returns text.
     */
    method BuildAsWritten() returns (r: Result<string, Error>)
      requires Valid()
      ensures var fs := FieldsForFormat(format, table);
        var c := Collect(fs, StoredOf(values), strict, valid);
        (c.Err? ==> r == Err(c.error)) &&
        (c.Ok? && !strict ==> r == Ok(WriteText(format, fs, c.value))) &&
        (c.Ok? && strict ==>
          var d := D.DecodeSpec(TextRecord(WriteText(format, fs, c.value)), Some(format), table, valid);
          (d.Err? ==> r == Err(d.error)) &&
          (d.Ok? ==> r == Err(AttributeError(NoGetMessage))))
      ensures strict ==> r.Err?
    {
      r := Write();
      if r.Err? || !strict {
        return;
      }
      var text := r.value;
      NormalizeIdempotent(format);
      var decoded := R.EuringRecord.Decode(TextRecord(text), format.Name(), table, valid);
      if decoded.Err? {
        return Err(decoded.error);
      }
      return Err(AttributeError(NoGetMessage));
    }
  }
}

=== FILE: builtins.dfy ===
/**
 * The parts of Python's built-in string, integer, float and date behaviour
 * that the codec relies on, with letters and digits restricted to ASCII; whitespace is what `str.isspace()` accepts.
 */
module Builtins {
  import opened Wrappers

  // ---------------------------------------------------------------- characters

  predicate IsDigit(c: char) { '0' <= c <= '9' }
  predicate IsUpper(c: char) { 'A' <= c <= 'Z' }
  predicate IsLower(c: char) { 'a' <= c <= 'z' }
  predicate IsLetter(c: char) { IsUpper(c) || IsLower(c) }

  /**
   * The characters `str.strip()` removes, those for which `str.isspace()`
   * holds: the controls 9 to 13 and 28 to 31, the space, and the Unicode
   * separators and spaces.
   */
  predicate IsSpace(c: char) {
    var n := c as int;
    9 <= n <= 13 || 28 <= n <= 32 || n == 0x85 || n == 0xA0 || n == 0x1680 ||
    0x2000 <= n <= 0x200A || n == 0x2028 || n == 0x2029 || n == 0x202F || n == 0x205F || n == 0x3000
  }

  function ToUpper(c: char): (r: char)
    ensures IsLower(c) ==> IsUpper(r)
    ensures !IsLower(c) ==> r == c
  {
    if IsLower(c) then (c as int - 32) as char else c
  }

  function ToLower(c: char): (r: char)
    ensures IsUpper(c) ==> IsLower(r)
    ensures !IsUpper(c) ==> r == c
  {
    if IsUpper(c) then (c as int + 32) as char else c
  }

  function DigitChar(d: nat): (c: char)
    requires d < 10
    ensures IsDigit(c)
  {
    ('0' as int + d) as char
  }

  function DigitValue(c: char): (d: nat)
    requires IsDigit(c)
    ensures d < 10 && DigitChar(d) == c
  {
    c as int - '0' as int
  }

  // ---------------------------------------------------------------- predicates on strings

  predicate AllDigits(s: string) { forall i :: 0 <= i < |s| ==> IsDigit(s[i]) }

  /** `str.isdigit()`: non-empty and only digits. */
  predicate IsDigitString(s: string) { |s| > 0 && AllDigits(s) }

  /** `str.isalpha()`: non-empty and only letters. */
  predicate IsAlphaString(s: string) { |s| > 0 && forall i :: 0 <= i < |s| ==> IsLetter(s[i]) }

  predicate AllChar(s: string, c: char) { forall i :: 0 <= i < |s| ==> s[i] == c }

  // ---------------------------------------------------------------- case and padding

  /** `str.upper()`. */
  function Upper(s: string): (r: string)
    ensures |r| == |s|
    ensures forall i :: 0 <= i < |s| ==> r[i] == ToUpper(s[i])
  {
    if s == [] then [] else [ToUpper(s[0])] + Upper(s[1..])
  }

  /** `str.lower()`. */
  function Lower(s: string): (r: string)
    ensures |r| == |s|
    ensures forall i :: 0 <= i < |s| ==> r[i] == ToLower(s[i])
  {
    if s == [] then [] else [ToLower(s[0])] + Lower(s[1..])
  }

  function Repeat(c: char, n: nat): (r: string)
    ensures |r| == n && AllChar(r, c)
  {
    seq(n, i => c)
  }

  /** `str.zfill(width)`: zeros after a leading sign, or in front. */
  function Zfill(s: string, width: nat): (r: string)
    ensures |r| == if |s| >= width then |s| else width
  {
    if |s| >= width then s
    else if |s| > 0 && (s[0] == '+' || s[0] == '-') then [s[0]] + Repeat('0', width - |s|) + s[1..]
    else Repeat('0', width - |s|) + s
  }

  /** `str.ljust(width, c)`. */
  function LJust(s: string, width: nat, c: char): (r: string)
    ensures |r| == if |s| >= width then |s| else width
    ensures r[..|s|] == s
  {
    if |s| >= width then s else s + Repeat(c, width - |s|)
  }

  /** `str.rjust(width)`, padding with spaces. */
  function RJust(s: string, width: nat): (r: string)
    ensures |r| == if |s| >= width then |s| else width
    ensures r[|r| - |s|..] == s
  {
    if |s| >= width then s else Repeat(' ', width - |s|) + s
  }

  // ---------------------------------------------------------------- stripping

  /** `s.lstrip(c)`. */
  function LStrip(s: string, c: char): (r: string)
    ensures |r| <= |s|
    ensures forall q :: 0 <= q < |r| ==> r[q] == s[|s| - |r| + q]
    ensures forall q :: 0 <= q < |s| - |r| ==> s[q] == c
    ensures r == [] || r[0] != c
  {
    s[LeadingRunEnd(s, c, 0)..]
  }

  /** The end of the run of `c` that starts at `i`. */
  function LeadingRunEnd(s: string, c: char, i: nat): (k: nat)
    requires i <= |s|
    ensures i <= k <= |s| && (k == |s| || s[k] != c)
    ensures forall q :: i <= q < k ==> s[q] == c
    decreases |s| - i
  {
    if i < |s| && s[i] == c then LeadingRunEnd(s, c, i + 1) else i
  }

  /** `s.rstrip(c)`. */
  function RStrip(s: string, c: char): (r: string)
    ensures |r| <= |s|
    ensures forall q :: 0 <= q < |r| ==> r[q] == s[q]
    ensures forall q :: |r| <= q < |s| ==> s[q] == c
    ensures r == [] || r[|r| - 1] != c
  {
    s[..TrailingRunStart(s, c, |s|)]
  }

  /** The start of the run of `c` that ends just before `j`. */
  function TrailingRunStart(s: string, c: char, j: nat): (k: nat)
    requires j <= |s|
    ensures k <= j && (k == 0 || s[k - 1] != c)
    ensures forall q :: k <= q < j ==> s[q] == c
  {
    if j > 0 && s[j - 1] == c then TrailingRunStart(s, c, j - 1) else j
  }

  function StripSpacesLeft(s: string): (r: string)
    ensures |r| <= |s| && r == s[|s| - |r|..]
    ensures r == [] || !IsSpace(r[0])
  {
    if |s| > 0 && IsSpace(s[0]) then StripSpacesLeft(s[1..]) else s
  }

  function StripSpacesRight(s: string): (r: string)
    ensures |r| <= |s| && r == s[..|r|]
    ensures r == [] || !IsSpace(r[|r| - 1])
  {
    if |s| > 0 && IsSpace(s[|s| - 1]) then StripSpacesRight(s[..|s| - 1]) else s
  }

  /** `str.strip()`. */
  function Strip(s: string): string {
    StripSpacesRight(StripSpacesLeft(s))
  }

  predicate AllSpaces(s: string) { forall i :: 0 <= i < |s| ==> IsSpace(s[i]) }

  /** Stripping ignores extra whitespace around the text. */
  lemma {:induction false} StripSpacesLeftPrefix(pre: string, s: string)
    requires AllSpaces(pre)
    ensures StripSpacesLeft(pre + s) == StripSpacesLeft(s)
  {
    if pre != [] {
      assert (pre + s)[1..] == pre[1..] + s;
      StripSpacesLeftPrefix(pre[1..], s);
    } else {
      assert pre + s == s;
    }
  }

  lemma {:induction false} StripSpacesRightSuffix(s: string, post: string)
    requires AllSpaces(post)
    ensures StripSpacesRight(s + post) == StripSpacesRight(s)
  {
    if post != [] {
      var p := post[..|post| - 1];
      assert (s + post)[..|s + post| - 1] == s + p;
      StripSpacesRightSuffix(s, p);
    } else {
      assert s + post == s;
    }
  }

  lemma {:induction false} StripSpacesLeftSuffix(s: string, post: string)
    requires AllSpaces(post)
    ensures StripSpacesLeft(s + post) ==
      if StripSpacesLeft(s) == [] then StripSpacesLeft(post) else StripSpacesLeft(s) + post
  {
    if s == [] {
      assert s + post == post;
    } else if IsSpace(s[0]) {
      assert (s + post)[1..] == s[1..] + post;
      StripSpacesLeftSuffix(s[1..], post);
    }
  }

  lemma {:induction false} StripSpacesLeftAll(s: string)
    requires AllSpaces(s)
    ensures StripSpacesLeft(s) == []
  {
    if s != [] {
      StripSpacesLeftAll(s[1..]);
    }
  }

  /** `(pre + s + post).strip() == s.strip()` when `pre` and `post` are whitespace. */
  lemma {:induction false} StripSurrounded(pre: string, s: string, post: string)
    requires AllSpaces(pre) && AllSpaces(post)
    ensures Strip(pre + s + post) == Strip(s)
  {
    assert pre + s + post == pre + (s + post);
    StripSpacesLeftPrefix(pre, s + post);
    StripSpacesLeftSuffix(s, post);
    StripSpacesLeftAll(post);
    if StripSpacesLeft(s) != [] {
      StripSpacesRightSuffix(StripSpacesLeft(s), post);
    }
  }

  lemma {:induction false} StripSpacesLeftUpper(s: string)
    ensures StripSpacesLeft(Upper(s)) == Upper(StripSpacesLeft(s))
  {
    if s != [] {
      var u := Upper(s);
      assert u == [ToUpper(s[0])] + Upper(s[1..]);
      assert IsSpace(u[0]) == IsSpace(s[0]);
      if IsSpace(s[0]) {
        assert u[1..] == Upper(s[1..]);
        StripSpacesLeftUpper(s[1..]);
      }
    }
  }

  lemma {:induction false} StripSpacesRightUpper(s: string)
    ensures StripSpacesRight(Upper(s)) == Upper(StripSpacesRight(s))
  {
    if s != [] {
      var u, n := Upper(s), |s| - 1;
      assert u[n] == ToUpper(s[n]) && (IsSpace(u[n]) <==> IsSpace(s[n]));
      assert u[..n] == Upper(s[..n]);
      if IsSpace(s[n]) {
        StripSpacesRightUpper(s[..n]);
      }
    }
  }

  lemma {:induction false} LowerUpper(s: string)
    ensures Lower(Upper(s)) == Lower(s)
  {
    if s != [] {
      LowerUpper(s[1..]);
    }
  }

  /** Text without upper-case letters is its own lower-case form. */
  lemma {:induction false} LowerIdentity(s: string)
    requires forall i :: 0 <= i < |s| ==> !IsUpper(s[i])
    ensures Lower(s) == s
  {
    if s != [] {
      LowerIdentity(s[1..]);
    }
  }

  /** Text without lower-case letters is its own upper-case form. */
  lemma {:induction false} UpperIdentity(s: string)
    requires forall i :: 0 <= i < |s| ==> !IsLower(s[i])
    ensures Upper(s) == s
  {
    if s != [] {
      UpperIdentity(s[1..]);
    }
  }

  /** Text that neither starts nor ends with whitespace strips to itself. */
  lemma {:induction false} StripIdentity(s: string)
    requires s == [] || (!IsSpace(s[0]) && !IsSpace(s[|s| - 1]))
    ensures Strip(s) == s
  {
  }

  /** Upper-casing commutes with stripping, and lower-casing forgets it. */
  lemma {:induction false} StripUpper(s: string)
    ensures Strip(Upper(s)) == Upper(Strip(s))
    ensures Lower(Upper(s)) == Lower(s)
  {
    StripSpacesLeftUpper(s);
    StripSpacesRightUpper(StripSpacesLeft(s));
    LowerUpper(s);
  }

  /** `s.replace(c, "")`. */
  function RemoveChar(s: string, c: char): (r: string)
    ensures c !in r
    ensures |r| <= |s|
  {
    if s == [] then [] else (if s[0] == c then [] else [s[0]]) + RemoveChar(s[1..], c)
  }

  lemma {:induction false} RemoveCharAbsent(s: string, c: char)
    requires c !in s
    ensures RemoveChar(s, c) == s
  {
    if s != [] {
      assert c !in s[1..];
      RemoveCharAbsent(s[1..], c);
    }
  }

  lemma {:induction false} RemoveCharConcat(a: string, b: string, c: char)
    ensures RemoveChar(a + b, c) == RemoveChar(a, c) + RemoveChar(b, c)
  {
    if a != [] {
      assert (a + b)[1..] == a[1..] + b;
      RemoveCharConcat(a[1..], b, c);
    } else {
      assert a + b == b;
    }
  }

  // ---------------------------------------------------------------- slicing

  /** `s[a:b]` with non-negative bounds: both bounds are clamped to the length. */
  function Slice(s: string, a: nat, b: nat): (r: string)
    ensures a <= b <= |s| ==> r == s[a..b]
    ensures |r| <= |s|
  {
    var i := if a < |s| then a else |s|;
    var j := if b < |s| then b else |s|;
    if i <= j then s[i..j] else ""
  }

  /** Taking one more character on the left of a slice. */
  lemma {:induction false} SliceCons(t: string, i: nat, j: nat)
    requires 0 < i <= j <= |t|
    ensures t[i - 1..j] == [t[i - 1]] + t[i..j]
  {
  }

  // ---------------------------------------------------------------- split and join

  /** `s.split(sep)` for a one-character separator. */
  function Split(s: string, sep: char): (r: seq<string>)
    ensures |r| >= 1
    ensures forall k :: 0 <= k < |r| ==> sep !in r[k]
  {
    if s == [] then [""]
    else
      var rest := Split(s[1..], sep);
      if s[0] == sep then [""] + rest else [[s[0]] + rest[0]] + rest[1..]
  }

  /** `sep.join(parts)`. */
  function Join(parts: seq<string>, sep: string): string {
    if |parts| == 0 then ""
    else if |parts| == 1 then parts[0]
    else parts[0] + sep + Join(parts[1..], sep)
  }

  function Count(s: string, c: char): nat {
    if s == [] then 0 else (if s[0] == c then 1 else 0) + Count(s[1..], c)
  }

  /** Splitting yields one more piece than there are separators. */
  lemma {:induction false} SplitLength(s: string, sep: char)
    ensures |Split(s, sep)| == Count(s, sep) + 1
  {
    if s != [] {
      SplitLength(s[1..], sep);
    }
  }

  /** Joining the pieces of a split gives back the text. */
  lemma {:induction false} JoinSplit(s: string, sep: char)
    ensures Join(Split(s, sep), [sep]) == s
  {
    if s != [] {
      var rest := Split(s[1..], sep);
      JoinSplit(s[1..], sep);
      if s[0] == sep {
        assert Split(s, sep) == [""] + rest;
        assert ([""] + rest)[1..] == rest;
      } else {
        var r := [[s[0]] + rest[0]] + rest[1..];
        assert Split(s, sep) == r;
        if |rest| == 1 {
          assert Join(rest, [sep]) == rest[0];
        } else {
          assert r[1..] == rest[1..];
          assert Join(rest, [sep]) == rest[0] + [sep] + Join(rest[1..], [sep]);
        }
      }
    }
  }

  /** Splitting a join of separator-free pieces gives back the pieces. */
  lemma {:induction false} SplitJoin(parts: seq<string>, sep: char)
    requires |parts| >= 1
    requires forall k :: 0 <= k < |parts| ==> sep !in parts[k]
    ensures Split(Join(parts, [sep]), sep) == parts
  {
    if |parts| == 1 {
      SplitNoSeparator(parts[0], sep);
    } else {
      SplitJoin(parts[1..], sep);
      SplitPrefix(parts[0], Join(parts[1..], [sep]), sep);
      assert [parts[0]] + parts[1..] == parts;
    }
  }

  lemma {:induction false} SplitNoSeparator(s: string, sep: char)
    requires sep !in s
    ensures Split(s, sep) == [s]
  {
    if s != [] {
      SplitNoSeparator(s[1..], sep);
      assert [s[0]] + s[1..] == s;
    }
  }

  /** A text made only of separators splits into one more empty piece than it has characters. */
  lemma {:induction false} SplitAllSeparators(n: nat, sep: char)
    ensures Split(Repeat(sep, n), sep) == seq(n + 1, k => "")
  {
    if n > 0 {
      SplitAllSeparators(n - 1, sep);
      assert Repeat(sep, n)[1..] == Repeat(sep, n - 1);
    }
  }

  /** `"".join` of the parts with one more at the end. */
  lemma {:induction false} JoinSnoc(parts: seq<string>, x: string)
    ensures Join(parts + [x], "") == Join(parts, "") + x
  {
    if |parts| == 1 {
      assert parts + [x] == [parts[0], x];
    } else if |parts| > 1 {
      JoinSnoc(parts[1..], x);
      assert (parts + [x])[1..] == parts[1..] + [x];
    }
  }

  /** The `"".join` of a prefix of the parts is a prefix of the join of all of them. */
  lemma {:induction false} JoinPrefix(parts: seq<string>, m: nat)
    requires m <= |parts|
    ensures |Join(parts[..m], "")| <= |Join(parts, "")|
    ensures Join(parts, "")[..|Join(parts[..m], "")|] == Join(parts[..m], "")
    decreases |parts| - m
  {
    if m < |parts| {
      JoinPrefix(parts, m + 1);
      assert parts[..m + 1] == parts[..m] + [parts[m]];
      JoinSnoc(parts[..m], parts[m]);
    } else {
      assert parts[..m] == parts;
    }
  }

  /** Splitting `a + sep + b` for separator-free `a`. */
  lemma {:induction false} SplitPrefix(a: string, b: string, sep: char)
    requires sep !in a
    ensures Split(a + [sep] + b, sep) == [a] + Split(b, sep)
  {
    if a == [] {
      assert a + [sep] + b == [sep] + b;
      assert ([sep] + b)[1..] == b;
    } else {
      assert (a + [sep] + b)[1..] == a[1..] + [sep] + b;
      SplitPrefix(a[1..], b, sep);
      assert [a[0]] + a[1..] == a;
    }
  }

  // ---------------------------------------------------------------- numbers as text

  function Pow10(k: nat): (r: nat)
    ensures r >= 1
  {
    if k == 0 then 1 else 10 * Pow10(k - 1)
  }

  /** The value of a string of decimal digits. */
  function DigitsValue(s: string): (v: nat)
    requires AllDigits(s)
    ensures v < Pow10(|s|)
  {
    if s == [] then 0 else DigitsValue(s[..|s| - 1]) * 10 + DigitValue(s[|s| - 1])
  }

  /** `str(n)` for a natural number. */
  function NatToString(n: nat): (r: string)
    ensures IsDigitString(r)
    decreases n
  {
    if n < 10 then [DigitChar(n)] else NatToString(n / 10) + [DigitChar(n % 10)]
  }

  /** `str(i)` for an integer. */
  function IntToString(i: int): string {
    if i < 0 then "-" + NatToString(-i) else NatToString(i)
  }

  /** The last `width` decimal digits of `n`, zero-filled. */
  function Padded(n: nat, width: nat): (r: string)
    ensures |r| == width && AllDigits(r)
  {
    if width == 0 then "" else Padded(n / 10, width - 1) + [DigitChar(n % 10)]
  }

  /** `int(s)` on a string: an optional sign followed by decimal digits. */
  function ParseInt(s: string): Option<int> {
    if |s| > 0 && (s[0] == '+' || s[0] == '-') then
      if IsDigitString(s[1..]) then
        Some(if s[0] == '-' then -(DigitsValue(s[1..]) as int) else DigitsValue(s[1..]))
      else None
    else if IsDigitString(s) then Some(DigitsValue(s))
    else None
  }

  function IndexOf(s: string, c: char): (r: int)
    ensures -1 <= r < |s|
    ensures r >= 0 ==> s[r] == c && c !in s[..r]
    ensures r < 0 ==> c !in s
  {
    if s == [] then -1
    else if s[0] == c then 0
    else
      var k := IndexOf(s[1..], c);
      assert s[1..][..k + 1] == s[1..k + 2] by { if k >= 0 { } }
      if k < 0 then -1 else k + 1
  }

  /** The value of the digits after a decimal point. */
  function Fraction(fp: string): (r: real)
    requires AllDigits(fp)
    ensures 0.0 <= r < 1.0
  {
    if fp == [] then 0.0 else (DigitValue(fp[0]) as real + Fraction(fp[1..])) / 10.0
  }

  /** `float(s)` without a sign: `d`, `d.`, `.d` or `d.d`. */
  function ParseUnsignedDecimal(s: string): Option<real> {
    var dot := IndexOf(s, '.');
    if dot < 0 then
      if IsDigitString(s) then Some(DigitsValue(s) as real) else None
    else
      var ip := s[..dot];
      var fp := s[dot + 1..];
      if AllDigits(ip) && AllDigits(fp) && |ip| + |fp| > 0 then
        Some(DigitsValue(ip) as real + Fraction(fp))
      else None
  }

  /** `float(s)`: an optional sign followed by a plain decimal literal. */
  function ParseFloat(s: string): Option<real> {
    if |s| > 0 && (s[0] == '+' || s[0] == '-') then
      match ParseUnsignedDecimal(s[1..])
      case Some(x) => Some(if s[0] == '-' then -x else x)
      case None => None
    else ParseUnsignedDecimal(s)
  }

  // ---------------------------------------------------------------- lemmas about numbers as text

  lemma {:induction false} NatToStringValue(n: nat)
    ensures DigitsValue(NatToString(n)) == n
    decreases n
  {
    var s := NatToString(n);
    if n >= 10 {
      NatToStringValue(n / 10);
      assert s[..|s| - 1] == NatToString(n / 10);
    }
  }

  lemma {:induction false} NatToStringLength(n: nat, k: nat)
    requires n < Pow10(k)
    ensures |NatToString(n)| <= if k == 0 then 1 else k
    decreases n
  {
    if n >= 10 {
      NatToStringLength(n / 10, k - 1);
    }
  }

  /** Reading back fixed-width digits. */
  lemma {:induction false} PaddedDigits(s: string)
    requires AllDigits(s)
    ensures Padded(DigitsValue(s), |s|) == s
  {
    if s != [] {
      var init := s[..|s| - 1];
      PaddedDigits(init);
      assert DigitsValue(s) / 10 == DigitsValue(init);
      assert DigitsValue(s) % 10 == DigitValue(s[|s| - 1]);
      assert init + [s[|s| - 1]] == s;
    }
  }

  lemma {:induction false} PaddedValue(n: nat, width: nat)
    requires n < Pow10(width)
    ensures DigitsValue(Padded(n, width)) == n
  {
    if width > 0 {
      PaddedValue(n / 10, width - 1);
      var r := Padded(n, width);
      assert r[..|r| - 1] == Padded(n / 10, width - 1);
    }
  }

  /** One more column of a number that fits is a leading zero. */
  lemma {:induction false} PaddedWiden(n: nat, width: nat)
    requires n < Pow10(width)
    ensures Padded(n, width + 1) == "0" + Padded(n, width)
  {
    if width == 0 {
      assert n == 0;
    } else {
      PaddedWiden(n / 10, width - 1);
      assert Padded(n, width + 1) == Padded(n / 10, width) + [DigitChar(n % 10)];
    }
  }

  lemma {:induction false} PaddedExact(n: nat)
    ensures Padded(n, |NatToString(n)|) == NatToString(n)
    decreases n
  {
    if n >= 10 {
      PaddedExact(n / 10);
    }
  }

  lemma {:induction false} PaddedZeros(n: nat, width: nat, extra: nat)
    requires n < Pow10(width)
    ensures Padded(n, width + extra) == Repeat('0', extra) + Padded(n, width)
    decreases extra
  {
    if extra > 0 {
      Pow10Monotone(width, width + extra - 1);
      PaddedZeros(n, width, extra - 1);
      PaddedWiden(n, width + extra - 1);
      assert Repeat('0', extra) == "0" + Repeat('0', extra - 1);
    }
  }

  lemma {:induction false} Pow10Monotone(a: nat, b: nat)
    requires a <= b
    ensures Pow10(a) <= Pow10(b)
    decreases b - a
  {
    if a < b {
      Pow10Monotone(a + 1, b);
    }
  }

  lemma {:induction false} NatToStringFits(n: nat)
    ensures n < Pow10(|NatToString(n)|)
    decreases n
  {
    if n >= 10 {
      NatToStringFits(n / 10);
    }
  }

  /** `str(n).zfill(width)` is the fixed-width rendering of a number that fits. */
  lemma {:induction false} ZfillNatToString(n: nat, width: nat)
    requires n < Pow10(width)
    ensures Zfill(NatToString(n), width) == Padded(n, if width == 0 then 1 else width)
  {
    var s := NatToString(n);
    NatToStringLength(n, width);
    NatToStringFits(n);
    PaddedExact(n);
    if |s| < width {
      PaddedZeros(n, |s|, width - |s|);
    }
  }

  /** Zero-filled digits are read back by `str(int(ds)).zfill(|ds|)`. */
  lemma {:induction false} ZfillDigits(ds: string)
    requires IsDigitString(ds)
    ensures Zfill(NatToString(DigitsValue(ds)), |ds|) == ds
  {
    ZfillNatToString(DigitsValue(ds), |ds|);
    PaddedDigits(ds);
  }

  lemma {:induction false} ParseIntDigits(ds: string)
    requires IsDigitString(ds)
    ensures ParseInt(ds) == Some(DigitsValue(ds) as int)
  {
  }

  /** Leading zeros do not change the value of a digit string. */
  lemma {:induction false} DigitsValueLeadingZeros(n: nat, ds: string)
    requires AllDigits(ds)
    ensures AllDigits(Repeat('0', n) + ds)
    ensures DigitsValue(Repeat('0', n) + ds) == DigitsValue(ds)
  {
    var z := Repeat('0', n) + ds;
    assert forall i :: 0 <= i < |z| ==> IsDigit(z[i]) by {
      forall i | 0 <= i < |z| ensures IsDigit(z[i]) {
        if i >= n { assert z[i] == ds[i - n]; }
      }
    }
    if ds == [] {
      assert z == Repeat('0', n);
      ZerosValue(n);
    } else {
      var init := ds[..|ds| - 1];
      assert z[..|z| - 1] == Repeat('0', n) + init;
      DigitsValueLeadingZeros(n, init);
    }
  }

  lemma {:induction false} ZerosValue(n: nat)
    ensures AllDigits(Repeat('0', n))
    ensures DigitsValue(Repeat('0', n)) == 0
  {
    if n > 0 {
      assert Repeat('0', n)[..n - 1] == Repeat('0', n - 1);
      ZerosValue(n - 1);
    }
  }

  /** `int(s.zfill(width)) == int(s)` for text `int` accepts. */
  lemma {:induction false} ZfillParseInt(s: string, width: nat)
    requires ParseInt(s).Some?
    ensures ParseInt(Zfill(s, width)) == ParseInt(s)
  {
    if |s| < width {
      if s[0] == '+' || s[0] == '-' {
        ZerosAfterSign(s, width - |s|);
      } else {
        ZerosInFront(s, width - |s|);
      }
    }
  }

  /** Zeros between the sign and the digits do not change the integer. */
  lemma {:induction false} ZerosAfterSign(s: string, n: nat)
    requires |s| > 0 && (s[0] == '+' || s[0] == '-') && IsDigitString(s[1..])
    ensures ParseInt([s[0]] + Repeat('0', n) + s[1..]) == ParseInt(s)
  {
    var z := [s[0]] + Repeat('0', n) + s[1..];
    DigitsValueLeadingZeros(n, s[1..]);
    assert z[1..] == Repeat('0', n) + s[1..];
    SameSignSameInt(z, s);
  }

  /** Zeros in front of unsigned digits do not change the integer. */
  lemma {:induction false} ZerosInFront(s: string, n: nat)
    requires IsDigitString(s)
    ensures ParseInt(Repeat('0', n) + s) == ParseInt(s)
  {
    DigitsValueLeadingZeros(n, s);
    ParseIntDigits(s);
    ParseIntDigits(Repeat('0', n) + s);
  }

  /** Two signed texts with the same sign and digit strings of the same value parse alike. */
  lemma {:induction false} SameSignSameInt(a: string, b: string)
    requires |a| > 0 && |b| > 0 && a[0] == b[0] && (b[0] == '+' || b[0] == '-')
    requires IsDigitString(a[1..]) && IsDigitString(b[1..]) && DigitsValue(a[1..]) == DigitsValue(b[1..])
    ensures ParseInt(a) == ParseInt(b)
  {
  }

  lemma {:induction false} NatToStringParses(n: nat)
    ensures ParseInt(NatToString(n)) == Some(n)
  {
    NatToStringValue(n);
  }

  lemma {:induction false} IntToStringParses(i: int)
    ensures ParseInt(IntToString(i)) == Some(i)
  {
    if i < 0 {
      var t := NatToString(-i);
      var s := IntToString(i);
      assert s == "-" + t;
      assert s[0] == '-' && s[1..] == t;
      NatToStringValue(-i);
    } else {
      var s := NatToString(i);
      assert IsDigit(s[0]);
      NatToStringValue(i);
    }
  }

  /** The value of a one-, two- or more-digit literal, one digit at a time. */
  lemma {:induction false} DigitsValueStep(s: string)
    requires |s| > 0 && AllDigits(s)
    ensures DigitsValue(s) == DigitsValue(s[..|s| - 1]) * 10 + DigitValue(s[|s| - 1])
  {
  }

  /** A zero-filled number is a digit string that reads back as the number. */
  lemma {:induction false} ZfillDigitsOf(n: nat, width: nat)
    ensures IsDigitString(Zfill(NatToString(n), width))
    ensures DigitsValue(Zfill(NatToString(n), width)) == n
    ensures |Zfill(NatToString(n), width)| >= width
    ensures n < Pow10(width) && width > 0 ==> |Zfill(NatToString(n), width)| == width
  {
    NatToStringValue(n);
    ZfillDigitString(NatToString(n), width);
    if n < Pow10(width) && width > 0 {
      NatToStringLength(n, width);
    }
  }

  /** Zero-filling digits keeps them digits of the same value. */
  lemma {:induction false} ZfillDigitString(s: string, width: nat)
    requires IsDigitString(s)
    ensures IsDigitString(Zfill(s, width))
    ensures DigitsValue(Zfill(s, width)) == DigitsValue(s)
  {
    assert IsDigit(s[0]);
    if |s| < width {
      DigitsValueLeadingZeros(width - |s|, s);
    }
  }

  /** Digits alone read as a float with the same value. */
  lemma {:induction false} ParseUnsignedDigits(ds: string)
    requires IsDigitString(ds)
    ensures ParseUnsignedDecimal(ds) == Some(DigitsValue(ds) as real)
  {
    assert forall i :: 0 <= i < |ds| ==> ds[i] != '.';
  }

  lemma {:induction false} ParseFloatDigits(ds: string)
    requires IsDigitString(ds)
    ensures ParseFloat(ds) == Some(DigitsValue(ds) as real)
  {
    assert IsDigit(ds[0]);
    ParseUnsignedDigits(ds);
  }

  /** A sign followed by digits reads as a float with that sign. */
  lemma {:induction false} ParseFloatSigned(sign: char, ds: string)
    requires sign == '+' || sign == '-'
    requires IsDigitString(ds)
    ensures ParseFloat([sign] + ds) ==
      Some(if sign == '-' then -(DigitsValue(ds) as real) else DigitsValue(ds) as real)
  {
    var s := [sign] + ds;
    assert s[0] == sign && s[1..] == ds;
    ParseUnsignedDigits(ds);
  }

  lemma {:induction false} ParseUnsignedNonNegative(s: string)
    requires ParseUnsignedDecimal(s).Some?
    ensures ParseUnsignedDecimal(s).value >= 0.0
  {
  }

  // ---------------------------------------------------------------- dates

  /** `datetime.date`. */
  datatype Date = Date(year: int, month: int, day: int)

  predicate IsLeapYear(y: int) { y % 4 == 0 && (y % 100 != 0 || y % 400 == 0) }

  function DaysInMonth(y: int, m: int): int
    requires 1 <= m <= 12
  {
    if m == 2 then (if IsLeapYear(y) then 29 else 28)
    else if m == 4 || m == 6 || m == 9 || m == 11 then 30
    else 31
  }

  /** The date constructor's own checks (`ValueError` otherwise). */
  predicate IsValidDate(y: int, m: int, d: int) {
    1 <= y <= 9999 && 1 <= m <= 12 && 1 <= d <= DaysInMonth(y, m)
  }

  function MakeDate(y: int, m: int, d: int): (r: Option<Date>)
    ensures r.Some? <==> IsValidDate(y, m, d)
    ensures r.Some? ==> r.value == Date(y, m, d)
  {
    if IsValidDate(y, m, d) then Some(Date(y, m, d)) else None
  }
}

=== FILE: codes.dfy ===
/**
 * The per-field parsers and lookups: code descriptions, ring-number dot
 * padding, directions, place codes, decimal latitude and longitude, dates,
 * the combined co-ordinate field, and the shape checks on species and
 * ringing-scheme codes.  The reference tables loaded at import are
 * parameters (`map<string, string>`).
 */
module Codes {
  import opened Wrappers
  import opened Builtins
  import opened Exceptions
  import opened Utils
  import opened Coordinates
  import opened Values

  function Quoted(value: string): string { "Value \"" + value + "\"" }

  // ---------------------------------------------------------------- lookup_description

  /** How a field turns a code into its description. */
  datatype Lookup =
    | NoLookup
    | Table(table: map<string, string>)
    | Callable(f: Value -> Result<string, Error>)

  const NotValidCode := "is not a valid code."

  /**
   * `lookup_description`: no lookup gives no description, a callable is
   * applied to the value, and a table is indexed by it; a table holds text
   * keys only, so a value that is not text always misses.
   */
  function LookupDescription(value: Value, lookup: Lookup): (r: Result<Option<string>, Error>)
    requires lookup.Table? ==> HasText(value)
    ensures lookup.NoLookup? ==> r == Ok(None)
    ensures lookup.Table? ==> (r.Ok? <==> value.Str? && value.s in lookup.table)
    ensures lookup.Table? && r.Ok? ==> r.value == Some(lookup.table[value.s])
    ensures lookup.Table? && r.Err? ==> r.error == LookupFailure(Quoted(Text(value)) + NotValidCode)
    ensures lookup.Callable? ==> (r.Ok? <==> lookup.f(value).Ok?)
    ensures lookup.Callable? && r.Ok? ==> r.value == Some(lookup.f(value).value)
  {
    match lookup
    case NoLookup => Ok(None)
    case Callable(f) =>
      var d :- f(value);
      Ok(Some(d))
    case Table(table) =>
      if value.Str? && value.s in table then Ok(Some(table[value.s]))
      else Err(LookupFailure(Quoted(Text(value)) + NotValidCode))
  }

  /** A parser hook of a field: raw text to a value, or the exception it raises. */
  type Parser = string -> Result<Value, Error>

  /**
   * `describe` of a field: no lookup describes nothing, a callable gets the
   * value itself, and only a table needs the value's text.
   */
  function DescribeWith(lookup: Lookup, value: Value, floatRepr: real -> string): (r: Result<Option<string>, Error>)
    requires lookup.Table? ==> Renders(value)
    ensures lookup.NoLookup? ==> r == Ok(None)
    ensures lookup.Table? ==> (r.Ok? <==> Render(value, floatRepr) in lookup.table)
    ensures lookup.Table? && r.Ok? ==> r.value == Some(lookup.table[Render(value, floatRepr)])
    ensures lookup.Callable? ==> r == LookupDescription(value, lookup)
  {
    if lookup.Callable? then LookupDescription(value, lookup)
    else if lookup.NoLookup? then Ok(None)
    else LookupDescription(Str(Render(value, floatRepr)), lookup)
  }

  /**
   * A callable lookup is given the parsed value itself, so a coordinates
   * dictionary is described without taking its text.
   */
  lemma {:induction false} CallableDescribesCoordinates(g: Value -> Result<string, Error>, lat: real, lng: real,
                                                        floatRepr: real -> string)
    ensures var v := Coordinates(Some(lat), Some(lng));
      DescribeWith(Callable(g), v, floatRepr) == if g(v).Ok? then Ok(Some(g(v).value)) else Err(g(v).error)
  {
  }

  // ---------------------------------------------------------------- lookup_ring_number

  const DotsNotBeforeDigits := "Identification number (ring) padding dots must be immediately before the rightmost digits."
  const DotsNotLeading := "Identification number (ring) padding dots must be leading when no digits are present."

  /**
   * Where padding dots may stand: with digits present, every dot in front
   * of the rightmost digit run belongs to the block directly before it;
   * without digits, every dot is leading.
   */
  predicate DotsWellPlaced(value: string) {
    if LastDigit(value) >= 0 then
      forall i, j :: 0 <= i < j < DigitRunStart(value) ==> !(value[i] == '.' && value[j] != '.')
    else
      forall i, j :: 0 <= i < j < |value| ==> !(value[i] != '.' && value[j] == '.')
  }

  /** `lookup_ring_number`: checks the dot padding and removes it. */
  function LookupRingNumber(value: string): (r: Result<string, Error>)
    ensures r.Ok? <==> DotsWellPlaced(value)
    ensures r.Ok? ==> r.value == RemoveChar(value, '.')
    ensures '.' !in value ==> r == Ok(value)
    ensures r.Err? ==> r.error == ConstraintFailure(if LastDigit(value) >= 0 then DotsNotBeforeDigits else DotsNotLeading)
  {
    if value == [] then Ok(value)
    else if '.' !in value then
      RemoveCharAbsent(value, '.');
      NoDotsWellPlaced(value);
      Ok(value)
    else if LastDigit(value) >= 0 then
      var prefix := value[..DigitRunStart(value)];
      DotsBeforeRun(value);
      if '.' in RStrip(prefix, '.') then Err(ConstraintFailure(DotsNotBeforeDigits))
      else Ok(RemoveChar(value, '.'))
    else
      DotsWithoutRun(value);
      if '.' in LStrip(value, '.') then Err(ConstraintFailure(DotsNotLeading))
      else Ok(RemoveChar(value, '.'))
  }

  /** Text without dots has its dots well placed. */
  lemma {:induction false} NoDotsWellPlaced(value: string)
    requires '.' !in value
    ensures DotsWellPlaced(value)
  {
  }

  /** With digits present, a dot survives stripping the text before the run exactly when dots are misplaced. */
  lemma {:induction false} DotsBeforeRun(value: string)
    requires LastDigit(value) >= 0
    ensures '.' in RStrip(value[..DigitRunStart(value)], '.') <==> !DotsWellPlaced(value)
  {
    var p := value[..DigitRunStart(value)];
    RStripDot(p);
    assert forall i :: 0 <= i < |p| ==> p[i] == value[i];
  }

  /** Without digits, a dot survives `lstrip(".")` exactly when dots are misplaced. */
  lemma {:induction false} DotsWithoutRun(value: string)
    requires LastDigit(value) < 0
    ensures '.' in LStrip(value, '.') <==> !DotsWellPlaced(value)
  {
    LStripDot(value);
  }

  /** A dot survives `rstrip(".")` exactly when some non-dot follows it. */
  lemma {:induction false} RStripDot(p: string)
    ensures '.' in RStrip(p, '.') <==> exists i, j :: 0 <= i < j < |p| && p[i] == '.' && p[j] != '.'
  {
    var r := RStrip(p, '.');
    if '.' in r {
      var i :| 0 <= i < |r| && r[i] == '.';
      assert i < |r| - 1;
    }
    if exists i, j :: 0 <= i < j < |p| && p[i] == '.' && p[j] != '.' {
      var i, j :| 0 <= i < j < |p| && p[i] == '.' && p[j] != '.';
      assert r[i] == '.';
    }
  }

  /** A dot survives `lstrip(".")` exactly when some non-dot precedes it. */
  lemma {:induction false} LStripDot(v: string)
    ensures '.' in LStrip(v, '.') <==> exists i, j :: 0 <= i < j < |v| && v[i] != '.' && v[j] == '.'
  {
    StrippedDot(v, LStrip(v, '.'));
  }

  /** `LStripDot` for any suffix that drops only leading dots and starts with no dot. */
  lemma {:induction false} StrippedDot(v: string, r: string)
    requires |r| <= |v| && (r == [] || r[0] != '.')
    requires forall q :: 0 <= q < |r| ==> r[q] == v[|v| - |r| + q]
    requires forall q :: 0 <= q < |v| - |r| ==> v[q] == '.'
    ensures '.' in r <==> exists i, j :: 0 <= i < j < |v| && v[i] != '.' && v[j] == '.'
  {
    var s := |v| - |r|;
    if '.' in r {
      var q :| 0 <= q < |r| && r[q] == '.';
      assert v[s] != '.' && v[s + q] == '.';
    }
    if exists i, j :: 0 <= i < j < |v| && v[i] != '.' && v[j] == '.' {
      var i, j :| 0 <= i < j < |v| && v[i] != '.' && v[j] == '.';
      assert i >= s;
      assert r[j - s] == '.';
    }
  }

  /** The last digit and the start of its run, recognised from their defining facts. */
  lemma {:induction false} DigitRunStartUnique(t: string, j: nat, k: nat)
    requires k <= j < |t| && IsDigit(t[j])
    requires forall q :: j < q < |t| ==> !IsDigit(t[q])
    requires forall q :: k <= q <= j ==> IsDigit(t[q])
    requires k == 0 || !IsDigit(t[k - 1])
    ensures LastDigit(t) == j && DigitRunStart(t) == k
  {
    var l := LastDigit(t);
    assert l == j;
    var m := DigitRunStart(t);
  }

  /**
   * Exporting a ring number and reading it back gives the number again:
   * the padding the export inserts is always accepted and removed.
   */
  lemma {:induction false} RingNumberRoundTrip(t: string)
    requires IsRingText(t) && |t| <= IdentificationLength
    ensures LookupRingNumber(IdentificationExport(t)) == Ok(t)
  {
    assert forall i :: 0 <= i < |t| ==> IsRingChar(t[i]);
    assert '.' !in t;
    var r := IdentificationExport(t);
    if |t| < IdentificationLength {
      ExportedDotsWellPlaced(t);
      assert RemoveChar(r, '.') == t;
    } else {
      assert r == t;
    }
  }

  /** The dots the export inserts stand where the reading side accepts them. */
  lemma {:induction false} ExportedDotsWellPlaced(t: string)
    requires IsRingText(t) && |t| < IdentificationLength
    ensures DotsWellPlaced(IdentificationExport(t))
  {
    ExportLayout(t);
    if LastDigit(t) >= 0 {
      ExportedDotsBeforeDigits(t);
    } else {
      ExportedDotsLeading(t);
    }
  }

  lemma {:induction false} ExportedDotsBeforeDigits(t: string)
    requires IsRingText(t) && |t| < IdentificationLength && LastDigit(t) >= 0
    ensures DotsWellPlaced(IdentificationExport(t))
  {
    var r := IdentificationExport(t);
    var k := DigitRunStart(t);
    var n := IdentificationLength - |t|;
    var l := LastDigit(t);
    ExportLayout(t);
    SplicedBeforeRun(r, t, k, n, l);
  }

  /** Dots spliced in right before the last run of digits are well placed. */
  lemma {:induction false} SplicedBeforeRun(r: string, t: string, k: nat, n: nat, l: nat)
    requires Spliced(r, t, k, n) && 0 < n && k <= l < |t|
    requires forall q :: k <= q <= l ==> IsDigit(t[q])
    requires forall q :: l < q < |t| ==> !IsDigit(t[q])
    ensures DotsWellPlaced(r)
  {
    forall q | k + n <= q <= l + n ensures IsDigit(r[q]) {
      assert r[q] == t[q - n];
    }
    forall q | l + n < q < |r| ensures !IsDigit(r[q]) {
      assert r[q] == t[q - n];
    }
    DotsBlockBeforeRun(r, k, k + n, l + n);
  }

  /** Dots that stand between the non-dot prefix and the last run of digits are well placed. */
  lemma {:induction false} DotsBlockBeforeRun(r: string, k: nat, b: nat, l: nat)
    requires k < b <= l < |r|
    requires forall q :: 0 <= q < k ==> r[q] != '.'
    requires forall q :: k <= q < b ==> r[q] == '.'
    requires forall q :: b <= q <= l ==> IsDigit(r[q])
    requires forall q :: l < q < |r| ==> !IsDigit(r[q])
    ensures DotsWellPlaced(r)
  {
    DigitRunStartUnique(r, l, b);
    forall i, j | 0 <= i < j < b && r[i] == '.' ensures r[j] == '.' {
      assert i >= k;
    }
  }

  lemma {:induction false} ExportedDotsLeading(t: string)
    requires IsRingText(t) && |t| < IdentificationLength && LastDigit(t) < 0
    ensures DotsWellPlaced(IdentificationExport(t))
  {
    var r := IdentificationExport(t);
    var n := IdentificationLength - |t|;
    ExportLayout(t);
    LeadingDots(r, n);
  }

  /** In a text without digits, a block of leading dots is well placed. */
  lemma {:induction false} LeadingDots(r: string, n: nat)
    requires n <= |r|
    requires forall q :: 0 <= q < n ==> r[q] == '.'
    requires forall q :: n <= q < |r| ==> r[q] != '.' && !IsDigit(r[q])
    ensures DotsWellPlaced(r)
  {
    assert LastDigit(r) < 0;
    forall i, j | 0 <= i < j < |r| && r[j] == '.' ensures r[i] == '.' {
      assert j < n;
    }
  }

  /** The export, index by index: the text before the run, the dots, the run and the rest. */
  lemma {:induction false} ExportLayout(t: string)
    requires IsRingText(t) && |t| < IdentificationLength
    ensures Spliced(IdentificationExport(t), t, DigitRunStart(t), IdentificationLength - |t|)
  {
    var r := IdentificationExport(t);
    var k := DigitRunStart(t);
    var n := IdentificationLength - |t|;
    assert r[..k] == t[..k] && AllChar(r[k..k + n], '.') && r[k + n..] == t[k..];
    SplicedIndices(r, t, k, n);
  }

  /** `r` is `t` with `n` dots put in at `k`, and `t` itself has no dot. */
  predicate Spliced(r: string, t: string, k: nat, n: nat) {
    k <= |t| && |r| == |t| + n
    && (forall q :: 0 <= q < k ==> r[q] == t[q] && r[q] != '.')
    && (forall q :: k <= q < k + n ==> r[q] == '.')
    && (forall q :: k + n <= q < |r| ==> r[q] == t[q - n] && r[q] != '.')
  }

  /** A ring text with `n` dots spliced in at `k`, index by index. */
  lemma {:induction false} SplicedIndices(r: string, t: string, k: nat, n: nat)
    requires IsRingText(t) && k <= |t| && |r| == |t| + n
    requires r[..k] == t[..k] && AllChar(r[k..k + n], '.') && r[k + n..] == t[k..]
    ensures Spliced(r, t, k, n)
  {
    forall q | 0 <= q < k ensures r[q] == t[q] && r[q] != '.' {
      assert r[q] == r[..k][q] && IsRingChar(t[q]);
    }
    forall q | k <= q < k + n ensures r[q] == '.' {
      assert r[q] == r[k..k + n][q - k];
    }
    forall q | k + n <= q < |r| ensures r[q] == t[q - n] && r[q] != '.' {
      assert r[q] == r[k + n..][q - (k + n)] && t[q - n] == t[k..][q - (k + n)] && IsRingChar(t[q - n]);
    }
  }

  // ---------------------------------------------------------------- directions, places, coverts

  const NotValidDirectionSuffix := " is not a valid direction."

  function NotValidDirection(value: string): Error {
    ConstraintFailure(Quoted(value) + NotValidDirectionSuffix)
  }

  const DirectionRangeMessage := "Direction must be between 0 and 359 degrees."

  /**
   * `parse_direction`: hyphens give no direction; otherwise an unsigned
   * integer of at most 359 degrees.
   */
  function ParseDirection(value: string): (r: Result<Option<int>, Error>)
    ensures r == Ok(None) <==> IsAllHyphens(value)
    ensures r.Ok? <==> (IsAllHyphens(value) ||
      (!(|value| > 0 && value[0] == '-') && ParseInt(value).Some? && 0 <= ParseInt(value).value <= 359))
    ensures r.Ok? && r.value.Some? ==> 0 <= r.value.value <= 359 && ParseInt(value) == Some(r.value.value)
  {
    if IsAllHyphens(value) then Ok(None)
    else if |value| > 0 && value[0] == '-' then Err(NotValidDirection(value))
    else match ParseInt(value)
      case None => Err(NotValidDirection(value))
      case Some(parsed) =>
        if parsed < 0 || parsed > 359 then Err(ConstraintFailure(DirectionRangeMessage))
        else Ok(Some(parsed))
  }

  /** Every direction, written as three digits, reads back as itself. */
  lemma {:induction false} DirectionRoundTrip(n: nat)
    requires n <= 359
    ensures ParseDirection(Padded(n, 3)) == Ok(Some(n))
  {
    var s := Padded(n, 3);
    PaddedValue(n, 3);
    assert IsDigit(s[0]) && !IsAllHyphens(s);
    ParseIntDigits(s);
  }

  /** `[A-Z]{2}([A-Z]{2}|[0-9]{2}|--)` on exactly four characters. */
  predicate IsPlaceCodeShape(s: string) {
    |s| == 4 && IsUpper(s[0]) && IsUpper(s[1])
    && ((IsUpper(s[2]) && IsUpper(s[3])) || (IsDigit(s[2]) && IsDigit(s[3])) || (s[2] == '-' && s[3] == '-'))
  }

  /** `re.match` with a trailing `$`, which also matches before a final newline. */
  predicate MatchesPlaceCode(s: string) {
    IsPlaceCodeShape(s) || (|s| == 5 && s[4] == '\n' && IsPlaceCodeShape(s[..4]))
  }

  const NotValidPlaceCode := " is not a valid place code format."

  /** `parse_place_code`: the value itself when it has the place-code shape. */
  function ParsePlaceCode(value: string): (r: Result<string, Error>)
    ensures r.Ok? ==> r.value == value
    ensures r.Err? ==> r.error == ConstraintFailure(Quoted(value) + NotValidPlaceCode)
  {
    if MatchesPlaceCode(value) then Ok(value)
    else Err(ConstraintFailure(Quoted(value) + NotValidPlaceCode))
  }

  /**
   * The accepted place codes are the four-character shapes, plus the same
   * shapes followed by one newline.
   */
  lemma {:induction false} PlaceCodeAccepted(value: string)
    ensures |value| == 4 ==> (ParsePlaceCode(value).Ok? <==> IsPlaceCodeShape(value))
    ensures ParsePlaceCode(value).Ok? ==> |value| == 4 || (|value| == 5 && value[4] == '\n')
    ensures ParsePlaceCode(value).Ok? ==> IsPlaceCodeShape(value[..4])
  {
    if |value| == 4 {
      assert value[..4] == value;
    }
  }

  const NotValidCoverts := " is not a valid Old Greater Coverts code."

  /** `parse_old_greater_coverts`: one of "0" to "9" or "A". */
  function ParseOldGreaterCoverts(value: string): (r: Result<string, Error>)
    ensures r.Ok? <==> |value| == 1 && (IsDigit(value[0]) || value[0] == 'A')
    ensures r.Ok? ==> r.value == value
  {
    if |value| == 1 && (IsDigit(value[0]) || value[0] == 'A') then Ok(value)
    else Err(ConstraintFailure(Quoted(value) + NotValidCoverts))
  }

  /** The accepted codes are exactly the one-digit texts of 0..9 and "A". */
  lemma {:induction false} OldGreaterCovertsCodes(value: string)
    ensures ParseOldGreaterCoverts(value).Ok? <==>
      value == "A" || exists n :: 0 <= n < 10 && value == NatToString(n)
  {
    if |value| == 1 && IsDigit(value[0]) {
      var n := DigitValue(value[0]);
      assert n < 10 && DigitChar(n) == value[0];
      assert value == [DigitChar(n)] == NatToString(n);
    }
    if exists n :: 0 <= n < 10 && value == NatToString(n) {
      var n :| 0 <= n < 10 && value == NatToString(n);
      assert value == [DigitChar(n)];
      assert |value| == 1 && IsDigit(value[0]);
    }
  }

  // ---------------------------------------------------------------- decimal latitude and longitude

  /** The text after the first dot: `value.split(".", 1)[1]`. */
  function DecimalPart(value: string): string
    requires '.' in value
  {
    value[IndexOf(value, '.') + 1..]
  }

  const MustBeBetween := " must be between -"
  const MustHaveAtMost := " must have at most "
  const DecimalPlaces := " decimal places."

  /** `_parse_decimal_coordinate`: a float within the range, with few decimals. */
  function ParseDecimalCoordinate(value: string, maxAbs: nat, maxDecimals: nat, fieldName: string): (r: Result<real, Error>)
    ensures r.Ok? <==> (ParseFloat(value).Some? && Abs(ParseFloat(value).value) <= maxAbs as real
      && ('.' in value ==> |DecimalPart(value)| <= maxDecimals))
    ensures r.Ok? ==> r.value == ParseFloat(value).value
    ensures r.Err? ==> r.error.EuringError? && r.error.kind == Constraint
  {
    match ParseFloat(value)
    case None => Err(ConstraintFailure(Quoted(value) + " is not a valid " + fieldName + "."))
    case Some(parsed) =>
      if Abs(parsed) > maxAbs as real then
        Err(ConstraintFailure(fieldName + MustBeBetween + NatToString(maxAbs) + " and " + NatToString(maxAbs) + "."))
      else if '.' in value && |DecimalPart(value)| > maxDecimals then
        Err(ConstraintFailure(fieldName + MustHaveAtMost + NatToString(maxDecimals) + DecimalPlaces))
      else Ok(parsed)
  }

  /** `parse_latitude`: at most 90 degrees either way and four decimals. */
  function ParseLatitude(value: string): (r: Result<real, Error>)
    ensures r.Ok? ==> -90.0 <= r.value <= 90.0
    ensures r.Ok? ==> ParseFloat(value) == Some(r.value)
    ensures r.Ok? && '.' in value ==> |DecimalPart(value)| <= 4
  {
    ParseDecimalCoordinate(value, 90, 4, "Latitude")
  }

  /** `parse_longitude`: at most 180 degrees either way and four decimals. */
  function ParseLongitude(value: string): (r: Result<real, Error>)
    ensures r.Ok? ==> -180.0 <= r.value <= 180.0
    ensures r.Ok? ==> ParseFloat(value) == Some(r.value)
    ensures r.Ok? && '.' in value ==> |DecimalPart(value)| <= 4
  {
    ParseDecimalCoordinate(value, 180, 4, "Longitude")
  }

  /** Whole degrees within the range are accepted as they are written. */
  lemma {:induction false} WholeDegreesAccepted(n: nat, maxAbs: nat, maxDecimals: nat, fieldName: string)
    requires n <= maxAbs
    ensures ParseDecimalCoordinate(NatToString(n), maxAbs, maxDecimals, fieldName) == Ok(n as real)
  {
    var s := NatToString(n);
    NatToStringValue(n);
    ParseFloatDigits(s);
    assert '.' !in s by {
      assert forall i :: 0 <= i < |s| ==> IsDigit(s[i]);
    }
  }

  /** A fifth decimal place is refused, whatever the value. */
  lemma {:induction false} FifthDecimalRefused(ip: string, fp: string)
    requires IsDigitString(ip) && AllDigits(fp) && |fp| == 5
    ensures ParseLatitude(ip + "." + fp).Err?
    ensures ParseLongitude(ip + "." + fp).Err?
  {
    var v := ip + "." + fp;
    assert v[|ip|] == '.';
    assert forall i :: 0 <= i < |ip| ==> v[i] == ip[i];
    var d := IndexOf(v, '.');
    assert forall e :: |ip| < e <= |v| ==> v[..e][|ip|] == '.';
    assert d == |ip|;
    assert DecimalPart(v) == fp;
  }

  // ---------------------------------------------------------------- dates

  const NotValidDateSuffix := " is not a valid EURING date."

  function NotValidDate(value: string): Error {
    ConstraintFailure(Quoted(value) + NotValidDateSuffix)
  }

  /** The text `lookup_date` splits: digit strings shorter than 8 are zero-filled. */
  function DateText(value: string): string {
    if IsDigitString(value) && |value| < 8 then Zfill(value, 8) else value
  }

  /** `lookup_date`: ddmmyyyy, read by `int()` on each slice, as a calendar date. */
  function LookupDate(value: string): (r: Result<Date, Error>)
    ensures r.Err? ==> r.error == NotValidDate(value)
    ensures r.Ok? ==> IsValidDate(r.value.year, r.value.month, r.value.day)
    ensures r.Ok? ==> (ParseInt(Slice(DateText(value), 0, 2)) == Some(r.value.day)
      && ParseInt(Slice(DateText(value), 2, 4)) == Some(r.value.month)
      && ParseInt(Slice(DateText(value), 4, 8)) == Some(r.value.year))
  {
    var v := DateText(value);
    match (ParseInt(Slice(v, 0, 2)), ParseInt(Slice(v, 2, 4)), ParseInt(Slice(v, 4, 8)))
    case (Some(day), Some(month), Some(year)) =>
      (match MakeDate(year, month, day)
       case Some(d) => Ok(d)
       case None => Err(NotValidDate(value)))
    case _ => Err(NotValidDate(value))
  }

  /** The ddmmyyyy text of a date. */
  function DateDigits(d: Date): string
    requires 0 <= d.day && 0 <= d.month && 0 <= d.year
  {
    Padded(d.day, 2) + Padded(d.month, 2) + Padded(d.year, 4)
  }

  /** Every calendar date, written as ddmmyyyy, reads back as itself. */
  lemma {:induction false} DateRoundTrip(d: Date)
    requires IsValidDate(d.year, d.month, d.day)
    ensures LookupDate(DateDigits(d)) == Ok(d)
  {
    var a := Padded(d.day, 2);
    var b := Padded(d.month, 2);
    var c := Padded(d.year, 4);
    var v := a + b + c;
    assert v[0..2] == a && v[2..4] == b && v[4..8] == c;
    assert !(|v| < 8);
    PaddedValue(d.day, 2);
    PaddedValue(d.month, 2);
    PaddedValue(d.year, 4);
    assert IsDigit(a[0]) && IsDigit(b[0]) && IsDigit(c[0]);
    ParseIntDigits(a);
    ParseIntDigits(b);
    ParseIntDigits(c);
  }

  /** A day above 31 or a month above 12 is refused. */
  lemma {:induction false} ImpossibleDayOrMonthRefused(value: string)
    requires |value| == 8 && AllDigits(value)
    requires DigitsValue(value[..2]) > 31 || DigitsValue(value[2..4]) > 12
    ensures LookupDate(value).Err?
  {
    assert DateText(value) == value;
    assert forall i :: 0 <= i < 2 ==> value[..2][i] == value[i];
    assert forall i :: 0 <= i < 2 ==> value[2..4][i] == value[2 + i];
    assert IsDigit(value[0]) && IsDigit(value[2]);
    ParseIntDigits(value[..2]);
    ParseIntDigits(value[2..4]);
    assert Slice(value, 0, 2) == value[..2];
  }

  /** Characters after the eighth are never read. */
  lemma {:induction false} DateIgnoresTail(value: string, tail: string)
    requires |value| == 8
    ensures LookupDate(value + tail).Ok? == LookupDate(value).Ok?
    ensures LookupDate(value + tail).Ok? ==> LookupDate(value + tail).value == LookupDate(value).value
  {
    var v := value + tail;
    assert DateText(v) == v && DateText(value) == value;
    assert v[0..2] == value[0..2] && v[2..4] == value[2..4] && v[4..8] == value[4..8];
  }

  const AllDashesDateMessage := "Date cannot be all dashes; provide an estimated real date instead."

  /** `parse_date`: the raw text, unless it is all hyphens. */
  function ParseDate(value: string): (r: Result<string, Error>)
    ensures r.Ok? <==> !IsAllHyphens(value)
    ensures r.Ok? ==> r.value == value
  {
    if IsAllHyphens(value) then
      Err(ConstraintFailure(AllDashesDateMessage))
    else Ok(value)
  }

  // ---------------------------------------------------------------- the combined co-ordinate field

  /** Fifteen dots: the placeholder for unknown co-ordinates. */
  const NoCoordinates := Repeat('.', 15)

  /**
   * `parse_geographical_coordinates`: fifteen dots give no position; any
   * other text is validated and then decoded.
   */
  function ParseGeographicalCoordinates(value: Option<string>): (r: Result<Option<(real, real)>, Error>)
    ensures r.Ok? <==> value.Some? && (value.value == NoCoordinates || IsCoordinatesText(value.value))
    ensures r.Ok? && r.value.None? ==> value == Some(NoCoordinates)
    ensures r.Ok? && r.value.Some? ==> (IsCoordinatesText(value.value)
      && r.value.value == (ComponentValue(value.value[..7], 2), ComponentValue(value.value[7..], 3)))
  {
    if value.None? then Err(NotValid("None"))
    else if value.value == NoCoordinates then Ok(None)
    else
      var check := ValidateCoordinates(value);
      if check.Fail? then Err(check.error)
      else
        DecodeValidCoordinates(value.value);
        Ok(Some(CoordinatesToLatLng(value.value).value))
  }

  /**
   * `parse_geographical_coordinates` as written: the same checks, but each
   * component is decoded by the as-written reading, which drops the minus
   * sign of zero degrees.
   */
  function ParseGeographicalCoordinatesAsWritten(value: Option<string>): (r: Result<Option<(real, real)>, Error>)
    ensures r.Ok? <==> ParseGeographicalCoordinates(value).Ok?
    ensures r.Ok? && r.value.None? ==> value == Some(NoCoordinates)
    ensures r.Ok? && r.value.Some? ==> (IsCoordinatesText(value.value)
      && r.value.value == (ComponentValueAsWritten(value.value[..7], 2), ComponentValueAsWritten(value.value[7..], 3)))
  {
    if value.None? then Err(NotValid("None"))
    else if value.value == NoCoordinates then Ok(None)
    else
      var check := ValidateCoordinates(value);
      if check.Fail? then Err(check.error)
      else
        DecodeValidCoordinates(value.value);
        Ok(Some(CoordinatesToLatLngAsWritten(value.value).value))
  }

  /** The value a valid component text stands for. */
  function ComponentValue(value: string, degreesDigits: nat): real
    requires |value| == 1 + degreesDigits + 4
    requires AllDigits(value[1..1 + degreesDigits]) && AllDigits(value[1 + degreesDigits..3 + degreesDigits])
    requires AllDigits(value[3 + degreesDigits..])
  {
    TextValue(value[0], value[1..1 + degreesDigits], value[1 + degreesDigits..3 + degreesDigits], value[3 + degreesDigits..])
  }

  /** The value the as-written reading gives a valid component text: no sign when the degrees are zero. */
  function ComponentValueAsWritten(value: string, degreesDigits: nat): real
    requires |value| == 1 + degreesDigits + 4
    requires AllDigits(value[1..1 + degreesDigits]) && AllDigits(value[1 + degreesDigits..3 + degreesDigits])
    requires AllDigits(value[3 + degreesDigits..])
  {
    var dt := value[1..1 + degreesDigits];
    TextValue(if DigitsValue(dt) == 0 then '+' else value[0], dt, value[1 + degreesDigits..3 + degreesDigits], value[3 + degreesDigits..])
  }

  /** A valid component decodes, to the value it stands for; as written, to that value without the sign of zero degrees. */
  lemma {:induction false} DecodeValidComponent(value: string, degreesDigits: nat, maxDegrees: nat)
    requires IsComponentText(value, degreesDigits, maxDegrees)
    ensures CoordinateToDecimal(value) == Ok(ComponentValue(value, degreesDigits))
    ensures CoordinateToDecimalAsWritten(value) == Ok(ComponentValueAsWritten(value, degreesDigits))
  {
    var dt := value[1..1 + degreesDigits];
    var mt := value[1 + degreesDigits..3 + degreesDigits];
    var st := value[3 + degreesDigits..];
    assert value == [value[0]] + dt + mt + st;
    DecodeComponent(value[0], dt, mt, st);
  }

  /** Validated co-ordinate text always decodes. */
  lemma {:induction false} DecodeValidCoordinates(value: string)
    requires IsCoordinatesText(value)
    ensures CoordinatesToLatLng(value) == Ok((ComponentValue(value[..7], 2), ComponentValue(value[7..], 3)))
    ensures CoordinatesToLatLngAsWritten(value) ==
      Ok((ComponentValueAsWritten(value[..7], 2), ComponentValueAsWritten(value[7..], 3)))
  {
    assert Slice(value, 0, 7) == value[..7];
    assert Slice(value, 7, |value|) == value[7..];
    DecodeValidComponent(value[..7], 2, 90);
    DecodeValidComponent(value[7..], 3, 180);
  }

  // ---------------------------------------------------------------- species and ringing-scheme codes

  const NotValidSpeciesFormat := " is not a valid EURING species code format."

  function NotSpeciesFormat(value: string): Error {
    ConstraintFailure(Quoted(value) + NotValidSpeciesFormat)
  }

  /** The shape of a species code: five characters that `int()` reads. */
  predicate IsSpeciesCodeShape(value: string) {
    ParseInt(value).Some? && |value| == 5
  }

  const SpeciesNotFound := " is a valid EURING species code format but was not found."

  /**
   * `lookup_species`: a code with a non-empty description in the table is
   * found; otherwise a badly shaped code is a constraint error and a well
   * shaped unknown one a lookup error.
   */
  function LookupSpecies(value: string, table: map<string, string>): (r: Result<string, Error>)
    ensures r.Ok? <==> value in table && table[value] != ""
    ensures r.Ok? ==> r.value == table[value]
    ensures r.Err? ==> (r.error == NotSpeciesFormat(value) <==> !IsSpeciesCodeShape(value))
    ensures r.Err? && IsSpeciesCodeShape(value) ==>
      r.error == LookupFailure(Quoted(value) + SpeciesNotFound)
  {
    if value in table && table[value] != "" then Ok(table[value])
    else if ParseInt(value).None? then Err(NotSpeciesFormat(value))
    else if |value| != 5 then Err(NotSpeciesFormat(value))
    else Err(LookupFailure(Quoted(value) + SpeciesNotFound))
  }

  /** `^[A-Z]{3}$` under `re.match`, so a final newline is also allowed. */
  predicate MatchesSchemePattern(s: string) {
    (|s| == 3 || (|s| == 4 && s[3] == '\n')) && IsUpper(s[0]) && IsUpper(s[1]) && IsUpper(s[2])
  }

  const UnknownSchemePrefix := "Unknown ringing scheme ("
  const NotValidScheme := " is not a valid EURING ringing scheme code."

  /**
   * `lookup_ringing_scheme`: the upper-cased code is looked up; an unknown
   * code of three capitals is accepted with a stand-in description.
   */
  function LookupRingingScheme(value: string, table: map<string, string>): (r: Result<string, Error>)
    ensures var v := Upper(value);
      r.Ok? <==> (v in table && table[v] != "") || MatchesSchemePattern(v)
    ensures var v := Upper(value);
      r.Ok? && !(v in table && table[v] != "") ==> r.value == UnknownSchemePrefix + v + ")."
    ensures r.Err? ==> r.error == LookupFailure(Quoted(value) + NotValidScheme)
  {
    var v := Upper(value);
    if v in table && table[v] != "" then Ok(table[v])
    else if MatchesSchemePattern(v) then Ok(UnknownSchemePrefix + v + ").")
    else Err(LookupFailure(Quoted(value) + NotValidScheme))
  }

  /** Any three letters, in either case, are accepted as a scheme code. */
  lemma {:induction false} ThreeLettersAccepted(value: string, table: map<string, string>)
    requires |value| == 3 && IsAlphaString(value)
    ensures LookupRingingScheme(value, table).Ok?
  {
    var v := Upper(value);
    assert IsLetter(value[0]) && IsLetter(value[1]) && IsLetter(value[2]);
    assert IsUpper(v[0]) && IsUpper(v[1]) && IsUpper(v[2]);
  }
}

=== FILE: coordinates.dfy ===
/**
 * The EURING geographical co-ordinate codec: a signed decimal degree value
 * and its text form, sign + degrees (two digits for latitude, three for
 * longitude) + two digits of minutes + two digits of seconds, and the
 * 15-character field holding latitude then longitude.
 *
 * Python floats are modelled as exact reals, so the arithmetic is exact.
 */
module Coordinates {
  import opened Wrappers
  import opened Builtins
  import opened Exceptions

  // ---------------------------------------------------------------- real helpers

  function Abs(x: real): real { if x < 0.0 then -x else x }

  function IAbs(i: int): nat { if i < 0 then -i else i }

  /** `int(x)`: truncation toward zero. */
  function Trunc(x: real): (r: int)
    ensures x >= 0.0 ==> r >= 0 && r as real <= x < r as real + 1.0
    ensures x < 0.0 ==> r <= 0 && r as real - 1.0 < x <= r as real
    ensures IAbs(r) as real <= Abs(x) < IAbs(r) as real + 1.0
  {
    if x >= 0.0 then x.Floor else -((-x).Floor)
  }

  /** `round(x)`: to the nearest integer, ties to the even one. */
  function RoundHalfEven(x: real): (r: int)
    ensures -0.5 <= r as real - x <= 0.5
    ensures x == x.Floor as real ==> r == x.Floor
  {
    var f := x.Floor;
    var d := x - f as real;
    if d < 0.5 then f
    else if d > 0.5 then f + 1
    else if f % 2 == 0 then f else f + 1
  }

  // ---------------------------------------------------------------- decimal to components

  /** Degrees, minutes and seconds of a decimal value. */
  datatype Components = Components(quadrant: char, degrees: int, minutes: int, seconds: int)

  /**
   * The degrees, minutes and rounded seconds of a decimal value, after the
   * carries: 60 seconds become a minute and 60 minutes a degree further from
   * zero. The result is within half a second of arc of the value.
   */
  function DegreesMinutesSeconds(value: real): (dms: (int, int, int))
    ensures 0 <= dms.1 <= 59 && 0 <= dms.2 <= 59
    ensures dms.0 < 0 <==> Trunc(value) < 0
    ensures IAbs(dms.0) >= IAbs(Trunc(value))
    ensures -1.0 / 7200.0 <= Magnitude(dms) - Abs(value) <= 1.0 / 7200.0
  {
    var degrees := Trunc(value);
    var minutes := Trunc(Subminutes(value));
    var exact := ExactSeconds(value);
    assert Abs(value) == IAbs(degrees) as real + minutes as real / 60.0 + exact / 3600.0;
    Carry(degrees, minutes, RoundHalfEven(exact))
  }

  /** `abs((value - int(value)) * 60)`: the minutes, with their fraction. */
  function Subminutes(value: real): (r: real)
    ensures 0.0 <= r < 60.0
    ensures Abs(value) == IAbs(Trunc(value)) as real + r / 60.0
  {
    Abs((value - Trunc(value) as real) * 60.0)
  }

  /** The seconds left over after the whole minutes, before rounding. */
  function ExactSeconds(value: real): (r: real)
    ensures 0.0 <= r < 60.0
    ensures Subminutes(value) == Trunc(Subminutes(value)) as real + r / 60.0
  {
    var submin := Subminutes(value);
    Abs((submin - Trunc(submin) as real) * 60.0)
  }

  /** 60 seconds make a minute, and 60 minutes a degree further from zero. */
  function Carry(degrees: int, minutes: int, seconds: int): (dms: (int, int, int))
    requires 0 <= minutes <= 59 && 0 <= seconds <= 60
    ensures 0 <= dms.1 <= 59 && 0 <= dms.2 <= 59
    ensures dms.0 < 0 <==> degrees < 0
    ensures IAbs(dms.0) >= IAbs(degrees)
    ensures Magnitude(dms) == Magnitude((degrees, minutes, seconds))
  {
    if seconds < 60 then (degrees, minutes, seconds)
    else if minutes < 59 then (degrees, minutes + 1, 0)
    else (if degrees >= 0 then degrees + 1 else degrees - 1, 0, 0)
  }

  /** The unsigned value a degrees/minutes/seconds triple stands for. */
  function Magnitude(dms: (int, int, int)): real {
    IAbs(dms.0) as real + dms.1 as real / 60.0 + dms.2 as real / 3600.0
  }

  /**
   * `_decimal_to_euring_coordinate_components` as written: the quadrant is
   * the sign of the truncated degrees, so a value strictly between -1 and 0
   * gets "+".
   */
  function ComponentsAsWritten(value: real): (c: Components)
    ensures c.quadrant == (if Trunc(value) < 0 then '-' else '+')
    ensures 0 <= c.minutes <= 59 && 0 <= c.seconds <= 59
    ensures (c.degrees, c.minutes, c.seconds) == DegreesMinutesSeconds(value)
  {
    var dms := DegreesMinutesSeconds(value);
    Components(if Trunc(value) < 0 then '-' else '+', dms.0, dms.1, dms.2)
  }

  /**
   * The components with the quadrant taken from the sign of the value
   * itself, so that the text keeps the sign of every negative value.
   */
  function DecimalToComponents(value: real): (c: Components)
    ensures c.quadrant == '-' <==> value < 0.0
    ensures c.quadrant == '+' || c.quadrant == '-'
    ensures 0 <= c.minutes <= 59 && 0 <= c.seconds <= 59
    ensures -1.0 / 7200.0 <= Magnitude((c.degrees, c.minutes, c.seconds)) - Abs(value) <= 1.0 / 7200.0
  {
    var dms := DegreesMinutesSeconds(value);
    Components(if value < 0.0 then '-' else '+', dms.0, dms.1, dms.2)
  }

  /** The text of components: quadrant, |degrees| zero-filled to the width, minutes, seconds. */
  function FormatComponents(c: Components, degreesWidth: nat): string
    requires 0 <= c.minutes && 0 <= c.seconds
  {
    [c.quadrant] + Zfill(NatToString(IAbs(c.degrees)), degreesWidth)
      + Zfill(NatToString(c.minutes), 2) + Zfill(NatToString(c.seconds), 2)
  }

  /**
   * `_decimal_to_euring_coordinate` as written: the text starts with "-"
   * only when the value is -1 or below.
   */
  function DecimalToCoordinateAsWritten(value: real, degreesWidth: nat): (r: string)
    ensures |r| >= 1 + degreesWidth + 4
    ensures r[0] == '-' <==> value <= -1.0
  {
    var c := ComponentsAsWritten(value);
    ZfillDigitsOf(IAbs(c.degrees), degreesWidth);
    ZfillDigitsOf(c.minutes, 2);
    ZfillDigitsOf(c.seconds, 2);
    FormatComponents(c, degreesWidth)
  }

  /** `_decimal_to_euring_coordinate`, keeping the sign of values between -1 and 0. */
  function DecimalToCoordinate(value: real, degreesWidth: nat): (r: string)
    ensures |r| >= 1 + degreesWidth + 4
    ensures r[0] == '-' <==> value < 0.0
  {
    var c := DecimalToComponents(value);
    ZfillDigitsOf(IAbs(c.degrees), degreesWidth);
    ZfillDigitsOf(c.minutes, 2);
    ZfillDigitsOf(c.seconds, 2);
    FormatComponents(c, degreesWidth)
  }

  /** `lat_lng_to_euring_coordinates`, keeping the sign of values between -1 and 0. */
  function LatLngToCoordinates(lat: real, lng: real): (r: string)
    ensures r == DecimalToCoordinate(lat, 2) + DecimalToCoordinate(lng, 3)
    ensures r[0] == '-' <==> lat < 0.0
    ensures r[|DecimalToCoordinate(lat, 2)|] == '-' <==> lng < 0.0
  {
    DecimalToCoordinate(lat, 2) + DecimalToCoordinate(lng, 3)
  }

  /** `lat_lng_to_euring_coordinates` as written. */
  function LatLngToCoordinatesAsWritten(lat: real, lng: real): string {
    DecimalToCoordinateAsWritten(lat, 2) + DecimalToCoordinateAsWritten(lng, 3)
  }

  // ---------------------------------------------------------------- text to decimal

  /** `len(s) - k` clamped at zero, as a negative slice bound behaves. */
  function Back(n: nat, k: nat): nat { if n >= k then n - k else 0 }

  /** `value[:-4]`, `value[-4:-2]` and `value[-2:]`. */
  function DegreesText(value: string): string { value[..Back(|value|, 4)] }
  function MinutesText(value: string): string { value[Back(|value|, 4)..Back(|value|, 2)] }
  function SecondsText(value: string): string { value[Back(|value|, 2)..] }

  const CouldNotParse := "Could not parse coordinate \"{value}\" to decimal."

  /** The three parts read by `float()`, if each of them reads. */
  function Parts(value: string): Option<(real, real, real)> {
    var d :- ParseFloat(DegreesText(value));
    var m :- ParseFloat(MinutesText(value));
    var s :- ParseFloat(SecondsText(value));
    Some((d, m, s))
  }

  /** The unsigned value of degrees, minutes and seconds. */
  function PartsMagnitude(parts: (real, real, real)): real {
    Abs(parts.0) + parts.1 / 60.0 + parts.2 / 3600.0
  }

  /**
   * `_euring_coordinate_to_decimal` as written: the value is negative only
   * when the degree part reads as a negative number, so "-00" degrees give
   * a positive value.
   */
  function CoordinateToDecimalAsWritten(value: string): (r: Result<real, Error>)
    ensures r.Err? ==> r.error == ConstraintFailure(CouldNotParse)
  {
    match Parts(value)
    case None => Err(ConstraintFailure(CouldNotParse))
    case Some(p) => Ok(if p.0 < 0.0 then -PartsMagnitude(p) else PartsMagnitude(p))
  }

  /** The degree part of a co-ordinate text carries a minus sign. */
  predicate MinusSign(degrees: string) { |degrees| > 0 && degrees[0] == '-' }

  /**
   * `_euring_coordinate_to_decimal`, with the sign read from the text of the
   * degrees, so that "-00" degrees give a negative value.
   */
  function CoordinateToDecimal(value: string): (r: Result<real, Error>)
    ensures r.Err? ==> r.error == ConstraintFailure(CouldNotParse)
  {
    match Parts(value)
    case None => Err(ConstraintFailure(CouldNotParse))
    case Some(p) => Ok(if MinusSign(DegreesText(value)) then -PartsMagnitude(p) else PartsMagnitude(p))
  }

  /** The degrees of a co-ordinate text are a zero written with a minus sign. */
  predicate MinusZeroDegrees(value: string) {
    MinusSign(DegreesText(value)) && ParseFloat(DegreesText(value)) == Some(0.0)
  }

  /**
   * The two readings fail on the same texts and differ only where the
   * degrees are a minus-signed zero.
   */
  lemma {:induction false} DecodeDiffersOnlyOnMinusZero(value: string)
    ensures CoordinateToDecimal(value).Ok? <==> CoordinateToDecimalAsWritten(value).Ok?
    ensures CoordinateToDecimal(value).Ok? && CoordinateToDecimal(value) != CoordinateToDecimalAsWritten(value) ==>
      MinusZeroDegrees(value)
  {
    var dt := DegreesText(value);
    match Parts(value)
    case None =>
    case Some(p) =>
      assert ParseFloat(dt) == Some(p.0);
      ParseFloatSign(dt);
      if MinusSign(dt) && p.0 != 0.0 {
        assert p.0 < 0.0;
      }
  }

  /** A parsed text is negative only with a leading minus, and with one it is not positive. */
  lemma {:induction false} ParseFloatSign(s: string)
    requires ParseFloat(s).Some?
    ensures !MinusSign(s) ==> ParseFloat(s).value >= 0.0
    ensures MinusSign(s) ==> ParseFloat(s).value <= 0.0
    ensures ParseFloat(s).value < 0.0 ==> MinusSign(s)
  {
    if |s| > 0 && (s[0] == '+' || s[0] == '-') {
      ParseUnsignedNonNegative(s[1..]);
    } else {
      ParseUnsignedNonNegative(s);
    }
  }

  /** `euring_coordinates_to_lat_lng`: the first seven characters are the latitude. */
  function CoordinatesToLatLng(value: string): (r: Result<(real, real), Error>)
    ensures r.Ok? <==> CoordinateToDecimal(Slice(value, 0, 7)).Ok? && CoordinateToDecimal(Slice(value, 7, |value|)).Ok?
    ensures r.Ok? ==> r.value == (CoordinateToDecimal(Slice(value, 0, 7)).value, CoordinateToDecimal(Slice(value, 7, |value|)).value)
  {
    var lat :- CoordinateToDecimal(Slice(value, 0, 7));
    var lng :- CoordinateToDecimal(Slice(value, 7, |value|));
    Ok((lat, lng))
  }

  /** `euring_coordinates_to_lat_lng` as written. */
  function CoordinatesToLatLngAsWritten(value: string): Result<(real, real), Error> {
    var lat :- CoordinateToDecimalAsWritten(Slice(value, 0, 7));
    var lng :- CoordinateToDecimalAsWritten(Slice(value, 7, |value|));
    Ok((lat, lng))
  }

  // ---------------------------------------------------------------- validation

  const NotValidCoordinates := "\" is not a valid set of coordinates."

  function NotValid(value: string): Error {
    ConstraintFailure("Value \"" + value + NotValidCoordinates)
  }

  /**
   * A co-ordinate component: a sign, `degreesDigits` digits of degrees at
   * most `maxDegrees`, two digits of minutes and two of seconds, each at
   * most 59.
   */
  predicate IsComponentText(value: string, degreesDigits: nat, maxDegrees: nat) {
    |value| == 1 + degreesDigits + 4
    && (value[0] == '+' || value[0] == '-')
    && IsDigitString(value[1..1 + degreesDigits])
    && IsDigitString(value[1 + degreesDigits..3 + degreesDigits])
    && IsDigitString(value[3 + degreesDigits..])
    && DigitsValue(value[1..1 + degreesDigits]) <= maxDegrees
    && DigitsValue(value[1 + degreesDigits..3 + degreesDigits]) <= 59
    && DigitsValue(value[3 + degreesDigits..]) <= 59
  }

  /** `_validate_euring_coordinate_component`. */
  function ValidateComponent(value: Option<string>, degreesDigits: nat, maxDegrees: nat): (r: Outcome<Error>)
    ensures r.Pass? <==> value.Some? && IsComponentText(value.value, degreesDigits, maxDegrees)
    ensures r.Fail? && value.Some? ==> r.error == NotValid(value.value)
    ensures r.Fail? && value.None? ==> r.error == NotValid("None")
  {
    if value.None? then Fail(NotValid("None"))
    else
      var v := value.value;
      if |v| != 1 + degreesDigits + 2 + 2 then Fail(NotValid(v))
      else if v[0] != '+' && v[0] != '-' then Fail(NotValid(v))
      else
        var degrees := v[1..1 + degreesDigits];
        var minutes := v[1 + degreesDigits..1 + degreesDigits + 2];
        var seconds := v[1 + degreesDigits + 2..];
        if !(IsDigitString(degrees) && IsDigitString(minutes) && IsDigitString(seconds)) then Fail(NotValid(v))
        else if DigitsValue(degrees) > maxDegrees || DigitsValue(minutes) > 59 || DigitsValue(seconds) > 59 then
          Fail(NotValid(v))
        else Pass
  }

  /** The 15-character field: latitude (2 degree digits, at most 90) then longitude (3, at most 180). */
  predicate IsCoordinatesText(value: string) {
    |value| == 15 && IsComponentText(value[..7], 2, 90) && IsComponentText(value[7..], 3, 180)
  }

  /** `_validate_euring_coordinates`. */
  function ValidateCoordinates(value: Option<string>): (r: Outcome<Error>)
    ensures r.Pass? <==> value.Some? && IsCoordinatesText(value.value)
  {
    if value.None? then Fail(NotValid("None"))
    else if |value.value| != 15 then Fail(NotValid(value.value))
    else
      var lat := ValidateComponent(Some(value.value[..7]), 2, 90);
      if lat.Fail? then lat
      else ValidateComponent(Some(value.value[7..]), 3, 180)
  }

  // ---------------------------------------------------------------- properties

  /** The magnitude a sign applies to. */
  function Signed(sign: char, magnitude: real): real {
    if sign == '-' then -magnitude else magnitude
  }

  /** The value a sign and three digit groups stand for. */
  function TextValue(sign: char, dt: string, mt: string, st: string): real
    requires AllDigits(dt) && AllDigits(mt) && AllDigits(st)
  {
    Signed(sign, DigitsValue(dt) as real + DigitsValue(mt) as real / 60.0 + DigitsValue(st) as real / 3600.0)
  }

  /** The three slices of a sign, degrees, two minute and two second characters. */
  lemma {:induction false} SliceComponent(sign: char, dt: string, mt: string, st: string)
    requires |mt| == 2 && |st| == 2
    ensures DegreesText([sign] + dt + mt + st) == [sign] + dt
    ensures MinutesText([sign] + dt + mt + st) == mt
    ensures SecondsText([sign] + dt + mt + st) == st
  {
    var v := [sign] + dt + mt + st;
    assert Back(|v|, 4) == 1 + |dt| && Back(|v|, 2) == 3 + |dt|;
    assert v[..1 + |dt|] == [sign] + dt;
    assert v[1 + |dt|..3 + |dt|] == mt;
    assert v[3 + |dt|..] == st;
  }

  /**
   * A signed component text decodes to the value it stands for; as written,
   * the minus sign is lost when the degrees are zero.
   */
  lemma {:induction false} DecodeComponent(sign: char, dt: string, mt: string, st: string)
    requires sign == '+' || sign == '-'
    requires IsDigitString(dt) && IsDigitString(mt) && IsDigitString(st)
    requires |mt| == 2 && |st| == 2
    ensures CoordinateToDecimal([sign] + dt + mt + st) == Ok(TextValue(sign, dt, mt, st))
    ensures CoordinateToDecimalAsWritten([sign] + dt + mt + st) ==
      Ok(TextValue(if DigitsValue(dt) == 0 then '+' else sign, dt, mt, st))
  {
    SliceComponent(sign, dt, mt, st);
    DecodeParts([sign] + dt + mt + st, sign, dt, mt, st);
  }

  /** Decoding a text whose three slices are a signed degree and two digit groups. */
  lemma {:induction false} DecodeParts(v: string, sign: char, dt: string, mt: string, st: string)
    requires sign == '+' || sign == '-'
    requires IsDigitString(dt) && IsDigitString(mt) && IsDigitString(st)
    requires DegreesText(v) == [sign] + dt && MinutesText(v) == mt && SecondsText(v) == st
    ensures CoordinateToDecimal(v) == Ok(TextValue(sign, dt, mt, st))
    ensures CoordinateToDecimalAsWritten(v) == Ok(TextValue(if DigitsValue(dt) == 0 then '+' else sign, dt, mt, st))
  {
    var d := Signed(sign, DigitsValue(dt) as real);
    ParseFloatSigned(sign, dt);
    ParseFloatDigits(mt);
    ParseFloatDigits(st);
    assert Parts(v) == Some((d, DigitsValue(mt) as real, DigitsValue(st) as real));
    assert Abs(d) == DigitsValue(dt) as real;
  }

  /**
   * Decoding the text of a value gives the value back to within half a
   * second of arc, sign included.
   */
  lemma {:induction false} DecodeEncodeWithinHalfSecond(value: real, degreesWidth: nat)
    ensures CoordinateToDecimal(DecimalToCoordinate(value, degreesWidth)).Ok?
    ensures -1.0 / 7200.0 <= CoordinateToDecimal(DecimalToCoordinate(value, degreesWidth)).value - value <= 1.0 / 7200.0
  {
    var c := DecimalToComponents(value);
    var dt := Zfill(NatToString(IAbs(c.degrees)), degreesWidth);
    var mt := Zfill(NatToString(c.minutes), 2);
    var st := Zfill(NatToString(c.seconds), 2);
    ZfillDigitsOf(IAbs(c.degrees), degreesWidth);
    ZfillDigitsOf(c.minutes, 2);
    ZfillDigitsOf(c.seconds, 2);
    assert DecimalToCoordinate(value, degreesWidth) == [c.quadrant] + dt + mt + st;
    DecodeComponent(c.quadrant, dt, mt, st);
  }

  /** Encoded values within range pass validation. */
  lemma {:induction false} EncodedComponentValid(value: real, degreesWidth: nat, maxDegrees: nat)
    requires 1 <= degreesWidth && maxDegrees < Pow10(degreesWidth)
    requires Abs(value) <= maxDegrees as real
    ensures IsComponentText(DecimalToCoordinate(value, degreesWidth), degreesWidth, maxDegrees)
  {
    var c := DecimalToComponents(value);
    var dt := Zfill(NatToString(IAbs(c.degrees)), degreesWidth);
    var mt := Zfill(NatToString(c.minutes), 2);
    var st := Zfill(NatToString(c.seconds), 2);
    assert IAbs(c.degrees) <= maxDegrees;
    Pow10Monotone(1, degreesWidth);
    ZfillDigitsOf(IAbs(c.degrees), degreesWidth);
    ZfillDigitsOf(c.minutes, 2);
    ZfillDigitsOf(c.seconds, 2);
    assert DecimalToCoordinate(value, degreesWidth) == [c.quadrant] + dt + mt + st;
    ComponentTextOf(c.quadrant, dt, mt, st, degreesWidth, maxDegrees);
  }

  /** A quadrant sign followed by in-range digit blocks of the right widths is component text. */
  lemma {:induction false} ComponentTextOf(quadrant: char, dt: string, mt: string, st: string, degreesWidth: nat, maxDegrees: nat)
    requires quadrant == '+' || quadrant == '-'
    requires |dt| == degreesWidth && |mt| == 2 && |st| == 2
    requires IsDigitString(dt) && IsDigitString(mt) && IsDigitString(st)
    requires DigitsValue(dt) <= maxDegrees && DigitsValue(mt) <= 59 && DigitsValue(st) <= 59
    ensures IsComponentText([quadrant] + dt + mt + st, degreesWidth, maxDegrees)
  {
    var text := [quadrant] + dt + mt + st;
    assert text[1..1 + degreesWidth] == dt;
    assert text[1 + degreesWidth..3 + degreesWidth] == mt;
    assert text[3 + degreesWidth..] == st;
  }

  /** `lat_lng_to_euring_coordinates` of an in-range position validates. */
  lemma {:induction false} EncodedCoordinatesValid(lat: real, lng: real)
    requires Abs(lat) <= 90.0 && Abs(lng) <= 180.0
    ensures ValidateCoordinates(Some(LatLngToCoordinates(lat, lng))).Pass?
  {
    EncodedComponentValid(lat, 2, 90);
    EncodedComponentValid(lng, 3, 180);
    var a := DecimalToCoordinate(lat, 2);
    var b := DecimalToCoordinate(lng, 3);
    assert (a + b)[..7] == a;
    assert (a + b)[7..] == b;
  }

  /** Text that reads as zero, written with a minus sign: no value encodes to it. */
  predicate IsNegativeZero(value: string) {
    |value| > 0 && value[0] == '-' && forall i :: 1 <= i < |value| ==> value[i] == '0'
  }

  /**
   * Every valid component text, other than a minus-signed zero, is the
   * encoding of the value it decodes to.
   */
  lemma {:induction false} EncodeDecodeIdentity(value: string, degreesDigits: nat, maxDegrees: nat)
    requires IsComponentText(value, degreesDigits, maxDegrees)
    requires !IsNegativeZero(value)
    ensures CoordinateToDecimal(value).Ok?
    ensures DecimalToCoordinate(CoordinateToDecimal(value).value, degreesDigits) == value
  {
    var dt := value[1..1 + degreesDigits];
    var mt := value[1 + degreesDigits..3 + degreesDigits];
    var st := value[3 + degreesDigits..];
    assert value == [value[0]] + dt + mt + st;
    DecodeComponent(value[0], dt, mt, st);
    NotNegativeZero(value, dt, mt, st);
    ReEncode(value[0], dt, mt, st);
  }

  /** A minus-signed text that is not a negative zero stands for a negative value. */
  lemma {:induction false} NotNegativeZero(value: string, dt: string, mt: string, st: string)
    requires |value| > 0 && value == [value[0]] + dt + mt + st
    requires AllDigits(dt) && AllDigits(mt) && AllDigits(st)
    requires !IsNegativeZero(value)
    ensures value[0] == '-' ==> TextValue(value[0], dt, mt, st) < 0.0
  {
    if value[0] == '-' && DigitsValue(dt) == 0 && DigitsValue(mt) == 0 && DigitsValue(st) == 0 {
      ZeroDigits(dt);
      ZeroDigits(mt);
      ZeroDigits(st);
      forall i | 1 <= i < |value| ensures value[i] == '0' {
        if i < 1 + |dt| {
          assert value[i] == dt[i - 1];
        } else if i < 1 + |dt| + |mt| {
          assert value[i] == mt[i - 1 - |dt|];
        } else {
          assert value[i] == st[i - 1 - |dt| - |mt|];
        }
      }
      assert IsNegativeZero(value);
    }
  }

  /** The value of a component text, non-zero when negative, encodes back to the text. */
  lemma {:induction false} ReEncode(sign: char, dt: string, mt: string, st: string)
    requires sign == '+' || sign == '-'
    requires IsDigitString(dt) && IsDigitString(mt) && IsDigitString(st)
    requires |mt| == 2 && |st| == 2
    requires DigitsValue(mt) <= 59 && DigitsValue(st) <= 59
    requires sign == '-' ==> TextValue(sign, dt, mt, st) < 0.0
    ensures DecimalToCoordinate(TextValue(sign, dt, mt, st), |dt|) == [sign] + dt + mt + st
  {
    var d := DigitsValue(dt);
    var m := DigitsValue(mt);
    var s := DigitsValue(st);
    var x := TextValue(sign, dt, mt, st);
    ExactComponents(x, d, m, s);
    assert IAbs(DecimalToComponents(x).degrees) == d;
    ZfillDigits(dt);
    ZfillDigits(mt);
    ZfillDigits(st);
  }

  /** A digit string worth zero is all zeros. */
  lemma {:induction false} ZeroDigits(ds: string)
    requires AllDigits(ds) && DigitsValue(ds) == 0
    ensures forall i :: 0 <= i < |ds| ==> ds[i] == '0'
  {
    if ds != [] {
      var init := ds[..|ds| - 1];
      ZeroDigits(init);
      assert forall i :: 0 <= i < |init| ==> ds[i] == init[i];
    }
  }

  /** Exact degrees, minutes and seconds need neither rounding nor carry. */
  lemma {:induction false} ExactComponents(x: real, d: nat, m: nat, s: nat)
    requires m <= 59 && s <= 59
    requires x == d as real + m as real / 60.0 + s as real / 3600.0
          || x == -(d as real + m as real / 60.0 + s as real / 3600.0)
    ensures DegreesMinutesSeconds(x) == (if x < 0.0 then -(d as int) else d, m, s)
  {
    var f := m as real / 60.0 + s as real / 3600.0;
    assert 0.0 <= f < 1.0;
    var degrees: int := if x < 0.0 then -(d as int) else d;
    assert Trunc(x) == degrees by {
      if x >= 0.0 {
        assert x.Floor == d;
      } else {
        assert (-x).Floor == d;
      }
    }
    var submin := Subminutes(x);
    assert submin == m as real + s as real / 60.0;
    assert Trunc(submin) == m;
    assert ExactSeconds(x) == s as real;
    assert RoundHalfEven(s as real) == s;
    assert DegreesMinutesSeconds(x) == Carry(degrees, m, s);
  }

  // ---------------------------------------------------------------- the sign of values between -1 and 0

  /** The digit groups of half a degree. */
  lemma {:induction false} HalfDegreeDigits()
    ensures IsDigitString("00") && IsDigitString("30")
    ensures DigitsValue("00") == 0 && DigitsValue("30") == 30
    ensures TextValue('+', "00", "30", "00") == 0.5
    ensures TextValue('-', "00", "30", "00") == -0.5
  {
    DigitsValueStep("30");
    assert "30"[..1] == "3";
    DigitsValueStep("00");
    assert "00"[..1] == "0";
  }

  /**
   * The two encodings of a value have the same length, and they differ
   * exactly when the value lies strictly between -1 and 0, where the
   * as-written text starts with "+" and the corrected one with "-".
   */
  lemma {:induction false} EncodingsDifferBetweenMinusOneAndZero(value: real, degreesWidth: nat)
    ensures |DecimalToCoordinateAsWritten(value, degreesWidth)| == |DecimalToCoordinate(value, degreesWidth)|
    ensures DecimalToCoordinateAsWritten(value, degreesWidth) == DecimalToCoordinate(value, degreesWidth) <==>
      !(-1.0 < value < 0.0)
    ensures -1.0 < value < 0.0 ==> DecimalToCoordinateAsWritten(value, degreesWidth)[0] == '+'
  {
    var a, c := ComponentsAsWritten(value), DecimalToComponents(value);
    assert (a.degrees, a.minutes, a.seconds) == (c.degrees, c.minutes, c.seconds);
    if -1.0 < value < 0.0 {
      assert Trunc(value) == 0;
      assert DecimalToCoordinateAsWritten(value, degreesWidth)[0] == '+';
    } else {
      assert a == c;
    }
  }

  /**
   * The whole field: as written, a position encodes as the corrected text
   * exactly when neither co-ordinate lies strictly between -1 and 0.
   */
  lemma {:induction false} LatLngEncodingsDiffer(lat: real, lng: real)
    ensures LatLngToCoordinatesAsWritten(lat, lng) == LatLngToCoordinates(lat, lng) <==>
      !(-1.0 < lat < 0.0) && !(-1.0 < lng < 0.0)
  {
    EncodingsDifferBetweenMinusOneAndZero(lat, 2);
    EncodingsDifferBetweenMinusOneAndZero(lng, 3);
    var a1, b1 := DecimalToCoordinateAsWritten(lat, 2), DecimalToCoordinateAsWritten(lng, 3);
    var a2, b2 := DecimalToCoordinate(lat, 2), DecimalToCoordinate(lng, 3);
    if -1.0 < lat < 0.0 {
      assert (a1 + b1)[0] == a1[0] && (a2 + b2)[0] == a2[0];
    } else if -1.0 < lng < 0.0 {
      assert (a1 + b1)[|a1|] == b1[0] && (a2 + b2)[|a2|] == b2[0];
    }
  }

  /**
   * The whole field: the two decodes fail on the same texts and differ only
   * where the degrees of the latitude or of the longitude are a minus-signed
   * zero.
   */
  lemma {:induction false} LatLngDecodesDiffer(value: string)
    ensures CoordinatesToLatLngAsWritten(value).Ok? <==> CoordinatesToLatLng(value).Ok?
    ensures CoordinatesToLatLng(value).Ok? && CoordinatesToLatLngAsWritten(value) != CoordinatesToLatLng(value) ==>
      MinusZeroDegrees(Slice(value, 0, 7)) || MinusZeroDegrees(Slice(value, 7, |value|))
  {
    DecodeDiffersOnlyOnMinusZero(Slice(value, 0, 7));
    DecodeDiffersOnlyOnMinusZero(Slice(value, 7, |value|));
  }

  /** As written, -0.5 encodes as "+003000", which decodes to +0.5. */
  lemma {:induction false} EncodeLosesSignAsWritten()
    ensures DecimalToCoordinateAsWritten(-0.5, 2) == "+003000"
    ensures CoordinateToDecimal("+003000") == Ok(0.5)
  {
    EncodeMinusHalfAsWritten();
    DecodePlusHalf();
  }

  /** As written, -0.5 encodes with a plus sign. */
  lemma {:induction false} EncodeMinusHalfAsWritten()
    ensures DecimalToCoordinateAsWritten(-0.5, 2) == "+003000"
  {
    ExactComponents(-0.5, 0, 30, 0);
    ZfillNatToString(0, 2);
    ZfillNatToString(30, 2);
    assert NatToString(30) == "30";
    assert Padded(0, 2) == "00";
    assert Padded(30, 2) == "30";
    assert "+003000" == ['+'] + "00" + "30" + "00";
  }

  /** "+003000" is plus half a degree. */
  lemma {:induction false} DecodePlusHalf()
    ensures CoordinateToDecimal("+003000") == Ok(0.5)
  {
    HalfDegreeDigits();
    assert "+003000" == ['+'] + "00" + "30" + "00";
    DecodeComponent('+', "00", "30", "00");
  }

  /** The origin of the longitude encodes as "+0000000" either way. */
  lemma {:induction false} EncodeZeroLongitude()
    ensures DecimalToCoordinateAsWritten(0.0, 3) == "+0000000"
    ensures DecimalToCoordinate(0.0, 3) == "+0000000"
  {
    ExactComponents(0.0, 0, 0, 0);
    ZfillNatToString(0, 3);
    ZfillNatToString(0, 2);
    assert Padded(0, 3) == "000";
    assert Padded(0, 2) == "00";
    assert "+0000000" == ['+'] + "000" + "00" + "00";
  }

  /** "+0000000" decodes to 0 either way. */
  lemma {:induction false} DecodeZeroLongitude()
    ensures CoordinateToDecimalAsWritten("+0000000") == Ok(0.0)
    ensures CoordinateToDecimal("+0000000") == Ok(0.0)
  {
    ZeroDigitGroups();
    assert "+0000000" == ['+'] + "000" + "00" + "00";
    DecodeComponent('+', "000", "00", "00");
  }

  /** The digit groups of the origin. */
  lemma {:induction false} ZeroDigitGroups()
    ensures IsDigitString("000") && IsDigitString("00")
    ensures TextValue('+', "000", "00", "00") == 0.0
  {
    ZerosValue(3);
    ZerosValue(2);
    assert Repeat('0', 3) == "000";
    assert Repeat('0', 2) == "00";
  }

  /** As written, the position (-0.5, 0) is written "+003000+0000000", a latitude of +0.5. */
  lemma {:induction false} LatLngEncodeLosesSignAsWritten()
    ensures LatLngToCoordinatesAsWritten(-0.5, 0.0) == "+003000" + "+0000000"
    ensures LatLngToCoordinates(-0.5, 0.0)[0] == '-'
  {
    EncodeMinusHalfAsWritten();
    EncodeZeroLongitude();
  }

  /** As written, "-003000+0000000" decodes to the position (+0.5, 0); the corrected decode gives (-0.5, 0). */
  lemma {:induction false} LatLngDecodeLosesSignAsWritten()
    ensures CoordinatesToLatLngAsWritten("-003000+0000000") == Ok((0.5, 0.0))
    ensures CoordinatesToLatLng("-003000+0000000") == Ok((-0.5, 0.0))
  {
    var v := "-003000+0000000";
    assert Slice(v, 0, 7) == "-003000";
    assert Slice(v, 7, |v|) == "+0000000";
    DecodeLosesSignAsWritten();
    DecodeZeroLongitude();
  }

  /** As written, "-003000" (minus half a degree) decodes to +0.5. */
  lemma {:induction false} DecodeLosesSignAsWritten()
    ensures CoordinateToDecimalAsWritten("-003000") == Ok(0.5)
    ensures CoordinateToDecimal("-003000") == Ok(-0.5)
  {
    HalfDegreeDigits();
    assert "-003000" == ['-'] + "00" + "30" + "00";
    DecodeComponent('-', "00", "30", "00");
  }
}

=== FILE: decode.dfy ===
/**
 * Splitting a raw record into its values: format detection, fixed-width
 * slicing of EURING2000, pipe splitting of EURING2000+ and EURING2020,
 * mapping the values to the canonical keys, and the structural record
 * errors.
 */
module Decode {
  import opened Wrappers
  import opened Builtins
  import opened Exceptions
  import opened Values
  import opened Formats
  import opened Fields

  // ---------------------------------------------------------------- format detection

  /**
   * The accuracy token of a piped record: the value at the key's canonical
   * position, or "" when the record has fewer values.
   */
  function AccuracyToken(values: seq<string>): string {
    if |values| > 25 then values[25] else ""
  }

  /**
   * `euring_detect_format`: no pipe means EURING2000; more values than
   * EURING2000+ has, or an alphabetic accuracy, mean EURING2020; anything
   * else is EURING2000+.
   */
  function DetectFormat(record: string): (r: Format)
    ensures '|' !in record ==> r == Euring2000
    ensures '|' in record && Count(record, '|') + 1 > Euring2000PlusFieldCount ==> r == Euring2020
    ensures '|' in record && IsAlphaString(AccuracyToken(Split(record, '|'))) ==> r == Euring2020
    ensures ('|' in record && Count(record, '|') + 1 <= Euring2000PlusFieldCount &&
             !IsAlphaString(AccuracyToken(Split(record, '|')))) ==> r == Euring2000Plus
  {
    if '|' in record then
      var values := Split(record, '|');
      SplitLength(record, '|');
      if |values| > Euring2000PlusFieldCount then Euring2020
      else if IsAlphaString(AccuracyToken(values)) then Euring2020
      else Euring2000Plus
    else Euring2000
  }

  /**
   * A record of `n` pipes and nothing else (n + 1 empty values): no pipe is
   * EURING2000, more values than EURING2000+ has is EURING2020, and any
   * other count is EURING2000+, since an empty accuracy is not alphabetic.
   */
  lemma {:induction false} DetectEmptyValues(n: nat)
    ensures DetectFormat(Repeat('|', n)) ==
      if n == 0 then Euring2000 else if n + 1 > Euring2000PlusFieldCount then Euring2020 else Euring2000Plus
  {
    if n > 0 {
      var r := Repeat('|', n);
      SplitAllSeparators(n, '|');
      assert r[0] == '|';
      var values := Split(r, '|');
      if |values| > 25 {
        assert values[25] == "";
      }
    }
  }

  /** The detections the format's own tests state: "", 33 empty values, 60 and 64. */
  lemma {:induction false} DetectFormatExamples()
    ensures DetectFormat("") == Euring2000
    ensures DetectFormat(Repeat('|', 32)) == Euring2000Plus
    ensures DetectFormat(Repeat('|', 59)) == Euring2000Plus
    ensures DetectFormat(Repeat('|', 63)) == Euring2020
  {
    DetectEmptyValues(32);
    DetectEmptyValues(59);
    DetectEmptyValues(63);
  }

  // ---------------------------------------------------------------- fixed-width slicing

  /** The number of fields the slicing loop takes: it stops once the start reaches the end of the record. */
  function SliceCount(record: string, t: seq<FieldEntry>, k: nat): (n: nat)
    requires ValidTable(t) && k <= Euring2000FieldCount
    ensures k <= n <= Euring2000FieldCount
    ensures forall j :: k <= j < n ==> Start(t, j) < |record|
    ensures n < Euring2000FieldCount ==> Start(t, n) >= |record|
    decreases Euring2000FieldCount - k
  {
    if k == Euring2000FieldCount || Start(t, k) >= |record| then k
    else SliceCount(record, t, k + 1)
  }

  /** The values the fixed-width slicing produces: each field's slice, clamped to the record. */
  function FixedWidthValues(record: string, t: seq<FieldEntry>): (values: seq<string>)
    requires ValidTable(t)
    ensures |values| == SliceCount(record, t, 0)
  {
    FirstSlices(record, t, SliceCount(record, t, 0))
  }

  /** The slices of the first `n` fields, clamped to the record. */
  function FirstSlices(record: string, t: seq<FieldEntry>, n: nat): (values: seq<string>)
    requires ValidTable(t) && n <= Euring2000FieldCount
    ensures |values| == n
  {
    if n == 0 then [] else FirstSlices(record, t, n - 1) + [Slice(record, Start(t, n - 1), Start(t, n))]
  }

  /** Value `k` of the fixed-width slicing is field `k`'s span of the record, clamped to it. */
  lemma {:induction false} FixedWidthSlices(record: string, t: seq<FieldEntry>)
    requires ValidTable(t)
    ensures forall k :: 0 <= k < |FixedWidthValues(record, t)| ==>
      FixedWidthValues(record, t)[k] == Slice(record, Start(t, k), Start(t, k + 1))
  {
    FirstSlicesAt(record, t, SliceCount(record, t, 0));
  }

  lemma {:induction false} FirstSlicesAt(record: string, t: seq<FieldEntry>, n: nat)
    requires ValidTable(t) && n <= Euring2000FieldCount
    ensures forall k :: 0 <= k < n ==> FirstSlices(record, t, n)[k] == Slice(record, Start(t, k), Start(t, k + 1))
  {
    if n > 0 {
      FirstSlicesAt(record, t, n - 1);
    }
  }

  /** `_euring2000_record_to_values`: advance `start` by each width until the record is used up. */
  method Euring2000RecordToValues(record: string, t: seq<FieldEntry>) returns (values: seq<string>)
    requires ValidTable(t)
    ensures values == FixedWidthValues(record, t)
  {
    values := [];
    var start := 0;
    var i := 0;
    while i < Euring2000FieldCount
      invariant i <= Euring2000FieldCount
      invariant start == Start(t, i)
      invariant SliceCount(record, t, 0) == SliceCount(record, t, i)
      invariant values == FirstSlices(record, t, i)
    {
      if start >= |record| {
        break;
      }
      var end := start + t[i].length.value;
      values := values + [Slice(record, start, end)];
      start := end;
      i := i + 1;
    }
  }

  /** The slices laid end to end are the record, cut at the 94 characters of the layout. */
  lemma {:induction false} FixedWidthValuesCover(record: string, t: seq<FieldEntry>)
    requires ValidTable(t)
    ensures Join(FixedWidthValues(record, t), "") ==
      record[..if |record| < Euring2000RecordLength then |record| else Euring2000RecordLength]
  {
    var n := SliceCount(record, t, 0);
    JoinSlices(record, t, n);
    if n < Euring2000FieldCount {
      LengthsTotalMonotone(t, n, Euring2000FieldCount);
      assert |record| <= Start(t, n) <= Euring2000RecordLength;
    }
  }

  /** The first `k` slices laid end to end are a prefix of the record, cut where slice `k` starts. */
  lemma {:induction false} JoinSlices(record: string, t: seq<FieldEntry>, k: nat)
    requires ValidTable(t) && k <= Euring2000FieldCount && (k > 0 ==> Start(t, k - 1) < |record|)
    ensures Join(FirstSlices(record, t, k), "") == record[..if |record| < Start(t, k) then |record| else Start(t, k)]
  {
    if k > 0 {
      LengthsTotalMonotone(t, k - 1, k - 1);
      JoinSlices(record, t, k - 1);
      JoinSnoc(FirstSlices(record, t, k - 1), Slice(record, Start(t, k - 1), Start(t, k)));
      SliceExtend(record, Start(t, k - 1), Start(t, k));
    }
  }

  /** A prefix followed by the clamped slice that starts where it ends. */
  lemma {:induction false} SliceExtend(record: string, s: nat, e: nat)
    requires s <= e && s < |record|
    ensures record[..s] + Slice(record, s, e) == record[..if |record| < e then |record| else e]
  {
  }

  /** Values of exactly their field widths, laid end to end, slice back into the same values. */
  lemma {:induction false} FixedWidthRoundTrip(values: seq<string>, t: seq<FieldEntry>)
    requires ValidTable(t) && |values| == Euring2000FieldCount
    requires forall k :: 0 <= k < Euring2000FieldCount ==> |values[k]| == t[k].length.value
    ensures FixedWidthValues(Join(values, ""), t) == values
  {
    var record := Join(values, "");
    JoinedStarts(values, t);
    SliceCountAll(record, t, 0);
    FixedWidthSlices(record, t);
    var sliced := FixedWidthValues(record, t);
    forall k | 0 <= k < Euring2000FieldCount ensures sliced[k] == values[k] {
      SliceOfJoin(values, t, k);
    }
  }

  /** Values of exactly their widths make a text in which every field starts. */
  lemma {:induction false} JoinedStarts(values: seq<string>, t: seq<FieldEntry>)
    requires ValidTable(t) && |values| == Euring2000FieldCount
    requires forall k :: 0 <= k < Euring2000FieldCount ==> |values[k]| == t[k].length.value
    ensures forall k :: 0 <= k < Euring2000FieldCount ==> Start(t, k) < |Join(values, "")|
  {
    JoinLengths(values, t, Euring2000FieldCount);
    assert values[..Euring2000FieldCount] == values;
    forall k | 0 <= k < Euring2000FieldCount ensures Start(t, k) < |Join(values, "")| {
      LengthsTotalBelow(t, k);
    }
  }

  /** In the text of values of exactly their widths, field `k` occupies its own span. */
  lemma {:induction false} SliceOfJoin(values: seq<string>, t: seq<FieldEntry>, k: nat)
    requires ValidTable(t) && |values| == Euring2000FieldCount && k < Euring2000FieldCount
    requires forall j :: 0 <= j < Euring2000FieldCount ==> |values[j]| == t[j].length.value
    ensures Slice(Join(values, ""), Start(t, k), Start(t, k + 1)) == values[k]
  {
    var record := Join(values, "");
    var prefix := Join(values[..k + 1], "");
    JoinLengths(values, t, k);
    JoinLengths(values, t, k + 1);
    JoinPrefix(values, k + 1);
    assert values[..k + 1] == values[..k] + [values[k]];
    JoinSnoc(values[..k], values[k]);
    assert prefix == Join(values[..k], "") + values[k];
    assert record[..|prefix|] == prefix;
    assert prefix[Start(t, k)..] == values[k];
    assert Start(t, k + 1) <= |record|;
  }

  lemma {:induction false} SliceCountAll(record: string, t: seq<FieldEntry>, k: nat)
    requires ValidTable(t) && k <= Euring2000FieldCount
    requires forall j :: k <= j < Euring2000FieldCount ==> Start(t, j) < |record|
    ensures SliceCount(record, t, k) == Euring2000FieldCount
    decreases Euring2000FieldCount - k
  {
    if k < Euring2000FieldCount {
      SliceCountAll(record, t, k + 1);
    }
  }

  lemma {:induction false} JoinLengths(values: seq<string>, t: seq<FieldEntry>, k: nat)
    requires ValidTable(t) && |values| == Euring2000FieldCount && k <= Euring2000FieldCount
    requires forall j :: 0 <= j < Euring2000FieldCount ==> |values[j]| == t[j].length.value
    ensures |Join(values[..k], "")| == Start(t, k)
  {
    if k > 0 {
      JoinLengths(values, t, k - 1);
      assert values[..k] == values[..k - 1] + [values[k - 1]];
      JoinSnoc(values[..k - 1], values[k - 1]);
    }
  }

  // ---------------------------------------------------------------- values and keys

  /** `euring_record_to_values`: pipe formats split on "|", EURING2000 is sliced. */
  function RecordToValues(record: string, format: Format, t: seq<FieldEntry>): (values: seq<string>)
    requires ValidTable(t)
    ensures format != Euring2000 ==> |values| == Count(record, '|') + 1
    ensures format != Euring2000 ==> Join(values, "|") == record
    ensures format == Euring2000 ==> values == FixedWidthValues(record, t)
  {
    if format == Euring2000 then FixedWidthValues(record, t)
    else
      SplitLength(record, '|');
      JoinSplit(record, '|');
      Split(record, '|')
  }

  /** The dictionary of the first `|values|` keys, the `i`-th value under the `i`-th key. */
  function ValuesDict(values: seq<string>, t: seq<FieldEntry>): map<string, string>
    requires |values| <= |t|
  {
    if values == [] then map[]
    else
      var n := |values| - 1;
      ValuesDict(values[..n], t)[t[n].key := values[n]]
  }

  const ListIndexMessage := "list index out of range"

  /** `euring_values_to_dict`: fill a dictionary key by key; a value beyond the table raises IndexError. */
  method ValuesToDict(values: seq<string>, t: seq<FieldEntry>) returns (r: Result<map<string, string>, Error>)
    ensures |values| <= |t| ==> r == Ok(ValuesDict(values, t))
    ensures |values| > |t| ==> r == Err(IndexError(ListIndexMessage))
  {
    var fields: map<string, string> := map[];
    for index := 0 to |values|
      invariant index <= |t| ==> fields == ValuesDict(values[..index], t)
      invariant index <= |t|
    {
      if index >= |t| {
        return Err(IndexError(ListIndexMessage));
      }
      assert values[..index + 1][..index] == values[..index];
      fields := fields[t[index].key := values[index]];
    }
    assert values[..|values|] == values;
    return Ok(fields);
  }

  /** With distinct keys the dictionary holds exactly the first keys, each with its own value. */
  lemma {:induction false} ValuesDictContents(values: seq<string>, t: seq<FieldEntry>)
    requires |values| <= |t| && DistinctKeys(t)
    ensures forall k :: k in ValuesDict(values, t) <==> exists i :: 0 <= i < |values| && t[i].key == k
    ensures forall i :: 0 <= i < |values| ==> ValuesDict(values, t)[t[i].key] == values[i]
  {
    if values != [] {
      var n := |values| - 1;
      var init := values[..n];
      ValuesDictContents(init, t);
      StoreStep(ValuesDict(init, t), ValuesDict(values, t), t, init, values);
    }
  }

  /** Storing the next value over a dictionary of the earlier ones gives a dictionary of them all. */
  lemma {:induction false} StoreStep(prev: map<string, string>, m: map<string, string>, t: seq<FieldEntry>,
                                     init: seq<string>, values: seq<string>)
    requires DistinctKeys(t) && 0 < |values| <= |t| && init == values[..|values| - 1]
    requires m == prev[t[|init|].key := values[|init|]]
    requires forall k :: k in prev <==> exists i :: 0 <= i < |init| && t[i].key == k
    requires forall i :: 0 <= i < |init| ==> prev[t[i].key] == init[i]
    ensures forall k :: k in m <==> exists i :: 0 <= i < |values| && t[i].key == k
    ensures forall i :: 0 <= i < |values| ==> m[t[i].key] == values[i]
  {
    StoreStepKeys(prev, m, t, |init|, values[|init|]);
    StoreStepValues(prev, m, t, init, values);
  }

  /** The keys after storing entry `n`'s key are the keys of the first `n + 1` entries. */
  lemma {:induction false} StoreStepKeys(prev: map<string, string>, m: map<string, string>, t: seq<FieldEntry>, n: nat, v: string)
    requires n < |t| && m == prev[t[n].key := v]
    requires forall k :: k in prev <==> exists i :: 0 <= i < n && t[i].key == k
    ensures forall k :: k in m <==> exists i :: 0 <= i < n + 1 && t[i].key == k
  {
    forall k ensures k in m <==> exists i :: 0 <= i < n + 1 && t[i].key == k {
      if k in m && k != t[n].key {
        var i :| 0 <= i < n && t[i].key == k;
        assert 0 <= i < n + 1;
      }
    }
  }

  /** Storing under a fresh key keeps the values of the earlier keys. */
  lemma {:induction false} StoreStepValues(prev: map<string, string>, m: map<string, string>, t: seq<FieldEntry>,
                                           init: seq<string>, values: seq<string>)
    requires DistinctKeys(t) && 0 < |values| <= |t| && init == values[..|values| - 1]
    requires m == prev[t[|init|].key := values[|init|]]
    requires forall i :: 0 <= i < |init| ==> t[i].key in prev && prev[t[i].key] == init[i]
    ensures forall i :: 0 <= i < |values| ==> m[t[i].key] == values[i]
  {
    var n := |init|;
    forall i | 0 <= i < n ensures m[t[i].key] == values[i] {
      assert t[i].key != t[n].key;
      assert init[i] == values[i];
    }
  }

  /** The values of the first `n` keys, "" for an absent key. */
  function DictValues(d: map<string, string>, t: seq<FieldEntry>, n: nat): (values: seq<string>)
    requires n <= |t|
    ensures |values| == n
    ensures forall i :: 0 <= i < n ==> values[i] == if t[i].key in d then d[t[i].key] else ""
  {
    if n == 0 then []
    else DictValues(d, t, n - 1) + [if t[n - 1].key in d then d[t[n - 1].key] else ""]
  }

  /** Values to dictionary and back gives the values again. */
  lemma {:induction false} ValuesDictRoundTrip(values: seq<string>, t: seq<FieldEntry>)
    requires |values| <= |t| && DistinctKeys(t)
    ensures DictValues(ValuesDict(values, t), t, |values|) == values
  {
    ValuesDictContents(values, t);
  }

  /** A dictionary over exactly the first `n` keys, to values and back, gives the dictionary again. */
  lemma {:induction false} DictValuesRoundTrip(d: map<string, string>, t: seq<FieldEntry>, n: nat)
    requires n <= |t| && DistinctKeys(t)
    requires forall k :: k in d <==> exists i :: 0 <= i < n && t[i].key == k
    ensures ValuesDict(DictValues(d, t, n), t) == d
  {
    var values := DictValues(d, t, n);
    ValuesDictContents(values, t);
    var m := ValuesDict(values, t);
    assert |values| == n;
    forall k ensures k in m <==> k in d { }
    forall k | k in m ensures m[k] == d[k] {
      var i :| 0 <= i < n && t[i].key == k;
      assert m[k] == values[i];
    }
    SameMap(m, d);
  }

  /** Two maps with the same keys and the same value at each key are equal. */
  lemma {:induction false} SameMap(m: map<string, string>, d: map<string, string>)
    requires forall k :: k in m <==> k in d
    requires forall k :: k in m ==> m[k] == d[k]
    ensures m == d
  {
  }

  /** `euring_record_to_dict`. */
  function RecordToDict(record: string, format: Format, t: seq<FieldEntry>): (r: Result<map<string, string>, Error>)
    requires ValidTable(t)
    ensures r.Ok? <==> |RecordToValues(record, format, t)| <= FieldCount
    ensures r.Ok? ==> r.value == ValuesDict(RecordToValues(record, format, t), t)
  {
    var values := RecordToValues(record, format, t);
    if |values| <= |t| then Ok(ValuesDict(values, t)) else Err(IndexError(ListIndexMessage))
  }

  /** A EURING2000 record never has more values than the table, so it always maps. */
  lemma {:induction false} Euring2000AlwaysMaps(record: string, t: seq<FieldEntry>)
    requires ValidTable(t)
    ensures RecordToDict(record, Euring2000, t).Ok?
  {
  }

  /**
   * Piped values without "|" map back to themselves through the record
   * text, in EURING2000+ and EURING2020 alike.
   */
  lemma {:induction false} PipedRoundTrip(values: seq<string>, format: Format, t: seq<FieldEntry>)
    requires ValidTable(t) && format != Euring2000
    requires 1 <= |values| <= FieldCount
    requires forall k :: 0 <= k < |values| ==> '|' !in values[k]
    ensures RecordToDict(Join(values, "|"), format, t) == Ok(ValuesDict(values, t))
    ensures DictValues(ValuesDict(values, t), t, |values|) == values
  {
    SplitJoin(values, '|');
    ValuesDictRoundTrip(values, t);
  }

  /** 33 values of exactly their widths map back to themselves through the fixed-width text. */
  lemma {:induction false} Euring2000RoundTrip(values: seq<string>, t: seq<FieldEntry>)
    requires ValidTable(t) && |values| == Euring2000FieldCount
    requires forall k :: 0 <= k < Euring2000FieldCount ==> |values[k]| == t[k].length.value
    ensures RecordToDict(Join(values, ""), Euring2000, t) == Ok(ValuesDict(values, t))
    ensures DictValues(ValuesDict(values, t), t, |values|) == values
  {
    FixedWidthRoundTrip(values, t);
    ValuesDictRoundTrip(values, t);
  }

  // ---------------------------------------------------------------- the raw decode

  /** `_normalize_decode_format`: no format is None; an unknown name is a constraint error. */
  function NormalizeDecodeFormat(format: string): (r: Result<Option<Format>, Error>)
    ensures format == "" ==> r == Ok(None)
    ensures format != "" ==> (r.Ok? <==> NormalizeFormat(format).Ok?)
    ensures format != "" && r.Ok? ==> r.value == Some(NormalizeFormat(format).value)
    ensures r.Err? ==> r.error == ConstraintFailure(UnknownFormatMessage(format))
  {
    if format == "" then Ok(None)
    else
      match NormalizeFormat(format)
      case Ok(f) => Ok(Some(f))
      case Err(_) => Err(ConstraintFailure(UnknownFormatMessage(format)))
  }

  /** What `_decode_raw_record` returns: the format used, the values by key, and the record errors. */
  datatype RawDecode = RawDecode(format: Format, values: map<string, string>, errors: seq<string>)

  const PipeInEuring2000Message := "Format \"euring2000\" should not contain pipe characters (\"|\")."
  const LengthMessagePrefix := "Format \"euring2000\" should be exactly 94 characters, found "
  const NoPipeMessageSuffix := "\" should contain values separated by pipe characters (\"|\")."
  const NotAStringMessage := "\" is not a string but <class '"
  const EmptyRecordMessage := "Record is an empty string."

  function LengthMessage(n: nat): string {
    LengthMessagePrefix + NatToString(n) + "."
  }

  function NoPipeMessage(format: Format): string {
    "Format \"" + format.Name() + NoPipeMessageSuffix
  }

  /** The structural errors of a record in a format; every one is reported. */
  function StructuralErrors(record: string, format: Format): seq<string> {
    if format == Euring2000 then
      (if '|' in record then [PipeInEuring2000Message] else []) +
      (if |record| != Euring2000RecordLength then [LengthMessage(|record|)] else [])
    else if '|' !in record then [NoPipeMessage(format)]
    else []
  }

  /** The fatal record error of a record that is not text or is empty. */
  function FatalMessage(record: RecordInput): string {
    match record
    case NonText(shown, typeName) => "Record \"" + shown + NotAStringMessage + typeName + "'>."
    case TextRecord(_) => EmptyRecordMessage
  }

  const SwitchingMessage := "Switching to default format \"euring2020\"."

  predicate IsDecodable(record: RecordInput) {
    record.TextRecord? && record.text != ""
  }

  /**
   * What the raw decode gives: an unknown format name raises; a record that
   * cannot be decoded is a fatal error (with the switch to EURING2020 when
   * no format was named) and no values; otherwise the named or detected
   * format, its structural errors, and the values by key.
   */
  function RawDecodeOf(record: RecordInput, format: string, t: seq<FieldEntry>): Result<RawDecode, Error>
    requires ValidTable(t)
  {
    var named :- NormalizeDecodeFormat(format);
    if IsDecodable(record) then
      var f := if named.Some? then named.value else DetectFormat(record.text);
      var values :- RecordToDict(record.text, f, t);
      Ok(RawDecode(f, values, StructuralErrors(record.text, f)))
    else if named.Some? then Ok(RawDecode(named.value, map[], [FatalMessage(record)]))
    else Ok(RawDecode(Euring2020, map[], [FatalMessage(record), SwitchingMessage]))
  }

  /**
   * `_decode_raw_record`.  A record that is not text, or is empty, is a
   * fatal record error and nothing is decoded; otherwise the structural
   * errors are collected and the values are decoded all the same.
   */
  method DecodeRawRecord(record: RecordInput, format: string, t: seq<FieldEntry>) returns (r: Result<RawDecode, Error>)
    requires ValidTable(t)
    ensures r == RawDecodeOf(record, format, t)
  {
    var decodeFormat: Option<Format> := None;
    var recordErrors: seq<string> := [];
    match record {
      case NonText(_, _) =>
        recordErrors := recordErrors + [FatalMessage(record)];
      case TextRecord(text) =>
        if text == "" {
          recordErrors := recordErrors + [FatalMessage(record)];
        } else if format == "" {
          decodeFormat := Some(DetectFormat(text));
        }
    }
    if format != "" {
      var normalized :- NormalizeDecodeFormat(format);
      decodeFormat := normalized;
    }
    assert recordErrors == (if IsDecodable(record) then [] else [FatalMessage(record)]);
    if decodeFormat.None? {
      decodeFormat := Some(Euring2020);
      recordErrors := recordErrors + [SwitchingMessage];
    }
    var f := decodeFormat.value;
    if |recordErrors| > 0 {
      assert !IsDecodable(record);
      if format != "" {
        assert f == NormalizeDecodeFormat(format).value.value;
        assert recordErrors == [FatalMessage(record)];
      } else {
        assert f == Euring2020;
        assert recordErrors == [FatalMessage(record), SwitchingMessage];
      }
      return Ok(RawDecode(f, map[], recordErrors));
    }
    var text := record.text;
    recordErrors := CheckStructure(text, f);
    var values :- RecordToDict(text, f, t);
    return Ok(RawDecode(f, values, recordErrors));
  }

  /** The structural checks on a decodable record; every failed one is reported. */
  method CheckStructure(text: string, f: Format) returns (errors: seq<string>)
    ensures errors == StructuralErrors(text, f)
  {
    errors := [];
    if f == Euring2000 {
      if '|' in text {
        errors := errors + [PipeInEuring2000Message];
      }
      if |text| != Euring2000RecordLength {
        errors := errors + [LengthMessage(|text|)];
      }
    } else {
      if '|' !in text {
        errors := errors + [NoPipeMessage(f)];
      }
    }
  }

  /** A decode without record errors had a record in the structure its format demands. */
  lemma {:induction false} CleanDecodeIsWellFormed(record: RecordInput, format: string, t: seq<FieldEntry>)
    requires ValidTable(t)
    requires RawDecodeOf(record, format, t).Ok? && RawDecodeOf(record, format, t).value.errors == []
    ensures IsDecodable(record)
    ensures RawDecodeOf(record, format, t).value.format == Euring2000 ==>
      '|' !in record.text && |record.text| == Euring2000RecordLength
    ensures RawDecodeOf(record, format, t).value.format != Euring2000 ==> '|' in record.text
  {
  }

  /** A record that cannot be decoded never yields values, and the switch to the default is reported only when no format was named. */
  lemma {:induction false} FatalDecode(record: RecordInput, format: string, t: seq<FieldEntry>)
    requires ValidTable(t) && !IsDecodable(record) && NormalizeDecodeFormat(format).Ok?
    ensures RawDecodeOf(record, format, t).Ok?
    ensures RawDecodeOf(record, format, t).value.values == map[]
    ensures RawDecodeOf(record, format, t).value.errors[0] == FatalMessage(record)
    ensures SwitchingMessage in RawDecodeOf(record, format, t).value.errors <==> format == ""
  {
    var named := NormalizeDecodeFormat(format).value;
    assert named.Some? <==> format != "";
    FatalIsNotSwitching(record);
    if named.Some? {
      assert RawDecodeOf(record, format, t) == Ok(RawDecode(named.value, map[], [FatalMessage(record)]));
    } else {
      assert RawDecodeOf(record, format, t) == Ok(RawDecode(Euring2020, map[], [FatalMessage(record), SwitchingMessage]));
    }
  }

  lemma {:induction false} FatalIsNotSwitching(record: RecordInput)
    ensures FatalMessage(record) != SwitchingMessage
  {
    assert FatalMessage(record)[0] == 'R' && SwitchingMessage[0] == 'S';
  }

  /** Without a named format, a decodable record is decoded in the format detected from it. */
  lemma {:induction false} DetectedFormatIsUsed(record: string, t: seq<FieldEntry>)
    requires ValidTable(t) && record != ""
    requires RawDecodeOf(TextRecord(record), "", t).Ok?
    ensures RawDecodeOf(TextRecord(record), "", t).value.format == DetectFormat(record)
  {
  }

  /** A EURING2000 record with a pipe and the wrong length reports both, and still decodes. */
  lemma {:induction false} BothStructuralErrors(record: string)
    requires '|' in record && |record| != Euring2000RecordLength
    ensures StructuralErrors(record, Euring2000) == [PipeInEuring2000Message, LengthMessage(|record|)]
  {
  }
}

=== FILE: decoders.dfy ===
/**
 * The record decoder of the older generation: a single-value decoder with
 * the type check before the length checks, and the `_EuringDecoder` object
 * that slices or splits a record, decodes every field while collecting
 * errors, promotes EURING2000+ to EURING2020, and applies the record rules.
 */
module Decoders {
  import opened Wrappers
  import opened Builtins
  import opened Exceptions
  import opened Values
  import opened Codes
  import opened Formats
  import opened Fields
  import opened Rules
  import P = Parsing
  import FM = FieldModel

  // ---------------------------------------------------------------- euring_decode_value

  /** A length that meets the exact, minimum and maximum lengths that are given. */
  predicate LengthsOk(n: nat, length: Option<nat>, minLength: Option<nat>, maxLength: Option<nat>) {
    (length.None? || n == length.value) &&
    (minLength.None? || n >= minLength.value) &&
    (maxLength.None? || n <= maxLength.value)
  }

  /** A table lookup is only ever given text: a parser in front of it produces values that have a text. */
  ghost predicate Describable(parser: Option<Parser>, lookup: Lookup) {
    lookup.Table? && parser.Some? ==> forall s :: parser.value(s).Ok? ==> HasText(parser.value(s).value)
  }

  /**
   * `euring_decode_value`: a minimum length of 0 makes the field optional;
   * empty text is None when optional and an error when required; other text
   * is type checked, then length checked (exact, minimum, maximum), then
   * parsed and described.
   */
  function DecodeValue(value: string, typeName: string, required: bool, length: Option<nat>,
                       minLength: Option<nat>, maxLength: Option<nat>, parser: Option<Parser>,
                       lookup: Lookup, valid: FM.TypeCheck): (r: Result<Option<P.Decoded>, Error>)
    requires Describable(parser, lookup)
    ensures value == "" ==>
      r == if required && minLength != Some(0) then Err(ParseFailure(FM.RequiredEmptyMessage)) else Ok(None)
    ensures value != "" && !valid(value, typeName) ==> r == Err(ParseFailure(TypeMessage(value, typeName)))
    ensures (value != "" && valid(value, typeName) && length.Some? && |value| != length.value) ==>
      r == Err(ParseFailure(ExactLengthMessage(value, length.value)))
    ensures (value != "" && valid(value, typeName) && (length.None? || |value| == length.value) &&
             minLength.Some? && |value| < minLength.value) ==>
      r == Err(ParseFailure(MinLengthMessage(value, minLength.value)))
    ensures (value != "" && valid(value, typeName) && (length.None? || |value| == length.value) &&
             (minLength.None? || |value| >= minLength.value) && maxLength.Some? && |value| > maxLength.value) ==>
      r == Err(ParseFailure(MaxLengthMessage(value, maxLength.value)))
    ensures r.Ok? && value != "" ==>
      valid(value, typeName) && LengthsOk(|value|, length, minLength, maxLength) &&
      r.value.Some? && r.value.value.value == value && (r.value.value.parsedValue.Some? <==> parser.Some?)
    ensures r.Ok? && r.value.Some? && lookup.NoLookup? ==> r.value.value.description.None?
    ensures (value != "" && valid(value, typeName) && LengthsOk(|value|, length, minLength, maxLength) &&
             parser.None? && lookup.NoLookup?) ==> r == Ok(Some(P.Decoded(value, None, None)))
    ensures r.Ok? && r.value.Some? ==>
      var parsed := if parser.Some? then r.value.value.parsedValue.value else Str(value);
      (parser.Some? ==> parser.value(value) == Ok(parsed)) &&
      LookupDescription(parsed, lookup) == Ok(r.value.value.description)
    ensures (value != "" && valid(value, typeName) && LengthsOk(|value|, length, minLength, maxLength) &&
             parser.Some? && parser.value(value).Err?) ==> r == Err(parser.value(value).error)
    ensures (value != "" && valid(value, typeName) && LengthsOk(|value|, length, minLength, maxLength) &&
             (parser.Some? ==> parser.value(value).Ok?)) ==>
      var parsed := if parser.Some? then parser.value(value).value else Str(value);
      LookupDescription(parsed, lookup).Err? ==> r == Err(LookupDescription(parsed, lookup).error)
  {
    var required := if minLength == Some(0) then false else required;
    if value == "" then
      if !required then Ok(None) else Err(ParseFailure(FM.RequiredEmptyMessage))
    else if !valid(value, typeName) then Err(ParseFailure(TypeMessage(value, typeName)))
    else if length.Some? && |value| != length.value then Err(ParseFailure(ExactLengthMessage(value, length.value)))
    else if minLength.Some? && |value| < minLength.value then Err(ParseFailure(MinLengthMessage(value, minLength.value)))
    else if maxLength.Some? && |value| > maxLength.value then Err(ParseFailure(MaxLengthMessage(value, maxLength.value)))
    else
      var parsed :- if parser.Some? then parser.value(value) else Ok(Str(value));
      var description :- LookupDescription(parsed, lookup);
      Ok(Some(P.Decoded(value, if parser.Some? then Some(parsed) else None, description)))
  }

  /** Text that passes every check of a field with no parser and a table is decoded exactly when its code is in the table. */
  lemma {:induction false} TableLookupDecides(value: string, typeName: string, required: bool, length: Option<nat>,
                           minLength: Option<nat>, maxLength: Option<nat>, table: map<string, string>,
                           valid: FM.TypeCheck)
    requires value != "" && valid(value, typeName) && LengthsOk(|value|, length, minLength, maxLength)
    ensures var r := DecodeValue(value, typeName, required, length, minLength, maxLength, None, Table(table), valid);
      (r.Ok? <==> value in table) &&
      (r.Ok? ==> r.value == Some(P.Decoded(value, None, Some(table[value])))) &&
      (r.Err? ==> r.error.kind == Kind.Lookup)
  {
  }

  /** Decoding either fails with a EURING error of its own, or passes on what the parser or the lookup raised. */
  lemma {:induction false} DecodeErrorsOrigin(value: string, typeName: string, required: bool, length: Option<nat>,
                           minLength: Option<nat>, maxLength: Option<nat>, parser: Option<Parser>,
                           lookup: Lookup, valid: FM.TypeCheck)
    requires Describable(parser, lookup)
    requires parser.None? && !lookup.Callable?
    ensures var r := DecodeValue(value, typeName, required, length, minLength, maxLength, parser, lookup, valid);
      r.Err? ==> IsEuring(r.error)
  {
  }

  // ---------------------------------------------------------------- the decoder's records

  /** Where a EURING2000 field sits: its 1-based position and its width. */
  datatype Span = Span(position: nat, length: nat)

  /** The position part of a field error: absent, or present (and possibly None when the index was not sliced). */
  datatype Location = Unlocated | Located(span: Option<Span>)

  /** A field error: field name, message, the raw value, the key, the canonical index and the location. */
  datatype FieldError = FieldError(field: string, message: string, value: string, key: string,
                                   index: Option<nat>, location: Location)

  /** One entry of the public fields mapping. */
  datatype BuiltField = BuiltField(key: string, name: string, value: Option<string>, order: nat)

  /** The results: the record format's display name, the fields, and the errors; `Incomplete` is what a decode that raised leaves. */
  datatype Results =
    | Results(format: Option<string>, fields: seq<BuiltField>, recordErrors: seq<string>, fieldErrors: seq<FieldError>)
    | Incomplete

  /** The decoder's accumulating state: the errors, and the decoded values by field name and by key. */
  datatype Progress = Progress(recordErrors: seq<string>, fieldErrors: seq<FieldError>,
                               data: map<string, Option<P.Decoded>>, dataByKey: map<string, Option<P.Decoded>>)

  const CannotSplit := "\" cannot be split with pipe character."
  const ConflictsWithFixedWidth := "\" conflicts with fixed-width EURING2000 data."

  function CannotSplitMessage(shown: string): string {
    "Value \"" + shown + CannotSplit
  }

  function FixedWidthConflictMessage(format: Format): string {
    "Format \"" + format.DisplayName() + ConflictsWithFixedWidth
  }

  const PipedConflictMessage := "Format \"EURING2000\" conflicts with pipe-delimited data."

  function MissingValueMessage(index: nat): string {
    NoValueAtIndex + NatToString(index) + "."
  }

  const NoValueAtIndex := "Could not retrieve value from index "
  const DuplicateMessage := "A value is already present in results."

  /**
   * The position metadata of a field error: attached only when the format
   * checked is EURING2000 and the error has an index.
   */
  function ErrorLocation(checked: Option<Format>, positions: map<nat, Span>, index: Option<nat>): (l: Location)
    ensures l.Located? <==> index.Some? && checked == Some(Euring2000)
    ensures l.Located? ==> (l.span.Some? <==> index.value in positions)
    ensures l.Located? && l.span.Some? ==> l.span.value == positions[index.value]
  {
    if index.Some? && checked == Some(Euring2000) then
      Located(if index.value in positions then Some(positions[index.value]) else None)
    else Unlocated
  }

  /** Every entry of the table can be decoded: its parser gives text wherever its lookup is a table. */
  ghost predicate DescribableTable(t: seq<FieldEntry>) {
    forall i :: 0 <= i < |t| ==> Describable(t[i].parser, t[i].lookup)
  }

  // ---------------------------------------------------------------- specification of the decode

  /** The first `n` EURING2000 slices: each field's width, clamped to the text. */
  function Slices(text: string, t: seq<FieldEntry>, n: nat): (fields: seq<string>)
    requires ValidTable(t) && n <= Euring2000FieldCount
    ensures |fields| == n
  {
    if n == 0 then [] else Slices(text, t, n - 1) + [Slice(text, Start(t, n - 1), Start(t, n))]
  }

  /** The EURING2000 slices the decoder takes: each of the 33 widths, clamped to the text. */
  function FixedWidthFields(text: string, t: seq<FieldEntry>): (fields: seq<string>)
    requires ValidTable(t)
    ensures |fields| == Euring2000FieldCount
  {
    Slices(text, t, Euring2000FieldCount)
  }

  /** The `k`-th slice is the text between the `k`-th field's start and the next one's. */
  lemma {:induction false} SliceAt(text: string, t: seq<FieldEntry>, n: nat, k: nat)
    requires ValidTable(t) && k < n <= Euring2000FieldCount
    ensures Slices(text, t, n)[k] == Slice(text, Start(t, k), Start(t, k + 1))
  {
    if k < n - 1 {
      SliceAt(text, t, n - 1, k);
    }
  }

  /** The positions the slicing records for the first `n` fields: each starts one after the widths before it. */
  function FixedWidthPositions(t: seq<FieldEntry>, n: nat): map<nat, Span>
    requires ValidTable(t) && n <= Euring2000FieldCount
  {
    if n == 0 then map[] else FixedWidthPositions(t, n - 1)[n - 1 := Span(Start(t, n - 1) + 1, t[n - 1].length.value)]
  }

  /** Exactly the first `n` indices have a position, the 1-based start of the field, and its width. */
  lemma {:induction false} PositionsAt(t: seq<FieldEntry>, n: nat)
    requires ValidTable(t) && n <= Euring2000FieldCount
    ensures forall k: nat :: k in FixedWidthPositions(t, n) <==> k < n
    ensures forall k: nat :: k < n ==> FixedWidthPositions(t, n)[k] == Span(Start(t, k) + 1, t[k].length.value)
  {
    if n > 0 {
      PositionsAt(t, n - 1);
      var m := FixedWidthPositions(t, n - 1);
      forall k: nat ensures k in FixedWidthPositions(t, n) <==> k < n {
        assert k in FixedWidthPositions(t, n) <==> k == n - 1 || k in m;
      }
    }
  }

  /**
   * `parse_field` on the `index`-th entry: a missing value is an error only
   * when required; a name already decoded is an error; a EURING error of the
   * value becomes a field error; any other error is raised; otherwise the
   * value is stored by name and by key.
   */
  function ParseStep(p: Progress, t: seq<FieldEntry>, fields: seq<string>, index: nat, checked: Option<Format>,
                     positions: map<nat, Span>, valid: FM.TypeCheck): Result<Progress, Error>
    requires index < |t| && DescribableTable(t)
  {
    var e := t[index];
    var location := ErrorLocation(checked, positions, Some(index));
    if index >= |fields| then
      if e.required then
        Ok(p.(fieldErrors := p.fieldErrors + [FieldError(e.name, MissingValueMessage(index), "", e.key, Some(index), location)]))
      else Ok(p)
    else if e.name in p.data then
      Ok(p.(fieldErrors := p.fieldErrors + [FieldError(e.name, DuplicateMessage, fields[index], e.key, Some(index), location)]))
    else
      match DecodeValue(fields[index], e.typeName, e.required, e.length, e.minLength, e.maxLength, e.parser, e.lookup, valid)
      case Err(err) =>
        if IsEuring(err) then
          Ok(p.(fieldErrors := p.fieldErrors + [FieldError(e.name, err.message, fields[index], e.key, Some(index), location)]))
        else Err(err)
      case Ok(decoded) =>
        Ok(p.(data := p.data[e.name := decoded],
              dataByKey := if e.key != "" then p.dataByKey[e.key := decoded] else p.dataByKey))
  }

  /** `parse_field` on the first `n` entries, in order. */
  function ParseFields(p: Progress, t: seq<FieldEntry>, fields: seq<string>, n: nat, checked: Option<Format>,
                       positions: map<nat, Span>, valid: FM.TypeCheck): Result<Progress, Error>
    requires n <= |t| && DescribableTable(t)
  {
    if n == 0 then Ok(p)
    else
      var q :- ParseFields(p, t, fields, n - 1, checked, positions, valid);
      ParseStep(q, t, fields, n - 1, checked, positions, valid)
  }

  /** `_values_by_key`: the raw text of every decoded key, "" for one decoded to None. */
  function ValuesByKey(dataByKey: map<string, Option<P.Decoded>>): (values: map<string, string>)
    ensures values.Keys == dataByKey.Keys
    ensures forall k :: k in dataByKey && dataByKey[k].None? ==> values[k] == ""
    ensures forall k :: k in dataByKey && dataByKey[k].Some? ==> values[k] == dataByKey[k].value.value
  {
    map k | k in dataByKey :: if dataByKey[k].Some? then dataByKey[k].value.value else ""
  }

  /** The format after promotion: piped data without a declared format moves from EURING2000+ to EURING2020 when it needs to. */
  function Promote(current: Format, declared: Option<Format>, t: seq<FieldEntry>, values: map<string, string>): (f: Format)
    requires |t| == FieldCount
    ensures f == Euring2020 <==> current == Euring2020 || (current == Euring2000Plus && declared.None? && RequiresEuring2020(t, values))
    ensures f == Euring2000 <==> current == Euring2000
  {
    if current == Euring2000Plus && declared.None? && RequiresEuring2020(t, values) then Euring2020 else current
  }

  /** `_add_field_error_for_key` for each record-rule error, in order. */
  function RuleFieldErrors(errors: seq<RuleError>, t: seq<FieldEntry>, checked: Option<Format>,
                           positions: map<nat, Span>): (r: seq<FieldError>)
    ensures |r| == |errors|
  {
    if errors == [] then []
    else
      var n := |errors| - 1;
      RuleFieldErrors(errors[..n], t, checked, positions) + [RuleFieldError(errors[n], t, checked, positions)]
  }

  /** The field errors of one more rule error end with that error's. */
  lemma {:induction false} RuleFieldErrorsSnoc(errors: seq<RuleError>, i: nat, t: seq<FieldEntry>, checked: Option<Format>,
                                               positions: map<nat, Span>)
    requires i < |errors|
    ensures RuleFieldErrors(errors[..i + 1], t, checked, positions) ==
      RuleFieldErrors(errors[..i], t, checked, positions) + [RuleFieldError(errors[i], t, checked, positions)]
  {
    assert errors[..i + 1][..i] == errors[..i];
  }

  /** The `i`-th field error is the `i`-th rule error's. */
  lemma {:induction false} RuleFieldErrorsAt(errors: seq<RuleError>, t: seq<FieldEntry>, checked: Option<Format>,
                                             positions: map<nat, Span>)
    ensures forall i :: 0 <= i < |errors| ==>
      RuleFieldErrors(errors, t, checked, positions)[i] == RuleFieldError(errors[i], t, checked, positions)
  {
    if errors != [] {
      var n := |errors| - 1;
      RuleFieldErrorsAt(errors[..n], t, checked, positions);
      assert forall i :: 0 <= i < n ==> errors[..n][i] == errors[i];
    }
  }

  /** One record-rule error as a field error: the field's name and index for its key, located against the format. */
  function RuleFieldError(e: RuleError, t: seq<FieldEntry>, checked: Option<Format>, positions: map<nat, Span>): FieldError {
    FieldError(FieldNameForKey(t, e.key), e.message, e.value, e.key, IndexOfKey(t, e.key),
               ErrorLocation(checked, positions, IndexOfKey(t, e.key)))
  }

  /** `_build_fields` over the first `n` entries: only decoded keys, each with its canonical index. */
  function BuiltFields(t: seq<FieldEntry>, dataByKey: map<string, Option<P.Decoded>>, n: nat): seq<BuiltField>
    requires n <= |t|
  {
    if n == 0 then []
    else
      var e := t[n - 1];
      BuiltFields(t, dataByKey, n - 1) +
        if e.key in dataByKey then
          [BuiltField(e.key, e.name, if dataByKey[e.key].Some? then Some(dataByKey[e.key].value.value) else None, n - 1)]
        else []
  }

  /** What a decode leaves: the resolved format, the state, the positions and the fields. */
  datatype Decoding = Decoding(format: Option<Format>, progress: Progress, positions: map<nat, Span>, fields: seq<BuiltField>)

  /** Text is fixed width when it has no pipe. */
  predicate IsFixedWidth(text: string) {
    |Split(text, '|')| <= 1
  }

  /** The record errors of a declared format that contradicts the layout of the text. */
  function ConflictErrors(text: string, declared: Option<Format>): seq<string> {
    if IsFixedWidth(text) then
      if declared.Some? && declared.value != Euring2000 then [FixedWidthConflictMessage(declared.value)] else []
    else if declared == Some(Euring2000) then [PipedConflictMessage]
    else []
  }

  /** The format the layout of the text gives, before promotion. */
  function LayoutFormat(text: string, declared: Option<Format>): Format {
    if IsFixedWidth(text) then Euring2000
    else if declared.Some? then declared.value
    else Euring2000Plus
  }

  /** The values of the fields: the fixed-width slices, or the pieces between pipes. */
  function RecordFields(text: string, t: seq<FieldEntry>): seq<string>
    requires ValidTable(t)
  {
    if IsFixedWidth(text) then FixedWidthFields(text, t) else Split(text, '|')
  }

  function RecordPositions(text: string, t: seq<FieldEntry>): map<nat, Span>
    requires ValidTable(t)
  {
    if IsFixedWidth(text) then FixedWidthPositions(t, Euring2000FieldCount) else map[]
  }

  /**
   * `_decode`, with field errors located against the format being decoded:
   * text that cannot be split is one record error; otherwise the conflicts,
   * every field, the promotion, and the record rules of the final format.
   */
  function DecodeSpec(input: RecordInput, declared: Option<Format>, t: seq<FieldEntry>, valid: FM.TypeCheck): Result<Decoding, Error>
    requires ValidTable(t) && DescribableTable(t)
  {
    match input
    case NonText(shown, _) => Ok(Decoding(None, Progress([CannotSplitMessage(shown)], [], map[], map[]), map[], []))
    case TextRecord(text) =>
      var current := LayoutFormat(text, declared);
      var positions := RecordPositions(text, t);
      var parsed :- ParseFields(Progress(ConflictErrors(text, declared), [], map[], map[]), t, RecordFields(text, t),
                                |t|, Some(current), positions, valid);
      Ok(Finish(parsed, current, declared, t, positions))
  }

  /** After the fields: promote, add the record-rule errors of the final format, and build the fields. */
  function Finish(parsed: Progress, current: Format, declared: Option<Format>, t: seq<FieldEntry>,
                  positions: map<nat, Span>): Decoding
    requires |t| == FieldCount
  {
    var values := ValuesByKey(parsed.dataByKey);
    var final := Promote(current, declared, t, values);
    var ruleErrors := RuleFieldErrors(RuleErrors(final, t, values), t, Some(final), positions);
    Decoding(Some(final), parsed.(fieldErrors := parsed.fieldErrors + ruleErrors), positions,
             BuiltFields(t, parsed.dataByKey, |t|))
  }

  /**
   * `_decode` as written: `add_field_error` reads `record_format`, which is
   * still None while the fields and the record rules are checked, so every
   * field error is added unlocated.
   */
  function DecodeSpecAsWritten(input: RecordInput, declared: Option<Format>, t: seq<FieldEntry>, valid: FM.TypeCheck): Result<Decoding, Error>
    requires ValidTable(t) && DescribableTable(t)
  {
    match input
    case NonText(shown, _) => Ok(Decoding(None, Progress([CannotSplitMessage(shown)], [], map[], map[]), map[], []))
    case TextRecord(text) =>
      var current := LayoutFormat(text, declared);
      var positions := RecordPositions(text, t);
      var parsed :- ParseFields(Progress(ConflictErrors(text, declared), [], map[], map[]), t, RecordFields(text, t),
                                |t|, None, positions, valid);
      Ok(FinishAsWritten(parsed, current, declared, t, positions))
  }

  /** `Finish` as written: the record-rule errors are added before `record_format` is set. */
  function FinishAsWritten(parsed: Progress, current: Format, declared: Option<Format>, t: seq<FieldEntry>,
                           positions: map<nat, Span>): Decoding
    requires |t| == FieldCount
  {
    var values := ValuesByKey(parsed.dataByKey);
    var final := Promote(current, declared, t, values);
    var ruleErrors := RuleFieldErrors(RuleErrors(final, t, values), t, None, positions);
    Decoding(Some(final), parsed.(fieldErrors := parsed.fieldErrors + ruleErrors), positions,
             BuiltFields(t, parsed.dataByKey, |t|))
  }

  /** The public results of a decode. */
  function ResultsOf(d: Decoding): Results {
    Results(if d.format.Some? then Some(d.format.value.DisplayName()) else None, d.fields,
            d.progress.recordErrors, d.progress.fieldErrors)
  }

  // ---------------------------------------------------------------- the decoder object

  /** `_EuringDecoder`: decodes one record into results, collecting errors as it goes. */
  class EuringDecoder {
    const input: RecordInput
    const format: Option<Format>
    const table: seq<FieldEntry>
    const valid: FM.TypeCheck
    var results: Option<Results>
    var recordErrors: seq<string>
    var fieldErrors: seq<FieldError>
    var data: map<string, Option<P.Decoded>>
    var dataByKey: map<string, Option<P.Decoded>>
    var fieldPositions: map<nat, Span>
    var recordFormat: Option<Format>

    ghost predicate Valid() {
      ValidTable(table) && DescribableTable(table)
    }

    function Current(): Progress
      reads this
    {
      Progress(recordErrors, fieldErrors, data, dataByKey)
    }

    /** A decoder of one record, in an already normalised format (see `NormalizeFormatOption`). */
    constructor(input: RecordInput, format: Option<Format>, table: seq<FieldEntry>, valid: FM.TypeCheck)
      requires ValidTable(table) && DescribableTable(table)
      ensures Valid()
      ensures this.input == input && this.format == format && this.table == table && this.valid == valid
      ensures results.None? && recordFormat.None?
      ensures Current() == Progress([], [], map[], map[]) && fieldPositions == map[]
    {
      this.input := input;
      this.format := format;
      this.table := table;
      this.valid := valid;
      results := None;
      recordErrors := [];
      fieldErrors := [];
      data := map[];
      dataByKey := map[];
      fieldPositions := map[];
      recordFormat := None;
    }

    /** `add_record_error`. */
    method AddRecordError(message: string)
      modifies this`recordErrors
      ensures recordErrors == old(recordErrors) + [message]
    {
      recordErrors := recordErrors + [message];
    }

    /** `add_field_error`, with the position metadata attached when `checked` is EURING2000. */
    method AddFieldError(field: string, message: string, value: string, key: string, index: Option<nat>, checked: Option<Format>)
      modifies this`fieldErrors
      ensures fieldErrors == old(fieldErrors) + [FieldError(field, message, value, key, index, ErrorLocation(checked, fieldPositions, index))]
    {
      var location := Unlocated;
      if index.Some? && checked == Some(Euring2000) {
        location := Located(if index.value in fieldPositions then Some(fieldPositions[index.value]) else None);
      }
      fieldErrors := fieldErrors + [FieldError(field, message, value, key, index, location)];
    }

    /**
     * `add_field_error` as written: the metadata depends on `record_format`,
     * which is only set once a decode has finished.
     */
    method AddFieldErrorAsWritten(field: string, message: string, value: string, key: string, index: Option<nat>)
      modifies this`fieldErrors
      ensures fieldErrors == old(fieldErrors) + [FieldError(field, message, value, key, index, ErrorLocation(recordFormat, fieldPositions, index))]
    {
      AddFieldError(field, message, value, key, index, recordFormat);
    }

    /** `parse_field` on the `index`-th entry of the table. */
    method ParseField(fields: seq<string>, index: nat, checked: Option<Format>) returns (o: Outcome<Error>)
      requires Valid() && index < |table|
      modifies this`fieldErrors, this`data, this`dataByKey
      ensures var s := ParseStep(old(Current()), table, fields, index, checked, fieldPositions, valid);
        (s.Ok? ==> o.Pass? && Current() == s.value) &&
        (s.Err? ==> o == Fail(s.error) && Current() == old(Current()))
    {
      var e := table[index];
      if index >= |fields| {
        if e.required {
          AddFieldError(e.name, MissingValueMessage(index), "", e.key, Some(index), checked);
        }
        return Pass;
      }
      var value := fields[index];
      if e.name in data {
        AddFieldError(e.name, DuplicateMessage, value, e.key, Some(index), checked);
        return Pass;
      }
      var decoded := DecodeValue(value, e.typeName, e.required, e.length, e.minLength, e.maxLength, e.parser, e.lookup, valid);
      if decoded.Err? {
        if !IsEuring(decoded.error) {
          return Fail(decoded.error);
        }
        AddFieldError(e.name, decoded.error.message, value, e.key, Some(index), checked);
        return Pass;
      }
      data := data[e.name := decoded.value];
      if e.key != "" {
        dataByKey := dataByKey[e.key := decoded.value];
      }
      return Pass;
    }

    /**
     * The fixed-width branch of `_decode`: slice at each field's width (its
     * length, else its maximum length) and record where each slice sits,
     * until position 94.  The table gives each of the first 33 fields a
     * length and those lengths reach 94, so a width-less field is never met
     * before position 94 and the "beyond position" error cannot occur.
     */
    method SliceFixedWidth(text: string) returns (fields: seq<string>)
      requires ValidTable(table) && fieldPositions == map[]
      modifies this`fieldPositions
      ensures fields == FixedWidthFields(text, table)
      ensures fieldPositions == FixedWidthPositions(table, Euring2000FieldCount)
    {
      fields := [];
      var positions: map<nat, Span> := map[];
      var start := 0;
      var done := false;
      var index := 0;
      assert positions == FixedWidthPositions(table, 0);
      while index < |table|
        invariant index <= Euring2000FieldCount && !done
        invariant start == Start(table, index)
        invariant fields == Slices(text, table, index)
        invariant positions == FixedWidthPositions(table, index)
      {
        if index < Euring2000FieldCount {
          LengthsTotalBelow(table, index);
        }
        if start >= Euring2000RecordLength {
          break;
        }
        var length := Width(table[index]);
        if length.Some? && length.value > 0 {
          if done {
            assert false;
          }
          var end := start + length.value;
          fields := fields + [Slice(text, start, end)];
          positions := positions[index := Span(start + 1, length.value)];
          start := end;
        } else {
          done := true;
        }
        index := index + 1;
      }
      assert index == Euring2000FieldCount;
      fieldPositions := positions;
    }

    /** `_add_field_error_for_key`: find the key's index, and take the stored value when none is given. */
    method AddFieldErrorForKey(key: string, fieldName: string, message: string, value: Option<string>, checked: Option<Format>)
      modifies this`fieldErrors
      ensures var v := if value.Some? then value.value
                       else if key in dataByKey && dataByKey[key].Some? then dataByKey[key].value.value else "";
        fieldErrors == old(fieldErrors) + [FieldError(fieldName, message, v, key, IndexOfKey(table, key),
                                                      ErrorLocation(checked, fieldPositions, IndexOfKey(table, key)))]
    {
      var fieldIndex: Option<nat> := None;
      var index := 0;
      while index < |table|
        invariant index <= |table|
        invariant fieldIndex.None? ==> forall j :: 0 <= j < index ==> table[j].key != key
        invariant fieldIndex.Some? ==> fieldIndex == IndexOfKey(table, key)
        decreases if fieldIndex.Some? then 0 else |table| - index
      {
        if table[index].key == key {
          fieldIndex := Some(index);
          break;
        }
        index := index + 1;
      }
      var v := "";
      if value.Some? {
        v := value.value;
      } else if key in dataByKey && dataByKey[key].Some? {
        v := dataByKey[key].value.value;
      }
      AddFieldError(fieldName, message, v, key, fieldIndex, checked);
    }

    /** `_build_fields`. */
    method BuildFields() returns (fields: seq<BuiltField>)
      ensures fields == BuiltFields(table, dataByKey, |table|)
    {
      fields := [];
      for index := 0 to |table|
        invariant fields == BuiltFields(table, dataByKey, index)
      {
        var e := table[index];
        if e.key !in dataByKey {
          continue;
        }
        var decoded := dataByKey[e.key];
        fields := fields + [BuiltField(e.key, e.name, if decoded.Some? then Some(decoded.value.value) else None, index)];
      }
    }

    /** The field loop of `_decode`: every entry of the table, in order, stopping only on an error that is not a EURING one. */
    method ParseAll(fields: seq<string>, checked: Option<Format>) returns (o: Outcome<Error>)
      requires Valid()
      modifies this`fieldErrors, this`data, this`dataByKey
      ensures var s := ParseFields(old(Current()), table, fields, |table|, checked, fieldPositions, valid);
        (s.Ok? ==> o.Pass? && Current() == s.value) && (s.Err? ==> o == Fail(s.error))
    {
      ghost var p0 := Current();
      for index := 0 to |table|
        invariant recordErrors == p0.recordErrors
        invariant ParseFields(p0, table, fields, index, checked, fieldPositions, valid) == Ok(Current())
      {
        o := ParseField(fields, index, checked);
        if o.Fail? {
          ParseFieldsFailurePersists(p0, table, fields, index + 1, |table|, checked, fieldPositions, valid);
          return;
        }
      }
      return Pass;
    }

    /** The rule-error loop of `_decode`. */
    method AddRuleErrors(errors: seq<RuleError>, checked: Option<Format>)
      modifies this`fieldErrors
      ensures fieldErrors == old(fieldErrors) + RuleFieldErrors(errors, table, checked, fieldPositions)
    {
      for i := 0 to |errors|
        invariant fieldErrors == old(fieldErrors) + RuleFieldErrors(errors[..i], table, checked, fieldPositions)
      {
        var e := errors[i];
        ghost var before := fieldErrors;
        AddFieldErrorForKey(e.key, FieldNameForKey(table, e.key), e.message, Some(e.value), checked);
        RuleFieldErrorsSnoc(errors, i, table, checked, fieldPositions);
        AppendOne(old(fieldErrors), RuleFieldErrors(errors[..i], table, checked, fieldPositions),
                  RuleFieldError(e, table, checked, fieldPositions), before, fieldErrors);
      }
      assert errors[..|errors|] == errors;
    }

    /** Appending one error to a list that extends `start` by `prev` extends it by `prev` and that error. */
    static lemma {:induction false} AppendOne(start: seq<FieldError>, prev: seq<FieldError>, x: FieldError,
                                              before: seq<FieldError>, after: seq<FieldError>)
      requires before == start + prev && after == before + [x]
      ensures after == start + (prev + [x])
    {
    }

    /**
     * `_decode` on a fresh state.  Field errors are located against the
     * format being decoded (EURING2000 for fixed-width text); see
     * `AddFieldErrorAsWritten` for the check the code makes instead.
     */
    method DecodeRecord() returns (o: Outcome<Error>, built: seq<BuiltField>)
      requires Valid() && Current() == Progress([], [], map[], map[]) && fieldPositions == map[]
      modifies this`recordErrors, this`fieldErrors, this`data, this`dataByKey, this`fieldPositions, this`recordFormat
      ensures var d := DecodeSpec(input, format, table, valid);
        (d.Ok? ==> o.Pass? && Current() == d.value.progress && fieldPositions == d.value.positions &&
                   built == d.value.fields &&
                   (d.value.format.Some? ==> recordFormat == d.value.format) &&
                   (d.value.format.None? ==> recordFormat == old(recordFormat))) &&
        (d.Err? ==> o == Fail(d.error))
    {
      built := [];
      if input.NonText? {
        AddRecordError(CannotSplitMessage(input.shown));
        return Pass, built;
      }
      var text := input.text;
      var fields, current := Layout(text);
      o := ParseAll(fields, Some(current));
      if o.Fail? {
        return o, built;
      }
      built := Conclude(current);
    }

    /** The layout branch of `_decode`: the conflicts with the declared format, and the values to parse. */
    method Layout(text: string) returns (fields: seq<string>, current: Format)
      requires ValidTable(table) && recordErrors == [] && fieldPositions == map[]
      modifies this`recordErrors, this`fieldPositions
      ensures recordErrors == ConflictErrors(text, format)
      ensures fields == RecordFields(text, table) && fieldPositions == RecordPositions(text, table)
      ensures current == LayoutFormat(text, format)
    {
      var pieces := Split(text, '|');
      if |pieces| <= 1 {
        if format.Some? && format.value != Euring2000 {
          AddRecordError(FixedWidthConflictMessage(format.value));
        }
        fields := SliceFixedWidth(text);
        current := Euring2000;
      } else {
        if format == Some(Euring2000) {
          AddRecordError(PipedConflictMessage);
        }
        fields := pieces;
        current := if format.Some? then format.value else Euring2000Plus;
      }
    }

    /** The end of `_decode`: promotion, the record rules, the fields and the record format. */
    method Conclude(current: Format) returns (built: seq<BuiltField>)
      requires ValidTable(table)
      modifies this`fieldErrors, this`recordFormat
      ensures var d := Finish(old(Current()), current, format, table, fieldPositions);
        Current() == d.progress && built == d.fields && recordFormat == d.format
    {
      var values := ValuesByKey(dataByKey);
      var final := current;
      if final == Euring2000Plus || final == Euring2020 {
        var is2020 := RequiresEuring2020(table, values);
        if is2020 && final == Euring2000Plus && format.None? {
          final := Euring2020;
        }
      }
      var errors := RecordRuleErrors(final, table, values);
      AddRuleErrors(errors, Some(final));
      built := BuildFields();
      recordFormat := Some(final);
    }

    /** `decode`: reset the state, decode, and fill in the results. */
    method Decode() returns (o: Outcome<Error>)
      requires Valid()
      modifies this
      ensures var d := DecodeSpec(input, format, table, valid);
        (d.Ok? ==> o.Pass? && results == Some(ResultsOf(d.value)) && Current() == d.value.progress &&
                   fieldPositions == d.value.positions &&
                   (d.value.format.Some? ==> recordFormat == d.value.format) &&
                   (d.value.format.None? ==> recordFormat == old(recordFormat))) &&
        (d.Err? ==> o == Fail(d.error) && results == Some(Incomplete))
    {
      results := Some(Incomplete);
      recordErrors := [];
      fieldErrors := [];
      fieldPositions := map[];
      data := map[];
      dataByKey := map[];
      var built;
      o, built := DecodeRecord();
      if o.Fail? {
        return;
      }
      var display := if recordFormat.Some? && input.TextRecord? then Some(recordFormat.value.DisplayName()) else None;
      results := Some(Results(display, built, recordErrors, fieldErrors));
    }

    /** `get_results`: decode on the first call only, and return the results. */
    method GetResults() returns (r: Result<Results, Error>)
      requires Valid()
      modifies this
      ensures old(results).Some? ==> r == Ok(old(results).value) && unchanged(this)
      ensures old(results).None? ==> var d := DecodeSpec(input, format, table, valid);
        (r.Ok? <==> d.Ok?) && (r.Ok? ==> r.value == ResultsOf(d.value) && results == Some(r.value)) &&
        (r.Ok? ==> recordFormat == if d.value.format.Some? then d.value.format else old(recordFormat)) &&
        (r.Err? ==> r.error == d.error)
    {
      if results.None? {
        var o := Decode();
        if o.Fail? {
          return Err(o.error);
        }
      }
      return Ok(results.value);
    }
  }

  /** `_normalize_format`: no format is None, and an unknown name raises a parse error. */
  function NormalizeFormatOption(format: string): (r: Result<Option<Format>, Error>)
    ensures format == "" ==> r == Ok(None)
    ensures format != "" ==> (r.Ok? <==> NormalizeFormat(format).Ok?)
    ensures format != "" && r.Ok? ==> r.value == Some(NormalizeFormat(format).value)
    ensures r.Err? ==> r.error == ParseFailure(UnknownFormatMessage(format))
  {
    if format == "" then Ok(None)
    else
      match NormalizeFormat(format)
      case Ok(f) => Ok(Some(f))
      case Err(_) => Err(ParseFailure(UnknownFormatMessage(format)))
  }

  // ---------------------------------------------------------------- properties of the decode

  /** Once a step raises, every later prefix raises the same error. */
  lemma {:induction false} ParseFieldsFailurePersists(p: Progress, t: seq<FieldEntry>, fields: seq<string>, m: nat, n: nat,
                                                     checked: Option<Format>, positions: map<nat, Span>, valid: FM.TypeCheck)
    requires m <= n <= |t| && DescribableTable(t)
    requires ParseFields(p, t, fields, m, checked, positions, valid).Err?
    ensures ParseFields(p, t, fields, n, checked, positions, valid) == ParseFields(p, t, fields, m, checked, positions, valid)
    decreases n - m
  {
    if m < n {
      ParseFieldsFailurePersists(p, t, fields, m, n - 1, checked, positions, valid);
    }
  }

  /** A step appends at most one field error, about its own index and located against the format checked. */
  lemma {:induction false} StepAppends(q: Progress, t: seq<FieldEntry>, fields: seq<string>, k: nat, checked: Option<Format>,
                    positions: map<nat, Span>, valid: FM.TypeCheck)
    requires k < |t| && DescribableTable(t)
    requires ParseStep(q, t, fields, k, checked, positions, valid).Ok?
    ensures var r := ParseStep(q, t, fields, k, checked, positions, valid).value;
      r.recordErrors == q.recordErrors &&
      (r.fieldErrors == q.fieldErrors ||
       (exists e :: r.fieldErrors == q.fieldErrors + [e] && e.index == Some(k) &&
                    e.location == ErrorLocation(checked, positions, Some(k))))
  {
  }

  /**
   * Steps `m` to `n` keep the record errors and only append field errors,
   * each about an index in `m..n` and located against the format checked.
   */
  lemma {:induction false} ParseFieldsAppends(p: Progress, t: seq<FieldEntry>, fields: seq<string>, m: nat, n: nat,
                                             checked: Option<Format>, positions: map<nat, Span>, valid: FM.TypeCheck)
    requires m <= n <= |t| && DescribableTable(t)
    requires ParseFields(p, t, fields, n, checked, positions, valid).Ok?
    ensures ParseFields(p, t, fields, m, checked, positions, valid).Ok?
    ensures var a := ParseFields(p, t, fields, m, checked, positions, valid).value;
      var b := ParseFields(p, t, fields, n, checked, positions, valid).value;
      b.recordErrors == a.recordErrors &&
      |a.fieldErrors| <= |b.fieldErrors| && b.fieldErrors[..|a.fieldErrors|] == a.fieldErrors &&
      forall e :: e in b.fieldErrors[|a.fieldErrors|..] ==>
        e.index.Some? && m <= e.index.value < n && e.location == ErrorLocation(checked, positions, e.index)
    decreases n - m
  {
    if m < n {
      LastStepAppends(p, t, fields, n, checked, positions, valid);
      ParseFieldsAppends(p, t, fields, m, n - 1, checked, positions, valid);
      var a := ParseFields(p, t, fields, m, checked, positions, valid).value;
      var q := ParseFields(p, t, fields, n - 1, checked, positions, valid).value;
      var b := ParseFields(p, t, fields, n, checked, positions, valid).value;
      ErrorsExtend(a.fieldErrors, q.fieldErrors, b.fieldErrors, m, n, checked, positions);
    }
  }

  /** The last of the first `n` entries adds at most one field error, about itself. */
  lemma {:induction false} LastStepAppends(p: Progress, t: seq<FieldEntry>, fields: seq<string>, n: nat,
                                           checked: Option<Format>, positions: map<nat, Span>, valid: FM.TypeCheck)
    requires 0 < n <= |t| && DescribableTable(t)
    requires ParseFields(p, t, fields, n, checked, positions, valid).Ok?
    ensures ParseFields(p, t, fields, n - 1, checked, positions, valid).Ok?
    ensures var q := ParseFields(p, t, fields, n - 1, checked, positions, valid).value;
      var r := ParseFields(p, t, fields, n, checked, positions, valid).value;
      r.recordErrors == q.recordErrors &&
      (r.fieldErrors == q.fieldErrors ||
       (exists e :: r.fieldErrors == q.fieldErrors + [e] && e.index == Some(n - 1) &&
                    e.location == ErrorLocation(checked, positions, Some(n - 1))))
  {
    var q := ParseFields(p, t, fields, n - 1, checked, positions, valid);
    assert q.Ok?;
    StepAppends(q.value, t, fields, n - 1, checked, positions, valid);
  }

  /** The appended-errors bound of `ParseFieldsAppends` carried over one more step. */
  lemma {:induction false} ErrorsExtend(a: seq<FieldError>, q: seq<FieldError>, b: seq<FieldError>, m: nat, n: nat,
                     checked: Option<Format>, positions: map<nat, Span>)
    requires m < n && |a| <= |q| && q[..|a|] == a
    requires forall e :: e in q[|a|..] ==>
      e.index.Some? && m <= e.index.value < n - 1 && e.location == ErrorLocation(checked, positions, e.index)
    requires b == q || exists e :: b == q + [e] && e.index == Some(n - 1) &&
                                   e.location == ErrorLocation(checked, positions, Some(n - 1))
    ensures |a| <= |b| && b[..|a|] == a
    ensures forall e :: e in b[|a|..] ==>
      e.index.Some? && m <= e.index.value < n && e.location == ErrorLocation(checked, positions, e.index)
  {
    if b != q {
      var e :| b == q + [e] && e.index == Some(n - 1) && e.location == ErrorLocation(checked, positions, Some(n - 1));
      assert b[|a|..] == q[|a|..] + [e];
    }
  }

  /** A required field with no value is reported as missing, at its index. */
  lemma {:induction false} MissingRequiredReported(p: Progress, t: seq<FieldEntry>, fields: seq<string>, n: nat, k: nat,
                                checked: Option<Format>, positions: map<nat, Span>, valid: FM.TypeCheck)
    requires n <= |t| && DescribableTable(t) && ParseFields(p, t, fields, n, checked, positions, valid).Ok?
    requires |fields| <= k < n && t[k].required
    ensures FieldError(t[k].name, MissingValueMessage(k), "", t[k].key, Some(k), ErrorLocation(checked, positions, Some(k)))
      in ParseFields(p, t, fields, n, checked, positions, valid).value.fieldErrors
  {
    ParseFieldsAppends(p, t, fields, k + 1, n, checked, positions, valid);
    var a := ParseFields(p, t, fields, k + 1, checked, positions, valid).value;
    var b := ParseFields(p, t, fields, n, checked, positions, valid).value;
    var e := FieldError(t[k].name, MissingValueMessage(k), "", t[k].key, Some(k), ErrorLocation(checked, positions, Some(k)));
    assert a.fieldErrors[|a.fieldErrors| - 1] == e;
    assert b.fieldErrors[|a.fieldErrors| - 1] == e;
  }

  /** An optional field with no value gives no error at all. */
  lemma {:induction false} MissingOptionalSilent(p: Progress, t: seq<FieldEntry>, fields: seq<string>, n: nat, k: nat,
                              checked: Option<Format>, positions: map<nat, Span>, valid: FM.TypeCheck)
    requires n <= |t| && DescribableTable(t) && ParseFields(p, t, fields, n, checked, positions, valid).Ok?
    requires |fields| <= k < n && !t[k].required
    ensures var b := ParseFields(p, t, fields, n, checked, positions, valid).value;
      |p.fieldErrors| <= |b.fieldErrors| &&
      forall e :: e in b.fieldErrors[|p.fieldErrors|..] ==> e.index != Some(k)
  {
    ParseFieldsAppends(p, t, fields, k + 1, n, checked, positions, valid);
    ParseFieldsAppends(p, t, fields, k, n, checked, positions, valid);
    ParseFieldsAppends(p, t, fields, 0, k, checked, positions, valid);
    var a := ParseFields(p, t, fields, k, checked, positions, valid).value;
    var a1 := ParseFields(p, t, fields, k + 1, checked, positions, valid).value;
    var b := ParseFields(p, t, fields, n, checked, positions, valid).value;
    assert a1 == a;
    assert p.fieldErrors == ParseFields(p, t, fields, 0, checked, positions, valid).value.fieldErrors;
    SkipsIndex(p.fieldErrors, a.fieldErrors, b.fieldErrors, k);
  }

  /** Errors appended before index `k` and after it, with none for `k` itself, are never about `k`. */
  lemma {:induction false} SkipsIndex(pe: seq<FieldError>, ae: seq<FieldError>, be: seq<FieldError>, k: nat)
    requires |pe| <= |ae| <= |be| && be[..|ae|] == ae
    requires forall e :: e in ae[|pe|..] ==> e.index.Some? && e.index.value < k
    requires forall e :: e in be[|ae|..] ==> e.index.Some? && k + 1 <= e.index.value
    ensures forall e :: e in be[|pe|..] ==> e.index != Some(k)
  {
    assert be[|pe|..] == ae[|pe|..] + be[|ae|..];
  }

  /** A value whose decode raises a EURING error is reported with its message, raw value, key and index. */
  lemma {:induction false} EuringFailureRecorded(q: Progress, t: seq<FieldEntry>, fields: seq<string>, k: nat,
                              checked: Option<Format>, positions: map<nat, Span>, valid: FM.TypeCheck)
    requires k < |t| && DescribableTable(t) && k < |fields| && t[k].name !in q.data
    requires var e := t[k];
      var d := DecodeValue(fields[k], e.typeName, e.required, e.length, e.minLength, e.maxLength, e.parser, e.lookup, valid);
      d.Err? && IsEuring(d.error)
    ensures var e := t[k];
      var d := DecodeValue(fields[k], e.typeName, e.required, e.length, e.minLength, e.maxLength, e.parser, e.lookup, valid);
      ParseStep(q, t, fields, k, checked, positions, valid) ==
        Ok(q.(fieldErrors := q.fieldErrors + [FieldError(e.name, d.error.message, fields[k], e.key, Some(k),
                                                          ErrorLocation(checked, positions, Some(k)))]))
  {
  }

  /** A second field under a name already decoded is reported and leaves the decoded values alone. */
  lemma {:induction false} DuplicateNameReported(q: Progress, t: seq<FieldEntry>, fields: seq<string>, k: nat,
                              checked: Option<Format>, positions: map<nat, Span>, valid: FM.TypeCheck)
    requires k < |t| && DescribableTable(t) && k < |fields| && t[k].name in q.data
    ensures ParseStep(q, t, fields, k, checked, positions, valid) ==
      Ok(q.(fieldErrors := q.fieldErrors + [FieldError(t[k].name, DuplicateMessage, fields[k], t[k].key, Some(k),
                                                        ErrorLocation(checked, positions, Some(k)))]))
  {
  }

  /** Parsers and callable lookups of the table raise only EURING errors. */
  ghost predicate RaisesEuringOnly(t: seq<FieldEntry>) {
    forall i :: 0 <= i < |t| ==>
      (t[i].parser.Some? ==> forall s :: t[i].parser.value(s).Err? ==> IsEuring(t[i].parser.value(s).error)) &&
      (t[i].lookup.Callable? ==> forall v :: t[i].lookup.f(v).Err? ==> IsEuring(t[i].lookup.f(v).error))
  }

  /** When every hook raises only EURING errors, no field stops the loop: all of them are decoded or reported. */
  lemma {:induction false} ParseFieldsNeverStops(p: Progress, t: seq<FieldEntry>, fields: seq<string>, n: nat,
                                                checked: Option<Format>, positions: map<nat, Span>, valid: FM.TypeCheck)
    requires n <= |t| && DescribableTable(t) && RaisesEuringOnly(t)
    ensures ParseFields(p, t, fields, n, checked, positions, valid).Ok?
  {
    if n > 0 {
      ParseFieldsNeverStops(p, t, fields, n - 1, checked, positions, valid);
      StepNeverStops(ParseFields(p, t, fields, n - 1, checked, positions, valid).value, t, fields, n - 1, checked, positions, valid);
    }
  }

  /** When every hook raises only EURING errors, one field never stops the loop. */
  lemma {:induction false} StepNeverStops(q: Progress, t: seq<FieldEntry>, fields: seq<string>, k: nat,
                                          checked: Option<Format>, positions: map<nat, Span>, valid: FM.TypeCheck)
    requires k < |t| && DescribableTable(t) && RaisesEuringOnly(t)
    ensures ParseStep(q, t, fields, k, checked, positions, valid).Ok?
  {
    var e := t[k];
    if k < |fields| && e.name !in q.data {
      var d := DecodeValue(fields[k], e.typeName, e.required, e.length, e.minLength, e.maxLength, e.parser, e.lookup, valid);
      if d.Err? {
        assert IsEuring(d.error);
      }
    }
  }

  /** Every field error is located exactly when it has an index and the format checked is EURING2000. */
  predicate LocatedAgainst(errors: seq<FieldError>, checked: Option<Format>) {
    forall e :: e in errors ==> (e.location.Located? <==> e.index.Some? && checked == Some(Euring2000))
  }

  /** Every field error carries the location its index has against a format and the recorded positions. */
  predicate LocationsAgree(errors: seq<FieldError>, checked: Option<Format>, positions: map<nat, Span>) {
    forall e :: e in errors ==> e.location == ErrorLocation(checked, positions, e.index)
  }

  /** The record-rule errors are located against the format they were checked for. */
  lemma {:induction false} RuleErrorsLocated(errors: seq<RuleError>, t: seq<FieldEntry>, checked: Option<Format>, positions: map<nat, Span>)
    ensures LocationsAgree(RuleFieldErrors(errors, t, checked, positions), checked, positions)
  {
    var r := RuleFieldErrors(errors, t, checked, positions);
    RuleFieldErrorsAt(errors, t, checked, positions);
    forall e | e in r ensures e.location == ErrorLocation(checked, positions, e.index) {
      var i :| 0 <= i < |r| && r[i] == e;
    }
  }

  /** Every field error of a decoded text is located against the final format and the positions of the text. */
  lemma {:induction false} DecodeLocationsAgree(text: string, declared: Option<Format>, t: seq<FieldEntry>, valid: FM.TypeCheck)
    requires ValidTable(t) && DescribableTable(t)
    requires DecodeSpec(TextRecord(text), declared, t, valid).Ok?
    ensures var d := DecodeSpec(TextRecord(text), declared, t, valid).value;
      d.format.Some? && (d.format.value == Euring2000 <==> LayoutFormat(text, declared) == Euring2000) &&
      d.positions == RecordPositions(text, t) &&
      LocationsAgree(d.progress.fieldErrors, d.format, d.positions)
  {
    var current := LayoutFormat(text, declared);
    var positions := RecordPositions(text, t);
    var fields := RecordFields(text, t);
    var p0 := Progress(ConflictErrors(text, declared), [], map[], map[]);
    ParseFieldsAppends(p0, t, fields, 0, |t|, Some(current), positions, valid);
    var parsed := ParseFields(p0, t, fields, |t|, Some(current), positions, valid).value;
    assert parsed.fieldErrors == parsed.fieldErrors[0..];
    var values := ValuesByKey(parsed.dataByKey);
    var final := Promote(current, declared, t, values);
    RuleErrorsLocated(RuleErrors(final, t, values), t, Some(final), positions);
    var d := DecodeSpec(TextRecord(text), declared, t, valid).value;
    assert d == Finish(parsed, current, declared, t, positions);
    forall e | e in parsed.fieldErrors ensures e.location == ErrorLocation(Some(final), positions, e.index) {
      assert e.location == ErrorLocation(Some(current), positions, e.index);
    }
  }

  /**
   * Field errors of a decoded text carry position metadata exactly when they
   * have an index and the text is decoded as EURING2000, which fixed-width
   * text always is.
   */
  lemma {:induction false} DecodeErrorsLocated(text: string, declared: Option<Format>, t: seq<FieldEntry>, valid: FM.TypeCheck)
    requires ValidTable(t) && DescribableTable(t)
    requires DecodeSpec(TextRecord(text), declared, t, valid).Ok?
    ensures var d := DecodeSpec(TextRecord(text), declared, t, valid).value;
      d.format.Some? && (d.format.value == Euring2000 <==> LayoutFormat(text, declared) == Euring2000) &&
      (IsFixedWidth(text) ==> d.format.value == Euring2000) &&
      LocatedAgainst(d.progress.fieldErrors, d.format)
  {
    DecodeLocationsAgree(text, declared, t, valid);
  }

  /** In fixed-width text, an error about one of the 33 fields carries that field's 1-based start and its width. */
  lemma {:induction false} FixedWidthErrorPositions(text: string, declared: Option<Format>, t: seq<FieldEntry>, valid: FM.TypeCheck)
    requires ValidTable(t) && DescribableTable(t) && IsFixedWidth(text)
    requires DecodeSpec(TextRecord(text), declared, t, valid).Ok?
    ensures var d := DecodeSpec(TextRecord(text), declared, t, valid).value;
      forall e :: e in d.progress.fieldErrors && e.index.Some? && e.index.value < Euring2000FieldCount ==>
        e.location == Located(Some(Span(Start(t, e.index.value) + 1, t[e.index.value].length.value)))
  {
    DecodeLocationsAgree(text, declared, t, valid);
    var d := DecodeSpec(TextRecord(text), declared, t, valid).value;
    PositionsAt(t, Euring2000FieldCount);
    ErrorsAtSpans(d.progress.fieldErrors, t, d.format, d.positions);
  }

  /** Errors located against EURING2000 positions carry the span of their field. */
  lemma {:induction false} ErrorsAtSpans(errors: seq<FieldError>, t: seq<FieldEntry>, checked: Option<Format>, positions: map<nat, Span>)
    requires Measured(t) && checked == Some(Euring2000) && LocationsAgree(errors, checked, positions)
    requires forall k: nat :: k < Euring2000FieldCount ==> k in positions && positions[k] == Span(Start(t, k) + 1, t[k].length.value)
    ensures forall e :: e in errors && e.index.Some? && e.index.value < Euring2000FieldCount ==>
      e.location == Located(Some(Span(Start(t, e.index.value) + 1, t[e.index.value].length.value)))
  {
  }

  /**
   * The format of a decoded text: EURING2000 when fixed width, the declared
   * one when piped, and for piped text without a declaration EURING2000+ unless
   * its values need EURING2020.
   */
  lemma {:induction false} DecodedFormat(text: string, declared: Option<Format>, t: seq<FieldEntry>, valid: FM.TypeCheck)
    requires ValidTable(t) && DescribableTable(t)
    requires DecodeSpec(TextRecord(text), declared, t, valid).Ok?
    ensures var d := DecodeSpec(TextRecord(text), declared, t, valid).value;
      var values := ValuesByKey(d.progress.dataByKey);
      d.format.Some? &&
      (IsFixedWidth(text) ==> d.format.value == Euring2000) &&
      (!IsFixedWidth(text) && declared.Some? ==> d.format.value == declared.value) &&
      (!IsFixedWidth(text) && declared.None? ==>
        (d.format.value == Euring2020 <==> RequiresEuring2020(t, values)) &&
        (d.format.value != Euring2020 ==> d.format.value == Euring2000Plus))
  {
  }

  /** Two lists of field errors that are the same but for their locations. */
  predicate SameButLocations(a: seq<FieldError>, b: seq<FieldError>) {
    |a| == |b| && forall i :: 0 <= i < |a| ==> a[i].(location := Unlocated) == b[i].(location := Unlocated)
  }

  /** Two decoder states that are the same but for the locations of their field errors. */
  predicate SameProgressButLocations(p: Progress, q: Progress) {
    p.recordErrors == q.recordErrors && p.data == q.data && p.dataByKey == q.dataByKey &&
    SameButLocations(p.fieldErrors, q.fieldErrors)
  }

  /** Two outcomes of the field loop agree: both fail with the same error, or both go on with the same progress but for locations. */
  predicate SameOutcomeButLocations(r1: Result<Progress, Error>, r2: Result<Progress, Error>) {
    (r1.Ok? <==> r2.Ok?) && (r1.Err? ==> r1.error == r2.error) &&
    (r1.Ok? ==> SameProgressButLocations(r1.value, r2.value))
  }

  lemma {:induction false} SameButLocationsAppend(a: seq<FieldError>, b: seq<FieldError>, c: seq<FieldError>, d: seq<FieldError>)
    requires SameButLocations(a, b) && SameButLocations(c, d)
    ensures SameButLocations(a + c, b + d)
  {
    forall i | 0 <= i < |a + c| ensures (a + c)[i].(location := Unlocated) == (b + d)[i].(location := Unlocated) {
      if i >= |a| {
        assert (a + c)[i] == c[i - |a|] && (b + d)[i] == d[i - |b|];
      }
    }
  }

  /** Where errors are located does not change what a step does. */
  lemma {:induction false} StepIgnoresLocation(q1: Progress, q2: Progress, t: seq<FieldEntry>, fields: seq<string>, k: nat,
                                               c1: Option<Format>, c2: Option<Format>, positions: map<nat, Span>, valid: FM.TypeCheck)
    requires k < |t| && DescribableTable(t) && SameProgressButLocations(q1, q2)
    ensures SameOutcomeButLocations(ParseStep(q1, t, fields, k, c1, positions, valid), ParseStep(q2, t, fields, k, c2, positions, valid))
  {
    var e := t[k];
    var l1, l2 := ErrorLocation(c1, positions, Some(k)), ErrorLocation(c2, positions, Some(k));
    if k >= |fields| {
      if e.required {
        var x := FieldError(e.name, MissingValueMessage(k), "", e.key, Some(k), l1);
        SameButLocationsAppend(q1.fieldErrors, q2.fieldErrors, [x], [x.(location := l2)]);
      }
    } else if e.name in q1.data {
      var x := FieldError(e.name, DuplicateMessage, fields[k], e.key, Some(k), l1);
      SameButLocationsAppend(q1.fieldErrors, q2.fieldErrors, [x], [x.(location := l2)]);
    } else {
      var d := DecodeValue(fields[k], e.typeName, e.required, e.length, e.minLength, e.maxLength, e.parser, e.lookup, valid);
      if d.Err? && IsEuring(d.error) {
        var x := FieldError(e.name, d.error.message, fields[k], e.key, Some(k), l1);
        SameButLocationsAppend(q1.fieldErrors, q2.fieldErrors, [x], [x.(location := l2)]);
      }
    }
  }

  /** Where errors are located does not change what the field loop does. */
  lemma {:induction false} ParseFieldsIgnoresLocation(p: Progress, t: seq<FieldEntry>, fields: seq<string>, n: nat,
                                                      c1: Option<Format>, c2: Option<Format>, positions: map<nat, Span>,
                                                      valid: FM.TypeCheck)
    requires n <= |t| && DescribableTable(t)
    ensures SameOutcomeButLocations(ParseFields(p, t, fields, n, c1, positions, valid), ParseFields(p, t, fields, n, c2, positions, valid))
  {
    if n > 0 {
      ParseFieldsIgnoresLocation(p, t, fields, n - 1, c1, c2, positions, valid);
      var q1, q2 := ParseFields(p, t, fields, n - 1, c1, positions, valid), ParseFields(p, t, fields, n - 1, c2, positions, valid);
      if q1.Ok? {
        StepIgnoresLocation(q1.value, q2.value, t, fields, n - 1, c1, c2, positions, valid);
        assert ParseFields(p, t, fields, n, c1, positions, valid) == ParseStep(q1.value, t, fields, n - 1, c1, positions, valid);
        assert ParseFields(p, t, fields, n, c2, positions, valid) == ParseStep(q2.value, t, fields, n - 1, c2, positions, valid);
      }
    } else {
      assert SameButLocations(p.fieldErrors, p.fieldErrors);
    }
  }

  /** The record-rule errors are the same, wherever they are located. */
  lemma {:induction false} RuleErrorsIgnoreLocation(errors: seq<RuleError>, t: seq<FieldEntry>, c1: Option<Format>,
                                                    c2: Option<Format>, positions: map<nat, Span>)
    ensures SameButLocations(RuleFieldErrors(errors, t, c1, positions), RuleFieldErrors(errors, t, c2, positions))
  {
    RuleFieldErrorsAt(errors, t, c1, positions);
    RuleFieldErrorsAt(errors, t, c2, positions);
  }

  /**
   * As written, a decode is the corrected decode with every location
   * erased: it fails exactly when the corrected one does, with the same
   * error, and otherwise gives the same format, record errors, values,
   * positions and fields, and the same field errors, none of them located.
   */
  lemma {:induction false} DecodeAsWrittenUnlocated(text: string, declared: Option<Format>, t: seq<FieldEntry>, valid: FM.TypeCheck)
    requires ValidTable(t) && DescribableTable(t)
    ensures var a, c := DecodeSpecAsWritten(TextRecord(text), declared, t, valid), DecodeSpec(TextRecord(text), declared, t, valid);
      (a.Ok? <==> c.Ok?) && (a.Err? ==> a.error == c.error) &&
      (a.Ok? ==> a.value.format == c.value.format && a.value.positions == c.value.positions &&
                 a.value.fields == c.value.fields && SameProgressButLocations(a.value.progress, c.value.progress) &&
                 forall e :: e in a.value.progress.fieldErrors ==> e.location == Unlocated)
  {
    var current := LayoutFormat(text, declared);
    var positions := RecordPositions(text, t);
    var fields := RecordFields(text, t);
    var p0 := Progress(ConflictErrors(text, declared), [], map[], map[]);
    ParseFieldsIgnoresLocation(p0, t, fields, |t|, None, Some(current), positions, valid);
    var r1 := ParseFields(p0, t, fields, |t|, None, positions, valid);
    var r2 := ParseFields(p0, t, fields, |t|, Some(current), positions, valid);
    if r1.Ok? {
      FinishIgnoresLocation(r1.value, r2.value, current, declared, t, positions);
      ParseFieldsAppends(p0, t, fields, 0, |t|, None, positions, valid);
      assert r1.value.fieldErrors == r1.value.fieldErrors[0..];
      var values := ValuesByKey(r1.value.dataByKey);
      RuleErrorsLocated(RuleErrors(Promote(current, declared, t, values), t, values), t, None, positions);
    }
  }

  /** Finishing two states that differ only in locations, as written and corrected. */
  lemma {:induction false} FinishIgnoresLocation(p1: Progress, p2: Progress, current: Format, declared: Option<Format>,
                                                 t: seq<FieldEntry>, positions: map<nat, Span>)
    requires |t| == FieldCount && SameProgressButLocations(p1, p2)
    ensures var a, c := FinishAsWritten(p1, current, declared, t, positions), Finish(p2, current, declared, t, positions);
      a.format == c.format && a.positions == c.positions && a.fields == c.fields &&
      SameProgressButLocations(a.progress, c.progress) &&
      a.progress.fieldErrors == p1.fieldErrors + RuleFieldErrors(RuleErrors(a.format.value, t, ValuesByKey(p1.dataByKey)), t, None, positions)
  {
    var values := ValuesByKey(p1.dataByKey);
    var final := Promote(current, declared, t, values);
    var rules := RuleErrors(final, t, values);
    RuleErrorsIgnoreLocation(rules, t, None, Some(final), positions);
    SameButLocationsAppend(p1.fieldErrors, p2.fieldErrors, RuleFieldErrors(rules, t, None, positions),
                           RuleFieldErrors(rules, t, Some(final), positions));
  }

  /** A built field stands for the decoded key of entry `order`, one of the first `n`, with its raw text if any. */
  predicate BuiltFrom(f: BuiltField, t: seq<FieldEntry>, dataByKey: map<string, Option<P.Decoded>>, n: nat) {
    f.order < n <= |t| && f.key == t[f.order].key && f.name == t[f.order].name && f.key in dataByKey &&
    (f.value.Some? <==> dataByKey[f.key].Some?) &&
    (f.value.Some? ==> f.value.value == dataByKey[f.key].value.value)
  }

  /** The built fields: decoded keys only, in canonical order, each with its index as its order, and every decoded key. */
  lemma {:induction false} BuiltFieldsShape(t: seq<FieldEntry>, dataByKey: map<string, Option<P.Decoded>>, n: nat)
    requires n <= |t|
    ensures forall i :: 0 <= i < |BuiltFields(t, dataByKey, n)| ==> BuiltFrom(BuiltFields(t, dataByKey, n)[i], t, dataByKey, n)
    ensures forall i, j :: 0 <= i < j < |BuiltFields(t, dataByKey, n)| ==>
      BuiltFields(t, dataByKey, n)[i].order < BuiltFields(t, dataByKey, n)[j].order
    ensures forall k :: 0 <= k < n && t[k].key in dataByKey ==>
      exists i :: 0 <= i < |BuiltFields(t, dataByKey, n)| && BuiltFields(t, dataByKey, n)[i].order == k
  {
    if n > 0 {
      BuiltFieldsShape(t, dataByKey, n - 1);
      var b0 := BuiltFields(t, dataByKey, n - 1);
      var b := BuiltFields(t, dataByKey, n);
      var e := t[n - 1];
      if e.key in dataByKey {
        assert b == b0 + [BuiltField(e.key, e.name, if dataByKey[e.key].Some? then Some(dataByKey[e.key].value.value) else None, n - 1)];
      } else {
        assert b == b0;
      }
      forall i | 0 <= i < |b| ensures BuiltFrom(b[i], t, dataByKey, n) {
        if i < |b0| {
          assert b[i] == b0[i];
        }
      }
      forall k | 0 <= k < n && t[k].key in dataByKey ensures exists i :: 0 <= i < |b| && b[i].order == k {
        if k < n - 1 {
          var i :| 0 <= i < |b0| && b0[i].order == k;
          assert b[i] == b0[i];
        } else {
          assert b[|b| - 1].order == k;
        }
      }
    }
  }

  /**
   * As written, the position metadata is decided by `record_format`, which a
   * decoder only sets at the end of its decode: during the decode it is None,
   * so an error on a sliced EURING2000 field gets no position, where the
   * corrected check gives it the field's 1-based start and its width.
   */
  lemma {:induction false} AsWrittenLocationLost(t: seq<FieldEntry>, n: nat, k: nat)
    requires ValidTable(t) && k < n <= Euring2000FieldCount
    ensures ErrorLocation(None, FixedWidthPositions(t, n), Some(k)) == Unlocated
    ensures ErrorLocation(Some(Euring2000), FixedWidthPositions(t, n), Some(k)) ==
      Located(Some(Span(Start(t, k) + 1, t[k].length.value)))
  {
    PositionsAt(t, n);
  }
}

=== FILE: exceptions.dfy ===
/**
 * The exception hierarchy of the codec.  Every EURING failure is an
 * `EuringError` tagged with its kind; `ValueError` stands for Python's own
 * ValueError, which several entry points raise for programmer errors
 * (unknown format names, unknown field keys), `IndexError` for a list
 * indexed past its end, `TypeError` for text joined with None, and
 * `AttributeError` for a method looked up on an object that lacks it.
 */
module Exceptions {
  import opened Builtins

  /** The subclasses of the common EURING exception base. */
  datatype Kind =
    | Base        // EuringException raised directly
    | TypeKind    // EuringTypeException: value fails its declared type
    | Constraint  // EuringConstraintException: length, range, required, rule
    | Lookup      // EuringLookupException: a code has no description
    | Parse       // EuringParseException, raised by the older field model

  datatype Error =
    | EuringError(kind: Kind, message: string)
    | ValueError(message: string)
    | IndexError(message: string)
    | TypeError(message: string)
    | AttributeError(message: string)

  function TypeFailure(message: string): Error { EuringError(TypeKind, message) }
  function ConstraintFailure(message: string): Error { EuringError(Constraint, message) }
  function LookupFailure(message: string): Error { EuringError(Lookup, message) }
  function ParseFailure(message: string): Error { EuringError(Parse, message) }

  /** `except EuringParseException` in the decoder catches every EURING error. */
  predicate IsEuring(e: Error) { e.EuringError? }

  // ---------------------------------------------------------------- messages of the field checks

  const NotValidForType := "\" is not valid for type "
  const IsLength := "\" is length "
  const InsteadOf := " instead of "
  const AtLeast := ", should be at least "
  const AtMost := ", should be at most "

  function TypeMessage(value: string, typeName: string): string {
    "Value \"" + value + NotValidForType + typeName + "."
  }

  function ExactLengthMessage(value: string, length: nat): string {
    "Value \"" + value + IsLength + NatToString(|value|) + InsteadOf + NatToString(length) + "."
  }

  function MinLengthMessage(value: string, minLength: nat): string {
    "Value \"" + value + IsLength + NatToString(|value|) + AtLeast + NatToString(minLength) + "."
  }

  function MaxLengthMessage(value: string, maxLength: nat): string {
    "Value \"" + value + IsLength + NatToString(|value|) + AtMost + NatToString(maxLength) + "."
  }
}

=== FILE: field_model.dfy ===
/**
 * The older field definition: a free type name, an exact length and/or a
 * minimum and maximum length, raw text kept as text unless a parser hook
 * turns it into a value.
 *
 * The type predicate `is_valid_type` is not part of this model; it is the
 * parameter `valid` of every member that checks a type.
 */
module FieldModel {
  import opened Wrappers
  import opened Builtins
  import opened Exceptions
  import opened Values
  import opened Utils
  import opened Codes

  /** `is_valid_type(raw, type_name)`. */
  type TypeCheck = (string, string) -> bool

  /** The three classes: the base field, the lookup field and the formatted field. */
  datatype Variant =
    | Plain
    | LookupVariant(lookup: Lookup)
    | Formatted(parser: Option<Parser>, formattedLookup: Lookup)

  datatype EuringField = EuringField(
    key: string,
    name: string,
    typeName: string,
    required: bool,
    length: Option<nat>,
    minLength: Option<nat>,
    maxLength: Option<nat>,
    variant: Variant)

  const RequiredEmptyMessage := "Required field, empty value \"\" is not permitted."

  /** `_is_required`: a zero minimum length makes a field optional, whatever `required` says. */
  predicate IsRequired(f: EuringField) {
    f.minLength != Some(0) && f.required
  }

  lemma {:induction false} ZeroMinimumIsOptional(f: EuringField)
    ensures f.minLength == Some(0) ==> !IsRequired(f)
    ensures f.minLength != Some(0) ==> (IsRequired(f) <==> f.required)
  {
  }

  /** The three length bounds, each only when it is set. */
  predicate ExactLengthOk(f: EuringField, n: nat) { f.length.None? || n == f.length.value }
  predicate MinLengthOk(f: EuringField, n: nat) { f.minLength.None? || n >= f.minLength.value }
  predicate MaxLengthOk(f: EuringField, n: nat) { f.maxLength.None? || n <= f.maxLength.value }

  predicate LengthAccepted(f: EuringField, n: nat) {
    ExactLengthOk(f, n) && MinLengthOk(f, n) && MaxLengthOk(f, n)
  }

  /** `_validate_length`: exact length first, then the minimum, then the maximum; each failure is a parse error. */
  function ValidateLength(f: EuringField, raw: string): (r: Outcome<Error>)
    ensures r.Pass? <==> LengthAccepted(f, |raw|)
    ensures r.Fail? ==> r.error.EuringError? && r.error.kind == Kind.Parse
    ensures !ExactLengthOk(f, |raw|) ==>
      r == Fail(ParseFailure(ExactLengthMessage(raw, f.length.value)))
    ensures ExactLengthOk(f, |raw|) && !MinLengthOk(f, |raw|) ==>
      r == Fail(ParseFailure(MinLengthMessage(raw, f.minLength.value)))
    ensures ExactLengthOk(f, |raw|) && MinLengthOk(f, |raw|) && !MaxLengthOk(f, |raw|) ==>
      r == Fail(ParseFailure(MaxLengthMessage(raw, f.maxLength.value)))
  {
    var n := |raw|;
    if f.length.Some? && n != f.length.value then
      Fail(ParseFailure(ExactLengthMessage(raw, f.length.value)))
    else if f.minLength.Some? && n < f.minLength.value then
      Fail(ParseFailure(MinLengthMessage(raw, f.minLength.value)))
    else if f.maxLength.Some? && n > f.maxLength.value then
      Fail(ParseFailure(MaxLengthMessage(raw, f.maxLength.value)))
    else Pass
  }

  /** The type check a field applies, if it has a type name. */
  predicate TypeAccepted(f: EuringField, raw: string, valid: TypeCheck) {
    f.typeName == "" || valid(raw, f.typeName)
  }

  /** Length check, then type check, of non-empty text. */
  function CheckText(f: EuringField, raw: string, valid: TypeCheck): (r: Outcome<Error>)
    ensures r.Pass? <==> LengthAccepted(f, |raw|) && TypeAccepted(f, raw, valid)
    ensures !LengthAccepted(f, |raw|) ==> r == ValidateLength(f, raw)
    ensures r.Fail? ==> r.error.EuringError? && r.error.kind == Kind.Parse
  {
    if ValidateLength(f, raw).Fail? then ValidateLength(f, raw)
    else if f.typeName != "" && !valid(raw, f.typeName) then
      Fail(ParseFailure(TypeMessage(raw, f.typeName)))
    else Pass
  }

  /** `EuringField.parse`: empty text is None or an error; other text is kept as it is once it passes. */
  function BaseParse(f: EuringField, raw: string, valid: TypeCheck): (r: Result<Value, Error>)
    ensures raw == "" ==> (r.Ok? <==> !IsRequired(f))
    ensures raw == "" && r.Ok? ==> r.value == NoneValue
    ensures raw == "" && r.Err? ==> r.error == ParseFailure(RequiredEmptyMessage)
    ensures raw != "" ==> (r.Ok? <==> CheckText(f, raw, valid).Pass?)
    ensures raw != "" && r.Ok? ==> r.value == Str(raw)
    ensures raw != "" && r.Err? ==> r.error == CheckText(f, raw, valid).error
  {
    if raw == "" then
      if !IsRequired(f) then Ok(NoneValue) else Err(ParseFailure(RequiredEmptyMessage))
    else
      :- CheckText(f, raw, valid);
      Ok(Str(raw))
  }

  /** `EuringFormattedField.parse`: the parser only ever sees text that passed base validation. */
  function FormattedParse(f: EuringField, parser: Option<Parser>, raw: string, valid: TypeCheck): (r: Result<Value, Error>)
    ensures BaseParse(f, raw, valid).Err? ==> r == BaseParse(f, raw, valid)
    ensures BaseParse(f, raw, valid) == Ok(NoneValue) ==> r == Ok(NoneValue)
    ensures parser.None? ==> r == BaseParse(f, raw, valid)
    ensures parser.Some? && raw != "" && BaseParse(f, raw, valid).Ok? ==> r == parser.value(raw)
  {
    var value :- BaseParse(f, raw, valid);
    if value.NoneValue? then Ok(NoneValue)
    else if parser.None? then Ok(value)
    else parser.value(value.s)
  }

  /** `parse` as each class defines it. */
  function Parse(f: EuringField, raw: string, valid: TypeCheck): (r: Result<Value, Error>)
    ensures !f.variant.Formatted? ==> r == BaseParse(f, raw, valid)
    ensures f.variant.Formatted? ==> r == FormattedParse(f, f.variant.parser, raw, valid)
  {
    match f.variant
    case Formatted(parser, _) => FormattedParse(f, parser, raw, valid)
    case _ => BaseParse(f, raw, valid)
  }

  /** `encode`: None or "" is "" for an optional field and an error otherwise; any other value is checked as text. */
  function Encode(f: EuringField, value: Value, valid: TypeCheck, floatRepr: real -> string): (r: Result<string, Error>)
    requires Renders(value)
    ensures IsEmpty(value) ==> (r.Ok? <==> !IsRequired(f))
    ensures IsEmpty(value) && r.Ok? ==> r.value == ""
    ensures IsEmpty(value) && r.Err? ==> r.error == ParseFailure(RequiredEmptyMessage)
    ensures !IsEmpty(value) ==> (r.Ok? <==> CheckText(f, Render(value, floatRepr), valid).Pass?)
    ensures !IsEmpty(value) && r.Ok? ==> r.value == Render(value, floatRepr)
  {
    if IsEmpty(value) then
      if IsRequired(f) then Err(ParseFailure(RequiredEmptyMessage)) else Ok("")
    else
      var raw := Render(value, floatRepr);
      :- CheckText(f, raw, valid);
      Ok(raw)
  }

  /** Text that a parser-less field accepts encodes back to exactly itself. */
  lemma {:induction false} ParseEncodeRoundTrip(f: EuringField, raw: string, valid: TypeCheck, floatRepr: real -> string)
    requires !(f.variant.Formatted? && f.variant.parser.Some?)
    requires raw != "" && Parse(f, raw, valid).Ok?
    ensures Encode(f, Parse(f, raw, valid).value, valid, floatRepr) == Ok(raw)
  {
  }

  /** Whatever a field encodes, it parses back to the text of the value (a float's text is never empty). */
  lemma {:induction false} EncodeParseRoundTrip(f: EuringField, value: Value, valid: TypeCheck, floatRepr: real -> string)
    requires !(f.variant.Formatted? && f.variant.parser.Some?)
    requires Renders(value) && !IsEmpty(value) && Render(value, floatRepr) != ""
    requires Encode(f, value, valid, floatRepr).Ok?
    ensures Parse(f, Encode(f, value, valid, floatRepr).value, valid) == Ok(Str(Render(value, floatRepr)))
  {
  }

  /** The lookup a field describes with; a plain field has none. */
  function LookupOf(f: EuringField): Lookup {
    match f.variant
    case Plain => NoLookup
    case LookupVariant(l) => l
    case Formatted(_, l) => l
  }

  /** `describe`: only a lookup field, or a formatted field with a lookup, describes a value that is not None. */
  function Describe(f: EuringField, value: Value, floatRepr: real -> string): (r: Result<Option<string>, Error>)
    requires LookupOf(f).Table? ==> Renders(value)
    ensures f.variant.Plain? || value.NoneValue? ==> r == Ok(None)
    ensures f.variant.LookupVariant? && !value.NoneValue? ==> r == DescribeWith(f.variant.lookup, value, floatRepr)
    ensures f.variant.Formatted? && !value.NoneValue? ==> r == DescribeWith(f.variant.formattedLookup, value, floatRepr)
  {
    match f.variant
    case Plain => Ok(None)
    case LookupVariant(l) => if value.NoneValue? then Ok(None) else DescribeWith(l, value, floatRepr)
    case Formatted(_, l) => if value.NoneValue? then Ok(None) else DescribeWith(l, value, floatRepr)
  }

  /**
   * The definition `coerce_field` accepts: a field object, passed through,
   * or a mapping whose absent entries take their defaults; the type comes
   * from "type", else from "type_name", else is empty.
   */
  datatype Definition =
    | FieldObject(field: EuringField)
    | DefinitionMap(
        key: Option<string>,
        name: Option<string>,
        typeEntry: Option<string>,
        typeNameEntry: Option<string>,
        required: Option<bool>,
        length: Option<nat>,
        minLength: Option<nat>,
        maxLength: Option<nat>,
        parser: Option<Parser>,
        lookup: Lookup)

  /** The first non-empty of the "type" and "type_name" entries. */
  function DefinitionType(d: Definition): string
    requires d.DefinitionMap?
  {
    if d.typeEntry.Some? && d.typeEntry.value != "" then d.typeEntry.value
    else if d.typeNameEntry.Some? && d.typeNameEntry.value != "" then d.typeNameEntry.value
    else ""
  }

  /** `coerce_field`: a parser makes a formatted field, else a lookup makes a lookup field. */
  function CoerceField(d: Definition): (r: EuringField)
    ensures d.FieldObject? ==> r == d.field
    ensures d.DefinitionMap? ==>
      r.key == (if d.key.Some? then d.key.value else "") &&
      r.name == (if d.name.Some? then d.name.value else r.key) &&
      r.typeName == DefinitionType(d) &&
      r.required == (d.required.None? || d.required.value) &&
      r.length == d.length && r.minLength == d.minLength && r.maxLength == d.maxLength
    ensures d.DefinitionMap? && d.parser.Some? ==> r.variant == Formatted(d.parser, d.lookup)
    ensures d.DefinitionMap? && d.parser.None? && !d.lookup.NoLookup? ==> r.variant == LookupVariant(d.lookup)
    ensures d.DefinitionMap? && d.parser.None? && d.lookup.NoLookup? ==> r.variant == Plain
  {
    match d
    case FieldObject(field) => field
    case DefinitionMap(key, name, _, _, required, length, minLength, maxLength, parser, lookup) =>
      var k := if key.Some? then key.value else "";
      var variant :=
        if parser.Some? then Formatted(parser, lookup)
        else if !lookup.NoLookup? then LookupVariant(lookup)
        else Plain;
      EuringField(k, if name.Some? then name.value else k, DefinitionType(d),
                  required.None? || required.value, length, minLength, maxLength, variant)
  }

  /** `_mapping`: the entries a field exposes, the type under "type", omitting the unset ones. */
  function Mapping(f: EuringField): (d: Definition)
    ensures d.DefinitionMap? && d.key == Some(f.key) && d.name == Some(f.name) && d.required == Some(f.required)
    ensures d.typeEntry == Some(f.typeName) && d.typeNameEntry.None?
    ensures d.length == f.length && d.minLength == f.minLength && d.maxLength == f.maxLength
    ensures f.variant.Plain? ==> d.parser.None? && d.lookup.NoLookup?
  {
    DefinitionMap(Some(f.key), Some(f.name), Some(f.typeName), None, Some(f.required),
      f.length, f.minLength, f.maxLength,
      if f.variant.Formatted? then f.variant.parser else None,
      match f.variant
      case Plain => NoLookup
      case LookupVariant(l) => l
      case Formatted(_, l) => l)
  }

  /** The class a field has is the class `coerce_field` would rebuild from its mapping. */
  predicate CanonicalVariant(f: EuringField) {
    match f.variant
    case Plain => true
    case LookupVariant(l) => !l.NoLookup?
    case Formatted(p, _) => p.Some?
  }

  /** Rebuilding a field from its own mapping gives the same field back. */
  lemma {:induction false} CoerceMappingRoundTrip(f: EuringField)
    requires CanonicalVariant(f)
    ensures CoerceField(Mapping(f)) == f
  {
  }
}

=== FILE: field_schema.dfy ===
/**
 * The newer field schema: a frozen field definition with a declared EURING
 * character type, an optional value type, a length that is exact or (for
 * variable-length fields) a maximum, and format-aware encoding.
 *
 * The type predicate `is_valid_euring_type` is not part of this model; it is
 * the parameter `valid` of every member that checks a type.
 */
module FieldSchema {
  import opened Wrappers
  import opened Builtins
  import opened Exceptions
  import opened Values
  import opened Utils
  import opened Coordinates
  import opened Codes
  import opened Formats

  /** The EURING character types; `TypeNone` is the empty type name, which skips the type check. */
  datatype EuringType =
    | TypeNone
    | TypeAlphabetic
    | TypeAlphanumeric
    | TypeInteger
    | TypeNumeric
    | TypeNumericSigned
    | TypeText
  {
    function Name(): string {
      match this
      case TypeNone => ""
      case TypeAlphabetic => "Alphabetic"
      case TypeAlphanumeric => "Alphanumeric"
      case TypeInteger => "Integer"
      case TypeNumeric => "Numeric"
      case TypeNumericSigned => "NumericSigned"
      case TypeText => "Text"
    }
  }

  /** The optional Python value type; `NoValueType` stands for both None and "". */
  datatype ValueType =
    | NoValueType
    | CodeStrType
    | IntType
    | FloatType
    | DateType
    | OtherValueType(name: string)

  /** `is_valid_euring_type(raw, euring_type)`. */
  type TypeCheck = (string, EuringType) -> bool

  /** The three classes: the base field, the lookup field and the formatted field. */
  datatype Variant =
    | Plain
    | LookupVariant(lookup: Lookup)
    | Formatted(parser: Option<Parser>, formattedLookup: Lookup)

  datatype EuringField = EuringField(
    key: string,
    name: string,
    euringType: EuringType,
    valueType: ValueType,
    required: bool,
    length: Option<nat>,
    variableLength: bool,
    emptyValue: Option<string>,
    variant: Variant)

  const GeographicalCoordinatesKey := "geographical_coordinates"
  const DateKey := "date"
  const RequiredEmptyMessage := "Required field, empty value \"\" is not permitted."
  const MissingLatLngMessage := "Geographical coordinates require both lat and lng values."

  /** `self.length` used as a truth value: present and not zero. */
  predicate HasLength(f: EuringField) { f.length.Some? && f.length.value > 0 }

  /** Integer, Numeric and NumericSigned: the types that are zero-filled. */
  predicate IsNumberType(t: EuringType) {
    t == TypeInteger || t == TypeNumeric || t == TypeNumericSigned
  }

  /** Numeric and NumericSigned: the types whose trailing zeros are stripped. */
  predicate IsDecimalType(t: EuringType) {
    t == TypeNumeric || t == TypeNumericSigned
  }

  /** The lengths a field accepts: up to its length when it varies (and that is not ignored), else exactly it. */
  predicate LengthAccepted(f: EuringField, n: nat, ignoreVariableLength: bool) {
    f.length.None? ||
    (if f.variableLength && !ignoreVariableLength then n <= f.length.value else n == f.length.value)
  }

  /** The type check a field applies, if it has a type. */
  predicate TypeAccepted(f: EuringField, raw: string, valid: TypeCheck) {
    f.euringType == TypeNone || valid(raw, f.euringType)
  }

  function TypeError(f: EuringField, raw: string): Error {
    TypeFailure(TypeMessage(raw, f.euringType.Name()))
  }

  /** `_validate_length`. */
  function ValidateLength(f: EuringField, raw: string, ignoreVariableLength: bool): (r: Outcome<Error>)
    ensures r.Pass? <==> LengthAccepted(f, |raw|, ignoreVariableLength)
    ensures r.Fail? ==> r.error.EuringError? && r.error.kind == Constraint
  {
    if f.length.None? then Pass
    else
      var n := f.length.value;
      if f.variableLength && !ignoreVariableLength then
        if |raw| > n then
          Fail(ConstraintFailure(MaxLengthMessage(raw, n)))
        else Pass
      else if |raw| != n then
        Fail(ConstraintFailure(ExactLengthMessage(raw, n)))
      else Pass
  }

  /** Ignoring variable length only makes the check stricter; the declared length itself always passes. */
  lemma {:induction false} IgnoringVariableLengthIsStricter(f: EuringField, raw: string)
    ensures ValidateLength(f, raw, true).Pass? ==> ValidateLength(f, raw, false).Pass?
    ensures f.length.Some? && |raw| == f.length.value ==> ValidateLength(f, raw, true).Pass? && ValidateLength(f, raw, false).Pass?
    ensures !f.variableLength ==> ValidateLength(f, raw, true) == ValidateLength(f, raw, false)
  {
  }

  /**
   * `_validate_raw`: empty text is None for an optional field and an error
   * for a required one; other text is length-checked, then type-checked.
   */
  function ValidateRaw(f: EuringField, raw: string, valid: TypeCheck): (r: Result<Option<string>, Error>)
    ensures raw == "" ==> (r.Ok? <==> !f.required)
    ensures raw == "" && r.Ok? ==> r.value == None
    ensures raw == "" && r.Err? ==> r.error == ConstraintFailure(RequiredEmptyMessage)
    ensures raw != "" ==> (r.Ok? <==> LengthAccepted(f, |raw|, false) && TypeAccepted(f, raw, valid))
    ensures raw != "" && r.Ok? ==> r.value == Some(raw)
    ensures raw != "" && !LengthAccepted(f, |raw|, false) ==> r == Err(ValidateLength(f, raw, false).error)
    ensures raw != "" && LengthAccepted(f, |raw|, false) && !TypeAccepted(f, raw, valid) ==> r == Err(TypeError(f, raw))
  {
    if raw == "" then
      if !f.required then Ok(None) else Err(ConstraintFailure(RequiredEmptyMessage))
    else
      :- ValidateLength(f, raw, false);
      if f.euringType != TypeNone && !valid(raw, f.euringType) then Err(TypeError(f, raw))
      else Ok(Some(raw))
  }

  const InvalidIntLiteral := "invalid literal for int() with base 10: '"

  /** `int(raw)`, raising Python's ValueError on text it does not accept. */
  function IntOf(raw: string): (r: Result<Value, Error>)
    ensures r.Ok? <==> ParseInt(raw).Some?
    ensures r.Ok? ==> r.value == Int(ParseInt(raw).value)
  {
    match ParseInt(raw)
    case Some(i) => Ok(Int(i))
    case None => Err(ValueError(InvalidIntLiteral + raw + "'"))
  }

  const InvalidFloatLiteral := "could not convert string to float: '"

  /** `float(raw)`, raising Python's ValueError on text it does not accept. */
  function FloatOf(raw: string): (r: Result<Value, Error>)
    ensures r.Ok? <==> ParseFloat(raw).Some?
    ensures r.Ok? ==> r.value == Float(ParseFloat(raw).value)
  {
    match ParseFloat(raw)
    case Some(x) => Ok(Float(x))
    case None => Err(ValueError(InvalidFloatLiteral + raw + "'"))
  }

  /** `_coerce_type`: an all-hyphen Integer is None, never 0. */
  function CoerceType(f: EuringField, raw: string): (r: Result<Value, Error>)
    ensures f.euringType == TypeInteger && IsAllHyphens(raw) ==> r == Ok(NoneValue)
    ensures f.euringType == TypeInteger && !IsAllHyphens(raw) ==> r == IntOf(raw)
    ensures IsDecimalType(f.euringType) ==> r == FloatOf(raw)
    ensures !IsNumberType(f.euringType) ==> r == Ok(Str(raw))
  {
    match f.euringType
    case TypeInteger => if IsAllHyphens(raw) then Ok(NoneValue) else IntOf(raw)
    case TypeNumeric => FloatOf(raw)
    case TypeNumericSigned => FloatOf(raw)
    case _ => Ok(Str(raw))
  }

  const NotValidDdmmyyyyDate := "\" is not a valid ddmmyyyy date."

  function NotValidDdmmyyyy(raw: string): Error {
    ConstraintFailure("Value \"" + raw + NotValidDdmmyyyyDate)
  }

  /** The calendar date of eight digits read as ddmmyyyy. */
  function DdmmyyyyDate(raw: string): Option<Date>
    requires |raw| == 8 && AllDigits(raw)
  {
    MakeDate(DigitsValue(raw[4..8]), DigitsValue(raw[2..4]), DigitsValue(raw[0..2]))
  }

  /** The date `value_type`: exactly eight digits forming a calendar date. */
  function CoerceDate(raw: string): (r: Result<Value, Error>)
    ensures r.Ok? <==> |raw| == 8 && AllDigits(raw) && DdmmyyyyDate(raw).Some?
    ensures r.Ok? ==> r.value == DateValue(DdmmyyyyDate(raw).value)
    ensures r.Err? ==> r.error == NotValidDdmmyyyy(raw)
  {
    if |raw| != 8 || !AllDigits(raw) then Err(NotValidDdmmyyyy(raw))
    else
      assert IsDigit(raw[0]) && IsDigit(raw[2]) && IsDigit(raw[4]);
      ParseIntDigits(raw[0..2]);
      ParseIntDigits(raw[2..4]);
      ParseIntDigits(raw[4..8]);
      match DdmmyyyyDate(raw)
      case Some(d) => Ok(DateValue(d))
      case None => Err(NotValidDdmmyyyy(raw))
  }

  const UnsupportedValueType := "Unsupported value_type \""

  /** `_coerce_value_type`. */
  function CoerceValueType(f: EuringField, raw: string): (r: Result<Value, Error>)
    ensures f.valueType == NoValueType ==> r == CoerceType(f, raw)
    ensures f.valueType == CodeStrType ==> r == Ok(Str(raw))
    ensures f.valueType == IntType && IsAllHyphens(raw) ==> r == Ok(NoneValue)
    ensures f.valueType == IntType && !IsAllHyphens(raw) ==> r == IntOf(raw)
    ensures f.valueType == FloatType ==> r == FloatOf(raw)
    ensures f.valueType == DateType ==> r == CoerceDate(raw)
    ensures f.valueType.OtherValueType? ==> r.Err? && r.error.ValueError?
  {
    match f.valueType
    case NoValueType => CoerceType(f, raw)
    case CodeStrType => Ok(Str(raw))
    case IntType => if IsAllHyphens(raw) then Ok(NoneValue) else IntOf(raw)
    case FloatType => FloatOf(raw)
    case DateType => CoerceDate(raw)
    case OtherValueType(name) =>
      Err(ValueError(UnsupportedValueType + name + "\" for field \"" + f.key + "\"."))
  }

  /** `EuringField.parse`: validation, then coercion; NoneValue stands for None. */
  function BaseParse(f: EuringField, raw: string, valid: TypeCheck): (r: Result<Value, Error>)
    ensures raw == "" ==> (r == Ok(NoneValue) <==> !f.required)
    ensures raw == "" && f.required ==> r == Err(ConstraintFailure(RequiredEmptyMessage))
    ensures raw != "" && !(LengthAccepted(f, |raw|, false) && TypeAccepted(f, raw, valid)) ==> r == ValidateRaw(f, raw, valid).PropagateFailure()
    ensures raw != "" && LengthAccepted(f, |raw|, false) && TypeAccepted(f, raw, valid) ==> r == CoerceValueType(f, raw)
  {
    var validated :- ValidateRaw(f, raw, valid);
    if validated.None? then Ok(NoneValue) else CoerceValueType(f, validated.value)
  }

  /**
   * `EuringFormattedField.parse`: after validation the parser, when there
   * is one, replaces coercion; text it passes through is still coerced to
   * a declared value type.
   */
  function FormattedParse(f: EuringField, parser: Option<Parser>, raw: string, valid: TypeCheck): (r: Result<Value, Error>)
    ensures raw == "" ==> r == BaseParse(f, raw, valid)
    ensures ValidateRaw(f, raw, valid).Err? ==> r == ValidateRaw(f, raw, valid).PropagateFailure()
    ensures parser.None? ==> r == BaseParse(f, raw, valid)
    ensures raw != "" && ValidateRaw(f, raw, valid).Ok? && parser.Some? ==>
      (r.Ok? ==> parser.value(raw).Ok?) &&
      (parser.value(raw).Err? ==> r == parser.value(raw)) &&
      (parser.value(raw).Ok? && !(parser.value(raw).value.Str? && f.valueType != NoValueType) ==> r == parser.value(raw))
  {
    var validated :- ValidateRaw(f, raw, valid);
    if validated.None? then Ok(NoneValue)
    else if parser.None? then CoerceValueType(f, validated.value)
    else
      var parsed :- parser.value(validated.value);
      if parsed.Str? && f.valueType != NoValueType then CoerceValueType(f, parsed.s)
      else Ok(parsed)
  }

  /** `parse` as each class defines it. */
  function Parse(f: EuringField, raw: string, valid: TypeCheck): (r: Result<Value, Error>)
    ensures !f.variant.Formatted? ==> r == BaseParse(f, raw, valid)
    ensures f.variant.Formatted? ==> r == FormattedParse(f, f.variant.parser, raw, valid)
  {
    match f.variant
    case Formatted(parser, _) => FormattedParse(f, parser, raw, valid)
    case _ => BaseParse(f, raw, valid)
  }

  /** `strftime("%d%m%Y")`. */
  function DateDdmmyyyy(d: Date): (r: string)
    requires 1 <= d.year <= 9999 && 1 <= d.month && 1 <= d.day
    ensures |r| == 8 && AllDigits(r)
  {
    Padded(d.day, 2) + Padded(d.month, 2) + Padded(d.year, 4)
  }

  /** The structured value of the coordinates field, if the value is a dictionary or a pair. */
  function CoordinatesEncoding(value: Value): (r: Option<Result<string, Error>>)
    ensures r.Some? <==> value.Coordinates? || value.Pair?
    ensures value.Pair? ==> r == Some(Ok(LatLngToCoordinates(value.first, value.second)))
    ensures value.Coordinates? ==> (r.value.Ok? <==> value.lat.Some? && value.lng.Some?)
    ensures value.Coordinates? && r.value.Ok? ==> r.value.value == LatLngToCoordinates(value.lat.value, value.lng.value)
    ensures value.Coordinates? && r.value.Err? ==> r.value.error == ConstraintFailure(MissingLatLngMessage)
  {
    match value
    case Coordinates(lat, lng) =>
      if lat.None? || lng.None? then Some(Err(ConstraintFailure(MissingLatLngMessage)))
      else Some(Ok(LatLngToCoordinates(lat.value, lng.value)))
    case Pair(a, b) => Some(Ok(LatLngToCoordinates(a, b)))
    case _ => None
  }

  /** The values `str()` renders in this model: a dictionary or pair only reaches the coordinates field. */
  predicate Renderable(f: EuringField, value: Value) {
    (value.Coordinates? || value.Pair?) ==> f.key == GeographicalCoordinatesKey
  }

  /** The date field's own path is taken for a date value. */
  predicate IsDatePath(f: EuringField, value: Value) {
    f.key == DateKey && value.DateValue? && 1 <= value.d.year <= 9999 && 1 <= value.d.month && 1 <= value.d.day
  }

  /**
   * The text `encode` checks and returns: a Numeric value loses its trailing
   * zeros and then its trailing point, and a number of a fixed-length field
   * is zero-filled to that length.
   */
  function EncodedText(f: EuringField, text: string): string {
    var stripped := if IsDecimalType(f.euringType) then RStrip(RStrip(text, '0'), '.') else text;
    if IsNumberType(f.euringType) && HasLength(f) && !f.variableLength then Zfill(stripped, f.length.value) else stripped
  }

  /** `EuringField.encode`. */
  function Encode(f: EuringField, value: Value, valid: TypeCheck, floatRepr: real -> string): (r: Result<string, Error>)
    requires Renderable(f, value)
    requires f.key == DateKey && value.DateValue? ==> IsDatePath(f, value)
    ensures IsEmpty(value) ==> (r.Ok? <==> !f.required)
    ensures IsEmpty(value) && r.Ok? ==> r.value == ""
    ensures !IsEmpty(value) && f.key == GeographicalCoordinatesKey && (value.Coordinates? || value.Pair?) ==>
      r == CoordinatesEncoding(value).value
    ensures !IsEmpty(value) && !(value.Coordinates? || value.Pair?) && !IsDatePath(f, value) ==>
      var text := EncodedText(f, Render(value, floatRepr));
      (r.Ok? <==> LengthAccepted(f, |text|, false) && TypeAccepted(f, text, valid)) &&
      (r.Ok? ==> r.value == text)
    ensures r.Ok? && IsDatePath(f, value) ==> r.value == DateDdmmyyyy(value.d)
  {
    if IsEmpty(value) then
      if f.required then Err(ConstraintFailure(RequiredEmptyMessage)) else Ok("")
    else if f.key == GeographicalCoordinatesKey && (value.Coordinates? || value.Pair?) then
      CoordinatesEncoding(value).value
    else if f.key == DateKey && value.DateValue? then
      Ok(DateDdmmyyyy(value.d))
    else
      var filled := EncodedText(f, Render(value, floatRepr));
      :- ValidateLength(f, filled, false);
      if f.euringType != TypeNone && !valid(filled, f.euringType) then Err(TypeError(f, filled))
      else Ok(filled)
  }

  /**
   * What an empty value encodes as; the first rule that applies wins: the
   * field's own placeholder, hyphens in EURING2000, hyphens for a required
   * Integer field, and otherwise nothing.
   */
  function EmptyEncoding(f: EuringField, format: Format): (r: string)
    ensures f.emptyValue.Some? && f.emptyValue.value != "" ==> r == f.emptyValue.value
    ensures !(f.emptyValue.Some? && f.emptyValue.value != "") && HasLength(f) && format == Euring2000 ==>
      r == Repeat('-', f.length.value)
    ensures (!(f.emptyValue.Some? && f.emptyValue.value != "") && HasLength(f) && format != Euring2000 &&
             f.required && f.euringType == TypeInteger) ==> r == Repeat('-', f.length.value)
    ensures !(f.emptyValue.Some? && f.emptyValue.value != "") && !HasLength(f) ==> r == ""
    ensures (!(f.emptyValue.Some? && f.emptyValue.value != "") && format != Euring2000 &&
             !(f.required && f.euringType == TypeInteger)) ==> r == ""
  {
    if f.emptyValue.Some? && f.emptyValue.value != "" then f.emptyValue.value
    else if HasLength(f) && format == Euring2000 then Repeat('-', f.length.value)
    else if HasLength(f) && f.required && f.euringType == TypeInteger then Repeat('-', f.length.value)
    else ""
  }

  /** The generic path of `encode_for_format`: render, strip, zero-fill, trim leading zeros, check. */
  function EncodeText(f: EuringField, text: string, format: Format, valid: TypeCheck): (r: Result<string, Error>)
    ensures r.Ok? ==> LengthAccepted(f, |r.value|, format == Euring2000) && TypeAccepted(f, r.value, valid)
    ensures r.Ok? <==> (LengthAccepted(f, |FilledText(f, text, format)|, format == Euring2000) &&
                        TypeAccepted(f, FilledText(f, text, format), valid))
    ensures r.Ok? ==> r.value == FilledText(f, text, format)
  {
    var filled := FilledText(f, text, format);
    :- ValidateLength(f, filled, format == Euring2000);
    if f.euringType != TypeNone && !valid(filled, f.euringType) then Err(TypeError(f, filled))
    else Ok(filled)
  }

  /** The text the generic path checks and returns. */
  function FilledText(f: EuringField, text: string, format: Format): string {
    var stripped := if IsDecimalType(f.euringType) then RStrip(RStrip(text, '0'), '.') else text;
    var filled := if IsNumberType(f.euringType) && HasLength(f) then Zfill(stripped, f.length.value) else stripped;
    if f.variableLength && format != Euring2000 then
      var trimmed := LStrip(filled, '0');
      if trimmed == "" then "0" else trimmed
    else filled
  }

  /** `encode_for_format`. */
  function EncodeForFormat(f: EuringField, value: Value, format: Format, valid: TypeCheck, floatRepr: real -> string): (r: Result<string, Error>)
    requires Renderable(f, value)
    requires f.key == DateKey && value.DateValue? ==> IsDatePath(f, value)
    ensures IsEmpty(value) ==> r == Ok(EmptyEncoding(f, format))
    ensures !IsEmpty(value) && f.key == GeographicalCoordinatesKey && (value.Coordinates? || value.Pair?) ==>
      r == CoordinatesEncoding(value).value
    ensures IsDatePath(f, value) ==>
      (r.Ok? <==> LengthAccepted(f, 8, false) && TypeAccepted(f, DateDdmmyyyy(value.d), valid))
    ensures IsDatePath(f, value) && r.Ok? ==> r.value == DateDdmmyyyy(value.d)
    ensures f.euringType == TypeInteger && value.Str? && IsAllHyphens(value.s) ==> r == Ok(EmptyEncoding(f, format))
    ensures (!IsEmpty(value) && !(f.key == GeographicalCoordinatesKey && (value.Coordinates? || value.Pair?)) &&
             !IsDatePath(f, value) && !(f.euringType == TypeInteger && value.Str? && IsAllHyphens(value.s))) ==>
      r == EncodeText(f, Render(value, floatRepr), format, valid)
    decreases if IsEmpty(value) then 0 else 1
  {
    if IsEmpty(value) then Ok(EmptyEncoding(f, format))
    else if f.key == GeographicalCoordinatesKey && (value.Coordinates? || value.Pair?) then
      CoordinatesEncoding(value).value
    else if f.key == DateKey && value.DateValue? then
      var text := DateDdmmyyyy(value.d);
      :- ValidateLength(f, text, false);
      if f.euringType != TypeNone && !valid(text, f.euringType) then Err(TypeError(f, text))
      else Ok(text)
    else if f.euringType == TypeInteger && value.Str? && IsAllHyphens(value.s) then
      EncodeForFormat(f, NoneValue, format, valid, floatRepr)
    else
      EncodeText(f, Render(value, floatRepr), format, valid)
  }

  /**
   * For a field of fixed length, `encode_for_format` in any format agrees
   * with `encode` on every value `encode` accepts, except an all-hyphen
   * Integer text, which it treats as empty.
   */
  lemma {:induction false} EncodeForFormatExtendsEncode(f: EuringField, value: Value, format: Format, valid: TypeCheck, floatRepr: real -> string)
    requires Renderable(f, value)
    requires f.key == DateKey && value.DateValue? ==> IsDatePath(f, value)
    requires !f.variableLength && !IsEmpty(value)
    requires !(f.euringType == TypeInteger && value.Str? && IsAllHyphens(value.s))
    ensures !IsDatePath(f, value) && Encode(f, value, valid, floatRepr).Ok? ==>
      EncodeForFormat(f, value, format, valid, floatRepr) == Encode(f, value, valid, floatRepr)
    ensures IsDatePath(f, value) && EncodeForFormat(f, value, format, valid, floatRepr).Ok? ==>
      EncodeForFormat(f, value, format, valid, floatRepr) == Encode(f, value, valid, floatRepr)
  {
    if !(f.key == GeographicalCoordinatesKey && (value.Coordinates? || value.Pair?)) && !IsDatePath(f, value) {
      IgnoringVariableLengthIsStricter(f, FilledText(f, Render(value, floatRepr), format));
    }
  }

  /** An all-hyphen text in an Integer field encodes exactly as an empty value. */
  lemma {:induction false} HyphensEncodeAsEmpty(f: EuringField, s: string, format: Format, valid: TypeCheck, floatRepr: real -> string)
    requires f.euringType == TypeInteger && IsAllHyphens(s)
    ensures EncodeForFormat(f, Str(s), format, valid, floatRepr) == EncodeForFormat(f, NoneValue, format, valid, floatRepr)
    ensures EncodeForFormat(f, Str(s), format, valid, floatRepr) == Ok(EmptyEncoding(f, format))
  {
  }

  /** Trimming leading zeros, keeping at least "0", does not change the integer a text denotes. */
  lemma {:induction false} TrimZerosKeepsInt(s: string)
    requires ParseInt(s).Some?
    ensures ParseInt(if LStrip(s, '0') == "" then "0" else LStrip(s, '0')) == ParseInt(s)
  {
    var t := LStrip(s, '0');
    if s[0] == '+' || s[0] == '-' {
      assert t == s;
    } else {
      ParseIntDigits(s);
      ZeroPrefixValue(s, t);
      if t == "" {
        assert DigitsValue("0") == 0;
        ParseIntDigits("0");
      } else {
        ParseIntDigits(t);
      }
    }
  }

  /** What is left of a digit string after leading zeros: the same value, or nothing when it was all zeros. */
  lemma {:induction false} ZeroPrefixValue(s: string, t: string)
    requires IsDigitString(s) && |t| <= |s|
    requires forall q :: 0 <= q < |t| ==> t[q] == s[|s| - |t| + q]
    requires forall q :: 0 <= q < |s| - |t| ==> s[q] == '0'
    ensures t != "" ==> IsDigitString(t) && DigitsValue(t) == DigitsValue(s)
    ensures t == "" ==> DigitsValue(s) == 0
  {
    var k := |s| - |t|;
    assert s == Repeat('0', k) + t;
    if t == "" {
      assert s == Repeat('0', k);
      ZerosValue(k);
    } else {
      assert AllDigits(t) by {
        forall q | 0 <= q < |t| ensures IsDigit(t[q]) { assert t[q] == s[k + q]; }
      }
      DigitsValueLeadingZeros(k, t);
    }
  }

  lemma {:induction false} IntToStringParsesNonEmpty(i: int)
    ensures |IntToString(i)| > 0 && ParseInt(IntToString(i)) == Some(i)
  {
    IntToStringParses(i);
  }

  /** The text an integer value goes through on the generic path still denotes that integer. */
  lemma {:induction false} FilledIntegerText(f: EuringField, i: int, format: Format)
    requires f.euringType == TypeInteger
    ensures ParseInt(FilledText(f, IntToString(i), format)) == Some(i)
    ensures |FilledText(f, IntToString(i), format)| > 0
  {
    var text := IntToString(i);
    IntToStringParsesNonEmpty(i);
    var filled := if HasLength(f) then Zfill(text, f.length.value) else text;
    if HasLength(f) {
      ZfillParseInt(text, f.length.value);
    }
    if f.variableLength && format != Euring2000 {
      TrimZerosKeepsInt(filled);
    }
  }

  /** No text that denotes an integer is made of hyphens only. */
  lemma {:induction false} IntegerTextNotHyphens(s: string)
    requires ParseInt(s).Some?
    ensures !IsAllHyphens(s)
  {
    if s[0] == '-' {
      assert IsDigit(s[1..][0]);
    }
  }

  /**
   * An integer written into an Integer field, in any format and at any
   * width, parses back to the same integer.
   */
  lemma {:induction false} IntegerRoundTrip(f: EuringField, i: int, format: Format, valid: TypeCheck, floatRepr: real -> string)
    requires f.euringType == TypeInteger && (f.valueType == NoValueType || f.valueType == IntType)
    requires !(f.variant.Formatted? && f.variant.parser.Some?)
    requires EncodeForFormat(f, Int(i), format, valid, floatRepr).Ok?
    ensures Parse(f, EncodeForFormat(f, Int(i), format, valid, floatRepr).value, valid) == Ok(Int(i))
  {
    var t := FilledText(f, IntToString(i), format);
    FilledIntegerText(f, i, format);
    IntegerTextNotHyphens(t);
    assert LengthAccepted(f, |t|, false);
  }

  /** On a field of fixed length, `encode` writes the text `encode_for_format` writes in every format. */
  lemma {:induction false} EncodedTextOfFixedField(f: EuringField, text: string, format: Format)
    requires !f.variableLength
    ensures EncodedText(f, text) == FilledText(f, text, format)
  {
  }

  /** An integer that `encode` writes into an Integer field parses back to the same integer. */
  lemma {:induction false} EncodeIntegerRoundTrip(f: EuringField, i: int, valid: TypeCheck, floatRepr: real -> string)
    requires f.euringType == TypeInteger && (f.valueType == NoValueType || f.valueType == IntType)
    requires !(f.variant.Formatted? && f.variant.parser.Some?)
    requires Encode(f, Int(i), valid, floatRepr).Ok?
    ensures Parse(f, Encode(f, Int(i), valid, floatRepr).value, valid) == Ok(Int(i))
  {
    var text := IntToString(i);
    var t := EncodedText(f, text);
    IntToStringParsesNonEmpty(i);
    if HasLength(f) && !f.variableLength {
      ZfillParseInt(text, f.length.value);
    }
    IntegerTextNotHyphens(t);
  }

  /** A calendar date written into the date field parses back to the same date. */
  lemma {:induction false} DateRoundTrip(f: EuringField, d: Date, format: Format, valid: TypeCheck, floatRepr: real -> string)
    requires f.key == DateKey && f.valueType == DateType
    requires !(f.variant.Formatted? && f.variant.parser.Some?)
    requires IsValidDate(d.year, d.month, d.day)
    requires EncodeForFormat(f, DateValue(d), format, valid, floatRepr).Ok?
    ensures EncodeForFormat(f, DateValue(d), format, valid, floatRepr).value == DateDdmmyyyy(d)
    ensures Parse(f, DateDdmmyyyy(d), valid) == Ok(DateValue(d))
  {
    var t := DateDdmmyyyy(d);
    assert t[0..2] == Padded(d.day, 2);
    assert t[2..4] == Padded(d.month, 2);
    assert t[4..8] == Padded(d.year, 4);
    PaddedValue(d.day, 2);
    PaddedValue(d.month, 2);
    PaddedValue(d.year, 4);
    assert LengthAccepted(f, |t|, false);
  }

  /**
   * The definition `coerce_field` accepts: a field object, passed through,
   * or a mapping whose absent entries take their defaults (key "", name
   * the key, required true, variable length false).
   */
  datatype Definition =
    | FieldObject(field: EuringField)
    | DefinitionMap(
        key: Option<string>,
        name: Option<string>,
        euringType: EuringType,
        valueType: ValueType,
        required: Option<bool>,
        length: Option<nat>,
        variableLength: bool,
        emptyValue: Option<string>,
        parser: Option<Parser>,
        lookup: Lookup)

  /** `coerce_field`: a parser makes a formatted field, else a lookup makes a lookup field. */
  function CoerceField(d: Definition): (r: EuringField)
    ensures d.FieldObject? ==> r == d.field
    ensures d.DefinitionMap? ==>
      r.key == (if d.key.Some? then d.key.value else "") &&
      r.name == (if d.name.Some? then d.name.value else r.key) &&
      r.required == (d.required.None? || d.required.value) &&
      r.euringType == d.euringType && r.valueType == d.valueType && r.length == d.length &&
      r.variableLength == d.variableLength && r.emptyValue == d.emptyValue
    ensures d.DefinitionMap? && d.parser.Some? ==> r.variant == Formatted(d.parser, d.lookup)
    ensures d.DefinitionMap? && d.parser.None? && !d.lookup.NoLookup? ==> r.variant == LookupVariant(d.lookup)
    ensures d.DefinitionMap? && d.parser.None? && d.lookup.NoLookup? ==> r.variant == Plain
  {
    match d
    case FieldObject(field) => field
    case DefinitionMap(key, name, euringType, valueType, required, length, variableLength, emptyValue, parser, lookup) =>
      var k := if key.Some? then key.value else "";
      var variant :=
        if parser.Some? then Formatted(parser, lookup)
        else if !lookup.NoLookup? then LookupVariant(lookup)
        else Plain;
      EuringField(k, if name.Some? then name.value else k, euringType, valueType,
                  required.None? || required.value, length, variableLength, emptyValue, variant)
  }

  /** `_mapping`: the entries a field exposes, omitting the unset ones. */
  function Mapping(f: EuringField): (d: Definition)
    ensures d.DefinitionMap? && d.key == Some(f.key) && d.name == Some(f.name) && d.required == Some(f.required)
    ensures d.length == f.length && d.emptyValue == f.emptyValue
    ensures f.variant.Plain? ==> d.parser.None? && d.lookup.NoLookup?
  {
    DefinitionMap(Some(f.key), Some(f.name), f.euringType, f.valueType, Some(f.required), f.length,
      f.variableLength, f.emptyValue,
      if f.variant.Formatted? then f.variant.parser else None,
      match f.variant
      case Plain => NoLookup
      case LookupVariant(l) => l
      case Formatted(_, l) => l)
  }

  /** The class a field has is the class `coerce_field` would rebuild from its mapping. */
  predicate CanonicalVariant(f: EuringField) {
    match f.variant
    case Plain => true
    case LookupVariant(l) => !l.NoLookup?
    case Formatted(p, _) => p.Some?
  }

  /** Rebuilding a field from its own mapping gives the same field back. */
  lemma {:induction false} CoerceMappingRoundTrip(f: EuringField)
    requires CanonicalVariant(f)
    ensures CoerceField(Mapping(f)) == f
  {
  }

  /** The lookup a field describes with; a plain field has none. */
  function LookupOf(f: EuringField): Lookup {
    match f.variant
    case Plain => NoLookup
    case LookupVariant(l) => l
    case Formatted(_, l) => l
  }

  /** `describe`: only a lookup field, or a formatted field with a lookup, describes a non-None value. */
  function Describe(f: EuringField, value: Value, floatRepr: real -> string): (r: Result<Option<string>, Error>)
    requires LookupOf(f).Table? ==> Renders(value)
    ensures f.variant.Plain? || value.NoneValue? ==> r == Ok(None)
    ensures f.variant.LookupVariant? && !value.NoneValue? ==> r == DescribeWith(f.variant.lookup, value, floatRepr)
    ensures f.variant.Formatted? && !value.NoneValue? ==> r == DescribeWith(f.variant.formattedLookup, value, floatRepr)
  {
    match f.variant
    case Plain => Ok(None)
    case LookupVariant(l) => if value.NoneValue? then Ok(None) else DescribeWith(l, value, floatRepr)
    case Formatted(_, l) => if value.NoneValue? then Ok(None) else DescribeWith(l, value, floatRepr)
  }
}

=== FILE: fields.dfy ===
/**
 * The canonical field table.  The table itself is not part of this model:
 * every member that needs it takes it as a parameter constrained by
 * `ValidTable`, which states what the codec relies on — 64 fields, the
 * EURING2000+ fields are the first 60 and the EURING2000 fields the first
 * 33, whose widths add up to the 94 characters of a fixed-width record,
 * distinct keys, and the position of the keys the record rules name.
 */
module Fields {
  import opened Wrappers
  import opened Codes

  const FieldCount := 64
  const Euring2000PlusFieldCount := 60
  const Euring2000FieldCount := 33
  const Euring2000RecordLength := 94

  const GeographicalCoordinatesKey := "geographical_coordinates"
  const AccuracyOfCoordinatesKey := "accuracy_of_coordinates"
  const ReferenceKey := "reference"
  const LatitudeKey := "latitude"
  const LongitudeKey := "longitude"

  /**
   * One entry of the table, as the decoder, the record and the builder read
   * it: key, name, type name, whether it is required (absent means
   * required), the exact, minimum and maximum lengths, and the optional
   * parser and lookup hooks.
   */
  datatype FieldEntry = FieldEntry(
    key: string,
    name: string,
    typeName: string,
    required: bool,
    length: Option<nat>,
    minLength: Option<nat>,
    maxLength: Option<nat>,
    parser: Option<Parser>,
    lookup: Lookup)

  /** `field.get("length", field.get("max_length"))`: the width a field takes in a fixed-width record. */
  function Width(e: FieldEntry): Option<nat> {
    if e.length.Some? then e.length else e.maxLength
  }

  /** The sum of the exact lengths of the first `n` entries. */
  function LengthsTotal(t: seq<FieldEntry>, n: nat): nat
    requires n <= |t|
    requires forall i :: 0 <= i < n ==> t[i].length.Some?
  {
    if n == 0 then 0 else LengthsTotal(t, n - 1) + t[n - 1].length.value
  }

  /** Where the `k`-th EURING2000 field starts: the sum of the widths before it. */
  function Start(t: seq<FieldEntry>, k: nat): nat
    requires Measured(t) && k <= Euring2000FieldCount
  {
    LengthsTotal(t, k)
  }

  function Keys(t: seq<FieldEntry>): (keys: seq<string>)
    ensures |keys| == |t| && forall i :: 0 <= i < |t| ==> keys[i] == t[i].key
  {
    if t == [] then []
    else
      var init := Keys(t[..|t| - 1]);
      assert forall i :: 0 <= i < |t| - 1 ==> init[i] == t[i].key;
      init + [t[|t| - 1].key]
  }

  predicate DistinctKeys(t: seq<FieldEntry>) {
    forall i, j {:trigger t[i].key, t[j].key} :: 0 <= i < j < |t| ==> t[i].key != t[j].key
  }

  /** The EURING2000 fields all have an exact length. */
  predicate Measured(t: seq<FieldEntry>) {
    |t| >= Euring2000FieldCount && forall i :: 0 <= i < Euring2000FieldCount ==> t[i].length.Some?
  }

  predicate ValidTable(t: seq<FieldEntry>) {
    |t| == FieldCount &&
    DistinctKeys(t) &&
    (forall i :: 0 <= i < |t| && t[i].length.Some? ==> t[i].length.value > 0) &&
    Measured(t) &&
    LengthsTotal(t, Euring2000FieldCount) == Euring2000RecordLength &&
    t[24].key == GeographicalCoordinatesKey &&
    t[25].key == AccuracyOfCoordinatesKey &&
    t[59].key == ReferenceKey &&
    t[60].key == LatitudeKey &&
    t[61].key == LongitudeKey
  }

  /** `NON_EURING2000_KEYS`: the keys after the first 33. */
  function NonEuring2000Keys(t: seq<FieldEntry>): seq<string>
    requires |t| == FieldCount
  {
    Keys(t)[Euring2000FieldCount..]
  }

  /** `EURING2020_ONLY_KEYS`: the keys after the first 60. */
  function Euring2020OnlyKeys(t: seq<FieldEntry>): seq<string>
    requires |t| == FieldCount
  {
    Keys(t)[Euring2000PlusFieldCount..]
  }

  /** The position of the first entry with a key, if any. */
  function IndexOfKey(t: seq<FieldEntry>, key: string): (r: Option<nat>)
    ensures r.Some? ==> r.value < |t| && t[r.value].key == key && forall j :: 0 <= j < r.value ==> t[j].key != key
    ensures r.None? <==> forall j :: 0 <= j < |t| ==> t[j].key != key
  {
    if t == [] then None
    else if t[0].key == key then Some(0)
    else
      match IndexOfKey(t[1..], key)
      case None =>
        assert forall j :: 0 <= j < |t| ==> t[j].key != key by {
          forall j | 0 <= j < |t| ensures t[j].key != key { if j > 0 { assert t[j] == t[1..][j - 1]; } }
        }
        None
      case Some(i) =>
        assert forall j :: 0 <= j < i + 1 ==> t[j].key != key by {
          forall j | 0 <= j < i + 1 ensures t[j].key != key { if j > 0 { assert t[j] == t[1..][j - 1]; } }
        }
        Some(i + 1)
  }

  /** With distinct keys, a key's index is the one position holding it. */
  lemma {:induction false} IndexOfDistinctKey(t: seq<FieldEntry>, i: nat)
    requires DistinctKeys(t) && i < |t|
    ensures IndexOfKey(t, t[i].key) == Some(i)
  {
  }

  /** A prefix of the table up to `n` entries: every exact length is positive, so the running total grows. */
  lemma {:induction false} LengthsTotalBelow(t: seq<FieldEntry>, n: nat)
    requires ValidTable(t) && n < Euring2000FieldCount
    ensures LengthsTotal(t, n) < Euring2000RecordLength
  {
    LengthsTotalMonotone(t, n + 1, Euring2000FieldCount);
  }

  lemma {:induction false} LengthsTotalMonotone(t: seq<FieldEntry>, a: nat, b: nat)
    requires a <= b <= |t|
    requires forall i :: 0 <= i < b ==> t[i].length.Some? && t[i].length.value > 0
    ensures a > 0 ==> LengthsTotal(t, a - 1) < LengthsTotal(t, b)
    ensures LengthsTotal(t, a) <= LengthsTotal(t, b)
    decreases b - a
  {
    if a < b {
      LengthsTotalMonotone(t, a, b - 1);
    }
  }
}

=== FILE: formats.dfy ===
/** The three EURING record formats and the normalisation of their names. */
module Formats {
  import opened Wrappers
  import opened Builtins
  import opened Exceptions

  datatype Format = Euring2000 | Euring2000Plus | Euring2020 {
    /** The internal (lower-case) name. */
    function Name(): string {
      match this
      case Euring2000 => "euring2000"
      case Euring2000Plus => "euring2000plus"
      case Euring2020 => "euring2020"
    }

    /** The canonical display name. */
    function DisplayName(): string {
      match this
      case Euring2000 => "EURING2000"
      case Euring2000Plus => "EURING2000+"
      case Euring2020 => "EURING2020"
    }
  }

  predicate IsFormatName(s: string) {
    s == "euring2000" || s == "euring2000plus" || s == "euring2020"
  }

  const UnknownFormatHint := "\". Use euring2000, euring2000plus, or euring2020."

  function UnknownFormatMessage(format: string): string {
    "Unknown format \"" + format + UnknownFormatHint
  }

  /**
   * `normalize_format`: strip surrounding whitespace and lower-case, then
   * accept exactly the three format names.
   */
  function NormalizeFormat(format: string): (r: Result<Format, Error>)
    ensures r.Ok? <==> IsFormatName(Lower(Strip(format)))
    ensures r.Ok? ==> r.value.Name() == Lower(Strip(format))
    ensures r.Err? ==> r.error == ValueError(UnknownFormatMessage(format))
  {
    var raw := Lower(Strip(format));
    if raw == "euring2000" then Ok(Euring2000)
    else if raw == "euring2000plus" then Ok(Euring2000Plus)
    else if raw == "euring2020" then Ok(Euring2020)
    else Err(ValueError(UnknownFormatMessage(format)))
  }

  /** Every result of normalisation normalises to itself. */
  lemma {:induction false} NormalizeIdempotent(f: Format)
    ensures NormalizeFormat(f.Name()) == Ok(f)
  {
    var n := f.Name();
    FormatNameNormal(n);
    NameInjective(NormalizeFormat(n).value, f);
  }

  /** A format name has no surrounding whitespace and no upper-case letter. */
  lemma {:induction false} FormatNameNormal(n: string)
    requires IsFormatName(n)
    ensures Lower(Strip(n)) == n
  {
    assert forall i :: 0 <= i < |n| ==> IsLower(n[i]) || IsDigit(n[i]);
    StripIdentity(n);
    LowerIdentity(n);
  }

  /** Normalisation ignores letter case. */
  lemma {:induction false} NormalizeIgnoresCase(format: string)
    ensures NormalizeFormat(Upper(format)).Ok? == NormalizeFormat(format).Ok?
    ensures NormalizeFormat(format).Ok? ==> NormalizeFormat(Upper(format)).value == NormalizeFormat(format).value
  {
    StripUpper(format);
    StripUpper(Strip(format));
    SameRawSameFormat(Upper(format), format);
  }

  /** Only the stripped, lower-cased text decides the outcome. */
  lemma {:induction false} SameRawSameFormat(a: string, b: string)
    requires Lower(Strip(a)) == Lower(Strip(b))
    ensures NormalizeFormat(a).Ok? == NormalizeFormat(b).Ok?
    ensures NormalizeFormat(a).Ok? ==> NormalizeFormat(a).value == NormalizeFormat(b).value
  {
    var ra := NormalizeFormat(a);
    var rb := NormalizeFormat(b);
    if ra.Ok? {
      NameInjective(ra.value, rb.value);
    }
  }

  lemma {:induction false} NameInjective(f: Format, g: Format)
    requires f.Name() == g.Name()
    ensures f == g
  {
    assert f.Name()[|f.Name()| - 1] == g.Name()[|g.Name()| - 1];
  }

  /**
   * The whitespace `str.strip()` removes goes beyond the ASCII blanks: an
   * information separator before the name and an ideographic space after it
   * are removed too.
   */
  lemma {:induction false} NormalizeSeparatorsExample()
    ensures NormalizeFormat("\U{1c}\tEURING2020\U{3000}") == Ok(Euring2020)
  {
    StripSeparators();
    LowerName();
  }

  lemma {:induction false} StripSeparators()
    ensures Strip("\U{1c}\tEURING2020\U{3000}") == "EURING2020"
  {
    var pre, name, post := "\U{1c}\t", "EURING2020", "\U{3000}";
    assert pre + name + post == "\U{1c}\tEURING2020\U{3000}";
    StripSurrounded(pre, name, post);
    NameStrips();
  }

  lemma {:induction false} NameStrips()
    ensures Strip("EURING2020") == "EURING2020"
  {
    var name := "EURING2020";
    assert name[0] == 'E' && name[9] == '0';
    StripIdentity(name);
  }

  lemma {:induction false} LowerName()
    ensures Lower("EURING2020") == "euring2020"
  {
    LowerOfName("EURING2020");
  }

  lemma {:induction false} LowerOfName(name: string)
    requires name == "EURING2020"
    ensures Lower(name) == "euring2020"
  {
    var s := Lower(name);
    assert s[0] == ToLower(name[0]) == 'e';
    assert s[1] == ToLower(name[1]) == 'u';
    assert s[2] == ToLower(name[2]) == 'r';
    assert s[3] == ToLower(name[3]) == 'i';
    assert s[4] == ToLower(name[4]) == 'n';
    assert s[5] == ToLower(name[5]) == 'g';
    assert s[6] == ToLower(name[6]) == '2';
    assert s[7] == ToLower(name[7]) == '0';
    assert s[8] == ToLower(name[8]) == '2';
    assert s[9] == ToLower(name[9]) == '0';
  }

  /** Normalisation ignores surrounding whitespace. */
  lemma {:induction false} NormalizeIgnoresWhitespace(pre: string, format: string, post: string)
    requires AllSpaces(pre) && AllSpaces(post)
    ensures NormalizeFormat(pre + format + post).Ok? == NormalizeFormat(format).Ok?
    ensures NormalizeFormat(format).Ok? ==>
      NormalizeFormat(pre + format + post).value == NormalizeFormat(format).value
  {
    StripSurrounded(pre, format, post);
    SameRawSameFormat(pre + format + post, format);
  }
}

=== FILE: parsing.dfy ===
/** The single-value decoder built on the older field definition. */
module Parsing {
  import opened Wrappers
  import opened Exceptions
  import opened Values
  import opened Codes
  import FM = FieldModel

  /** The result dictionary: the raw text, the parsed value when a parser was given, and the description. */
  datatype Decoded = Decoded(value: string, parsedValue: Option<Value>, description: Option<string>)

  /** The field `euring_decode_value` builds: key "value", name "Value". */
  function ValueField(typeName: string, required: bool, length: Option<nat>, minLength: Option<nat>,
                      maxLength: Option<nat>, parser: Option<Parser>, lookup: Lookup): FM.EuringField
  {
    FM.CoerceField(FM.DefinitionMap(Some("value"), Some("Value"), Some(typeName), None, Some(required),
                                    length, minLength, maxLength, parser, lookup))
  }

  /** A parser's value can be described: its text is computed only when the lookup is a table. */
  ghost predicate ParserDescribable(parser: Option<Parser>, lookup: Lookup) {
    lookup.Table? && parser.Some? ==> forall s :: parser.value(s).Ok? ==> Renders(parser.value(s).value)
  }

  /**
   * `euring_decode_value`: None when the field parse gives None, otherwise
   * the raw text, the parsed value if there is a parser, and the
   * description of the parsed value.
   */
  function DecodeValue(value: string, typeName: string, required: bool, length: Option<nat>,
                       minLength: Option<nat>, maxLength: Option<nat>, parser: Option<Parser>,
                       lookup: Lookup, valid: FM.TypeCheck, floatRepr: real -> string): (r: Result<Option<Decoded>, Error>)
    requires ParserDescribable(parser, lookup)
    ensures var f := ValueField(typeName, required, length, minLength, maxLength, parser, lookup);
      (FM.Parse(f, value, valid).Err? ==> r == Err(FM.Parse(f, value, valid).error)) &&
      (r == Ok(None) <==> FM.Parse(f, value, valid) == Ok(NoneValue))
    ensures r.Ok? && r.value.Some? ==> r.value.value.value == value
    ensures r.Ok? && r.value.Some? ==> (r.value.value.parsedValue.Some? <==> parser.Some?)
    ensures r.Ok? && r.value.Some? && lookup.NoLookup? ==> r.value.value.description.None?
    ensures var f := ValueField(typeName, required, length, minLength, maxLength, parser, lookup);
      r.Ok? && r.value.Some? ==>
        FM.Parse(f, value, valid).Ok? && !FM.Parse(f, value, valid).value.NoneValue? &&
        (parser.Some? ==> r.value.value.parsedValue == Some(FM.Parse(f, value, valid).value)) &&
        (FM.LookupOf(f).Table? ==> Renders(FM.Parse(f, value, valid).value)) &&
        FM.Describe(f, FM.Parse(f, value, valid).value, floatRepr) == Ok(r.value.value.description)
    ensures var f := ValueField(typeName, required, length, minLength, maxLength, parser, lookup);
      FM.Parse(f, value, valid).Ok? && !FM.Parse(f, value, valid).value.NoneValue? &&
      (FM.LookupOf(f).Table? ==> Renders(FM.Parse(f, value, valid).value)) &&
      FM.Describe(f, FM.Parse(f, value, valid).value, floatRepr).Err? ==>
        r == Err(FM.Describe(f, FM.Parse(f, value, valid).value, floatRepr).error)
  {
    var f := ValueField(typeName, required, length, minLength, maxLength, parser, lookup);
    var parsed :- FM.Parse(f, value, valid);
    if parsed.NoneValue? then Ok(None)
    else
      var description :- FM.Describe(f, parsed, floatRepr);
      Ok(Some(Decoded(value, if parser.Some? then Some(parsed) else None, description)))
  }

  /** Empty text gives None exactly when the field is optional, and raises otherwise. */
  lemma {:induction false} EmptyValueDecoding(typeName: string, required: bool, length: Option<nat>, minLength: Option<nat>,
                           maxLength: Option<nat>, parser: Option<Parser>, lookup: Lookup,
                           valid: FM.TypeCheck, floatRepr: real -> string)
    requires ParserDescribable(parser, lookup)
    ensures DecodeValue("", typeName, required, length, minLength, maxLength, parser, lookup, valid, floatRepr) ==
      if required && minLength != Some(0) then Err(ParseFailure(FM.RequiredEmptyMessage)) else Ok(None)
  {
  }

  /** Without a parser the parsed value is the raw text, so it is never None for non-empty text. */
  lemma {:induction false} NonEmptyWithoutParser(value: string, typeName: string, required: bool, length: Option<nat>,
                              minLength: Option<nat>, maxLength: Option<nat>, lookup: Lookup,
                              valid: FM.TypeCheck, floatRepr: real -> string)
    requires value != ""
    ensures var r := DecodeValue(value, typeName, required, length, minLength, maxLength, None, lookup, valid, floatRepr);
      r.Ok? ==> r.value.Some? && r.value.value.parsedValue.None?
  {
  }
}

=== FILE: record.dfy ===
/**
 * `EuringRecord` (src/euring/record.py): a record of one format, built
 * field by field or decoded from text.  Serialising it checks every value,
 * writes the text of its format, and re-decodes that text; the decode's
 * errors and fields become the record's own.
 */
module Record {
  import opened Wrappers
  import opened Exceptions
  import opened Values
  import opened Formats
  import opened Fields
  import opened Serialize
  import D = Decoders
  import FM = FieldModel

  // ---------------------------------------------------------------- setting fields

  /** `_FIELD_MAP` knows a key. */
  predicate Known(t: seq<FieldEntry>, key: string) {
    IndexOfKey(t, key).Some?
  }

  /** The entry `set` stores for a known key: its name, the text and its position in the table. */
  function Entry(t: seq<FieldEntry>, key: string, text: string): (f: D.BuiltField)
    requires Known(t, key)
    ensures f.order < |t| && t[f.order].key == key && f.name == t[f.order].name && f.value == Some(text)
  {
    var i := IndexOfKey(t, key).value;
    D.BuiltField(key, t[i].name, Some(text), i)
  }

  /** `set` on the fields mapping: an unknown key raises and changes nothing; a known one holds the text. */
  function Assign(fields: map<string, D.BuiltField>, t: seq<FieldEntry>, key: string, text: string)
    : (r: Result<map<string, D.BuiltField>, Error>)
    ensures r.Err? <==> !Known(t, key)
    ensures r.Err? ==> r.error == ValueError(UnknownKeyMessage(key))
    ensures r.Ok? ==> Holds(r.value, t, key, text) && forall k :: k != key ==> Keeps(r.value, fields, k)
  {
    if Known(t, key) then Ok(fields[key := Entry(t, key, text)])
    else Err(ValueError(UnknownKeyMessage(key)))
  }

  /** After a `set`, the key holds the text. */
  predicate Holds(fields: map<string, D.BuiltField>, t: seq<FieldEntry>, key: string, text: string) {
    Known(t, key) && key in fields && fields[key] == Entry(t, key, text)
  }

  /** A key is as it was: present in both or in neither, with the same entry. */
  predicate Keeps(fields: map<string, D.BuiltField>, before: map<string, D.BuiltField>, k: string) {
    (k in fields <==> k in before) && (k in before ==> fields[k] == before[k])
  }

  /** `update`: one `set` per entry in order, stopping at the first that raises (the earlier ones stay). */
  function AssignAll(fields: map<string, D.BuiltField>, t: seq<FieldEntry>, entries: seq<(string, Value)>,
                     floatRepr: real -> string): (map<string, D.BuiltField>, Outcome<Error>)
    requires forall i :: 0 <= i < |entries| ==> Renders(entries[i].1)
    decreases |entries|
  {
    if entries == [] then (fields, Pass)
    else
      match Assign(fields, t, entries[0].0, Shown(entries[0].1, floatRepr))
      case Err(e) => (fields, Fail(e))
      case Ok(next) => AssignAll(next, t, entries[1..], floatRepr)
  }

  /**
   * `update` with a dictionary (distinct keys): it passes exactly when every
   * key is known, raising otherwise for an unknown one; when it passes each
   * given key holds its text and every other field is as it was.
   */
  lemma {:induction false} UpdateEffect(fields: map<string, D.BuiltField>, t: seq<FieldEntry>,
                                        entries: seq<(string, Value)>, floatRepr: real -> string)
    requires forall i :: 0 <= i < |entries| ==> Renders(entries[i].1)
    requires forall i, j :: 0 <= i < j < |entries| ==> entries[i].0 != entries[j].0
    ensures AssignAll(fields, t, entries, floatRepr).1.Pass? <==> forall i :: 0 <= i < |entries| ==> Known(t, entries[i].0)
    ensures AssignAll(fields, t, entries, floatRepr).1.Fail? ==>
      exists i :: 0 <= i < |entries| && !Known(t, entries[i].0) &&
                  AssignAll(fields, t, entries, floatRepr).1.error == ValueError(UnknownKeyMessage(entries[i].0))
    ensures AssignAll(fields, t, entries, floatRepr).1.Pass? ==>
      (forall i :: 0 <= i < |entries| ==> Holds(AssignAll(fields, t, entries, floatRepr).0, t, entries[i].0, Shown(entries[i].1, floatRepr))) &&
      (forall k :: (forall i :: 0 <= i < |entries| ==> entries[i].0 != k) ==> Keeps(AssignAll(fields, t, entries, floatRepr).0, fields, k))
    decreases |entries|
  {
    if entries != [] {
      var key, text := entries[0].0, Shown(entries[0].1, floatRepr);
      var rest := entries[1..];
      assert forall i :: 0 <= i < |rest| ==> rest[i] == entries[i + 1];
      match Assign(fields, t, key, text)
      case Err(e) =>
        assert !Known(t, entries[0].0);
      case Ok(next) =>
        UpdateEffect(next, t, rest, floatRepr);
        var result := AssignAll(fields, t, entries, floatRepr);
        assert result == AssignAll(next, t, rest, floatRepr);
        if result.1.Pass? {
          assert Keeps(result.0, next, key);
          forall k | forall i :: 0 <= i < |entries| ==> entries[i].0 != k
            ensures Keeps(result.0, fields, k)
          {
            assert entries[0].0 != k;
            assert forall i :: 0 <= i < |rest| ==> rest[i].0 != k;
            assert Keeps(next, fields, k) && Keeps(result.0, next, k);
          }
          forall i | 0 <= i < |entries| ensures Holds(result.0, t, entries[i].0, Shown(entries[i].1, floatRepr)) {
            if i > 0 {
              assert entries[i] == rest[i - 1];
            }
          }
        } else {
          var i :| 0 <= i < |rest| && !Known(t, rest[i].0) && result.1.error == ValueError(UnknownKeyMessage(rest[i].0));
          assert entries[i + 1] == rest[i];
        }
    }
  }

  /** The public fields mapping of a decode: each built field under its key, a later one replacing an earlier. */
  function FieldMap(built: seq<D.BuiltField>): map<string, D.BuiltField> {
    if built == [] then map[]
    else FieldMap(built[..|built| - 1])[built[|built| - 1].key := built[|built| - 1]]
  }

  /** With distinct keys, the mapping holds exactly the built fields, each under its key. */
  lemma {:induction false} FieldMapLookup(built: seq<D.BuiltField>)
    requires forall i, j :: 0 <= i < j < |built| ==> built[i].key != built[j].key
    ensures forall i :: 0 <= i < |built| ==> built[i].key in FieldMap(built) && FieldMap(built)[built[i].key] == built[i]
    ensures forall k :: k in FieldMap(built) ==> exists i :: 0 <= i < |built| && built[i].key == k
  {
    if built != [] {
      var front := built[..|built| - 1];
      FieldMapLookup(front);
      assert forall i :: 0 <= i < |front| ==> front[i] == built[i];
    }
  }

  /** The format `decode` gives the record: the decoded one, else the declared one, else EURING2000+. */
  function RecordFormat(decoded: Option<Format>, declared: Option<Format>): Format {
    if decoded.Some? then decoded.value
    else if declared.Some? then declared.value
    else Euring2000Plus
  }

  // ---------------------------------------------------------------- the record object

  class EuringRecord {
    const format: Format
    const strict: bool
    const table: seq<FieldEntry>
    const valid: FM.TypeCheck
    var fields: map<string, D.BuiltField>
    var recordErrors: seq<string>
    var fieldErrors: seq<D.FieldError>

    ghost predicate Valid() {
      ValidTable(table) && D.DescribableTable(table) && Writable(table)
    }

    /** The value stored under each key: its text, or None for a field decoded from empty text. */
    function StoredValues(): (stored: map<string, Option<string>>)
      reads this
      ensures stored.Keys == fields.Keys && forall k :: k in fields ==> stored[k] == fields[k].value
    {
      map k | k in fields :: fields[k].value
    }

    /** A record of an already normalised format (see `Formats.NormalizeFormat`), with no fields and no errors. */
    constructor(format: Format, strict: bool, table: seq<FieldEntry>, valid: FM.TypeCheck)
      requires ValidTable(table) && D.DescribableTable(table)
      ensures Valid()
      ensures this.format == format && this.strict == strict && this.table == table && this.valid == valid
      ensures fields == map[] && recordErrors == [] && fieldErrors == []
    {
      this.format := format;
      this.strict := strict;
      this.table := table;
      this.valid := valid;
      fields := map[];
      recordErrors := [];
      fieldErrors := [];
      new;
      TableWritable(table);
    }

    /** `decode`: decode text into a non-strict record of the format found. */
    static method Decode(input: RecordInput, format: string, table: seq<FieldEntry>, valid: FM.TypeCheck)
      returns (r: Result<EuringRecord, Error>)
      requires ValidTable(table) && D.DescribableTable(table)
      ensures var declared := D.NormalizeFormatOption(format);
        (declared.Err? ==> r == Err(declared.error)) &&
        (declared.Ok? ==> var d := D.DecodeSpec(input, declared.value, table, valid);
          (d.Err? ==> r == Err(d.error)) &&
          (d.Ok? ==> r.Ok? && fresh(r.value) && r.value.Valid() && !r.value.strict &&
                     r.value.table == table && r.value.valid == valid &&
                     r.value.format == RecordFormat(d.value.format, declared.value) &&
                     r.value.fields == FieldMap(d.value.fields) &&
                     r.value.recordErrors == d.value.progress.recordErrors &&
                     r.value.fieldErrors == d.value.progress.fieldErrors))
    {
      var declared := D.NormalizeFormatOption(format);
      if declared.Err? {
        return Err(declared.error);
      }
      ghost var d := D.DecodeSpec(input, declared.value, table, valid);
      var decoder := new D.EuringDecoder(input, declared.value, table, valid);
      var results := decoder.GetResults();
      if results.Err? {
        return Err(results.error);
      }
      assert results.value == D.ResultsOf(d.value) && decoder.recordFormat == d.value.format;
      var internal: Format;
      if decoder.recordFormat.Some? {
        internal := decoder.recordFormat.value;
      } else if format != "" {
        internal := NormalizeFormat(format).value;
      } else {
        internal := Euring2000Plus;
      }
      assert internal == RecordFormat(d.value.format, declared.value);
      var record := new EuringRecord(internal, false, table, valid);
      record.Keep(results.value);
      return Ok(record);
    }

    /** Keep the errors and the fields of a decode as the record's own. */
    method Keep(results: D.Results)
      requires results.Results?
      modifies this`fields, this`recordErrors, this`fieldErrors
      ensures fields == FieldMap(results.fields)
      ensures recordErrors == results.recordErrors && fieldErrors == results.fieldErrors
    {
      recordErrors := results.recordErrors;
      fieldErrors := results.fieldErrors;
      fields := FieldMap(results.fields);
    }

    /** `set`: store the value's text under a known key. */
    method Set(key: string, value: Value, floatRepr: real -> string) returns (o: Outcome<Error>)
      requires Renders(value)
      modifies this`fields
      ensures var a := Assign(old(fields), table, key, Shown(value, floatRepr));
        (a.Ok? ==> o == Pass && fields == a.value) && (a.Err? ==> o == Fail(a.error) && fields == old(fields))
    {
      var index := IndexOfKey(table, key);
      if index.None? {
        return Fail(ValueError(UnknownKeyMessage(key)));
      }
      fields := fields[key := D.BuiltField(key, table[index.value].name, Some(Shown(value, floatRepr)), index.value)];
      return Pass;
    }

    /** `update`: `set` each entry in order. */
    method Update(entries: seq<(string, Value)>, floatRepr: real -> string) returns (o: Outcome<Error>)
      requires forall i :: 0 <= i < |entries| ==> Renders(entries[i].1)
      modifies this`fields
      ensures (fields, o) == AssignAll(old(fields), table, entries, floatRepr)
    {
      for i := 0 to |entries|
        invariant AssignAll(fields, table, entries[i..], floatRepr) == AssignAll(old(fields), table, entries, floatRepr)
      {
        assert entries[i..][0] == entries[i] && entries[i..][1..] == entries[i + 1..];
        o := Set(entries[i].0, entries[i].1, floatRepr);
        if o.Fail? {
          return;
        }
      }
      assert entries[|entries|..] == [];
      return Pass;
    }

    /** `_serialize`: the text of the stored values, without checks. */
    method SerializeLoose() returns (r: Result<string, Error>)
      requires Valid()
      ensures r == LooseText(format, FieldsForFormat(format, table), StoredValues())
    {
      var fs := FieldsFor(format, table);
      var stored := StoredValues();
      if format == Euring2000 {
        var layout := FixedWidthFieldsOf(table);
        var text := FormatFixedWidth(Texts(stored), layout);
        return Ok(text);
      }
      for i := 0 to |fs|
        invariant FirstNone(fs, stored, 0) == FirstNone(fs, stored, i)
      {
        if Stored(stored, fs[i].key).None? {
          return Err(TypeError(JoinNoneMessage(i)));
        }
      }
      return Ok(PipeText(Texts(stored), fs));
    }

    /**
     * `validate`: decode the given text (or the unchecked text of the stored
     * values) in the record's format, and keep the decode's errors and fields.
     */
    method Validate(record: Option<string>) returns (r: Result<ErrorsPayload, Error>)
      requires Valid()
      modifies this`fields, this`recordErrors, this`fieldErrors
      ensures var text := if record.Some? then Ok(record.value)
                          else LooseText(format, FieldsForFormat(format, table), old(StoredValues()));
        (text.Err? ==> r == Err(text.error) && unchanged(this)) &&
        (text.Ok? ==> var d := D.DecodeSpec(TextRecord(text.value), Some(format), table, valid);
          (d.Err? ==> r == Err(d.error) && unchanged(this)) &&
          (d.Ok? ==> r == Ok(ErrorsOf(d.value)) && fields == FieldMap(d.value.fields) &&
                     recordErrors == d.value.progress.recordErrors && fieldErrors == d.value.progress.fieldErrors))
    {
      var text: string;
      if record.None? {
        var loose := SerializeLoose();
        if loose.Err? {
          return Err(loose.error);
        }
        text := loose.value;
      } else {
        text := record.value;
      }
      var decoder := new D.EuringDecoder(TextRecord(text), Some(format), table, valid);
      var results := decoder.GetResults();
      if results.Err? {
        return Err(results.error);
      }
      Keep(results.value);
      return Ok(ErrorsDict(recordErrors, fieldErrors));
    }

    /**
     * `serialize`: check every value of the format's fields, write the text,
     * validate it, and in strict mode refuse text whose decode has errors.
     */
    method Serialize() returns (r: Result<string, Error>)
      requires Valid()
      modifies this`fields, this`recordErrors, this`fieldErrors
      ensures var fs := FieldsForFormat(format, table);
        var c := Collect(fs, old(StoredValues()), strict, valid);
        (c.Err? ==> r == Err(c.error) && unchanged(this)) &&
        (c.Ok? ==>
          var d := D.DecodeSpec(TextRecord(WriteText(format, fs, c.value)), Some(format), table, valid);
          (d.Err? ==> r == Err(d.error) && unchanged(this)) &&
          (d.Ok? ==> fields == FieldMap(d.value.fields) &&
                     recordErrors == d.value.progress.recordErrors && fieldErrors == d.value.progress.fieldErrors &&
                     r == if strict && HasErrors(ErrorsOf(d.value)) then Err(ValueError(ValidationFailedMessage))
                          else Ok(WriteText(format, fs, c.value))))
    {
      var fs := FieldsFor(format, table);
      var c := CollectValues(fs, StoredValues(), strict, valid);
      if c.Err? {
        return Err(c.error);
      }
      var text: string;
      if format == Euring2000 {
        var layout := FixedWidthFieldsOf(table);
        text := FormatFixedWidth(c.value, layout);
      } else {
        text := PipeText(c.value, fs);
      }
      var errors := Validate(Some(text));
      if errors.Err? {
        return Err(errors.error);
      }
      if strict && HasErrors(errors.value) {
        return Err(ValueError(ValidationFailedMessage));
      }
      return Ok(text);
    }
  }
}

=== FILE: rules.dfy ===
/**
 * Record-level rules: which format a set of values needs, and the errors a
 * record's values raise in a given format.  Values are the decoded texts by
 * key; a missing key reads as "".
 */
module Rules {
  import opened Wrappers
  import opened Builtins
  import opened Formats
  import opened Fields
  import opened Codes

  const GeographicalCoordinatesMessage := "When Latitude/Longitude are provided, Geographical Co-ordinates must be 15 dots."
  const LongitudeRequiredMessage := "Longitude is required when Latitude is provided."
  const LatitudeRequiredMessage := "Latitude is required when Longitude is provided."
  const AlphabeticAccuracyMessage := "Alphabetic accuracy codes are only valid in EURING2020."
  const BeyondEuring2000Message := "Fields beyond the EURING2000 fixed-width layout are not allowed."
  const Euring2020OnlyMessage := "EURING2020-only fields require EURING2020 format."

  /** `values_by_key.get(key, "") or ""`. */
  function Get(values: map<string, string>, key: string): string {
    if key in values then values[key] else ""
  }

  /** `field_name_for_key`: the field's name, or the key itself for an unknown key. */
  function FieldNameForKey(t: seq<FieldEntry>, key: string): (r: string)
    ensures DistinctKeys(t) ==> forall i :: 0 <= i < |t| && t[i].key == key ==> r == t[i].name
    ensures (forall i :: 0 <= i < |t| ==> t[i].key != key) ==> r == key
  {
    match IndexOfKey(t, key)
    case Some(i) => t[i].name
    case None => key
  }

  /** `accuracy_of_coordinates_is_alpha`. */
  function AccuracyIsAlpha(values: map<string, string>): (r: bool)
    ensures r <==> |Get(values, AccuracyOfCoordinatesKey)| > 0 &&
                   forall i :: 0 <= i < |Get(values, AccuracyOfCoordinatesKey)| ==> IsLetter(Get(values, AccuracyOfCoordinatesKey)[i])
  {
    var accuracy := Get(values, AccuracyOfCoordinatesKey);
    accuracy != "" && IsAlphaString(accuracy)
  }

  /** True when some key among `keys` has a non-empty value; the loop stops at the first. */
  function AnySet(keys: seq<string>, values: map<string, string>): (r: bool)
    ensures r <==> exists i :: 0 <= i < |keys| && Get(values, keys[i]) != ""
  {
    if keys == [] then false
    else if Get(values, keys[0]) != "" then true
    else
      var rest := AnySet(keys[1..], values);
      assert rest <==> exists i :: 0 <= i < |keys| && Get(values, keys[i]) != "" by {
        if exists i :: 0 <= i < |keys| && Get(values, keys[i]) != "" {
          var i :| 0 <= i < |keys| && Get(values, keys[i]) != "";
          assert i > 0 && keys[1..][i - 1] == keys[i];
        }
      }
      rest
  }

  /** `matches_euring2000`: no field outside the EURING2000 layout has a value. */
  function MatchesEuring2000(t: seq<FieldEntry>, values: map<string, string>): (r: bool)
    requires |t| == FieldCount
    ensures r <==> forall i :: Euring2000FieldCount <= i < FieldCount ==> Get(values, t[i].key) == ""
  {
    var keys := NonEuring2000Keys(t);
    assert forall i :: Euring2000FieldCount <= i < FieldCount ==> keys[i - Euring2000FieldCount] == t[i].key;
    !AnySet(keys, values)
  }

  /** `requires_euring2000plus`: some field outside the EURING2000 layout has a value. */
  function RequiresEuring2000Plus(t: seq<FieldEntry>, values: map<string, string>): (r: bool)
    requires |t| == FieldCount
    ensures r <==> exists i :: Euring2000FieldCount <= i < FieldCount && Get(values, t[i].key) != ""
    ensures r == !MatchesEuring2000(t, values)
  {
    !MatchesEuring2000(t, values)
  }

  /** `requires_euring2020`: an alphabetic accuracy, or a value in one of the four EURING2020-only fields. */
  function RequiresEuring2020(t: seq<FieldEntry>, values: map<string, string>): (r: bool)
    requires |t| == FieldCount
    ensures r <==> AccuracyIsAlpha(values) ||
                   exists i :: Euring2000PlusFieldCount <= i < FieldCount && Get(values, t[i].key) != ""
  {
    var keys := Euring2020OnlyKeys(t);
    assert forall i :: Euring2000PlusFieldCount <= i < FieldCount ==> keys[i - Euring2000PlusFieldCount] == t[i].key;
    if AccuracyIsAlpha(values) then true else AnySet(keys, values)
  }

  /** A value that needs EURING2020 beyond its accuracy code also needs more than EURING2000. */
  lemma {:induction false} Euring2020OnlyValueNeedsPlus(t: seq<FieldEntry>, values: map<string, string>)
    requires |t| == FieldCount
    requires RequiresEuring2020(t, values) && !AccuracyIsAlpha(values)
    ensures RequiresEuring2000Plus(t, values)
  {
    var i :| Euring2000PlusFieldCount <= i < FieldCount && Get(values, t[i].key) != "";
    assert Euring2000FieldCount <= i;
  }

  /** One record-rule error: the key it is about, its message and the value stored for the key. */
  datatype RuleError = RuleError(key: string, message: string, value: string)

  function ErrorFor(values: map<string, string>, key: string, message: string): RuleError {
    RuleError(key, message, Get(values, key))
  }

  /** One error for each key, in order, whose value is non-empty. */
  function KeyErrors(keys: seq<string>, values: map<string, string>, message: string): seq<RuleError>
    decreases |keys|
  {
    if keys == [] then []
    else
      var last := keys[|keys| - 1];
      KeyErrors(keys[..|keys| - 1], values, message) +
        (if Get(values, last) != "" then [ErrorFor(values, last, message)] else [])
  }

  /** The coordinate errors of EURING2020, in the order they are checked. */
  function CoordinateErrors(values: map<string, string>): seq<RuleError> {
    GeographicalError(values) + LongitudeError(values) + LatitudeError(values)
  }

  /** Latitude or longitude given beside co-ordinates that are not the fifteen dots. */
  function GeographicalError(values: map<string, string>): seq<RuleError> {
    var geographical := Get(values, GeographicalCoordinatesKey);
    if (Get(values, LatitudeKey) != "" || Get(values, LongitudeKey) != "") && geographical != "" && geographical != NoCoordinates
    then [ErrorFor(values, GeographicalCoordinatesKey, GeographicalCoordinatesMessage)] else []
  }

  /** A latitude without a longitude. */
  function LongitudeError(values: map<string, string>): seq<RuleError> {
    if Get(values, LatitudeKey) != "" && Get(values, LongitudeKey) == ""
    then [ErrorFor(values, LongitudeKey, LongitudeRequiredMessage)] else []
  }

  /** A longitude without a latitude. */
  function LatitudeError(values: map<string, string>): seq<RuleError> {
    if Get(values, LongitudeKey) != "" && Get(values, LatitudeKey) == ""
    then [ErrorFor(values, LatitudeKey, LatitudeRequiredMessage)] else []
  }

  /** The errors of `record_rule_errors`, as a specification of the loop that collects them. */
  function RuleErrors(format: Format, t: seq<FieldEntry>, values: map<string, string>): seq<RuleError>
    requires |t| == FieldCount
  {
    if format == Euring2020 then CoordinateErrors(values)
    else AccuracyErrors(values) + FormatKeyErrors(format, t, values)
  }

  /** Outside EURING2020: an alphabetic accuracy code. */
  function AccuracyErrors(values: map<string, string>): seq<RuleError> {
    if AccuracyIsAlpha(values) then [ErrorFor(values, AccuracyOfCoordinatesKey, AlphabeticAccuracyMessage)] else []
  }

  /** Outside EURING2020: a value in a field the format does not have. */
  function FormatKeyErrors(format: Format, t: seq<FieldEntry>, values: map<string, string>): seq<RuleError>
    requires |t| == FieldCount
  {
    if format == Euring2000 then KeyErrors(NonEuring2000Keys(t), values, BeyondEuring2000Message)
    else if format == Euring2000Plus then KeyErrors(Euring2020OnlyKeys(t), values, Euring2020OnlyMessage)
    else []
  }

  /** `record_rule_errors`: the checks of the format, appending one error at a time. */
  method RecordRuleErrors(format: Format, t: seq<FieldEntry>, values: map<string, string>) returns (errors: seq<RuleError>)
    requires |t| == FieldCount
    ensures errors == RuleErrors(format, t, values)
  {
    errors := [];
    if format == Euring2020 {
      errors := AppendCoordinateErrors(errors, values);
      assert errors == CoordinateErrors(values);
    } else {
      if AccuracyIsAlpha(values) {
        errors := errors + [ErrorFor(values, AccuracyOfCoordinatesKey, AlphabeticAccuracyMessage)];
      }
      assert errors == AccuracyErrors(values);
      if format == Euring2000 {
        errors := AppendKeyErrors(errors, NonEuring2000Keys(t), values, BeyondEuring2000Message);
      }
      if format == Euring2000Plus {
        errors := AppendKeyErrors(errors, Euring2020OnlyKeys(t), values, Euring2020OnlyMessage);
      }
    }
  }

  /** The EURING2020 branch: the three co-ordinate checks, each appending at most one error. */
  method AppendCoordinateErrors(errors0: seq<RuleError>, values: map<string, string>) returns (errors: seq<RuleError>)
    ensures errors == errors0 + CoordinateErrors(values)
  {
    errors := errors0;
    var geographical := Get(values, GeographicalCoordinatesKey);
    var latitude := Get(values, LatitudeKey);
    var longitude := Get(values, LongitudeKey);
    if latitude != "" || longitude != "" {
      if geographical != "" && geographical != NoCoordinates {
        errors := errors + [ErrorFor(values, GeographicalCoordinatesKey, GeographicalCoordinatesMessage)];
      }
    }
    assert errors == errors0 + GeographicalError(values);
    if latitude != "" && longitude == "" {
      errors := errors + [ErrorFor(values, LongitudeKey, LongitudeRequiredMessage)];
    }
    assert errors == errors0 + GeographicalError(values) + LongitudeError(values);
    if longitude != "" && latitude == "" {
      errors := errors + [ErrorFor(values, LatitudeKey, LatitudeRequiredMessage)];
    }
  }

  /** The loop over a key set: skip the empty values, append an error for each other one. */
  method AppendKeyErrors(errors0: seq<RuleError>, keys: seq<string>, values: map<string, string>, message: string)
    returns (errors: seq<RuleError>)
    ensures errors == errors0 + KeyErrors(keys, values, message)
  {
    errors := errors0;
    for i := 0 to |keys|
      invariant errors == errors0 + KeyErrors(keys[..i], values, message)
    {
      assert keys[..i + 1][..i] == keys[..i];
      var value := Get(values, keys[i]);
      if value == "" {
        continue;
      }
      errors := errors + [ErrorFor(values, keys[i], message)];
    }
    assert keys[..|keys|] == keys;
  }

  /** The key errors are exactly the keys with a value, each carrying that value. */
  lemma {:induction false} KeyErrorsExact(keys: seq<string>, values: map<string, string>, message: string)
    ensures forall e :: e in KeyErrors(keys, values, message) ==>
      e.key in keys && e.message == message && e.value == Get(values, e.key) && e.value != ""
    ensures forall i :: 0 <= i < |keys| && Get(values, keys[i]) != "" ==>
      ErrorFor(values, keys[i], message) in KeyErrors(keys, values, message)
    ensures |KeyErrors(keys, values, message)| <= |keys|
    decreases |keys|
  {
    if keys != [] {
      var init := keys[..|keys| - 1];
      KeyErrorsExact(init, values, message);
      forall i | 0 <= i < |keys| && Get(values, keys[i]) != ""
        ensures ErrorFor(values, keys[i], message) in KeyErrors(keys, values, message)
      {
        if i < |keys| - 1 {
          assert init[i] == keys[i];
        }
      }
    }
  }

  /** With distinct keys there is exactly one error per key that has a value. */
  lemma {:induction false} KeyErrorsCount(keys: seq<string>, values: map<string, string>, message: string)
    ensures |KeyErrors(keys, values, message)| == |set i | 0 <= i < |keys| && Get(values, keys[i]) != ""|
    decreases |keys|
  {
    if keys != [] {
      var n := |keys| - 1;
      var init := keys[..n];
      KeyErrorsCount(init, values, message);
      var small := set i | 0 <= i < n && Get(values, init[i]) != "";
      var big := set i | 0 <= i < |keys| && Get(values, keys[i]) != "";
      assert forall i :: 0 <= i < n ==> init[i] == keys[i];
      SnocIndexSet(small, big, n, Get(values, keys[n]) != "");
    }
  }

  /** Adding index `n` to a set of indices below `n` grows it by one exactly when `n` is taken. */
  lemma {:induction false} SnocIndexSet(small: set<int>, big: set<int>, n: int, taken: bool)
    requires forall i :: i in small ==> i < n
    requires forall i :: i in big <==> i in small || (taken && i == n)
    ensures |big| == |small| + if taken then 1 else 0
  {
    if taken {
      assert n !in small;
      assert forall i :: i in big <==> i in small + {n};
      assert big == small + {n};
    } else {
      assert forall i :: i in big <==> i in small;
      assert big == small;
    }
  }

  /** In EURING2020 the only rule errors are about the coordinates: never about the accuracy. */
  lemma {:induction false} Euring2020NoAccuracyError(t: seq<FieldEntry>, values: map<string, string>)
    requires |t| == FieldCount
    ensures forall e :: e in RuleErrors(Euring2020, t, values) ==>
      e.key in {GeographicalCoordinatesKey, LatitudeKey, LongitudeKey} && e.message != AlphabeticAccuracyMessage
  {
    CoordinateMessagesDiffer();
    assert RuleErrors(Euring2020, t, values) == GeographicalError(values) + LongitudeError(values) + LatitudeError(values);
  }

  /** No co-ordinate message is the accuracy message: their lengths differ. */
  lemma {:induction false} CoordinateMessagesDiffer()
    ensures GeographicalCoordinatesMessage != AlphabeticAccuracyMessage
    ensures LongitudeRequiredMessage != AlphabeticAccuracyMessage
    ensures LatitudeRequiredMessage != AlphabeticAccuracyMessage
  {
    assert |AlphabeticAccuracyMessage| == 55;
    assert |GeographicalCoordinatesMessage| == 80;
    assert |LongitudeRequiredMessage| == 48 && |LatitudeRequiredMessage| == 48;
  }

  /** Outside EURING2020 an alphabetic accuracy is the first error, and the only one about the accuracy. */
  lemma {:induction false} AlphabeticAccuracyOutside2020(format: Format, t: seq<FieldEntry>, values: map<string, string>)
    requires |t| == FieldCount && format != Euring2020
    ensures AccuracyIsAlpha(values) ==>
      RuleErrors(format, t, values)[0] == RuleError(AccuracyOfCoordinatesKey, AlphabeticAccuracyMessage, Get(values, AccuracyOfCoordinatesKey))
    ensures (exists e :: e in RuleErrors(format, t, values) && e.message == AlphabeticAccuracyMessage) <==> AccuracyIsAlpha(values)
  {
    KeyErrorsExact(NonEuring2000Keys(t), values, BeyondEuring2000Message);
    KeyErrorsExact(Euring2020OnlyKeys(t), values, Euring2020OnlyMessage);
  }

  /** In EURING2020, a latitude without a longitude (or the reverse) gives exactly one error, on the missing key. */
  lemma {:induction false} OneCoordinateMissing(t: seq<FieldEntry>, values: map<string, string>)
    requires |t| == FieldCount
    ensures Get(values, LatitudeKey) != "" && Get(values, LongitudeKey) == "" ==>
      ErrorFor(values, LongitudeKey, LongitudeRequiredMessage) in RuleErrors(Euring2020, t, values) &&
      (forall e :: e in RuleErrors(Euring2020, t, values) ==> e.key != LatitudeKey)
    ensures Get(values, LongitudeKey) != "" && Get(values, LatitudeKey) == "" ==>
      ErrorFor(values, LatitudeKey, LatitudeRequiredMessage) in RuleErrors(Euring2020, t, values) &&
      (forall e :: e in RuleErrors(Euring2020, t, values) ==> e.key != LongitudeKey)
    ensures (Get(values, LatitudeKey) == "") == (Get(values, LongitudeKey) == "") ==>
      forall e :: e in RuleErrors(Euring2020, t, values) ==> e.key == GeographicalCoordinatesKey
  {
    var errors := RuleErrors(Euring2020, t, values);
    var geo := GeographicalError(values);
    if Get(values, LatitudeKey) != "" && Get(values, LongitudeKey) == "" {
      assert errors == geo + [ErrorFor(values, LongitudeKey, LongitudeRequiredMessage)];
    } else if Get(values, LongitudeKey) != "" && Get(values, LatitudeKey) == "" {
      assert errors == geo + [ErrorFor(values, LatitudeKey, LatitudeRequiredMessage)];
    } else {
      assert errors == geo;
    }
  }

  /** In EURING2020 the coordinates must be 15 dots (or empty) once latitude or longitude is given. */
  lemma {:induction false} CoordinatesMustBeDots(t: seq<FieldEntry>, values: map<string, string>)
    requires |t| == FieldCount
    ensures ((Get(values, LatitudeKey) != "" || Get(values, LongitudeKey) != "") &&
             Get(values, GeographicalCoordinatesKey) != "" && Get(values, GeographicalCoordinatesKey) != NoCoordinates) <==>
      (exists e :: e in RuleErrors(Euring2020, t, values) && e.key == GeographicalCoordinatesKey)
  {
    var errors := RuleErrors(Euring2020, t, values);
    var geo := GeographicalError(values);
    var rest := LongitudeError(values) + LatitudeError(values);
    assert errors == geo + rest;
    assert forall e :: e in rest ==> e.key == LongitudeKey || e.key == LatitudeKey;
    if geo != [] {
      assert errors[0] in errors && errors[0].key == GeographicalCoordinatesKey;
    }
  }

  /** EURING2000 gives one error per non-empty field outside its layout, carrying the stored value. */
  lemma {:induction false} Euring2000ErrorPerKey(t: seq<FieldEntry>, values: map<string, string>)
    requires |t| == FieldCount
    ensures forall i :: Euring2000FieldCount <= i < FieldCount && Get(values, t[i].key) != "" ==>
      RuleError(t[i].key, BeyondEuring2000Message, Get(values, t[i].key)) in RuleErrors(Euring2000, t, values)
  {
    var non := NonEuring2000Keys(t);
    KeyErrorsExact(non, values, BeyondEuring2000Message);
    forall i | Euring2000FieldCount <= i < FieldCount && Get(values, t[i].key) != ""
      ensures RuleError(t[i].key, BeyondEuring2000Message, Get(values, t[i].key)) in RuleErrors(Euring2000, t, values)
    {
      assert non[i - Euring2000FieldCount] == t[i].key;
    }
  }

  /** EURING2000+ gives one error per non-empty EURING2020-only field, carrying the stored value. */
  lemma {:induction false} Euring2000PlusErrorPerKey(t: seq<FieldEntry>, values: map<string, string>)
    requires |t| == FieldCount
    ensures forall i :: Euring2000PlusFieldCount <= i < FieldCount && Get(values, t[i].key) != "" ==>
      RuleError(t[i].key, Euring2020OnlyMessage, Get(values, t[i].key)) in RuleErrors(Euring2000Plus, t, values)
  {
    var only := Euring2020OnlyKeys(t);
    KeyErrorsExact(only, values, Euring2020OnlyMessage);
    forall i | Euring2000PlusFieldCount <= i < FieldCount && Get(values, t[i].key) != ""
      ensures RuleError(t[i].key, Euring2020OnlyMessage, Get(values, t[i].key)) in RuleErrors(Euring2000Plus, t, values)
    {
      assert only[i - Euring2000PlusFieldCount] == t[i].key;
    }
  }

  /** Every rule error carries the value stored for its key, or "" when there is none. */
  lemma {:induction false} ErrorValuesAreStored(format: Format, t: seq<FieldEntry>, values: map<string, string>)
    requires |t| == FieldCount
    ensures forall e :: e in RuleErrors(format, t, values) ==> e.value == Get(values, e.key)
  {
    if format == Euring2000 {
      KeyErrorsExact(NonEuring2000Keys(t), values, BeyondEuring2000Message);
    } else if format == Euring2000Plus {
      KeyErrorsExact(Euring2020OnlyKeys(t), values, Euring2020OnlyMessage);
    }
  }

}

=== FILE: serialize.dfy ===
/**
 * Writing records: the field list of each format, the EURING2000
 * fixed-width layout, the padding of each fixed-width part, the pipe join,
 * the check of every value before it is written, and `has_errors`.
 * src/euring/record.py and src/euring/builder.py carry identical copies of
 * these helpers; both classes use this one module.
 */
module Serialize {
  import opened Wrappers
  import opened Builtins
  import opened Exceptions
  import opened Values
  import opened Formats
  import opened Fields
  import D = Decoders
  import FM = FieldModel

  const UnknownFieldKey := "Unknown field key \""

  function UnknownKeyMessage(key: string): string {
    UnknownFieldKey + key + "\"."
  }

  const MissingRequiredField := "Missing required field \""

  function MissingRequiredMessage(key: string): string {
    MissingRequiredField + key + "\"."
  }

  const InvalidValueFor := "Invalid value for \""

  function InvalidValueMessage(key: string, message: string): string {
    InvalidValueFor + key + "\": " + message
  }

  /** The start of the message of a failed validation (the rendering of the errors that follows is not modelled). */
  const ValidationFailedMessage := "Record validation failed: "

  const ExpectedStr := ": expected str instance, NoneType found"

  /** What `"|".join` raises on the first None among the values. */
  function JoinNoneMessage(index: nat): string {
    "sequence item " + NatToString(index) + ExpectedStr
  }

  /** What `set` stores: "" for None, otherwise `str(value)`. */
  function Shown(value: Value, floatRepr: real -> string): string
    requires Renders(value)
  {
    if value.NoneValue? then "" else Render(value, floatRepr)
  }

  // ---------------------------------------------------------------- field lists

  /** `{**field, "length": length}`: the entry with its width as its exact length. */
  function Widened(e: FieldEntry): FieldEntry {
    e.(length := Width(e))
  }

  /**
   * `_fixed_width_fields` from entry `i` on, with `start` characters already
   * laid out: stop once 94 characters are laid out or at an entry with no
   * width; each entry taken gets its width as its exact length.
   */
  function Layout(t: seq<FieldEntry>, i: nat, start: nat): seq<FieldEntry>
    requires i <= |t|
    decreases |t| - i
  {
    if i == |t| || start >= Euring2000RecordLength then []
    else
      var w := Width(t[i]);
      if w.None? || w.value == 0 then []
      else [Widened(t[i])] + Layout(t, i + 1, start + w.value)
  }

  function FixedWidthLayout(t: seq<FieldEntry>): seq<FieldEntry> {
    Layout(t, 0, 0)
  }

  /** Every entry of a fixed-width layout has a positive exact length. */
  predicate Laid(layout: seq<FieldEntry>) {
    forall i :: 0 <= i < |layout| ==> layout[i].length.Some? && layout[i].length.value > 0
  }

  /** A layout is a run of the table's entries from `i` on, each with its width as its exact length. */
  lemma {:induction false} LayoutEntries(t: seq<FieldEntry>, i: nat, start: nat)
    requires i <= |t|
    ensures i + |Layout(t, i, start)| <= |t|
    ensures forall j :: 0 <= j < |Layout(t, i, start)| ==> Layout(t, i, start)[j] == Widened(t[i + j])
    ensures Laid(Layout(t, i, start))
    decreases |t| - i
  {
    if i < |t| && start < Euring2000RecordLength && Width(t[i]).Some? && Width(t[i]).value > 0 {
      var w := Width(t[i]);
      LayoutEntries(t, i + 1, start + w.value);
      var rest := Layout(t, i + 1, start + w.value);
      assert Layout(t, i, start) == [Widened(t[i])] + rest;
      forall j | 0 <= j < |Layout(t, i, start)| ensures Layout(t, i, start)[j] == Widened(t[i + j]) {
        if j == 0 {
          assert i + j == i;
        } else {
          var k := j - 1;
          assert Layout(t, i, start)[j] == rest[k];
          assert rest[k] == Widened(t[i + 1 + k]);
          assert i + 1 + k == i + j;
        }
      }
    }
  }

  /** `_fixed_width_fields`: walk the table, adding widths, until 94 characters or a field with no width. */
  method FixedWidthFieldsOf(t: seq<FieldEntry>) returns (layout: seq<FieldEntry>)
    ensures layout == FixedWidthLayout(t)
  {
    layout := [];
    var start: nat := 0;
    var i := 0;
    while i < |t|
      invariant i <= |t|
      invariant layout + Layout(t, i, start) == FixedWidthLayout(t)
    {
      if start >= Euring2000RecordLength {
        assert Layout(t, i, start) == [];
        break;
      }
      var length := Width(t[i]);
      if length.None? || length.value == 0 {
        assert Layout(t, i, start) == [];
        break;
      }
      ghost var rest := Layout(t, i + 1, start + length.value);
      assert Layout(t, i, start) == [Widened(t[i])] + rest;
      TakeOne(layout, Widened(t[i]), rest);
      layout := layout + [t[i].(length := length)];
      start := start + length.value;
      i := i + 1;
    }
    assert Layout(t, i, start) == [];
  }

  /** Moving the head of the remaining run onto the end of the taken part keeps the whole. */
  lemma {:induction false} TakeOne<T>(taken: seq<T>, x: T, rest: seq<T>)
    ensures (taken + [x]) + rest == taken + ([x] + rest)
  {
  }

  /** For the canonical table, the layout from the `k`-th EURING2000 field is the rest of the 33. */
  lemma {:induction false} LayoutFrom(t: seq<FieldEntry>, k: nat)
    requires ValidTable(t) && k <= Euring2000FieldCount
    ensures Layout(t, k, Start(t, k)) == t[k..Euring2000FieldCount]
  {
    LayoutRun(t, k);
  }

  /** The induction behind `LayoutFrom`, needing only the 33 positive widths that add up to 94. */
  lemma {:induction false} LayoutRun(t: seq<FieldEntry>, k: nat)
    requires Measured(t) && k <= Euring2000FieldCount
    requires forall i :: 0 <= i < Euring2000FieldCount ==> t[i].length.value > 0
    requires LengthsTotal(t, Euring2000FieldCount) == Euring2000RecordLength
    ensures Layout(t, k, Start(t, k)) == t[k..Euring2000FieldCount]
    decreases Euring2000FieldCount - k
  {
    if k < Euring2000FieldCount {
      LengthsTotalMonotone(t, k + 1, Euring2000FieldCount);
      LayoutRun(t, k + 1);
      assert Widened(t[k]) == t[k];
      assert t[k..Euring2000FieldCount] == [t[k]] + t[k + 1..Euring2000FieldCount];
    } else {
      assert Layout(t, k, Start(t, k)) == [];
    }
  }

  /**
   * `_fields_for_format`: the fixed-width layout for EURING2000, the entries
   * up to and including "reference" for EURING2000+, and every entry
   * otherwise (also for EURING2000+ when no entry is "reference").
   */
  function FieldsForFormat(format: Format, t: seq<FieldEntry>): seq<FieldEntry> {
    match format
    case Euring2000 => FixedWidthLayout(t)
    case Euring2000Plus =>
      (match IndexOfKey(t, ReferenceKey)
       case Some(i) => t[..i + 1]
       case None => t)
    case Euring2020 => t
  }

  /** `_fields_for_format`, with its search for "reference". */
  method FieldsFor(format: Format, t: seq<FieldEntry>) returns (fields: seq<FieldEntry>)
    ensures fields == FieldsForFormat(format, t)
  {
    if format == Euring2000 {
      fields := FixedWidthFieldsOf(t);
      return;
    }
    if format == Euring2000Plus {
      for index := 0 to |t|
        invariant forall j :: 0 <= j < index ==> t[j].key != ReferenceKey
      {
        if t[index].key == ReferenceKey {
          return t[..index + 1];
        }
      }
    }
    fields := t;
  }

  /**
   * For the canonical table the field lists are the first 33 entries
   * (EURING2000), the first 60 (EURING2000+) and all 64 (EURING2020); the
   * fixed-width list keeps each entry as it is.
   */
  lemma {:induction false} FieldsForFormatOfTable(t: seq<FieldEntry>)
    requires ValidTable(t)
    ensures FieldsForFormat(Euring2000, t) == t[..Euring2000FieldCount]
    ensures FieldsForFormat(Euring2000Plus, t) == t[..Euring2000PlusFieldCount]
    ensures FieldsForFormat(Euring2020, t) == t
  {
    LayoutFrom(t, 0);
    IndexOfDistinctKey(t, 59);
  }

  /** Every field list of the canonical table can be decoded and has distinct keys. */
  lemma {:induction false} FieldsForFormatKeys(format: Format, t: seq<FieldEntry>)
    requires ValidTable(t) && D.DescribableTable(t)
    ensures D.DescribableTable(FieldsForFormat(format, t)) && DistinctKeys(FieldsForFormat(format, t))
    ensures format == Euring2000 ==> Laid(FieldsForFormat(format, t))
  {
    FieldsForFormatOfTable(t);
  }

  // ---------------------------------------------------------------- fixed-width text

  /** One part of a fixed-width record: `-` repeated for no value, otherwise the value padded with `-` or cut to the width. */
  function FixedWidthPart(value: string, width: nat): (part: string)
    ensures |part| == width
    ensures value == "" ==> part == Repeat('-', width)
    ensures value != "" && |value| >= width ==> part == value[..width]
    ensures value != "" && |value| < width ==> part == value + Repeat('-', width - |value|)
  {
    if value == "" then Repeat('-', width)
    else
      var padded := if |value| < width then LJust(value, width, '-') else value;
      padded[..width]
  }

  /** `dict.get(key, "")`. */
  function Get(m: map<string, string>, key: string): string {
    if key in m then m[key] else ""
  }

  /** The parts of the fixed-width text of a layout, one per entry. */
  function Parts(m: map<string, string>, layout: seq<FieldEntry>): (parts: seq<string>)
    requires Laid(layout)
    ensures |parts| == |layout|
    ensures forall i :: 0 <= i < |layout| ==> parts[i] == FixedWidthPart(Get(m, layout[i].key), layout[i].length.value)
  {
    if layout == [] then []
    else
      var n := |layout| - 1;
      var init := Parts(m, layout[..n]);
      assert forall i :: 0 <= i < n ==> layout[..n][i] == layout[i];
      init + [FixedWidthPart(Get(m, layout[n].key), layout[n].length.value)]
  }

  function FixedWidthText(m: map<string, string>, layout: seq<FieldEntry>): string
    requires Laid(layout)
  {
    Join(Parts(m, layout), "")
  }

  /** `_format_fixed_width`: one part per entry of the layout, each exactly as wide as the entry, joined. */
  method FormatFixedWidth(valuesByKey: map<string, string>, fields: seq<FieldEntry>) returns (record: string)
    requires Laid(fields)
    ensures record == FixedWidthText(valuesByKey, fields)
  {
    var parts: seq<string> := [];
    for i := 0 to |fields|
      invariant |parts| == i
      invariant forall j :: 0 <= j < i ==> parts[j] == FixedWidthPart(Get(valuesByKey, fields[j].key), fields[j].length.value)
    {
      var key := fields[i].key;
      var length := fields[i].length.value;
      var value := Get(valuesByKey, key);
      if value == "" {
        parts := parts + [Repeat('-', length)];
        continue;
      }
      if |value| < length {
        value := LJust(value, length, '-');
      }
      parts := parts + [value[..length]];
    }
    assert parts == Parts(valuesByKey, fields);
    record := Join(parts, "");
  }

  /** A full-width value is written as it is: the parts of a layout grow by the last value. */
  lemma {:induction false} PartsSnoc(m: map<string, string>, layout: seq<FieldEntry>, value: string)
    requires Laid(layout) && |layout| > 0
    requires value != "" && Get(m, layout[|layout| - 1].key) == value && |value| == layout[|layout| - 1].length.value
    ensures Laid(layout[..|layout| - 1])
    ensures Parts(m, layout) == Parts(m, layout[..|layout| - 1]) + [value]
  {
    var n := |layout|;
    assert Parts(m, layout)[n - 1] == value;
  }

  /**
   * The fixed-width text of the first `n` EURING2000 fields, written from
   * values that are the slices of a full record, is that record's prefix up
   * to the `n`-th field's start.
   */
  lemma {:induction false} FixedWidthPrefix(text: string, m: map<string, string>, t: seq<FieldEntry>, n: nat)
    requires ValidTable(t) && n <= Euring2000FieldCount && |text| >= Euring2000RecordLength
    requires forall k :: 0 <= k < Euring2000FieldCount ==> Get(m, t[k].key) == D.FixedWidthFields(text, t)[k]
    ensures Laid(t[..n])
    ensures FixedWidthText(m, t[..n]) == Slice(text, 0, Start(t, n))
  {
    LengthsTotalMonotone(t, n, Euring2000FieldCount);
    if n > 0 {
      FixedWidthPrefix(text, m, t, n - 1);
      var a, b := Start(t, n - 1), Start(t, n);
      var slice := text[a..b];
      assert Get(m, t[n - 1].key) == slice by {
        D.SliceAt(text, t, Euring2000FieldCount, n - 1);
        assert D.FixedWidthFields(text, t) == D.Slices(text, t, Euring2000FieldCount);
      }
      assert t[..n][..n - 1] == t[..n - 1];
      FixedWidthTextSnoc(m, t[..n], slice);
      PrefixExtend(text, a, b);
    }
  }

  /** A full-width last value extends the fixed-width text by exactly that value. */
  lemma {:induction false} FixedWidthTextSnoc(m: map<string, string>, layout: seq<FieldEntry>, value: string)
    requires Laid(layout) && |layout| > 0
    requires value != "" && Get(m, layout[|layout| - 1].key) == value && |value| == layout[|layout| - 1].length.value
    ensures Laid(layout[..|layout| - 1])
    ensures FixedWidthText(m, layout) == FixedWidthText(m, layout[..|layout| - 1]) + value
  {
    PartsSnoc(m, layout, value);
    JoinSnoc(Parts(m, layout[..|layout| - 1]), value);
  }

  /** The prefix up to `b` is the prefix up to `a` followed by the slice between them. */
  lemma {:induction false} PrefixExtend(text: string, a: nat, b: nat)
    requires a <= b <= |text|
    ensures Slice(text, 0, b) == Slice(text, 0, a) + text[a..b]
  {
    assert text[0..b] == text[0..a] + text[a..b];
  }

  // ---------------------------------------------------------------- pipe text

  /** The value written for each entry, "" when the key has none. */
  function Row(m: map<string, string>, fields: seq<FieldEntry>): (row: seq<string>)
    ensures |row| == |fields| && forall i :: 0 <= i < |fields| ==> row[i] == Get(m, fields[i].key)
  {
    if fields == [] then []
    else
      var n := |fields| - 1;
      var init := Row(m, fields[..n]);
      assert forall i :: 0 <= i < n ==> fields[..n][i] == fields[i];
      init + [Get(m, fields[n].key)]
  }

  /** The pipe-delimited text: every entry of the format's list, in order, "" for a missing value. */
  function PipeText(m: map<string, string>, fields: seq<FieldEntry>): string {
    Join(Row(m, fields), "|")
  }

  /** Values that are the pieces of a pipe-delimited text are written back as that text. */
  lemma {:induction false} PipeRoundTrip(text: string, m: map<string, string>, fields: seq<FieldEntry>)
    requires Row(m, fields) == Split(text, '|')
    ensures PipeText(m, fields) == text
  {
    JoinSplit(text, '|');
  }

  /** Splitting a written pipe text gives back one value per entry, when no value holds a pipe. */
  lemma {:induction false} PipeSplits(m: map<string, string>, fields: seq<FieldEntry>)
    requires |fields| >= 1
    requires forall i :: 0 <= i < |fields| ==> '|' !in Get(m, fields[i].key)
    ensures Split(PipeText(m, fields), '|') == Row(m, fields)
  {
    SplitJoin(Row(m, fields), '|');
  }

  /** The text of a record: fixed width for EURING2000, pipe-delimited otherwise. */
  function WriteText(format: Format, fields: seq<FieldEntry>, m: map<string, string>): string
    requires format == Euring2000 ==> Laid(fields)
  {
    if format == Euring2000 then FixedWidthText(m, fields) else PipeText(m, fields)
  }

  // ---------------------------------------------------------------- checks before writing

  /** The value stored for a key: "" when there is none. */
  function Stored(stored: map<string, Option<string>>, key: string): Option<string> {
    if key in stored then stored[key] else Some("")
  }

  /**
   * The check of one field before it is written: an empty value is skipped,
   * or refused when writing strictly and the field is required; any other
   * value is decoded with the field's definition and a EURING failure becomes
   * a ValueError naming the key.  A None value (stored for a field decoded from
   * empty text) is taken to fail the type check.
   */
  function CheckField(e: FieldEntry, value: Option<string>, strict: bool, valid: FM.TypeCheck): (r: Result<Option<string>, Error>)
    requires D.Describable(e.parser, e.lookup)
    ensures value == Some("") ==> r == if strict && e.required then Err(ValueError(MissingRequiredMessage(e.key))) else Ok(None)
    ensures value.None? ==> r.Err?
    ensures value.Some? && value != Some("") ==>
      (r.Ok? <==> D.DecodeValue(value.value, e.typeName, e.required, e.length, e.minLength, e.maxLength, e.parser, e.lookup, valid).Ok?)
    ensures value.Some? && value != Some("") ==>
      var d := D.DecodeValue(value.value, e.typeName, e.required, e.length, e.minLength, e.maxLength, e.parser, e.lookup, valid);
      d.Err? ==> r == if IsEuring(d.error) then Err(ValueError(InvalidValueMessage(e.key, d.error.message))) else Err(d.error)
    ensures r.Ok? ==> value.Some? && (r.value.None? <==> value == Some("")) && (r.value.Some? ==> r.value == value)
  {
    if value == Some("") then
      if strict && e.required then Err(ValueError(MissingRequiredMessage(e.key))) else Ok(None)
    else if value.None? then Err(ValueError(InvalidValueMessage(e.key, TypeMessage("None", e.typeName))))
    else
      match D.DecodeValue(value.value, e.typeName, e.required, e.length, e.minLength, e.maxLength, e.parser, e.lookup, valid)
      case Err(err) => if IsEuring(err) then Err(ValueError(InvalidValueMessage(e.key, err.message))) else Err(err)
      case Ok(_) => Ok(value)
  }

  /** The checks of `fields[i..]`, adding each written value to `acc` under its key. */
  function CollectFrom(fields: seq<FieldEntry>, stored: map<string, Option<string>>, strict: bool, valid: FM.TypeCheck,
                       i: nat, acc: map<string, string>): Result<map<string, string>, Error>
    requires i <= |fields| && D.DescribableTable(fields)
    decreases |fields| - i
  {
    if i == |fields| then Ok(acc)
    else
      var e := fields[i];
      match CheckField(e, Stored(stored, e.key), strict, valid)
      case Err(err) => Err(err)
      case Ok(None) => CollectFrom(fields, stored, strict, valid, i + 1, acc)
      case Ok(Some(v)) => CollectFrom(fields, stored, strict, valid, i + 1, acc[e.key := v])
  }

  /** The values to write, keyed by key, or the first failure. */
  function Collect(fields: seq<FieldEntry>, stored: map<string, Option<string>>, strict: bool, valid: FM.TypeCheck): Result<map<string, string>, Error>
    requires D.DescribableTable(fields)
  {
    CollectFrom(fields, stored, strict, valid, 0, map[])
  }

  /** The loop of `serialize` and `build` that fills `values_by_key`. */
  method CollectValues(fields: seq<FieldEntry>, stored: map<string, Option<string>>, strict: bool, valid: FM.TypeCheck)
    returns (r: Result<map<string, string>, Error>)
    requires D.DescribableTable(fields)
    ensures r == Collect(fields, stored, strict, valid)
  {
    var valuesByKey: map<string, string> := map[];
    for i := 0 to |fields|
      invariant CollectFrom(fields, stored, strict, valid, i, valuesByKey) == Collect(fields, stored, strict, valid)
    {
      var e := fields[i];
      var value := Stored(stored, e.key);
      if value == Some("") {
        if strict && e.required {
          return Err(ValueError(MissingRequiredMessage(e.key)));
        }
        continue;
      }
      if value.None? {
        return Err(ValueError(InvalidValueMessage(e.key, TypeMessage("None", e.typeName))));
      }
      var decoded := D.DecodeValue(value.value, e.typeName, e.required, e.length, e.minLength, e.maxLength, e.parser, e.lookup, valid);
      if decoded.Err? {
        if IsEuring(decoded.error) {
          return Err(ValueError(InvalidValueMessage(e.key, decoded.error.message)));
        }
        return Err(decoded.error);
      }
      valuesByKey := valuesByKey[e.key := value.value];
    }
    return Ok(valuesByKey);
  }

  /** A failing check at `k` stops the collection there or earlier. */
  lemma {:induction false} CollectFromFails(fields: seq<FieldEntry>, stored: map<string, Option<string>>, strict: bool,
                                           valid: FM.TypeCheck, i: nat, acc: map<string, string>, k: nat)
    requires i <= k < |fields| && D.DescribableTable(fields)
    requires CheckField(fields[k], Stored(stored, fields[k].key), strict, valid).Err?
    ensures CollectFrom(fields, stored, strict, valid, i, acc).Err?
    decreases k - i
  {
    if i < k {
      var e := fields[i];
      match CheckField(e, Stored(stored, e.key), strict, valid)
      case Err(_) =>
      case Ok(None) => CollectFromFails(fields, stored, strict, valid, i + 1, acc, k);
      case Ok(Some(v)) => CollectFromFails(fields, stored, strict, valid, i + 1, acc[e.key := v], k);
    }
  }

  /** When every check from `i` on passes, the collection succeeds. */
  lemma {:induction false} CollectFromPasses(fields: seq<FieldEntry>, stored: map<string, Option<string>>, strict: bool,
                                            valid: FM.TypeCheck, i: nat, acc: map<string, string>)
    requires i <= |fields| && D.DescribableTable(fields)
    requires forall k :: i <= k < |fields| ==> CheckField(fields[k], Stored(stored, fields[k].key), strict, valid).Ok?
    ensures CollectFrom(fields, stored, strict, valid, i, acc).Ok?
    decreases |fields| - i
  {
    if i < |fields| {
      var e := fields[i];
      match CheckField(e, Stored(stored, e.key), strict, valid)
      case Ok(None) => CollectFromPasses(fields, stored, strict, valid, i + 1, acc);
      case Ok(Some(v)) => CollectFromPasses(fields, stored, strict, valid, i + 1, acc[e.key := v]);
    }
  }

  /**
   * Writing succeeds exactly when every field passes its check: a strict
   * write refuses a required field with no value, and any write refuses a
   * value its field does not decode.
   */
  lemma {:induction false} CollectOkIff(fields: seq<FieldEntry>, stored: map<string, Option<string>>, strict: bool, valid: FM.TypeCheck)
    requires D.DescribableTable(fields)
    ensures Collect(fields, stored, strict, valid).Ok? <==>
      forall k :: 0 <= k < |fields| ==> CheckField(fields[k], Stored(stored, fields[k].key), strict, valid).Ok?
  {
    if forall k :: 0 <= k < |fields| ==> CheckField(fields[k], Stored(stored, fields[k].key), strict, valid).Ok? {
      CollectFromPasses(fields, stored, strict, valid, 0, map[]);
    } else {
      var k :| 0 <= k < |fields| && CheckField(fields[k], Stored(stored, fields[k].key), strict, valid).Err?;
      CollectFromFails(fields, stored, strict, valid, 0, map[], k);
    }
  }

  /** A strict write with a required field left empty fails; a non-strict write never fails for an empty value. */
  lemma {:induction false} EmptyValueChecks(e: FieldEntry, strict: bool, valid: FM.TypeCheck)
    requires D.Describable(e.parser, e.lookup)
    ensures CheckField(e, Some(""), strict, valid) ==
      if strict && e.required then Err(ValueError(MissingRequiredMessage(e.key))) else Ok(None)
  {
  }

  /** What the values written so far satisfy after the first `i` entries. */
  predicate Accumulated(acc: map<string, string>, fields: seq<FieldEntry>, stored: map<string, Option<string>>, i: nat)
    requires i <= |fields|
  {
    (forall j :: 0 <= j < i ==> Stored(stored, fields[j].key).Some? && Get(acc, fields[j].key) == Stored(stored, fields[j].key).value) &&
    (forall k :: k in acc ==> acc[k] != "" && exists j :: 0 <= j < i && fields[j].key == k)
  }

  /** Passing an empty value keeps what was written. */
  lemma {:induction false} AccumulatedSkip(acc: map<string, string>, fields: seq<FieldEntry>, stored: map<string, Option<string>>, i: nat)
    requires i < |fields| && DistinctKeys(fields) && Accumulated(acc, fields, stored, i)
    requires Stored(stored, fields[i].key) == Some("")
    ensures Accumulated(acc, fields, stored, i + 1)
  {
    assert forall j :: 0 <= j < i ==> fields[j].key != fields[i].key;
    assert fields[i].key !in acc;
  }

  /** Writing a value under the next key keeps what was written under the earlier, distinct keys. */
  lemma {:induction false} AccumulatedAdd(acc: map<string, string>, fields: seq<FieldEntry>, stored: map<string, Option<string>>, i: nat, v: string)
    requires i < |fields| && DistinctKeys(fields) && Accumulated(acc, fields, stored, i)
    requires Stored(stored, fields[i].key) == Some(v) && v != ""
    ensures Accumulated(acc[fields[i].key := v], fields, stored, i + 1)
  {
    var key := fields[i].key;
    var acc' := acc[key := v];
    forall j | 0 <= j < i + 1
      ensures Stored(stored, fields[j].key).Some? && Get(acc', fields[j].key) == Stored(stored, fields[j].key).value
    {
      if j < i {
        assert fields[j].key != key;
      }
    }
    forall k | k in acc' ensures acc'[k] != "" && exists j :: 0 <= j < i + 1 && fields[j].key == k {
      if k != key {
        var j :| 0 <= j < i && fields[j].key == k;
        assert 0 <= j < i + 1 && fields[j].key == k;
      } else {
        assert fields[i].key == k;
      }
    }
  }

  lemma {:induction false} CollectFromRow(fields: seq<FieldEntry>, stored: map<string, Option<string>>, strict: bool,
                                         valid: FM.TypeCheck, i: nat, acc: map<string, string>)
    requires i <= |fields| && D.DescribableTable(fields) && DistinctKeys(fields)
    requires Accumulated(acc, fields, stored, i)
    requires CollectFrom(fields, stored, strict, valid, i, acc).Ok?
    ensures Accumulated(CollectFrom(fields, stored, strict, valid, i, acc).value, fields, stored, |fields|)
    decreases |fields| - i
  {
    if i < |fields| {
      var e := fields[i];
      var c := CheckField(e, Stored(stored, e.key), strict, valid);
      if c.value.None? {
        AccumulatedSkip(acc, fields, stored, i);
        CollectFromRow(fields, stored, strict, valid, i + 1, acc);
      } else {
        AccumulatedAdd(acc, fields, stored, i, c.value.value);
        CollectFromRow(fields, stored, strict, valid, i + 1, acc[e.key := c.value.value]);
      }
    }
  }

  /**
   * The values written are exactly the stored ones: for every entry of the
   * list, the value written for its key is its stored text ("" for none),
   * and only non-empty values are kept.
   */
  lemma {:induction false} CollectRow(fields: seq<FieldEntry>, stored: map<string, Option<string>>, strict: bool, valid: FM.TypeCheck)
    requires D.DescribableTable(fields) && DistinctKeys(fields)
    requires Collect(fields, stored, strict, valid).Ok?
    ensures forall i :: 0 <= i < |fields| ==>
      Stored(stored, fields[i].key).Some? && Row(Collect(fields, stored, strict, valid).value, fields)[i] == Stored(stored, fields[i].key).value
    ensures forall k :: k in Collect(fields, stored, strict, valid).value ==> Collect(fields, stored, strict, valid).value[k] != ""
  {
    CollectFromRow(fields, stored, strict, valid, 0, map[]);
  }

  // ---------------------------------------------------------------- writing back what was read

  /**
   * Writing EURING2000 values that are the slices of a 94-character record
   * gives back that record.
   */
  lemma {:induction false} FixedWidthWriteRoundTrip(text: string, stored: map<string, Option<string>>, strict: bool, valid: FM.TypeCheck,
                                 t: seq<FieldEntry>)
    requires ValidTable(t) && D.DescribableTable(t) && |text| == Euring2000RecordLength
    requires D.DescribableTable(FieldsForFormat(Euring2000, t))
    requires forall k :: 0 <= k < Euring2000FieldCount ==> Stored(stored, t[k].key) == Some(D.FixedWidthFields(text, t)[k])
    requires Collect(FieldsForFormat(Euring2000, t), stored, strict, valid).Ok?
    ensures Laid(FieldsForFormat(Euring2000, t))
    ensures WriteText(Euring2000, FieldsForFormat(Euring2000, t), Collect(FieldsForFormat(Euring2000, t), stored, strict, valid).value) == text
  {
    var fields := FieldsForFormat(Euring2000, t);
    FieldsForFormatOfTable(t);
    FieldsForFormatKeys(Euring2000, t);
    CollectRow(fields, stored, strict, valid);
    var m := Collect(fields, stored, strict, valid).value;
    forall k | 0 <= k < Euring2000FieldCount ensures Get(m, t[k].key) == D.FixedWidthFields(text, t)[k] {
      assert fields[k] == t[k];
      assert Row(m, fields)[k] == Get(m, t[k].key);
    }
    FixedWidthPrefix(text, m, t, Euring2000FieldCount);
  }

  /**
   * Writing pipe-format values that are the pieces of a text, one per entry
   * of the format's list, gives back that text.
   */
  lemma {:induction false} PipeWriteRoundTrip(text: string, format: Format, stored: map<string, Option<string>>, strict: bool, valid: FM.TypeCheck,
                           t: seq<FieldEntry>)
    requires ValidTable(t) && D.DescribableTable(t) && format != Euring2000
    requires D.DescribableTable(FieldsForFormat(format, t))
    requires |Split(text, '|')| == |FieldsForFormat(format, t)|
    requires forall k :: 0 <= k < |Split(text, '|')| ==> Stored(stored, FieldsForFormat(format, t)[k].key) == Some(Split(text, '|')[k])
    requires Collect(FieldsForFormat(format, t), stored, strict, valid).Ok?
    ensures WriteText(format, FieldsForFormat(format, t), Collect(FieldsForFormat(format, t), stored, strict, valid).value) == text
  {
    var fields := FieldsForFormat(format, t);
    FieldsForFormatKeys(format, t);
    CollectRow(fields, stored, strict, valid);
    var m := Collect(fields, stored, strict, valid).value;
    assert Row(m, fields) == Split(text, '|');
    PipeRoundTrip(text, m, fields);
  }

  // ---------------------------------------------------------------- writing without checks

  /** The text of every stored value, "" for None. */
  function Texts(stored: map<string, Option<string>>): (texts: map<string, string>)
    ensures texts.Keys == stored.Keys
    ensures forall k :: k in stored ==> texts[k] == if stored[k].Some? then stored[k].value else ""
  {
    map k | k in stored :: if stored[k].Some? then stored[k].value else ""
  }

  /** The position of the first entry from `i` on whose stored value is None. */
  function FirstNone(fields: seq<FieldEntry>, stored: map<string, Option<string>>, i: nat): (r: Option<nat>)
    requires i <= |fields|
    ensures r.Some? ==> i <= r.value < |fields| && Stored(stored, fields[r.value].key).None? &&
                        forall j :: i <= j < r.value ==> Stored(stored, fields[j].key).Some?
    ensures r.None? ==> forall j :: i <= j < |fields| ==> Stored(stored, fields[j].key).Some?
    decreases |fields| - i
  {
    if i == |fields| then None
    else if Stored(stored, fields[i].key).None? then Some(i)
    else FirstNone(fields, stored, i + 1)
  }

  /**
   * `_serialize`: every stored value as it is, with no check.  Fixed-width
   * text writes None like an empty value; joining pipe text raises on the
   * first None.
   */
  function LooseText(format: Format, fields: seq<FieldEntry>, stored: map<string, Option<string>>): Result<string, Error>
    requires format == Euring2000 ==> Laid(fields)
  {
    if format == Euring2000 then Ok(FixedWidthText(Texts(stored), fields))
    else
      match FirstNone(fields, stored, 0)
      case Some(i) => Err(TypeError(JoinNoneMessage(i)))
      case None => Ok(PipeText(Texts(stored), fields))
  }

  /** Two value maps that agree on the keys of a layout give the same fixed-width text. */
  lemma {:induction false} FixedWidthTextByRow(m1: map<string, string>, m2: map<string, string>, layout: seq<FieldEntry>)
    requires Laid(layout) && Row(m1, layout) == Row(m2, layout)
    ensures FixedWidthText(m1, layout) == FixedWidthText(m2, layout)
  {
    forall i | 0 <= i < |layout| ensures Get(m1, layout[i].key) == Get(m2, layout[i].key) {
      assert Row(m1, layout)[i] == Row(m2, layout)[i];
    }
    assert Parts(m1, layout) == Parts(m2, layout);
  }

  /** Whenever every check passes, the unchecked text is the text a checked write produces. */
  lemma {:induction false} LooseMatchesChecked(format: Format, fields: seq<FieldEntry>, stored: map<string, Option<string>>, strict: bool,
                            valid: FM.TypeCheck)
    requires D.DescribableTable(fields) && DistinctKeys(fields) && (format == Euring2000 ==> Laid(fields))
    requires Collect(fields, stored, strict, valid).Ok?
    ensures LooseText(format, fields, stored) == Ok(WriteText(format, fields, Collect(fields, stored, strict, valid).value))
  {
    CollectRow(fields, stored, strict, valid);
    var m := Collect(fields, stored, strict, valid).value;
    forall i | 0 <= i < |fields| ensures Row(Texts(stored), fields)[i] == Row(m, fields)[i] {
      var key := fields[i].key;
      if key !in stored {
        assert Stored(stored, key) == Some("");
      }
    }
    assert Row(Texts(stored), fields) == Row(m, fields);
    if format == Euring2000 {
      FixedWidthTextByRow(Texts(stored), m, fields);
    } else {
      assert FirstNone(fields, stored, 0).None?;
    }
  }

  /** What the classes need of their table: every field list can be decoded, the fixed-width one is laid out, keys are distinct. */
  ghost predicate Writable(t: seq<FieldEntry>) {
    Laid(FieldsForFormat(Euring2000, t)) &&
    (forall f: Format :: D.DescribableTable(FieldsForFormat(f, t)) && DistinctKeys(FieldsForFormat(f, t)))
  }

  lemma {:induction false} TableWritable(t: seq<FieldEntry>)
    requires ValidTable(t) && D.DescribableTable(t)
    ensures Writable(t)
  {
    forall f: Format ensures D.DescribableTable(FieldsForFormat(f, t)) && DistinctKeys(FieldsForFormat(f, t)) {
      FieldsForFormatKeys(f, t);
    }
    FieldsForFormatKeys(Euring2000, t);
  }

  // ---------------------------------------------------------------- errors

  /** The `errors` given to `has_errors`: the decoder's dictionary, or any other object by its truth value. */
  datatype ErrorsPayload = ErrorsDict(record: seq<string>, fields: seq<D.FieldError>) | NotDict(truthy: bool)

  /** `has_errors`: a dictionary has errors when either list is non-empty; anything else by its truth value. */
  function HasErrors(errors: ErrorsPayload): (b: bool)
    ensures errors.ErrorsDict? ==> (b <==> |errors.record| + |errors.fields| > 0)
    ensures errors.NotDict? ==> b == errors.truthy
  {
    match errors
    case ErrorsDict(record, fields) => record != [] || fields != []
    case NotDict(truthy) => truthy
  }

  /** The errors of a decode, as the dictionary the decoder returns. */
  function ErrorsOf(d: D.Decoding): ErrorsPayload {
    ErrorsDict(d.progress.recordErrors, d.progress.fieldErrors)
  }
}

=== FILE: utils.dfy ===
/**
 * Emptiness tests and the export formats for identification (ring)
 * numbers, ringing-scheme codes and species codes.
 */
module Utils {
  import opened Wrappers
  import opened Builtins
  import opened Exceptions
  import opened Values

  /** `is_empty`: only None and the empty string are empty. */
  predicate IsEmpty(v: Value) {
    v == NoneValue || v == Str("")
  }

  /** Zero and False are falsy but not empty; every empty value is falsy. */
  lemma {:induction false} EmptyIsNarrowerThanFalsy(v: Value)
    ensures IsEmpty(v) ==> !Truthy(v)
    ensures IsEmpty(Str("")) && IsEmpty(NoneValue)
    ensures !IsEmpty(Int(0)) && !IsEmpty(Bool(false)) && !Truthy(Int(0)) && !Truthy(Bool(false))
  {
  }

  /** `is_all_hyphens`: non-empty and made of hyphens only. */
  predicate IsAllHyphens(s: string) {
    |s| > 0 && AllChar(s, '-')
  }

  lemma {:induction false} AllHyphensExamples()
    ensures IsAllHyphens("-") && IsAllHyphens("---") && !IsAllHyphens("") && !IsAllHyphens("-1")
  {
    assert "-1"[1] == '1';
  }

  // ---------------------------------------------------------------- display format

  /** The characters a ring number keeps once upper-cased. */
  predicate IsRingChar(c: char) { IsUpper(c) || IsDigit(c) }

  predicate IsRingText(s: string) { forall i :: 0 <= i < |s| ==> IsRingChar(s[i]) }

  /** `euring_identification_display_format` on the text of the number. */
  function DisplayFormat(s: string): (r: string)
    ensures IsRingText(r)
    ensures |r| <= |s|
    ensures IsRingText(s) ==> r == s
  {
    if s == [] then []
    else
      var c := ToUpper(s[0]);
      (if IsRingChar(c) then [c] else []) + DisplayFormat(s[1..])
  }

  /** Formatting for display twice changes nothing more. */
  lemma {:induction false} DisplayFormatIdempotent(s: string)
    ensures DisplayFormat(DisplayFormat(s)) == DisplayFormat(s)
  {
  }

  /**
   * One character is upper-cased, then kept when it is A-Z or 0-9 and
   * dropped otherwise; with `DisplayFormatConcat` this fixes the result
   * for every text.
   */
  lemma {:induction false} DisplayFormatChar(c: char)
    ensures DisplayFormat([c]) == if IsRingChar(ToUpper(c)) then [ToUpper(c)] else []
  {
    assert [c][1..] == [];
  }

  /** Display formatting distributes over concatenation. */
  lemma {:induction false} DisplayFormatConcat(a: string, b: string)
    ensures DisplayFormat(a + b) == DisplayFormat(a) + DisplayFormat(b)
  {
    if a != [] {
      assert (a + b)[1..] == a[1..] + b;
      DisplayFormatConcat(a[1..], b);
    } else {
      assert a + b == b;
    }
  }

  lemma {:induction false} DisplayFormatExample()
    ensures DisplayFormat("ab.12-3") == "AB123"
  {
    var s := "ab.12-3";
    DisplayFormatTail();
    UpperLetters();
    assert s[1..][1..] == s[2..];
    DisplayFormatKeeps(s[1..], 'B', "123");
    DisplayFormatKeeps(s, 'A', "B123");
  }

  /** The two letters of the example, upper-cased. */
  lemma {:induction false} UpperLetters()
    ensures ToUpper('a') == 'A' && ToUpper('b') == 'B' && IsRingChar('A') && IsRingChar('B')
  {
  }

  /** A first character whose upper case is a letter or digit is kept in front of the rest. */
  lemma {:induction false} DisplayFormatKeeps(s: string, c: char, rest: string)
    requires |s| > 0 && ToUpper(s[0]) == c && IsRingChar(c) && DisplayFormat(s[1..]) == rest
    ensures DisplayFormat(s) == [c] + rest
  {
  }

  /** Past the letters, the separators are dropped and the digits kept. */
  lemma {:induction false} DisplayFormatTail()
    ensures DisplayFormat("ab.12-3"[2..]) == "123"
  {
    var s := "ab.12-3";
    assert DisplayFormat(s[6..]) == "3";
    assert s[5..][1..] == s[6..];
    assert DisplayFormat(s[5..]) == "3";
    assert s[4..][1..] == s[5..];
    assert DisplayFormat(s[4..]) == "23";
    assert s[3..][1..] == s[4..];
    assert DisplayFormat(s[3..]) == "123";
    assert s[2..][1..] == s[3..];
  }

  // ---------------------------------------------------------------- the rightmost digit run

  /** Index of the last digit, or -1 when there is none. */
  function LastDigit(t: string): (r: int)
    ensures -1 <= r < |t|
    ensures r >= 0 ==> IsDigit(t[r])
    ensures forall j :: r < j < |t| ==> !IsDigit(t[j])
  {
    if t == [] then -1
    else if IsDigit(t[|t| - 1]) then |t| - 1
    else LastDigit(t[..|t| - 1])
  }

  /** Start of the run of digits that ends at index j. */
  function RunStart(t: string, j: nat): (k: nat)
    requires j < |t| && IsDigit(t[j])
    ensures k <= j
    ensures forall i :: k <= i <= j ==> IsDigit(t[i])
    ensures k == 0 || !IsDigit(t[k - 1])
  {
    if j > 0 && IsDigit(t[j - 1]) then RunStart(t, j - 1) else j
  }

  /**
   * Where the rightmost run of digits starts: the start of the last match
   * of `\d+`, or 0 when the text has no digit.
   */
  function DigitRunStart(t: string): (k: nat)
    ensures k <= |t|
    ensures LastDigit(t) < 0 ==> k == 0
    ensures LastDigit(t) >= 0 ==> k <= LastDigit(t) && (k == 0 || !IsDigit(t[k - 1]))
    ensures LastDigit(t) >= 0 ==> forall i :: k <= i <= LastDigit(t) ==> IsDigit(t[i])
  {
    if LastDigit(t) < 0 then 0 else RunStart(t, LastDigit(t))
  }

  predicate HasDigit(t: string) { exists i :: 0 <= i < |t| && IsDigit(t[i]) }

  lemma {:induction false} LastDigitFound(t: string)
    ensures HasDigit(t) <==> LastDigit(t) >= 0
  {
  }

  // ---------------------------------------------------------------- export format

  const IdentificationLength: nat := 10

  /**
   * The export format of a display-formatted number: exactly ten characters,
   * truncated when longer, and otherwise padded with dots inserted right
   * before the rightmost run of digits (at the front when there is none).
   */
  function IdentificationExport(t: string): (r: string)
    ensures |r| == IdentificationLength
    ensures |t| >= IdentificationLength ==> r == t[..IdentificationLength]
    ensures |t| < IdentificationLength && '.' !in t ==> RemoveChar(r, '.') == t
    ensures |t| < IdentificationLength ==>
      var k := DigitRunStart(t);
      var n := IdentificationLength - |t|;
      r[..k] == t[..k] && AllChar(r[k..k + n], '.') && r[k + n..] == t[k..]
  {
    if |t| >= IdentificationLength then t[..IdentificationLength]
    else
      var k := DigitRunStart(t);
      var r := t[..k] + Repeat('.', IdentificationLength - |t|) + t[k..];
      DottedRemoveDots(t[..k], IdentificationLength - |t|, t[k..]);
      assert t[..k] + t[k..] == t;
      assert r[k + (IdentificationLength - |t|)..] == t[k..];
      r
  }

  lemma {:induction false} DottedRemoveDots(a: string, n: nat, b: string)
    ensures '.' !in a + b ==> RemoveChar(a + Repeat('.', n) + b, '.') == a + b
  {
    if '.' !in a + b {
      NotInParts(a, b, '.');
      var dots := Repeat('.', n);
      RemoveCharConcat(a + dots, b, '.');
      RemoveCharConcat(a, dots, '.');
      RemoveCharDots(n);
      RemoveCharAbsent(a, '.');
      RemoveCharAbsent(b, '.');
      assert RemoveChar(a + dots, '.') == a;
    }
  }

  lemma {:induction false} NotInParts(a: string, b: string, c: char)
    requires c !in a + b
    ensures c !in a && c !in b
  {
    assert forall i :: 0 <= i < |a| ==> a[i] == (a + b)[i];
    assert forall i :: 0 <= i < |b| ==> b[i] == (a + b)[|a| + i];
  }

  lemma {:induction false} RemoveCharDots(n: nat)
    ensures RemoveChar(Repeat('.', n), '.') == ""
  {
    if n > 0 {
      assert Repeat('.', n)[1..] == Repeat('.', n - 1);
      RemoveCharDots(n - 1);
    }
  }

  /** `euring_identification_export_format`, with its loop over the reversed text. */
  method IdentificationExportFormat(number: string) returns (result: string)
    ensures result == IdentificationExport(DisplayFormat(number))
  {
    var text := DisplayFormat(number);
    if |text| == IdentificationLength {
      return text;
    }
    if |text| > IdentificationLength {
      return text[..IdentificationLength];
    }
    result := InsertDots(text, Repeat('.', IdentificationLength - |text|));
  }

  /**
   * The loop of `euring_identification_export_format`: scanning the text
   * from the right, the dots go in front of the first non-digit met after a
   * digit, or in front of everything.
   */
  method InsertDots(text: string, dots: string) returns (result: string)
    ensures result == text[..DigitRunStart(text)] + dots + text[DigitRunStart(text)..]
  {
    ghost var k := DigitRunStart(text);
    ghost var last := LastDigit(text);
    result := "";
    var digitSeen := false;
    var done := false;
    var i := |text|;
    while i > 0
      invariant 0 <= i <= |text|
      invariant !done ==> result == text[i..] && (digitSeen <==> i <= last) && i >= k
      invariant done ==> i < k && result == text[i..k] + dots + text[k..]
    {
      var c := text[i - 1];
      if !done {
        ScanStep(text, i, k, last);
        if IsDigit(c) {
          digitSeen := true;
        } else if digitSeen {
          result := dots + result;
          done := true;
        }
      }
      SliceCons(text, i, |text|);
      if done {
        SliceCons(text, i, k);
      }
      result := [c] + result;
      i := i - 1;
    }
    if !done {
      result := dots + result;
    }
  }

  /**
   * One step of the scan from the right: a digit keeps the scan inside the
   * rightmost run (or starts it), and a non-digit met after digits sits right
   * before the run.
   */
  lemma {:induction false} ScanStep(text: string, i: nat, k: nat, last: int)
    requires 0 < i <= |text| && last == LastDigit(text) && k == DigitRunStart(text)
    requires i >= k
    ensures IsDigit(text[i - 1]) ==> i - 1 <= last && i - 1 >= k
    ensures !IsDigit(text[i - 1]) && i <= last ==> i == k
    ensures !IsDigit(text[i - 1]) && i > last ==> i - 1 > last && i - 1 >= k
  {
  }

  lemma {:induction false} ExportExample()
    ensures IdentificationExport("AB123") == "AB.....123"
  {
    assert LastDigit("AB123") == 4;
    assert RunStart("AB123", 4) == 2;
  }

  // ---------------------------------------------------------------- scheme and species

  /** `euring_scheme_export_format` on the text of the code. */
  function SchemeExport(code: string): (r: string)
    ensures |r| == 3
    ensures |code| >= 3 ==> r == Upper(code[..3])
    ensures |code| < 3 ==> r == Repeat(' ', 3 - |code|) + Upper(code)
  {
    var upper := Upper(code);
    assert |code| >= 3 ==> upper[..3] == Upper(code[..3]);
    RJust(Slice(upper, 0, 3), 3)
  }

  lemma {:induction false} SchemeExportExamples()
    ensures SchemeExport("GB") == " GB"
    ensures SchemeExport("ABCDE") == "ABC"
  {
    assert "ABCDE"[..3] == "ABC";
    UpperIdentity("ABC");
    UpperIdentity("GB");
  }

  /** The species codes the export accepts: None, text or an integer. */
  predicate IsSpeciesInput(code: Value) {
    code.NoneValue? || code.Str? || code.Int?
  }

  /** `int(species_code)`. */
  function SpeciesNumber(code: Value): Option<int>
    requires IsSpeciesInput(code)
  {
    match code
    case Int(i) => Some(i)
    case Str(s) => ParseInt(s)
    case NoneValue => None
  }

  const InvalidSpeciesCode := "Invalid EURING species code."
  const SpeciesCodeTooLong := "EURING species code too long."

  /**
   * `euring_species_export_format`: "00000" for a falsy code, an error for
   * a non-integer or a text longer than five characters, and otherwise the
   * text zero-filled to five characters, which still reads as the same
   * integer.
   */
  function SpeciesExport(code: Value): (r: Result<string, Error>)
    requires IsSpeciesInput(code)
    ensures !Truthy(code) ==> r == Ok("00000")
    ensures Truthy(code) ==>
      (r.Ok? <==> SpeciesNumber(code).Some? && |Text(code)| <= 5)
    ensures r.Err? ==> r.error.ValueError?
    ensures r.Ok? ==> |r.value| == 5
    ensures r.Ok? && Truthy(code) ==> ParseInt(r.value) == SpeciesNumber(code)
    ensures r.Ok? && Truthy(code) ==>
      var t := Text(code);
      |t| <= 5 &&
      if |t| > 0 && (t[0] == '+' || t[0] == '-') then r.value == [t[0]] + Repeat('0', 5 - |t|) + t[1..]
      else r.value == Repeat('0', 5 - |t|) + t
  {
    if !Truthy(code) then Ok("00000")
    else if SpeciesNumber(code).None? then Err(ValueError(InvalidSpeciesCode))
    else
      var text := Text(code);
      if |text| > 5 then Err(ValueError(SpeciesCodeTooLong))
      else
        SpeciesTextReadsBack(code);
        ZfillParseInt(text, 5);
        Ok(Zfill(text, 5))
  }

  lemma {:induction false} SpeciesTextReadsBack(code: Value)
    requires IsSpeciesInput(code) && SpeciesNumber(code).Some?
    ensures ParseInt(Text(code)) == SpeciesNumber(code)
  {
    if code.Int? {
      IntToStringParses(code.i);
    }
  }

  lemma {:induction false} SpeciesExportExamples()
    ensures SpeciesExport(Str("123")) == Ok("00123")
    ensures SpeciesExport(Str("12345")) == Ok("12345")
    ensures SpeciesExport(Str("123456")).Err?
    ensures SpeciesExport(Str("not-a-number")).Err?
  {
    SpeciesExportPads();
    SpeciesExportFull();
    SpeciesExportTooLong();
    SpeciesExportNotNumber();
  }

  lemma {:induction false} SpeciesExportPads()
    ensures SpeciesExport(Str("123")) == Ok("00123")
  {
    var t := "123";
    assert IsDigit(t[0]) && IsDigit(t[1]) && IsDigit(t[2]);
    assert ParseInt(t).Some?;
    assert Repeat('0', 2) + t == "00123";
  }

  lemma {:induction false} SpeciesExportFull()
    ensures SpeciesExport(Str("12345")) == Ok("12345")
  {
    assert ParseInt("12345").Some?;
  }

  lemma {:induction false} SpeciesExportTooLong()
    ensures SpeciesExport(Str("123456")).Err?
  {
    assert ParseInt("123456").Some?;
  }

  lemma {:induction false} SpeciesExportNotNumber()
    ensures SpeciesExport(Str("not-a-number")).Err?
  {
    assert !IsDigit("not-a-number"[0]);
  }

}

=== FILE: values.dfy ===
/**
 * The dynamically typed values that flow through the codec: raw text,
 * parsed integers, floats (exact reals here), dates and coordinate pairs.
 */
module Values {
  import opened Wrappers
  import opened Builtins

  datatype Value =
    | NoneValue
    | Str(s: string)
    | Int(i: int)
    | Bool(b: bool)
    /** A float, held exactly. */
    | Float(x: real)
    | DateValue(d: Date)
    /** A dictionary that may hold "lat" and "lng" entries. */
    | Coordinates(lat: Option<real>, lng: Option<real>)
    /** A two-element tuple or list. */
    | Pair(first: real, second: real)

  /** Python truthiness. */
  predicate Truthy(v: Value) {
    match v
    case NoneValue => false
    case Str(s) => |s| > 0
    case Int(i) => i != 0
    case Bool(b) => b
    case Float(x) => x != 0.0
    case DateValue(_) => true
    case Coordinates(lat, lng) => lat.Some? || lng.Some?
    case Pair(_, _) => true
  }

  /** The values whose `str()` this model computes: not a float, a dictionary or a pair. */
  predicate HasText(v: Value) {
    !v.Float? && !v.Coordinates? && !v.Pair?
  }

  /** `str(v)`; a date renders as YYYY-MM-DD. */
  function Text(v: Value): string
    requires HasText(v)
  {
    match v
    case NoneValue => "None"
    case Str(s) => s
    case Int(i) => IntToString(i)
    case Bool(b) => if b then "True" else "False"
    case DateValue(d) =>
      (if d.year >= 0 then Padded(d.year, 4) else IntToString(d.year)) + "-" +
      (if d.month >= 0 then Padded(d.month, 2) else IntToString(d.month)) + "-" +
      (if d.day >= 0 then Padded(d.day, 2) else IntToString(d.day))
  }

  /** The values whose `str()` this model renders: all but a dictionary or a pair. */
  predicate Renders(v: Value) {
    !v.Coordinates? && !v.Pair?
  }

  /**
   * `str(v)` for every value but a dictionary or a pair; the shortest
   * round-trip text Python prints for a float is given as `floatRepr`.
   */
  function Render(v: Value, floatRepr: real -> string): string
    requires Renders(v)
  {
    if v.Float? then floatRepr(v.x) else Text(v)
  }

  /** A record as it reaches a decoder: text, or some other object shown by its `str()` and type name. */
  datatype RecordInput = TextRecord(text: string) | NonText(shown: string, typeName: string)
}

=== FILE: wrappers.dfy ===
/** Failure-compatible Option and Result types shared by every module. */
module Wrappers {

  datatype Option<+T> = None | Some(value: T) {
    predicate IsFailure() { None? }

    function PropagateFailure<U>(): Option<U>
      requires None?
    {
      None
    }

    function Extract(): T
      requires Some?
    {
      value
    }
  }

  datatype Result<+R, +E> = Ok(value: R) | Err(error: E) {
    predicate IsFailure() { Err? }

    function PropagateFailure<U>(): Result<U, E>
      requires Err?
    {
      Err(error)
    }

    function Extract(): R
      requires Ok?
    {
      value
    }
  }

  /** The outcome of a check that either passes or raises. */
  datatype Outcome<+E> = Pass | Fail(error: E) {
    predicate IsFailure() { Fail? }

    function PropagateFailure<U>(): Result<U, E>
      requires Fail?
    {
      Err(error)
    }
  }
}
